=== FILE: README.md ===
# MindWeaver core in Dafny

MindWeaver is a mind-map and task-flow editor. Its document holds:

- task nodes with typed input and output ports;
- connections from an output port to an input port;
- mininodes, which are text attachments owned by a node;
- free-standing canvas drawings.

This project models the editor's state machine and its graph engine as pure Dafny functions over immutable datatypes, and proves what they promise.

- **Data model.** `Types` holds the 13-field persisted document (`CoreState`) and the editor state around it (`AppState`, `Ui`).
- **Derived tables.** `DerivedState` holds the lookup tables recomputed after every change, including the AND/OR activation status of each node.
- **History.** `Store` holds the commit and undo/redo snapshot history.
- **Commands.** One module per action file models the mutation commands: nodes, ports, connections, mininodes, drawings, clipboard, canvas gestures and dialogs.
- **Ordering.**
  - `Kahn` is one verified Kahn linearisation, parameterised by its tie-breaks.
  - `TopoSort`, `Reorganize` and `Export` instantiate it the three ways the editor does.
- **Load sanitiser.** `Migrations` models it.
- **Pure helpers.** The last modules are the pure helpers embedded in components:
  - `PortManager`: the port list editor;
  - `TextFormat`: markdown toolbar insertion;
  - `EditNode`: saving a node and its neighbour lists;
  - `MininodeEditor`: file icon and save defaults;
  - `I18n`: translation lookup;
  - `TimeAgo`: relative-time labels;
  - `Changelog`: paging;
  - `AppView`: Tab cycling and the focus filter.

## Modelling conventions

- **Numbers.** Positions, sizes and ids are unbounded integers. Stroke widths and opacities are fractional numbers in the application. They are kept as integers here, because they are only stored and copied, never computed with.
- **Fresh ids.** Port and drawing ids are opaque strings that the caller supplies. They stand in for the time- and random-based generator.
- **Sets.** JavaScript `Set`s that keep insertion order (selections) are duplicate-free sequences.
- **Sorting.** `Array.prototype.sort` is the stable insertion sort `Sorting.SortBy` on a two-level integer key.
- **The view.** The canvas point under the mouse, the elapsed time and the viewport culling are parameters. The floating-point view transform that produces them is not modelled.
- **Text.** Strings are `seq<char>`. Whitespace is ECMAScript's set as `trim` uses it (line terminators, the ASCII spaces, U+00A0, U+1680, U+2000 to U+200A, U+202F, U+205F, U+3000 and U+FEFF). Case mapping covers ASCII letters only.

Where the written specification and the code disagree, the model follows the code:

- The load sanitiser does not check that a connection's ports exist. It also does not coerce a non-empty but invalid `inputLogic` or editor-mode string. `Migrations.PortsNotChecked` shows the first point.
- Mininodes are mapped without filtering out null entries, so a null entry makes the load throw. `Migrations.Sanitize` returns `None` exactly then.
- `connectEnd` refuses a second connection out of an output port that is already wired. The bundled sample data still fans one output out to two inputs (storeState.ts:115-116).

## Model

| member | source | states |
|---|---|---|
| Store.Refresh | storeActionsState.ts:24-33 | The lookup tables are recomputed from the new document (`Consistent`). The document is the one given. History stacks and editor state are untouched. |
| Store.Commit | storeActionsState.ts:35-54 | The new document is the old one with the patch's fields spread over it. The old document is appended to the undo stack. The redo stack is emptied. `isFileDirty` becomes "editing mode is file". Nothing else in the editor state changes. |
| Store.Undo | storeActionsHistory.ts:9-22 | With no undo snapshot nothing changes. Otherwise the last snapshot becomes the document, the undo stack loses it, and the previous document goes to the front of the redo stack. |
| Store.Redo | storeActionsHistory.ts:23-36 | With no redo snapshot nothing changes. Otherwise the first redo snapshot becomes the document, the redo stack loses it, and the previous document goes to the end of the undo stack. |
| Store.ClearHistory | storeActionsHistory.ts:37 | Both stacks are emptied; the document, the tables and the editor state are kept. |
| Store.MergeFields | storeActionsState.ts:47 | `{ ...core, ...patch }`: a field the update carries replaces the document's, and a field it lacks keeps the document's. This is stated for the four document lists, the node colour and the title. |
| Store.MergeTwice | storeActionsState.ts:47 | Spreading the same update twice gives what spreading it once gives. |
| Store.UndoCommit | storeActionsState.ts:35-54 | Undoing a commit restores the document and the undo stack from before the commit. The committed document is the only redo entry. |
| Store.RedoUndoParts | storeActionsHistory.ts:9-36 | After an undo, a redo restores the document, both stacks and the editor state. |
| Store.RedoUndo | storeActionsHistory.ts:9-36 | On a consistent state, redo after undo gives back exactly the state. |
| Store.UndoRedoParts | storeActionsHistory.ts:9-36 | After a redo, an undo restores the document, both stacks and the editor state. |
| Store.UndoRedo | storeActionsHistory.ts:9-36 | On a consistent state, undo after redo gives back exactly the state. |
| Store.CommitUndoRedoScenario | storeActionsHistory.ts:9-36 | Two commits, two undos and one redo leave the first commit's document, with one snapshot on each stack. |
| UiActions.OpenModal | storeActionsUI.ts:12 | The modal is pushed on top of the stack; the rest of the stack and of the editor state is unchanged. |
| UiActions.CloseModal | storeActionsUI.ts:13 | The top modal is removed, the result is a prefix of the stack, and an empty stack stays empty. |
| UiActions.ReplaceActiveModal | storeActionsUI.ts:14-23 | The top modal is replaced and the stack keeps its length and the modals below the top. With an empty stack nothing changes. |
| UiActions.CloseAfterOpen | storeActionsUI.ts:12-13 | Closing the modal just opened gives back the editor state. |
| UiActions.ReplaceIsCloseThenOpen | storeActionsUI.ts:12-23 | On a non-empty stack, replacing the top is closing it and then opening the replacement. |
| UiActions.CloseContextMenu | storeActionsUI.ts:25 | Both the context menu and the pending connection are cleared, nothing else. |
| UiActions.SetPanelState | storeActionsUI.ts:29-36 | The given fields replace the stored ones of that panel. Absent fields keep their stored value. Every other panel is unchanged. |
| UiActions.AddLog | storeActionsUI.ts:40-50 | The new entry, numbered by the running counter, comes first. The older entries follow in order. The list is cut to at most 200 entries (`MAX_LOG_ENTRIES`). |
| UiActions.AddLogKeepsOrder | storeActionsUI.ts:40-50 | A log ordered newest first, with ids below the counter, stays so after logging. |
| DerivedState.IndexBy | storeUtils.ts:7-9 | Every key of the list is in the table, and each key maps to an element of the list carrying that key. |
| DerivedState.IndexByLast | storeUtils.ts:7-9 | The table keeps the last element carrying a key (`Object.fromEntries` overwrites). |
| DerivedState.GroupByParentSpec | storeUtils.ts:10-16 | An owner has a bucket iff it owns a mininode, and its bucket lists exactly its mininodes in list order. |
| DerivedState.StatusOf | storeUtils.ts:29-42 | The active inputs are exactly the input ports fed by a completed node, and they are a subset of the connected ones. The condition is met iff the readiness rule holds: no inputs means met; AND means every connected port is fed, so nothing wired means met; otherwise some completed node must feed the node. |
| DerivedState.StatusMap | storeUtils.ts:27-43 | Its keys are exactly the node table's: every node has an entry and every entry belongs to a node. With distinct ids each node's entry is its status. |
| DerivedState.NodeTable | storeUtils.ts:7 | Every node's id is a key, and each key maps to a node carrying it. With distinct ids each node is what its id looks up. |
| DerivedState.OwnerTable | storeUtils.ts:10-16 | Every owner of a file is a key, and each bucket lists exactly that owner's files in their list order. |
| DerivedState.ComputeDerived | storeUtils.ts:6-46 | Each id table holds exactly the ids present, and each entry carries its key. With distinct node ids each node is found by its id. The owner table lists each owner's files in order. The status table has the node table's keys, and each node's status follows the readiness rule. |
| Types.FindNode | storeActionsNode.ts:243 | `find` by id: absent iff no node has the id; otherwise the first node carrying it. |
| Types.FindNodeDistinct | storeActionsNode.ts:243 | With distinct ids, finding a node's id gives that node. |
| Utils.NewNodeId | utils.ts:4-9 | 1 for no nodes. Otherwise one more than an existing id and greater than every id, so it is fresh. |
| Utils.NewMininodeId | utils.ts:11-16 | 1001 for no mininodes. Otherwise one more than an existing id and greater than every id. |
| Utils.HexToRgb | utils.ts:34-46 | Black for text not matching `#` plus 3 or 6 hex digits. Otherwise the three byte pairs, with the short form's digits doubled. Each channel is in 0..255. |
| Utils.SixDigitNumber | utils.ts:42-45 | The 24-bit value of six hex digits is the three bytes weighted 65536, 256 and 1. |
| Utils.SplitBytes | utils.ts:43-45 | The shifts and masks recover each byte from the 24-bit value. |
| Utils.IsColorDark | utils.ts:23-31 | False for text shorter than four characters. For a well-formed colour, dark iff the luminance is below 140. |
| Utils.ParseHexInt | utils.ts:27-29 | Empty text, and text starting with a character that is none of whitespace, sign and hex digit, give NaN. Text starting with a hex digit, without the `0x` prefix, gives the value of its leading run of hex digits. |
| Utils.ParseHexSignedText | utils.ts:27-29 | After the whitespace, a minus negates the magnitude that follows, a plus is skipped, and anything else is read as the magnitude. |
| Utils.ParseHexMagnitude | utils.ts:27-29 | After an optional `0x` prefix: NaN iff no hex digit follows, otherwise the value of the leading run of hex digits. |
| Utils.ParseHexSigned | utils.ts:27-29 | A sign in front of a run of hex digits, with or without `0x` between them, gives the run's value, negated after a minus. |
| Utils.SignedOf | utils.ts:27-29 | A sign at the very start gives the magnitude after it, negated after a minus. |
| Utils.MagnitudeOfRun | utils.ts:27-29 | A run of hex digits, behind the `0x` prefix or not, reads as the run's value. |
| Utils.ParseHexPrefixed | utils.ts:27-29 | The `0x` prefix in front of a run of hex digits reads as the run's value. |
| Utils.Substring | utils.ts:27-29 | Both indices are clamped to the length and swapped when out of order, so the result is the slice between them. |
| Utils.SubstringSwap | utils.ts:27-29 | The two ends can be given in either order. |
| Utils.ValidChannels | utils.ts:25-29 | For a well-formed colour the channel digits read by isColorDark are those read by hexToRgba, and each pair parses to its byte. |
| Utils.PairParses | utils.ts:27-29 | `parseInt` of two hex digits in base 16 is their byte. |
| Sorting.SortBy | utils.ts:81-85 | The result is ordered by key, and it is a permutation of the input with the same length. |
| Sorting.SortStable | utils.ts:81-85 | Among elements with equal keys the sorted order is the original order, as with JavaScript's stable sort. |
| Sorting.SortSorted | utils.ts:81-85 | A list already in key order is returned unchanged. |
| Common.Filter | storeActionsNode.ts:244-246 | `Array.prototype.filter`: exactly the elements satisfying the test, never longer than the input, and duplicate-free when the input is. |
| Common.Trim | components/AdvancedNodeSettingsModal.tsx:150 | `trim`: the result has no whitespace at either end. It is a slice of the input with only whitespace around it. It is empty iff the input is all whitespace. |
| Common.TrimTrimmed | components/EditMininodeModal.tsx:79 | Text without whitespace at either end is its own trim, so trimming is idempotent. |
| Common.SplitOn | components/locales/i18n.ts:17 | `split` on one character: there is at least one piece, and no piece contains the separator. |
| Common.SplitCount | components/EditNodeModal.tsx:530 | There is one more piece than there are separators. |
| Common.JoinSplit | components/EditNodeModal.tsx:530-541 | Joining the pieces of a split with the separator gives the text back. |
| Common.SplitJoin | components/locales/i18n.ts:17 | Splitting pieces joined by a separator none contains gives the pieces back. |
| Common.SplitLast | components/EditMininodeModal.tsx:94 | The last piece of `a + c + b` split on `c` is `b` when `b` lacks `c`. |
| Common.SplitWhole | components/EditMininodeModal.tsx:94 | A text without the separator splits into itself alone. |
| NodeActions.NextOrderIndex | storeActionsNode.ts:16-19 | 1 for no nodes. Otherwise above every `orderIndex` and one more than some node's index, so it is the maximum plus one. |
| NodeActions.TemplateNode | storeActionsNode.ts:20-64 | The node a template builds has the given id, position and order index, and is neither complete nor pinned. Starter: no inputs and one output. Finish: one input and no outputs. AND/OR gates: two inputs with that logic. Empty: no ports. Normal: one of each. |
| NodeActions.AddNode | storeActionsNode.ts:10-69 | One commit appends exactly one node: the template's node at the given point, with the fresh id, the document's node colour, the next order index and the handed-out port ids. Its id is above every existing id, so distinct ids stay distinct, and its order index is above every existing one. The old nodes are kept in place and drawing mode is left. |
| NodeActions.NewNode | storeActionsNode.ts:10-69 | The new node sits at the given point in the given colour. Its id is one more than the largest id (1 for no nodes), and its order index is one more than the largest order index (1 for no nodes). |
| NodeActions.AppendNode | storeActionsNode.ts:67 | One commit whose node list is the old one plus the new node; with the new id above every id, distinct ids stay distinct. |
| NodeActions.AddNodeAndConnect | storeActionsNode.ts:71-148 | Without both a pending connection and a context menu nothing changes. A template with no inputs only drops the pending connection. Otherwise one commit appends the template's node, centred on the menu point (90 left, 40 up) with the fresh id, the node colour and the next order index, and one connection from the pending output to that node's first input. |
| NodeActions.Attach | storeActionsNode.ts:126-143 | One commit appends exactly the given node and connection, keeps the old lists as prefixes and clears the pending connection. |
| NodeActions.CleanPorts | storeActionsNode.ts:158-165 | A port is kept iff its trimmed name is non-empty, and it is kept with that trimmed name. |
| NodeActions.CleanNode | storeActionsNode.ts:158-168 | Title and description are trimmed and both port lists cleaned; no other field changes. |
| NodeActions.ReplaceNode | storeActionsNode.ts:169-171 | Exactly the nodes with the saved id are replaced, in place; the id list is unchanged. |
| NodeActions.PruneDangling | storeActionsNode.ts:172-178 | A connection is kept iff both endpoint nodes are in the id table and carry its ports. |
| NodeActions.PruneDanglingWired | storeActionsNode.ts:172-178 | With distinct ids, the connections kept are exactly those whose source node has the output port and whose target node has the input port. |
| NodeActions.SaveNodeState | storeActionsNode.ts:156-190 | One commit. The cleaned node replaces every node with its id. A connection survives iff its ports still exist on the new nodes. Open editors of that node show it. Nothing else changes. |
| NodeActions.SaveNodeStateWired | storeActionsNode.ts:172-178 | After a save, a connection is present iff it was present and is wired to existing ports. |
| NodeActions.FlipComplete | storeActionsNode.ts:192-198 | `isComplete` is negated on the nodes with the id, and every other node is kept. |
| NodeActions.ToggleNodeComplete | storeActionsNode.ts:192-203 | A commit whose document differs only in the flipped completion flags. |
| NodeActions.ToggleNodePin | storeActionsNode.ts:204-215 | A commit whose document differs only in the flipped pin flags. |
| NodeActions.ToggleTwice | storeActionsNode.ts:192-215 | Toggling completion or pinning twice restores the document. A node's completion flag changes iff it carries the id. |
| NodeActions.ConfirmMarkAllIncomplete | storeActionsNode.ts:218-230 | When nothing is complete only the dialog closes, with no history entry. Otherwise one commit clears every completion flag and closes the dialog. Afterwards nothing is complete. |
| NodeActions.MarkAllIncompleteTwice | storeActionsNode.ts:218-230 | A second confirmation changes neither the document nor the undo stack. |
| NodeActions.Prune | storeActionsNode.ts:240-278 | A node is kept iff its id is not removed. A connection is kept iff neither end is removed. A mininode is kept iff its owner is not removed. The other fields stay. |
| NodeActions.PruneKeepsClosed | storeActionsNode.ts:268-278 | Cascade deletion keeps every connection between existing nodes and every mininode with an existing owner. |
| NodeActions.ConfirmDeleteNode | storeActionsNode.ts:238-256 | When the top dialog is not a node deletion nothing changes. Otherwise one commit prunes that node and the dialog closes. |
| NodeActions.ConfirmDeleteSelection | storeActionsNode.ts:265-284 | With an empty selection only the dialog closes. Otherwise one commit prunes the selected nodes, the selection empties and the dialog closes. |
| NodeActions.AppendPort | storeActionsNode.ts:286-301 | The port is appended to the chosen side of the nodes with the id, and every other node is kept. |
| NodeActions.RemovePort | storeActionsNode.ts:303-312 | The ports with the id are filtered out of the chosen side of the nodes with the node id, and every other node is kept. |
| NodeActions.AddPort | storeActionsNode.ts:286-301 | A commit appending a port named "Nuevo" with the fresh id; nothing else in the document changes. |
| NodeActions.DeletePort | storeActionsNode.ts:303-323 | A commit removing the port. A connection is kept iff it touches neither end of (node, port). Nothing else in the document changes. |
| NodeActions.RemovePortAfterAppend | storeActionsNode.ts:286-323 | Removing a port just appended under an unused id gives the node list back. |
| NodeActions.DeleteAfterAddPort | storeActionsNode.ts:286-323 | Deleting a port just added under an unused, unwired id restores the document. |
| NodeActions.SelectOnlyNode | storeActionsNode.ts:421-423 | The node selection becomes the single id and the drawing selection empties; nothing else in the editor state changes. |
| ConnectionActions.Proposed | storeActionsConnection.ts:23-36 | A connection is proposed iff there is a pending connection from another node, the target input is free and the pending output is free. It runs from the pending port to the target port and is not wireless. |
| ConnectionActions.ConnectEnd | storeActionsConnection.ts:21-47 | In drawing mode nothing changes. Otherwise the pending connection is always dropped. A refused connection changes nothing else. An accepted one is appended in one commit. |
| ConnectionActions.ConnectEndKeepsPortsExclusive | storeActionsConnection.ts:28-35 | If no port carried two connections before, none does after connectEnd. |
| ConnectionActions.DeleteConnection | storeActionsConnection.ts:48-60 | One commit. A connection is kept iff it differs from the deleted one in one of the four endpoint fields. Nothing else in the document changes. |
| ConnectionActions.DeleteAfterConnect | storeActionsConnection.ts:21-60 | Deleting the connection connectEnd just made restores the connection list. |
| ConnectionActions.FlipWireless | storeActionsConnection.ts:112-121 | Exactly the connections with the same endpoints have their wireless flag negated. |
| ConnectionActions.ToggleWireless | storeActionsConnection.ts:110-123 | A commit whose document differs only in the flipped wireless flags. |
| ConnectionActions.ToggleWirelessTwice | storeActionsConnection.ts:110-123 | Toggling twice restores the document. A connection changes iff its endpoints match. |
| ConnectionActions.RemoveAt | storeActionsConnection.ts:95-97 | The entry at the position is removed and the others keep their order. A position outside the list removes nothing. |
| ConnectionActions.InsertNodeInConnection | storeActionsConnection.ts:61-109 | Nothing changes unless both endpoint nodes are known and carry the ports. Otherwise one commit appends the middle node (`MiddleNode`) with a fresh id and the next order index. The split connection is replaced by the two halves through the new node, both with the original wireless flag. Nothing else in the document changes. |
| ConnectionActions.MiddleNode | storeActionsConnection.ts:81-95 | The inserted node has the given id, position and order index, the title "Nodo Intermedio", the given colour, one input "I" and one output "O", and is neither complete nor pinned. |
| ConnectionActions.WiredIsSplittable | storeActionsConnection.ts:65-70 | With consistent tables and distinct ids, a wired connection passes the abort checks. |
| ConnectionActions.HalvesWired | storeActionsConnection.ts:90-101 | Both halves join existing nodes and ports once the new node is appended. |
| ConnectionActions.SplitIsWired | storeActionsConnection.ts:61-109 | Splitting a wired connection adds one connection overall, and both halves are wired. |
| ConnectionActions.IndexedById | storeUtils.ts:7 | With distinct ids, the id table maps every node's id to that node. |
| Mininodes.FindMininode | storeActionsMininode.ts:61 | `find` by id: absent iff no mininode has the id; otherwise a mininode with that id from the list. |
| Mininodes.AddMininode | storeActionsMininode.ts:8-20 | One commit appends exactly `NewMininode` with the fresh mininode id and the given owner: an empty text file whose id is above every existing id. Its editor opens on top. |
| Mininodes.NewMininode | storeActionsMininode.ts:10-17 | The new file is "nuevo_diente.txt", empty, with the "txt" icon at the origin, carrying the given id and owner. |
| Mininodes.AppendLargerMininodeId | storeActionsMininode.ts:8-20 | Appending a file whose id is above every id keeps mininode ids distinct. |
| Mininodes.AddMininodeKeepsIdsDistinct | storeActionsMininode.ts:8-20 | Adding a mininode keeps mininode ids distinct. |
| Mininodes.Replace | storeActionsMininode.ts:23-26 | Exactly the entries with the saved id are replaced, in place. |
| Mininodes.SaveMininode | storeActionsMininode.ts:21-29 | One commit. Entries with the saved id become the saved file and the others are kept. Nothing else in the document changes, and the editor closes. |
| Mininodes.ReplaceKeepsIds | storeActionsMininode.ts:23-26 | Saving under an existing id keeps ids distinct, and the saved file is the one found under its id. |
| Mininodes.WithoutId | storeActionsMininode.ts:38 | A mininode is kept iff it is in the list and has another id. |
| Mininodes.ConfirmDeleteMininode | storeActionsMininode.ts:31-44 | Unless the top dialog is a mininode deletion nothing changes. Otherwise one commit leaves exactly the mininodes without that id (`WithoutId`), nothing else in the document changes, and the dialog closes. |
| Mininodes.DeleteAfterAppend | storeActionsMininode.ts:38 | Removing the id of a file appended under a fresh id leaves the list it was appended to. |
| Mininodes.DeleteAppended | storeActionsMininode.ts:31-44 | Confirming the deletion of a file appended under a fresh id leaves the list it was appended to. |
| Mininodes.DeleteAfterAdd | storeActionsMininode.ts:8-44 | Adding a mininode and confirming its deletion restores the mininode list. |
| Mininodes.Reparent | storeActionsMininode.ts:65-68 | Exactly the files with the id take the new owner, and nothing else in them changes. |
| Mininodes.MoveMininode | storeActionsMininode.ts:59-75 | Nothing changes when no file has the id or the one found already has that owner. Otherwise only the owner of the files with the id changes, in one commit. |
| Mininodes.ReparentBack | storeActionsMininode.ts:65-68 | With distinct ids, moving a file away and back restores the list. |
| Mininodes.FindAfterReparent | storeActionsMininode.ts:61-68 | After a move, the file found under the id is the moved file with its new owner. |
| Mininodes.MoveBack | storeActionsMininode.ts:59-75 | With distinct ids, moveMininode away and back restores the mininode list. |
| Drawing.SetDrawingMode | storeActionsDrawing.ts:9-24 | The document and history are untouched. Choosing the current tool again turns drawing off and clears the drawing selection. Choosing another tool sets it and drops the pending connection and the node selection. The drawing selection is kept only for the edit tool. |
| Drawing.ChooseToolTwice | storeActionsDrawing.ts:9-24 | Choosing a tool twice ends with drawing off if another tool was active, and on that tool if it was already active. |
| Drawing.ReplaceObject | storeActionsDrawing.ts:27 | Exactly the drawings with the id are replaced, in place. |
| Drawing.UpdateCanvasObject | storeActionsDrawing.ts:25-30 | One commit replacing the drawing with the same id; nothing else in the document changes. |
| Drawing.ReplaceObjectKeepsIds | storeActionsDrawing.ts:27 | Replacing keeps drawing ids distinct. The replacement is present iff its id was in use. |
| Drawing.ConfirmDeleteSelectedCanvasObjects | storeActionsDrawing.ts:37-44 | One commit. A drawing is kept iff it is not selected. The selection empties and the top dialog closes. |
| Drawing.Restyle | storeActionsDrawing.ts:47-64 | Text is untouched. Lines take only the given stroke colour and width. Rectangles and ellipses take every given style field. Geometry and id never change. |
| Drawing.RestyleIdempotent | storeActionsDrawing.ts:47-64 | Restyling twice with the same fields is restyling once. |
| Drawing.RestyleSelected | storeActionsDrawing.ts:47-64 | Exactly the selected drawings are restyled, in place. |
| Drawing.UpdateSelectedCanvasObjects | storeActionsDrawing.ts:45-66 | One commit whose drawings are exactly `RestyleSelected`: each selected drawing restyled, every other one as it was, in place. Text boxes are never restyled. Nothing else in the document changes. |
| Drawing.RestyleSelectedIdempotent | storeActionsDrawing.ts:45-66 | Applying the same style update twice is applying it once. |
| Drawing.FlipSwarm | storeActionsDrawing.ts:69-74 | Only the rectangle with the id has its swarm flag negated, and its geometry is kept. Every other drawing is unchanged. |
| Drawing.ToggleSwarm | storeActionsDrawing.ts:67-78 | One commit flipping the swarm flag of that rectangle; nothing else in the document changes. |
| Drawing.ToggleSwarmTwice | storeActionsDrawing.ts:67-78 | Toggling twice restores the drawings. |
| ClipboardActions.CopySelection | storeActionsClipboard.ts:9-25 | An empty selection changes nothing. Otherwise the clipboard holds exactly the selected nodes and exactly the connections with both ends selected, and only the clipboard changes. |
| ClipboardActions.CopyIsClosed | storeActionsClipboard.ts:13-16 | In a document whose connections name existing nodes, every copied connection runs between copied nodes. |
| ClipboardActions.MinCorner | storeActionsClipboard.ts:32-37 | The corner is at most every copied position and is attained in each coordinate. |
| ClipboardActions.FreshCopies | storeActionsClipboard.ts:41-53 | The i-th copy is the i-th copied node with id "fresh id plus i", moved by the shift and not complete. |
| ClipboardActions.NextFreshId | storeActionsClipboard.ts:42 | Appending nodes numbered consecutively from the fresh id advances the fresh id by their count. This is why recomputing getNewNodeId over the growing list gives consecutive ids. |
| ClipboardActions.RemapId | storeActionsClipboard.ts:43-58 | The map has an entry iff some copied node has the id. The entry is the id of the copy of such a node. |
| ClipboardActions.Rewire | storeActionsClipboard.ts:55-59 | Each copied connection keeps its ports and flag and has both ends remapped. |
| ClipboardActions.RewiredBetweenCopies | storeActionsClipboard.ts:55-59 | Every rewired connection runs between two copies. |
| ClipboardActions.Paste | storeActionsClipboard.ts:26-69 | An empty clipboard changes nothing. Otherwise one commit appends the copies and the rewired connections, nothing else in the document changes, and the selection becomes exactly the copies. It requires every clipboard connection to run between clipboard nodes, which `CopyIsClosed` proves of every clipboard that copySelection builds from a document whose connections name existing nodes. |
| ClipboardActions.PasteKeepsIdsDistinct | storeActionsClipboard.ts:41-43 | Pasting keeps node ids distinct, and the new selection has no repeats. |
| ClipboardActions.AppendConsecutive | storeActionsClipboard.ts:41-43 | Nodes numbered consecutively from the fresh id keep an id-distinct list distinct, and have no repeats among themselves. |
| ClipboardActions.CopiesKeepOffsets | storeActionsClipboard.ts:47-50 | The offset between any two copies equals the offset between their originals. |
| ClipboardActions.CopiesCornerAt | storeActionsClipboard.ts:34-50 | The copies' top-left corner is exactly the paste point (`CornerAt`): no copy lies above or left of it, and some copy touches each of its coordinates. |
| ClipboardActions.RewireFollowsCopies | storeActionsClipboard.ts:55-59 | With distinct copied ids, a connection between the k-th and l-th copied nodes becomes one between the k-th and l-th copies. |
| Migrations.OrText | storeMigrations.ts:12-14 | `text \|\| fallback`: the text when present and non-empty, otherwise the fallback. |
| Migrations.NumberedNodes | storeMigrations.ts:7-8 | Exactly the non-null entries whose id is a number are kept. |
| Migrations.SanitizeNode | storeMigrations.ts:9-27 | Each field takes the loaded value or its default (`||` for texts, `??` for flags and numbers). `icon`, `iconColor` and `synthesis` pass through as loaded. A non-empty `inputLogic` passes through unchanged. A missing order index becomes the id, or the position plus one for id 0. |
| Migrations.SanitizeMininode | storeMigrations.ts:29-36 | Ids are copied. Title, content and icon take their text defaults, and position defaults to the origin. |
| Migrations.SanitizeConnection | storeMigrations.ts:41-47 | Endpoints and ports are copied, and `isWireless` defaults to false. |
| Migrations.SanitizeConnections | storeMigrations.ts:38-47 | Every kept connection names surviving nodes and non-empty ports. Every raw connection that passes the filter is kept. Every kept one comes from such a raw connection. |
| Migrations.SanitizeObjects | storeMigrations.ts:49 | A drawing is kept iff it is non-null with a non-empty id and a type. |
| Migrations.SanitizeNodes | storeMigrations.ts:7-27 | One sanitised node per kept raw node, in order, with every field as `SanitizeNode` states. The surviving ids are exactly the numeric raw ids. |
| Migrations.SanitizeMininodes | storeMigrations.ts:29-36 | The list is mapped without a null filter: the load fails exactly when some entry is null. Otherwise every mininode is kept and sanitised, whether or not its owner survives. |
| Migrations.Sanitize | storeMigrations.ts:6-65 | The load fails exactly when the mininode list holds a null entry. Otherwise the document is `Assemble` of the sanitised mininodes, and it is clean. |
| Migrations.Assemble | storeMigrations.ts:6-65 | Nodes are the sanitised numbered nodes, and their ids are exactly the numeric raw ids. Every connection names surviving nodes, and every raw connection passing the filter survives. Drawings are exactly the kept ones. Every setting takes its loaded value or its default. |
| Migrations.AssembledClean | storeMigrations.ts:6-65 | A document assembled from clean mininodes is clean. |
| Migrations.Unparse | storeState.ts:5-23 | Writing a document out as save data records every node and connection field. |
| Migrations.NodesUnparsed | storeMigrations.ts:7-27 | Loading back clean nodes that were written out gives the nodes. |
| Migrations.MininodesUnparsed | storeMigrations.ts:29-36 | Loading back clean mininodes that were written out gives the mininodes. |
| Migrations.ConnectionsUnparsed | storeMigrations.ts:38-47 | Loading back clean connections that were written out gives the connections. |
| Migrations.ConnectionUnparsed | storeMigrations.ts:38-47 | A clean connection written out in front of others is loaded in front of them. |
| Migrations.ObjectsUnparsed | storeMigrations.ts:49 | Loading back drawings with ids gives the drawings. |
| Migrations.ObjectUnparsed | storeMigrations.ts:49 | A drawing with an id written out in front of others is loaded in front of them. |
| Migrations.CleanIsFixedPoint | storeMigrations.ts:6-65 | Writing a document out and loading it back succeeds and gives the same document iff the document is clean. |
| Migrations.SanitizeIdempotent | storeMigrations.ts:6-65 | Sanitising a sanitised document that was written out changes nothing. |
| Migrations.PortsNotChecked | storeMigrations.ts:38-40 | A connection into a port its target lacks survives loading: only the endpoint nodes are checked. |
| Migrations.OneConnectionKept | storeMigrations.ts:38-47 | A lone raw connection that passes the filter loads as that one connection. |
| CanvasView.ClickSelection | storeActionsCanvasView.ts:551-564 | The clicked node ends up selected iff it is not a shift-click on a selected node. Another node stays selected iff it was selected and the click is a shift-click or lands on a selected node. Distinctness is kept. |
| CanvasView.ShiftClickTwice | storeActionsCanvasView.ts:553-558 | Two shift-clicks on one node leave the same members selected. |
| CanvasView.InitialPositions | storeActionsCanvasView.ts:566-571 | A recorded position exists exactly for the selected ids that name a node, and it is that node's position. |
| CanvasView.NodeMouseDown | storeActionsCanvasView.ts:543-589 | In drawing mode, or on a missing or pinned node, nothing changes. Otherwise the selection follows the click rule, the drawing selection empties, and a drag starts at the mouse. Every selected node's position is recorded. The document and history are untouched. |
| CanvasView.Dragged | storeActionsCanvasView.ts:167-185 | Only positions change. An unselected node stays put. A selected node with a recorded position goes to that position plus the delta. |
| CanvasView.PreDrag | storeActionsCanvasView.ts:392-398 | Only positions change. Every node with a recorded position goes back to it, and the others are kept. |
| CanvasView.PreDragUndoesDrag | storeActionsCanvasView.ts:392-398 | With distinct ids, putting dragged nodes back where the mouse-down recorded them restores the node list, whatever the drag delta. |
| CanvasView.SnapToGrid | storeActionsCanvasView.ts:195-196 | `Math.round(x / 10) * 10`: a multiple of 10 within half a step of x, with halves rounded up. |
| CanvasView.SnapDimension | storeActionsCanvasView.ts:195-196 | A resized dimension is a multiple of 10 and at least the minimum. Above the minimum it is the snap of the new size. |
| CanvasView.SnapKeepsGridSizes | storeActionsCanvasView.ts:195-196 | A size on the grid and above the minimum is kept by a zero resize. |
| CanvasView.ResizedSize | storeActionsCanvasView.ts:192-198 | Handles with 'r' set the width (on the grid, at least 100). Handles with 'b' set the height (on the grid, at least 50). Each other dimension keeps its starting value. |
| CanvasView.Resized | storeActionsCanvasView.ts:188-200 | Only the resized node's size changes, to the resized size. |
| CanvasView.PreResize | storeActionsCanvasView.ts:399-403 | Only sizes change, and the resized node gets its starting size back. |
| CanvasView.PreResizeUndoesResize | storeActionsCanvasView.ts:399-403 | When the recorded size is the node's, restoring it after any resize gives the list back. |
| CanvasView.TranslateBack | storeActionsCanvasView.ts:24-33 | A drawing moved by a delta and then by its negation is the original drawing. |
| CanvasView.ResizeBox | storeActionsCanvasView.ts:50-76 | East and south handles grow the far edges, and west and north handles move the near edges. Each dimension is then at least 10. |
| CanvasView.ResizeObject | storeActionsCanvasView.ts:34-78 | A line moves its start for the south-west and north-west handles, and its end otherwise. Boxes and shapes stay at least 10 by 10. The id and kind never change. |
| CanvasView.LookupObject | storeActionsCanvasView.ts:21 | A found state is in the recorded list under that id. Nothing is found iff no recorded state has the id. |
| CanvasView.GestureObjects | storeActionsCanvasView.ts:14-79 | Ids keep their places. Unselected drawings and drawings without a recorded state are unchanged. The others are moved or resized from their recorded state. |
| CanvasView.RecordedPos | storeActionsCanvasView.ts:107-111 | A recorded position is that of a recorded node with the id. Nothing is recorded iff no recorded node has it. |
| CanvasView.SwarmNodes | storeActionsCanvasView.ts:80-121 | Only positions change, and only during a drag with recorded nodes. A node that moves lay inside the initial rectangle of a dragged swarm. |
| CanvasView.SpanRect | storeActionsCanvasView.ts:212-217 | The rectangle has non-negative size and spans exactly from the smaller to the larger coordinate of the two corners. |
| CanvasView.Preview | storeActionsCanvasView.ts:132-154 | A rectangle or ellipse is re-spanned between its stored position and the canvas point (componentwise minimum and absolute differences). A line's end moves to the point. A text box is left alone. Nothing else in the drawing changes. |
| CanvasView.PreviewKeepsCornerDownRight | storeActionsCanvasView.ts:142-145 | While the mouse stays below and to the right of the press point, the shape keeps its position and spans to the mouse. |
| CanvasView.PreviewDriftExample | storeActionsCanvasView.ts:142-145 | A press at (5, 5) with moves to (4, 4) and then (3, 3): the code's shape is 1 by 1, because the second move spans from the corner the first move stored. The corrected shape is 2 by 2. |
| CanvasView.PreviewFrom | storeActionsCanvasView.ts:142-145 | The corrected preview: a shape spans the press point and the canvas point. Lines and text boxes are as in `Preview`. |
| CanvasView.PreviewFromIgnoresPath | storeActionsCanvasView.ts:142-145 | The corrected preview depends only on the last mouse position. It agrees with the code's while the mouse stays below and to the right of the press point. |
| CanvasView.HandleMouseMove | storeActionsCanvasView.ts:11-222 | No history is pushed and the tables stay consistent. A node drag or resize changes only the node list as above. A drawing gesture changes the drawings and, for a swarm drag, the node list. A drawing in progress becomes its `Preview` towards the canvas point. Everything else records the mouse, and a selection rectangle spans the mouse and the selection start. |
| CanvasView.RestoreObjects | storeActionsCanvasView.ts:353-358 | Every drawing with a recorded state goes back to it, and the others are kept. |
| CanvasView.ObjectSnapshot | storeActionsCanvasView.ts:353-363 | The corrected snapshot is the document with the gesture's drawings restored in place. Nothing else changes except, for a swarm drag, the node list. |
| CanvasView.RestoreUndoesGesture | storeActionsCanvasView.ts:353-358 | With distinct drawing ids and states taken from the drawings, restoring after any gesture movement gives back the drawings. |
| CanvasView.ObjectSnapshotKeepsUntouched | storeActionsCanvasView.ts:353-358 | The corrected snapshot keeps every drawing the gesture did not touch, in its place. |
| CanvasView.ObjectSnapshotAsWritten | storeActionsCanvasView.ts:353-358 | As written, the snapshot's drawing list is exactly the recorded initial states. |
| CanvasView.ObjectSnapshotAsWrittenDropsUntouched | storeActionsCanvasView.ts:353-358 | A drawing the gesture did not record is missing from the as-written snapshot. |
| CanvasView.ObjectSnapshotAsWrittenExample | storeActionsCanvasView.ts:353-358 | Two drawings, one moved: the as-written snapshot holds a single drawing and loses the other. |
| CanvasView.HitIds | storeActionsCanvasView.ts:426-447 | Distinct ids, exactly those of the nodes overlapping the selection rectangle. |
| CanvasView.NodeGestureSnapshot | storeActionsCanvasView.ts:392-403 | A drag with recorded positions snapshots the nodes put back. Otherwise a resize snapshots the starting size. There is no snapshot iff neither gesture happened. Only the nodes differ from the document. |
| CanvasView.HandleMouseUp | storeActionsCanvasView.ts:350-458 | A drawing gesture pushes the corrected snapshot (`ObjectSnapshot`) and clears the redo stack. A valid drawing in progress is committed and an invalid one dropped. A node drag or resize pushes one snapshot and clears the redo stack. Gesture flags are reset, a selection rectangle selects the nodes it touches, and a connection dropped away from a port opens the canvas menu. The tables stay consistent. |
| CanvasView.ReleaseDrawing | storeActionsCanvasView.ts:371-388 | A valid drawing is appended in one commit, and an invalid one changes nothing but the drawing in progress, which is dropped either way. |
| CanvasView.ReleaseNodeGesture | storeActionsCanvasView.ts:390-457 | A node drag or resize pushes its snapshot and clears the redo stack; otherwise the history stays. The gesture flags are reset, a selection rectangle selects the nodes it touches, and a dropped connection away from a port opens the canvas menu. |
| CanvasView.HandleMouseUpAsWritten | storeActionsCanvasView.ts:353-369 | As written, a drawing gesture pushes the snapshot that holds only the gesture's drawings. Every other case is `HandleMouseUp`. |
| CanvasView.GrabStartsDrag | storeActionsCanvasView.ts:543-589 | Grabbing a free node, except by shift-clicking it when selected, starts a node drag with at least one recorded position. |
| CanvasView.ReleaseDragSnapshot | storeActionsCanvasView.ts:392-417 | Releasing a drag pushes exactly the document with the recorded positions put back. |
| CanvasView.UndoNodeDrag | storeActionsCanvasView.ts:392-417 | Grab, drag, release, then undo restores the document. |
| CanvasView.MoveDuringDrag | storeActionsCanvasView.ts:167-185 | A move during a node drag moves the dragged nodes and keeps the gesture and the history. |
| CanvasView.UndoObjectGesture | storeActionsCanvasView.ts:353-364 | With the corrected snapshot, moving or resizing drawings, releasing, then undoing restores the document. |
| CanvasView.UndoObjectGestureAsWritten | storeActionsCanvasView.ts:353-364 | As written, moving or resizing drawings, releasing, then undoing loses every drawing the gesture did not record. |
| Export.OutDegree | storeActionsIO.ts:155-160 | The count of outgoing connections is zero iff no connection leaves the node. |
| Export.EndNodes | storeActionsIO.ts:161 | A node is an end node iff no connection leaves it. |
| Export.EnqueuePreds | storeActionsIO.ts:190-198 | The queue only grows, and only by predecessors of the current node. Every unvisited predecessor ends up in it. |
| Export.Ancestors | storeActionsIO.ts:183-202 | The result holds the start, is closed under predecessors, and is contained in every such set. So it is exactly the start plus every node that reaches it. |
| Export.FlowScope | storeActionsIO.ts:176-206 | The flow holds exactly the ancestor nodes and exactly the connections between ancestors. The heading names the end node. |
| Export.PortIndex | storeActionsIO.ts:244-250 | The last position of the port id among the outputs, or past the end when the id is absent. |
| Export.OrderForExport | storeActionsIO.ts:211-270 | The result is a permutation of the nodes. It is acyclic iff the ids are distinct and there is no cycle. Then every connection points forward, and the order is the FIFO queue order: the orderIndex-sorted roots, then the nodes each listed node releases, in port order. Otherwise the result is exactly the nodes sorted by orderIndex. |
| Export.Numbered | storeActionsIO.ts:273 | The i-th exported node is the i-th sorted node with order index i + 1. |
| Export.PlanHtmlExport | storeActionsIO.ts:153-275 | The end-node dialog is needed iff no end node was given and there are several. A flow export processes exactly the flow, anything else the whole document. The exported list is the processed nodes in Kahn or fallback order, renumbered. |
| Export.NumberedExport | storeActionsIO.ts:273 | The exported list is numbered 1..N in output order, keeps the ids, and carries every processed node with only its order index rewritten. |
| Export.ExportToHtml | storeActionsIO.ts:153-288 | The document and history never change. The end-node dialog opens iff it is needed. A completed export closes the top dialog. |
| Export.SelectionExport | storeActionsIO.ts:290-317 | There is nothing to export iff the selection is empty. Otherwise the export holds exactly the selected nodes, sorted by orderIndex and not renumbered, under the selection heading. |
| Export.EscapeContent | storeActionsIO.ts:96 | No `<` or `>` is left in escaped content. |
| Export.EscapeCons | storeActionsIO.ts:96 | The three global replaces act character by character: `&` becomes `&amp;` first, so later passes never touch it. |
| Export.UnescapeEscape | storeActionsIO.ts:96 | Decoding the three entities gives the content back, so escaping loses nothing. |
| Export.LoadState | storeActionsIO.ts:342-349 | The document is the loaded one and the tables are recomputed. Both stacks and the node selection are emptied. Nothing else in the editor state changes. |
| Export.LoadedHasNoHistory | storeActionsIO.ts:342-349 | Right after a load, undo and redo change nothing. |
| Kahn.PendingStep | utils.ts:99-104 | Emitting a node lowers each node's pending count by exactly the number of connections from it. This is the in-degree decrement. |
| Kahn.CountToSort | utils.ts:92-97 | Sorting a successor list keeps how often each target occurs. |
| Kahn.CoreAbove | utils.ts:107-114 | In an edge-respecting order no node of a set whose every member has a predecessor in the set is listed. |
| Kahn.CompleteOrderAcyclic | utils.ts:105-116 | An edge-respecting order listing every node rules out a cycle. |
| Kahn.StuckIsCore | utils.ts:107-114 | When the queue runs dry early, the unlisted nodes each wait on another unlisted node, so there is a cycle. |
| Kahn.Relax | utils.ts:99-104 | The inner loop keeps the counters equal to the pending counts. It appends to the queue exactly `FreedPrefix`: the neighbours, in sorted order, whose count reaches zero at their last occurrence. |
| Kahn.FiresIff | utils.ts:99-104 | A neighbour's counter reaches zero at step j exactly when it is not yet listed, nothing else waits on it, and it does not occur again later in the neighbour list. |
| Kahn.FreedPrefixStep | utils.ts:101-103 | Pushing the neighbour that fires, and only it, extends the queue by one more step of `FreedPrefix`. |
| Kahn.RelaxVisit | utils.ts:99-104 | One neighbour visit keeps the counters, the queue contents and the FIFO record together. |
| Kahn.TargetCounted | utils.ts:100 | A neighbour always has a counter. |
| Kahn.ReleasedSnoc | utils.ts:88-104 | Listing one more node releases the nodes that node frees, after the nodes released so far. |
| Kahn.ReleasedStep | utils.ts:88-104 | Taking the queue head and appending what it frees keeps "order plus queue equals the sorted roots plus what the order released". |
| Kahn.Linearize | utils.ts:57-116 | Kahn's algorithm lists distinct existing nodes, and every connection between listed nodes points forward. The list is complete iff the graph has no cycle, and each unlisted node waits on an unlisted one. The order is the FIFO queue order `FifoOrder`: the roots sorted by the root key, followed by `Released`, in which each listed node, in turn, contributes the successors it frees, in successor-key order. |
| TopoSort.NodesOf | utils.ts:116 | The i-th node found is a node of the list carrying the i-th id. |
| TopoSort.KahnNodes | utils.ts:57-116 | Sorted iff every node is emitted, which holds iff the graph is acyclic. The emitted ids follow the FIFO queue order, and a sorted result lists the nodes of the emitted ids, so it is a permutation with distinct ids and every connection points forward. Otherwise the error ids are exactly `Unemitted`: the ids not emitted, in node-list order. |
| TopoSort.Unemitted | utils.ts:108 | An id is listed iff it is a node id that was not emitted, and distinct ids give a duplicate-free list. |
| TopoSort.LeftOutWait | utils.ts:107-114 | When the order misses a node, the ids left out are not empty, and each waits on a connection from another id left out. |
| TopoSort.TopologicalSort | utils.ts:57-116 | topologicalSort: KahnNodes with roots and successors ordered top to bottom, then left to right. The emitted ids follow the FIFO queue order under those keys, a sorted result lists them, and a cycle error lists exactly the unemitted ids in node order. |
| Reorganize.Renumber | storeActionsNode.ts:380-385 | Each node takes its 1-based position in the order as its order index, and nothing else changes. |
| Reorganize.RenumberFacts | storeActionsNode.ts:376-386 | A complete Kahn order numbers the nodes 1..n, each used once, and every connection goes from a smaller index to a larger one. |
| Reorganize.ReorganizeOrderIndex | storeActionsNode.ts:325-388 | On a cycle (or duplicate ids) nothing changes. Otherwise one commit changes only the order indices: the order is the FIFO queue order under the position keys, the indices are its renumbering, exactly 1..n, and they follow every connection. |
| Reorganize.MinOrderIndex | storeActionsNode.ts:403 | The smallest order index, attained by some node. |
| Reorganize.LastPos | storeActionsNode.ts:405-408 | The last position carrying the id, or -1 when none does. |
| Reorganize.StampSelection | storeActionsNode.ts:390-419 | Only order indices change, and unselected nodes are untouched. |
| Reorganize.ReorganizeForSelection | storeActionsNode.ts:390-419 | With no selection nothing changes. Otherwise one commit of the restamped node list. |
| Reorganize.Restamp | storeActionsNode.ts:403-416 | Each selected node gets the lowest index plus its position in reading order, and the others are kept. |
| Reorganize.SelectionNumbering | storeActionsNode.ts:390-419 | With distinct ids, the k-th selected node in (y, x) order receives the smallest selected index plus k. |
| Reorganize.SelectionOrderFacts | storeActionsNode.ts:394-401 | The reading order is sorted by (y, x) and lists exactly the selected nodes. |
| Reorganize.FilterDistinctIds | storeActionsNode.ts:394 | Filtering keeps ids distinct. |
| Reorganize.PermutedDistinctIds | App.tsx:267 | Reordering an id-distinct list keeps ids distinct. |
| PortManager.FindPortIndex | components/AdvancedNodeSettingsModal.tsx:46-47 | The position of the first port with the id, and -1 exactly when no port has it. |
| PortManager.SpliceStart | components/AdvancedNodeSettingsModal.tsx:49-50 | A splice start inside the list is taken as is, and a negative start counts back from the end. |
| PortManager.RemoveAt | components/AdvancedNodeSettingsModal.tsx:49 | Cutting one port out leaves every other port, one fewer in all. |
| PortManager.InsertAt | components/AdvancedNodeSettingsModal.tsx:50 | The inserted port sits at the given position, and every other port is kept. |
| PortManager.RemoveInserted | components/AdvancedNodeSettingsModal.tsx:49-50 | Cutting out a port just inserted at the same position restores the list. |
| PortManager.RenamePort | components/AdvancedNodeSettingsModal.tsx:18-20 | Every port keeps its id and place, and only the ports with the id take the new name. |
| PortManager.RenameBack | components/AdvancedNodeSettingsModal.tsx:18-20 | With distinct ids, giving a renamed port its old name back restores the list. |
| PortManager.AddPort | components/AdvancedNodeSettingsModal.tsx:22-26 | The list gains one port at the end, called "Puerto Nuevo", and keeps the ports before it. |
| PortManager.RemovePort | components/AdvancedNodeSettingsModal.tsx:28-30 | A port stays exactly when it is in the list and has a different id. |
| PortManager.RemoveAdded | components/AdvancedNodeSettingsModal.tsx:22-30 | Removing a port just added under a fresh id restores the list. |
| PortManager.DropPort | components/AdvancedNodeSettingsModal.tsx:42-55 | A drop reorders the ports without adding or losing any, and does nothing when a handle is empty or both name the same port. |
| PortManager.DropMovesDragged | components/AdvancedNodeSettingsModal.tsx:45-50 | The dragged port lands at the hovered port's old position, and the other ports keep their relative order. |
| PortManager.DropAt | components/AdvancedNodeSettingsModal.tsx:45-50 | With distinct non-empty ids, a drop is the cut at the dragged port's position followed by the insertion at the hovered one's. |
| PortManager.InsertRemoved | components/AdvancedNodeSettingsModal.tsx:49-50 | Putting a cut port back where it was restores the list. |
| PortManager.DropBack | components/AdvancedNodeSettingsModal.tsx:42-55 | Dragging the moved port back onto the port now at its old place restores the list. |
| PortManager.IdsAt | components/AdvancedNodeSettingsModal.tsx:46-47 | With distinct ids, findIndex of a port's id is that port's position. |
| PortManager.RestDistinct | components/AdvancedNodeSettingsModal.tsx:49 | Cutting a port out keeps the ids distinct, and the rest no longer hold its id. |
| PortManager.InsertedDistinct | components/AdvancedNodeSettingsModal.tsx:50 | Inserting a port with a new id keeps the ids distinct. |
| PortManager.KeepNamed | components/AdvancedNodeSettingsModal.tsx:151-152 | A port is kept exactly when its name is not blank. |
| PortManager.SavePorts | components/AdvancedNodeSettingsModal.tsx:148-154 | Inputs and outputs keep exactly their non-blank ports, and nothing else of the node changes. |
| PortManager.SavePortsIdempotent | components/AdvancedNodeSettingsModal.tsx:148-154 | Saving the panel twice gives what saving once gives. |
| PortManager.KeptAreNamed | components/AdvancedNodeSettingsModal.tsx:151 | The filter is idempotent. |
| PortManager.KeepFront | components/AdvancedNodeSettingsModal.tsx:151 | The filter works port by port, in order. |
| PortManager.StoreSubsumesPanel | components/AdvancedNodeSettingsModal.tsx:151-152 | The panel's filter changes nothing that the store's own port cleaning at save time would not change anyway. |
| PortManager.CleanFront | storeActionsNode.ts:162-163 | The store's cleaning works port by port: blank ports go, and the others keep their place with trimmed names. |
| PortManager.SizeEdit | components/AdvancedNodeSettingsModal.tsx:165-170 | The typed size is taken exactly when it parses to an integer of at least 50; otherwise the size is unchanged. |
| PortManager.TypedSize | components/AdvancedNodeSettingsModal.tsx:165-170 | A typed number of at least 50 becomes that dimension, and a smaller one is ignored. |
| Numerals.DigitChar | components/ProjectExplorer.tsx:21 | The character written for a digit stands for that digit. |
| Numerals.DecimalString | components/ProjectExplorer.tsx:21 | A number is written as digits with no leading zero. |
| Numerals.DecimalValue | components/ProjectExplorer.tsx:21 | The digits written for a number read back as that number. |
| Numerals.LeadingDigits | components/AdvancedNodeSettingsModal.tsx:166 | The length of the run of digits at the front of a text. |
| Numerals.ParseInt | components/AdvancedNodeSettingsModal.tsx:166-167 | parseInt gives no number exactly when no digit follows the leading spaces and an optional sign. |
| Numerals.DigitsPrefix | components/AdvancedNodeSettingsModal.tsx:166 | A digit run followed by more text counts both runs together. |
| Numerals.DecimalDigitsRun | components/AdvancedNodeSettingsModal.tsx:166 | parseInt stops reading at the end of a written number. |
| Numerals.ParseDecimal | components/AdvancedNodeSettingsModal.tsx:166 | A written number followed by a non-digit parses back to the number. |
| Numerals.ParseNegative | components/AdvancedNodeSettingsModal.tsx:166 | A minus sign before a written number parses to its negation. |
| EditNode.SaveEdited | components/EditNodeModal.tsx:148-152 | The edited node is saved, unchanged, exactly when its title is not blank. |
| EditNode.CommitTitle | components/EditNodeModal.tsx:154-159 | Leaving the title field keeps a non-blank title and puts the original back in place of a blank one. |
| EditNode.CommittedTitleSaves | components/EditNodeModal.tsx:148-159 | After the title is committed over a non-blank original, saving is always accepted. |
| EditNode.Linked | components/EditNodeModal.tsx:586-598 | A node is listed exactly when a connection links it to the edited node in the given direction and the lookup table has its far end. |
| EditNode.IdPosition | components/EditNodeModal.tsx:599-600 | The position in a list of a node with the given id. |
| EditNode.UniqueById | components/EditNodeModal.tsx:599-600 | The result has distinct ids, holds only listed nodes, and has a node for exactly the ids listed. |
| EditNode.UniqueKeepsConsistent | components/EditNodeModal.tsx:599-600 | When a list never holds two different nodes with one id, removing duplicates keeps exactly its nodes. |
| EditNode.Neighbours | components/EditNodeModal.tsx:586-602 | The previous or next list has distinct ids. |
| EditNode.NeighboursExact | components/EditNodeModal.tsx:586-602 | With a lookup table keyed by id, the list holds exactly the linked nodes, each once. |
| TextFormat.Wrap | components/EditNodeModal.tsx:502-515 | The new selection starts after the text before, the leading space and the prefix, and is as long as the core. The text ends with the suffix, the trailing space and the text after. `WrapParts` and `WrapStrip` state what the pieces are. |
| TextFormat.WrapParts | components/EditNodeModal.tsx:502-515 | The text before keeps its place, the markers sit right around the selection (`MarkersAround`), the selection is the core, and the text after ends the text. |
| TextFormat.WrapStrip | components/EditNodeModal.tsx:502-515 | Taking the markers out of a wrap leaves the text before, the leading space, the core, the trailing space and the text after, in order. |
| TextFormat.Cut | components/EditNodeModal.tsx:486-488 | The leading space, core and trailing space make up the text; the spaces are blank; the core is empty exactly for a blank text and otherwise starts and ends on a non-space. |
| TextFormat.CoreEnds | components/EditNodeModal.tsx:486-488 | The core taken after the leading space has no space at either end, and it is empty only for a blank text. |
| TextFormat.CutIsTrim | components/EditNodeModal.tsx:486-488 | The core is the trimmed text. |
| TextFormat.CutAsWritten | components/EditNodeModal.tsx:486-488 | As written, the leading and trailing space are whitespace runs at the two ends of the text. For a text that is not blank the three pieces make up the text. |
| TextFormat.RunsAreSpace | components/EditNodeModal.tsx:486-488 | The runs measured on the whole text are whitespace, and for a text that is not blank the pieces around them join back into the text. |
| TextFormat.CutAgrees | components/EditNodeModal.tsx:486-488 | For a text that is not blank the code's cut is the intended one. |
| TextFormat.CutAsWrittenBlank | components/EditNodeModal.tsx:486-488 | As written, a blank text counts whole as its leading space, its core and its trailing space. |
| TextFormat.FormatAsWritten | components/EditNodeModal.tsx:477-516 | As written, the new selection starts after the leading space and the prefix. |
| TextFormat.Format | components/EditNodeModal.tsx:477-516 | The text before the selection is kept, and the new selection lies between the inserted markers. |
| TextFormat.FormatIsWrap | components/EditNodeModal.tsx:477-516 | Formatting is one wrap of the text around the selection, and the pieces it wraps make up the selection, or the placeholder at a bare cursor. |
| TextFormat.FormatMarkers | components/EditNodeModal.tsx:502-515 | The prefix sits just before the new selection and the suffix just after it (`MarkersAround`). |
| TextFormat.FormatOnlyAddsMarkers | components/EditNodeModal.tsx:490-509 | Removing the two markers gives back the old text with the selection, or the placeholder at the cursor. |
| TextFormat.FormatSelectsTrimmed | components/EditNodeModal.tsx:496-498 | The new selection is the trimmed selected text, or the placeholder at a bare cursor. |
| TextFormat.TrimIsCore | components/EditNodeModal.tsx:488 | Dropping the leading and trailing space is trimming. |
| TextFormat.TrailingAfterCut | components/EditNodeModal.tsx:487-488 | Cutting the front off a text that still holds a non-space leaves its trailing space the same. |
| TextFormat.FormatAgrees | components/EditNodeModal.tsx:477-516 | The corrected formatting equals the code as written whenever the text it would insert is not blank. |
| TextFormat.FormatAsWrittenRepeatsBlank | components/EditNodeModal.tsx:484-509 | As written, a blank selection appears three times: before the prefix, between the markers and after the suffix. |
| TextFormat.FormatBlankExample | components/EditNodeModal.tsx:484-509 | Bold on a selection of two spaces gives "  **  **  " as written and "  ****" corrected. |
| TextFormat.FormatBlank | components/EditNodeModal.tsx:484-509 | The corrected command writes a blank selection once, in front of the markers, which then wrap nothing. |
| TextFormat.AsWrittenWholeBlank | components/EditNodeModal.tsx:484-509 | As written, a blank text selected whole comes out three times around the markers. |
| TextFormat.CorrectedWholeBlank | components/EditNodeModal.tsx:484-509 | Corrected, a blank text selected whole comes out once, followed by the two markers. |
| TextFormat.BlankAsWritten | components/EditNodeModal.tsx:484-509 | As written, bold on a selection of two spaces gives "  **  **  ". |
| TextFormat.BlankCorrected | components/EditNodeModal.tsx:484-509 | Corrected, bold on a selection of two spaces gives "  ****". |
| TextFormat.FormatAtCursor | components/EditNodeModal.tsx:490-499 | At a bare cursor the markers wrap the placeholder, and the placeholder is selected. |
| TextFormat.InsertTable | components/EditNodeModal.tsx:546-564 | The table replaces the selection, the text around it is kept, and the cursor lands just after the table. |
| TextFormat.IndexOf | components/EditNodeModal.tsx:528 | The first position from the start point holding the character, or -1 exactly when there is none. |
| TextFormat.LastAtOrBefore | components/EditNodeModal.tsx:527 | The last position up to the bound holding the character, or -1 when there is none. |
| TextFormat.LastIndexOf | components/EditNodeModal.tsx:527 | lastIndexOf with a negative start searches position 0 only. |
| TextFormat.StripNumber | components/EditNodeModal.tsx:537 | Removing a leading number marker never lengthens a line. |
| TextFormat.StripBullet | components/EditNodeModal.tsx:539 | Removing a leading bullet never lengthens a line. |
| TextFormat.ListLine | components/EditNodeModal.tsx:534-540 | A blank line is left alone. |
| TextFormat.ListLineNoBreak | components/EditNodeModal.tsx:534-540 | Marking a line never adds a line break. |
| TextFormat.ListLines | components/EditNodeModal.tsx:534-540 | Each line is marked with its own position in the selection. |
| TextFormat.LineEnd | components/EditNodeModal.tsx:528-529 | The end of the selection's last line: the next line break, or the end of the text. |
| TextFormat.LineStart | components/EditNodeModal.tsx:527 | The start of the selection's first line: just after the previous line break, or 0. |
| TextFormat.ListFormatAsWritten | components/EditNodeModal.tsx:526-543 | As written, with the cursor at 0 of a text that starts with a line break, the result is two more line breaks in front of the text, whatever the marker. |
| TextFormat.ListFormat | components/EditNodeModal.tsx:518-544 | The text before and after the selected lines is kept, and those lines are replaced by their marked versions. |
| TextFormat.ListFormatKeepsLines | components/EditNodeModal.tsx:518-544 | Formatting a list keeps the number of lines. |
| TextFormat.ListedBreaks | components/EditNodeModal.tsx:530-541 | Splitting, marking and joining the lines keeps the line breaks. |
| TextFormat.SpliceBreaks | components/EditNodeModal.tsx:542 | Splicing in a piece with as many line breaks as the one it replaces keeps the count. |
| TextFormat.ListFormatAgrees | components/EditNodeModal.tsx:526-543 | The corrected list formatting equals the code as written, except when the selection starts at 0 and the text starts with a line break. |
| TextFormat.ListFormatAsWrittenExample | components/EditNodeModal.tsx:526-528 | As written, a bullet at the start of "\nabc" gives "\n\n\nabc"; the corrected version leaves the text as it is. |
| TextFormat.AsWrittenAtStart | components/EditNodeModal.tsx:526-528 | As written, a bullet at the start of "\nabc" gives "\n\n\nabc". |
| TextFormat.CorrectedAtStart | components/EditNodeModal.tsx:526-528 | Corrected, a bullet at the start of "\nabc" leaves the text as it is. |
| TextFormat.ListedLoneBreak | components/EditNodeModal.tsx:530-541 | A lone line break is two blank lines, which no marker touches, so listing gives it back. |
| TextFormat.SplitLoneBreak | components/EditNodeModal.tsx:531 | A lone line break splits into two empty lines. |
| TextFormat.ListedEmpty | components/EditNodeModal.tsx:530-541 | Listing the empty text gives the empty text. |
| TextFormat.ListLineTwice | components/EditNodeModal.tsx:534-540 | Marking a line twice with the same marker gives what marking it once gives. |
| TextFormat.StripNumberOf | components/EditNodeModal.tsx:537 | A number marker in front of a text is removed down to the text. |
| TextFormat.StripBulletOf | components/EditNodeModal.tsx:539 | A bullet in front of a text is removed down to the text. |
| TextFormat.BulletThenSpace | components/EditNodeModal.tsx:539 | A text made of a bullet, one space and a body strips down to the body. |
| TextFormat.LeadingSpaceFront | components/EditNodeModal.tsx:537-539 | A single space before a text is its whole leading space. |
| MininodeEditor.Extension | components/EditMininodeModal.tsx:94 | The extension holds no dot. |
| MininodeEditor.ExtensionAfterDot | components/EditMininodeModal.tsx:94 | The extension of a title is the text after its last dot, lower-cased. |
| MininodeEditor.IconFor | components/EditMininodeModal.tsx:94-100 | The icon is a known one: the extension, or "generic". |
| MininodeEditor.IconFromExtension | components/EditMininodeModal.tsx:94-100 | A title ending in a known extension takes that extension's icon. |
| MininodeEditor.IconIgnoresCase | components/EditMininodeModal.tsx:94 | The icon does not depend on the extension's case. |
| MininodeEditor.IconOfDotless | components/EditMininodeModal.tsx:94-100 | A title without a dot is read whole as the extension. |
| MininodeEditor.ChangeTitle | components/EditMininodeModal.tsx:92-102 | The title is taken as typed, the icon is a known one, and nothing else changes. |
| MininodeEditor.SaveEdit | components/EditMininodeModal.tsx:76-83 | The saved title is never blank: it is the trimmed title, or "untitled.txt". The icon is never empty and is kept when set. Nothing else changes. |
| MininodeEditor.SaveIdempotent | components/EditMininodeModal.tsx:76-83 | Saving a saved mininode changes nothing. |
| MininodeEditor.SaveKeepsTypedIcon | components/EditMininodeModal.tsx:76-102 | The icon chosen while typing survives the save. |
| I18n.PackFor | components/locales/i18n.ts:5-14 | English gives the English pack, and every other language the Spanish one. |
| I18n.Resolve | components/locales/i18n.ts:17-31 | An empty path resolves iff the entry is a text, and then to that text. A longer path resolves only through a table whose entries hold its first segment. |
| I18n.ResolveMisses | components/locales/i18n.ts:20-31 | A key missing from a table, a walk that reaches a text too early, and a key ending on a table all resolve to nothing. |
| I18n.Nest | components/locales/i18n.ts:20-27 | The pack holding one text under a path has the path's first segment as its only key. |
| I18n.ResolveNest | components/locales/i18n.ts:17-31 | A text is found again along the path it was stored under. |
| I18n.Placeholder | components/locales/i18n.ts:36 | The placeholder is the name inside double braces. |
| I18n.ReplaceAll | components/locales/i18n.ts:36-37 | A text shorter than the pattern is unchanged. Replacing the pattern by itself changes nothing, and a replacement of the pattern's length keeps the length. That every occurrence is replaced is stated by ReplaceAtPattern and ReplaceEvery. |
| I18n.ReplaceSkips | components/locales/i18n.ts:36-37 | Text without the pattern's first character passes through the replacement unchanged. |
| I18n.ReplaceShort | components/locales/i18n.ts:36-37 | A text shorter than the pattern is left as it is. |
| I18n.ReplaceNone | components/locales/i18n.ts:36-37 | A text without the pattern's first character is left as it is. |
| I18n.ReplaceAtPattern | components/locales/i18n.ts:36-37 | An occurrence of the pattern after text free of the pattern's first character becomes the value, and the scan carries on over the rest of the text. |
| I18n.ReplaceMissHead | components/locales/i18n.ts:36-37 | Where the pattern does not start, the first character is kept and the scan moves one character on. |
| I18n.ReplaceEvery | components/locales/i18n.ts:36-37 | The global flag: pieces free of the pattern's first character, joined by any number of occurrences of the pattern, come out joined by the value. Every occurrence is replaced, not only the first. |
| I18n.OtherPlaceholder | components/locales/i18n.ts:36-37 | A placeholder with a different brace-free name is not touched, and the replacement carries on after it. |
| I18n.SecondBrace | components/locales/i18n.ts:36-37 | A single `{` followed by brace-free text does not start a placeholder. |
| I18n.NotPrefix | components/locales/i18n.ts:36 | A placeholder never begins with another placeholder of a different brace-free name. |
| I18n.FillOne | components/locales/i18n.ts:34-38 | A placeholder after brace-free text is replaced by the value, and the replacement carries on over the rest. |
| I18n.ApplyAll | components/locales/i18n.ts:34-38 | No replacements, or replacements that each put back their own placeholder, leave the text unchanged. |
| I18n.ApplyNone | components/locales/i18n.ts:34-38 | A text without braces comes out of every replacement unchanged. |
| I18n.FirstOfTwo | components/locales/i18n.ts:35-37 | The first key's pass replaces its own placeholder and leaves a different key's placeholder in place. |
| I18n.FillTwo | components/locales/i18n.ts:34-38 | Two placeholders with different names are both filled, each with its own key's value. |
| I18n.LaterKeyFillsEarlierValue | components/locales/i18n.ts:35-37 | Keys are applied in order, so a later key's placeholder brought in by an earlier key's value is filled too. |
| I18n.Translate | components/locales/i18n.ts:16-42 | A key with no text behind it translates to itself, and with no replacements a found text is returned as stored. |
| I18n.TranslateFinds | components/locales/i18n.ts:16-42 | The key made by joining dot-free segments with dots finds the text stored under those segments. |
| I18n.TranslateMissing | components/locales/i18n.ts:23-25 | A key whose first segment the pack lacks translates to the key. |
| I18n.TranslateFills | components/locales/i18n.ts:16-42 | A stored text with one placeholder comes back with the value in the placeholder's place. |
| I18n.TranslateFillsEvery | components/locales/i18n.ts:16-42 | A stored text holding the same placeholder any number of times comes back with the value at every one of them. |
| I18n.TranslateFillsTwo | components/locales/i18n.ts:16-42 | A stored text holding two different placeholders comes back with both filled from their own keys. |
| I18n.DownloadLabel | components/locales/es.ts:114 | The context menu's download entry reads "Descargar archivo (" and the title and ")". |
| TimeAgo.UnitSeconds | components/ProjectExplorer.tsx:20-29 | Every unit lasts at least a minute. |
| TimeAgo.ElapsedSeconds | components/ProjectExplorer.tsx:19 | The whole seconds elapsed, rounded down, also for a date in the future. |
| TimeAgo.AgeOf | components/ProjectExplorer.tsx:20-30 | "A few seconds" is shown exactly up to one minute. Otherwise the unit is the largest one exceeded and the count is the whole number of units elapsed. |
| TimeAgo.AgeMonotone | components/ProjectExplorer.tsx:20-30 | An older date never shows a smaller unit, or a smaller count of the same unit. |
| TimeAgo.ExactYear | components/ProjectExplorer.tsx:20-23 | Exactly one year shows as twelve months. |
| TimeAgo.Render | components/ProjectExplorer.tsx:21-30 | Every label starts with "hace ". |
| TimeAgo.TimeAgoLabel | components/ProjectExplorer.tsx:18-31 | Every label starts with "hace ". |
| TimeAgo.RenderReadsBack | components/ProjectExplorer.tsx:21-29 | The number in a label reads back as its count, and the unit's word ends the label. |
| TimeAgo.CountedNotMoments | components/ProjectExplorer.tsx:21-30 | A label with a count never reads "a few seconds". |
| TimeAgo.SecondsLabel | components/ProjectExplorer.tsx:18-31 | "hace unos segundos" is shown exactly when less than 61 seconds have passed. |
| Changelog.TotalPages | components/ChangelogModal.tsx:373-382 | The fewest pages of five that hold every entry. |
| Changelog.Slice | components/ChangelogModal.tsx:383-386 | slice gives the entries between the bounds, and nothing when the bounds cross or lie past the end. |
| Changelog.PageItems | components/ChangelogModal.tsx:383-386 | A page holds at most five entries; it holds some exactly when it exists. |
| Changelog.PagesCover | components/ChangelogModal.tsx:382-386 | The pages from any page on list the remaining entries in order, without gap or overlap. |
| Changelog.AllPages | components/ChangelogModal.tsx:382-386 | All pages together are the whole log. |
| Changelog.Prev | components/ChangelogModal.tsx:501 | The previous page, never below 0. |
| Changelog.Next | components/ChangelogModal.tsx:509 | The next page, never past the last. |
| Changelog.NavigationStaysInRange | components/ChangelogModal.tsx:501-510 | From a page that exists the buttons reach only pages that exist. An enabled button moves one page and the other button undoes it; a disabled one would not move. |
| Changelog.EmptyLog | components/ChangelogModal.tsx:382-510 | An empty log has no pages and both buttons are disabled. |
| Changelog.NextWalks | components/ChangelogModal.tsx:509-510 | Clicking next from the first page walks the pages in order and then stays on the last. |
| AppView.JsRem | App.tsx:276 | JavaScript's remainder has the sign of the dividend and is smaller than the divisor. |
| AppView.PositionOf | App.tsx:270-273 | The position of the first node with the id, and -1 exactly when none has it. |
| AppView.TabIndex | App.tsx:275-276 | The next index is always a valid position. |
| AppView.TabSteps | App.tsx:275-276 | Tab moves one place forward and wraps to the first; Shift+Tab moves one place back and wraps to the last. |
| AppView.ModUnique | App.tsx:276 | A quotient and remainder that add up are the ones division gives. |
| AppView.TabRoundTrip | App.tsx:275-276 | Tab then Shift+Tab, or the other way round, returns to the same position. |
| AppView.TabFromNothing | App.tsx:268-276 | With nothing selected, Tab goes to the first node and Shift+Tab to the last but one. |
| AppView.TabTimes | App.tsx:275-276 | Pressing Tab any number of times stays on a valid position. |
| AppView.TabCycle | App.tsx:275-276 | Pressing Tab k times moves k places round the cycle. |
| AppView.NextMod | App.tsx:276 | One more than a number, modulo n, is the next residue, wrapping from n - 1 to 0. |
| AppView.TabTarget | App.tsx:262-280 | There is a target exactly when there are nodes, and it is one of them. |
| AppView.PressTab | App.tsx:262-281 | With nodes, exactly one node ends up selected and no canvas object; with none, nothing changes; the rest of the interface state is kept. The keydown guard that ignores Tab while a dialog is open or a text field has focus is the caller's. |
| AppView.PositionOfDistinct | App.tsx:272 | With distinct ids, findIndex of a node's id is its position. |
| AppView.TabThenShiftTab | App.tsx:262-281 | Tab then Shift+Tab, or the other way round, brings the selection back to the node first selected. |
| AppView.TabFollowsOrder | App.tsx:267-277 | Tab selects the node after the selected one in order-index order. |
| AppView.FadedIds | App.tsx:354-357 | No node fades while focus mode is off; with it on, exactly the nodes whose condition is unmet or which are complete fade. |
| AppView.FadedIsNotReady | App.tsx:354-357 | In focus mode a node fades exactly when it is complete or its predecessors are not all complete. |
| AppView.VisibleConnections | App.tsx:359-366 | A connection is drawn exactly when it touches a visible node and, in focus mode, neither of its ends is faded. |
| AppView.FocusOnlyHides | App.tsx:354-366 | Focus mode only hides connections: off, every connection touching a visible node is drawn. |
| AppView.FocusHidesFaded | App.tsx:359-364 | In focus mode no drawn connection touches a faded node. |

## Left out

- Persistence and file I/O are not modelled, because they are asynchronous browser or library calls. This covers IndexedDB projects (db.ts, storeActionsProject.ts), `debouncedSave` and `saveOrUpdateProject` after each commit, JSON import with its confirmation flow, ZIP archives and file downloads. `Export.LoadState` starts from an already parsed document.
- The AI synthesis call (storeActionsAI.ts), the Electron bootstrap (main.js) and the build configuration are left out: they are foreign services and tooling.
- Markdown rendering and the HTML page text around exported nodes are left out, because they are library calls and template text. `Export` models which nodes are exported, in which order, with which numbers, and the `&`, `<`, `>` escaping of mininode content.
- React rendering is left out because it has no state logic: node and connection visuals, Bézier midpoints, port offsets, dialog chrome and the remaining dialogs.
- Floating-point view maths is left out: zoom, pan, the wheel, `frameNode`, `frameAllNodes`, viewport culling and luminance in the node and icon components. The canvas point, the drag delta and the set of visible node ids are parameters. `AppView.PressTab` therefore selects the next node but does not frame it.
- Port ids and canvas-object ids come from the clock and a random number. They are parameters that the caller promises are fresh, so their format is not modelled.
- The log messages that commands write are not modelled, because they are display text. The log panel itself, with its cap of 200 entries, is modelled (`UiActions.AddLog`).
- The icon registries and the locale string tables are static data. Only the context menu's download entry is used, as a fixture in `I18n.DownloadLabel`.
- The zustand store wiring (store.ts, storeActions.ts) only binds actions to the state, so there is nothing to model. `getCoreState` is the projection onto the `core` field of `AppState`, because the model keeps the 13 persisted fields in their own record.
- The sample document and the templates are not modelled as data. Only their node shapes are used, in `NodeActions.TemplateNode`.
- Utils.HexToRgb: returns the three colour channels. The `rgba(…)` text with the alpha appended is not built, because it is string formatting of a floating-point number.
- Utils.IsColorDark: the luminance weights 0.299, 0.587 and 0.114 are scaled to the integers 299, 587 and 114, against 140000. This comparison is exact, unlike the source's floating-point one.
- I18n.Translate: keys and placeholder names are matched literally. A regular-expression metacharacter in a name, or a `$` pattern in a value, is not modelled. Replacement values are already strings.
- I18n.ResolveMisses: a key segment that names an inherited object property (such as `toString`) is treated as missing, because JavaScript's prototype chain is not modelled.
- I18n.PackFor: the language is any string. The store only ever holds "es" or "en".
- EditNode.UniqueById: the contract states distinct ids, membership and the same set of ids. It does not state that `new Map` keeps the first position and the last value of a repeated id.
- TopoSort.TopologicalSort: requires distinct node ids, which the editor's fresh ids guarantee.
- TopoSort.KahnNodes: requires distinct node ids. `Reorganize.ReorganizeOrderIndex` and `Export.OrderForExport` check for duplicate ids and leave the state unchanged, or fall back to the order-index sort, which is what the source's failed count check does.
- Numerals.ParseInt: models `parseInt(value, 10)`. The `Math.round` applied to its result is the identity on the integers it returns, so it is not modelled.
- ClipboardActions.Paste: requires every clipboard connection to run between clipboard nodes. This holds when the document's connections name existing nodes. A clipboard whose connection names a missing node would be pasted with undefined ends, which is not modelled.
- The optional `textAlign` of a text box is not kept in `Types.CanvasObject`. Only the text-editing dialog sets it and only rendering reads it, and neither is modelled.
- NodeActions.SaveNodeState: rounding the width and height is the identity on the model's integer sizes.
- Changelog.Next: with an empty log the next button would lead to page -1. The button is disabled there, so the model states this (`Changelog.EmptyLog`) and nothing else depends on it.
- AppView.PressTab: the keydown guard (App.tsx:257-259) ignores Tab while a dialog is open or an input or textarea has focus. That guard is the caller's concern, so the model starts after it.
- PortManager.DropPort: on an empty port list the source writes `[undefined]` back (AdvancedNodeSettingsModal.tsx:49-50). The dialog never drags within an empty list, so the model leaves that list unchanged.
- ConnectionActions.MiddleNode: the source's node literal sets no `time`, which the model writes as 0. The midpoint position is a parameter, because the source computes it in floating point.
- CanvasView.HandleMouseUp: states the corrected snapshot. The code's snapshot is `CanvasView.HandleMouseUpAsWritten`, listed under Findings.
- AppView.TabFromNothing: with no selection, Shift+Tab goes to the last node but one. The model states this as the code does it, without claiming it is intended.

## Findings

| source | as written | input that shows it | evidently intended | confidence | as-written member | corrected member |
|---|---|---|---|---|---|---|
| storeActionsCanvasView.ts:353-358 | The undo snapshot for a canvas-object drag or resize keeps only the dragged objects as its `canvasObjects` | Two drawings, drag one of them, then undo: the other drawing disappears | The snapshot holds every object, with the dragged ones back at their initial geometry | not executed | CanvasView.ObjectSnapshotAsWritten (CanvasView.ObjectSnapshotAsWrittenDropsUntouched, CanvasView.ObjectSnapshotAsWrittenExample, CanvasView.HandleMouseUpAsWritten, CanvasView.UndoObjectGestureAsWritten) | CanvasView.ObjectSnapshot (CanvasView.RestoreUndoesGesture, CanvasView.UndoObjectGesture) |
| components/EditNodeModal.tsx:484-488 | For a selection of only whitespace, the leading and trailing runs are each the whole selection, so the selection is written three times | Bold on the text "  " with all of it selected gives "  **  **  " | The whitespace appears once, and the markers wrap an empty core: "  ****" | not executed | TextFormat.FormatAsWritten (TextFormat.FormatBlankExample, TextFormat.FormatAsWrittenRepeatsBlank) | TextFormat.Format (TextFormat.FormatOnlyAddsMarkers, TextFormat.FormatSelectsTrimmed, TextFormat.FormatAgrees) |
| components/EditNodeModal.tsx:526-528 | With the cursor at 0, `lastIndexOf('\n', -1)` searches position 0. When the text starts with a line break, the line start becomes 1 while the line end is 0 | A bullet list on "\nabc" with the cursor at 0 gives "\n\n\nabc" | The line start is 0 and the text is unchanged: "\nabc" | not executed | TextFormat.ListFormatAsWritten (TextFormat.ListFormatAsWrittenExample) | TextFormat.ListFormat (TextFormat.ListFormatKeepsLines, TextFormat.ListFormatAgrees) |
| storeActionsCanvasView.ts:142-145 | While drawing a rectangle or ellipse, each move re-spans the shape from its stored position, which the previous move already moved to the smaller corner, instead of from the press point | Press at (5, 5), move to (4, 4), then to (3, 3): the shape is 1 by 1 at (3, 3) | The shape spans the press point and the mouse: 2 by 2 at (3, 3) | not executed | CanvasView.Preview (CanvasView.PreviewDriftExample) | CanvasView.PreviewFrom (CanvasView.PreviewFromIgnoresPath) |

=== FILE: appview.dfy ===
/** The editor shell (App.tsx): Tab and Shift+Tab stepping through the
    nodes in `orderIndex` order, and the focus mode that fades nodes which
    are not ready or already done and hides the connections touching them. */
module AppView {
  import opened Common
  import opened Types
  import opened Sorting
  import opened DerivedState
  import opened Reorganize
  import NodeActions

  /** The Tab order compares `orderIndex` only; the stable sort keeps the
      list order among equal indices. */
  function OrderKey(n: Node): Key {
    Key(n.orderIndex, 0)
  }

  /** JavaScript's `%`: the remainder carries the sign of the dividend. */
  function JsRem(a: int, n: int): (r: int)
    requires n > 0
    ensures a >= 0 ==> 0 <= r < n
    ensures a < 0 ==> -n < r <= 0
  {
    if a >= 0 then a % n else -((-a) % n)
  }

  /** findIndex by id: the first position holding `id`, or -1. */
  function PositionOf(nodes: seq<Node>, id: int): (i: int)
    ensures -1 <= i < |nodes|
    ensures i >= 0 ==> nodes[i].id == id && forall j :: 0 <= j < i ==> nodes[j].id != id
    ensures i == -1 <==> !HasNode(nodes, id)
  {
    if |nodes| == 0 then -1
    else if nodes[0].id == id then 0
    else
      var k := PositionOf(nodes[1..], id);
      assert HasNode(nodes, id) <==> HasNode(nodes[1..], id) by {
        if HasNode(nodes, id) {
          var j :| 0 <= j < |nodes| && nodes[j].id == id;
          assert nodes[1..][j - 1].id == id;
        }
        if HasNode(nodes[1..], id) {
          var j :| 0 <= j < |nodes[1..]| && nodes[1..][j].id == id;
          assert nodes[j + 1].id == id;
        }
      }
      if k == -1 then -1 else k + 1
  }

  /** The position Tab (or Shift+Tab) moves to from position `current`
      (-1 when nothing usable is selected) among `n` nodes:
      `(current + offset + n) % n`. */
  function TabIndex(current: int, n: int, shift: bool): (r: nat)
    requires n > 0 && -1 <= current < n
    ensures r < n
  {
    var offset := if shift then -1 else 1;
    var a := current + offset + n;
    assert a < 0 ==> a == -1 && n == 1;
    var k := JsRem(a, n);
    assert a < 0 ==> k == 0;
    k
  }

  /** From a selected node Tab moves one place on, wrapping from the last
      to the first; Shift+Tab moves one place back, wrapping from the first
      to the last. */
  lemma TabSteps(current: int, n: int)
    requires 0 <= current < n
    ensures TabIndex(current, n, false) == if current == n - 1 then 0 else current + 1
    ensures TabIndex(current, n, true) == if current == 0 then n - 1 else current - 1
  {
    if current == n - 1 {
      ModUnique(current + 1 + n, n, 2, 0);
    } else {
      ModUnique(current + 1 + n, n, 1, current + 1);
    }
    if current == 0 {
      ModUnique(current - 1 + n, n, 0, n - 1);
    } else {
      ModUnique(current - 1 + n, n, 1, current - 1);
    }
  }

  /** A positive multiple of a positive number is at least that number. */
  lemma {:induction false} MulAtLeast(d: int, n: int)
    requires d >= 1 && n > 0
    ensures d * n >= n
  {
    if d > 1 {
      MulAtLeast(d - 1, n);
      assert d * n == (d - 1) * n + n;
    }
  }

  /** Quotient and remainder are unique: any split of `a` into whole
      multiples of `n` and a remainder below `n` is Euclidean division. */
  lemma ModUnique(a: int, n: int, q: int, r: int)
    requires n > 0 && a == q * n + r && 0 <= r < n
    ensures a % n == r && a / n == q
  {
    var q2 := a / n;
    var r2 := a % n;
    assert a == q2 * n + r2;
    assert (q - q2) * n == r2 - r;
    if q - q2 >= 1 {
      MulAtLeast(q - q2, n);
    } else if q2 - q >= 1 {
      MulAtLeast(q2 - q, n);
    }
  }

  /** Shift+Tab undoes Tab and Tab undoes Shift+Tab. */
  lemma TabRoundTrip(current: int, n: int)
    requires 0 <= current < n
    ensures TabIndex(TabIndex(current, n, false), n, true) == current
    ensures TabIndex(TabIndex(current, n, true), n, false) == current
  {
    TabSteps(current, n);
    TabSteps(TabIndex(current, n, false), n);
    TabSteps(TabIndex(current, n, true), n);
  }

  /** With nothing selected Tab goes to the first node, and Shift+Tab to
      the second-to-last one (the only one when there is one). */
  lemma TabFromNothing(n: int)
    requires n > 0
    ensures TabIndex(-1, n, false) == 0
    ensures TabIndex(-1, n, true) == if n >= 2 then n - 2 else 0
  {
    if n >= 2 {
      assert (n - 2) % n == n - 2;
    }
  }

  /** Tab pressed `k` times in a row from position `current`. */
  function TabTimes(current: int, n: int, k: nat): (r: int)
    requires 0 <= current < n
    ensures 0 <= r < n
  {
    if k == 0 then current else TabIndex(TabTimes(current, n, k - 1), n, false)
  }

  /** Pressing Tab `k` times advances `k` places around the cycle, so `n`
      presses visit every node once and come back. */
  lemma {:induction false} TabCycle(current: int, n: int, k: nat)
    requires 0 <= current < n
    ensures TabTimes(current, n, k) == (current + k) % n
  {
    if k == 0 {
      ModUnique(current, n, 0, current);
    } else {
      TabCycle(current, n, k - 1);
      TabSteps(TabTimes(current, n, k - 1), n);
      NextMod(current + k - 1, n);
    }
  }

  /** One more step around a cycle of length `n`. */
  lemma NextMod(a: int, n: int)
    requires n > 0
    ensures (a + 1) % n == if a % n == n - 1 then 0 else a % n + 1
  {
    var q, r := a / n, a % n;
    assert a == q * n + r;
    if r == n - 1 {
      assert a + 1 == (q + 1) * n + 0;
      ModUnique(a + 1, n, q + 1, 0);
    } else {
      ModUnique(a + 1, n, q, r + 1);
    }
  }

  /** The Tab key handler: `None` when there are no nodes, otherwise the id
      of the node to select, taken from the nodes sorted by `orderIndex`
      at the place Tab (or Shift+Tab) reaches from the first selected id. */
  function TabTarget(nodes: seq<Node>, selected: seq<int>, shift: bool): (r: Option<int>)
    ensures r.None? <==> |nodes| == 0
    ensures r.Some? ==> HasNode(nodes, r.value)
  {
    if |nodes| == 0 then None
    else
      var sorted := SortBy(nodes, OrderKey);
      var current := if |selected| > 0 then PositionOf(sorted, selected[0]) else -1;
      var k := TabIndex(current, |sorted|, shift);
      assert sorted[k] in multiset(nodes);
      var i :| 0 <= i < |nodes| && nodes[i] == sorted[k];
      Some(sorted[k].id)
  }

  /** The Tab key: the target becomes the only selected node (and the
      selected drawings are cleared); with no nodes nothing changes. */
  function PressTab(ui: Ui, nodes: seq<Node>, shift: bool): (r: Ui)
    ensures |nodes| == 0 ==> r == ui
    ensures |nodes| > 0 ==> |r.selectedNodeIds| == 1 && HasNode(nodes, r.selectedNodeIds[0])
                            && r.selectedCanvasObjectIds == []
    ensures r.(selectedNodeIds := ui.selectedNodeIds, selectedCanvasObjectIds := ui.selectedCanvasObjectIds) == ui
  {
    match TabTarget(nodes, ui.selectedNodeIds, shift)
    case None => ui
    case Some(id) => NodeActions.SelectOnlyNode(ui, id)
  }

  /** In the `orderIndex` order, a node's first position is found again
      from its id when ids are distinct. */
  lemma PositionOfDistinct(sorted: seq<Node>, k: int)
    requires DistinctIds(sorted) && 0 <= k < |sorted|
    ensures PositionOf(sorted, sorted[k].id) == k
  {
    var p := PositionOf(sorted, sorted[k].id);
    assert HasNode(sorted, sorted[k].id);
  }

  /** With distinct ids, Shift+Tab after Tab selects the node selected
      before, and Tab after Shift+Tab does too. */
  lemma TabThenShiftTab(ui: Ui, nodes: seq<Node>)
    requires DistinctIds(nodes)
    requires |ui.selectedNodeIds| > 0 && HasNode(nodes, ui.selectedNodeIds[0])
    ensures PressTab(PressTab(ui, nodes, false), nodes, true).selectedNodeIds == [ui.selectedNodeIds[0]]
    ensures PressTab(PressTab(ui, nodes, true), nodes, false).selectedNodeIds == [ui.selectedNodeIds[0]]
  {
    var sorted := SortBy(nodes, OrderKey);
    var n := |sorted|;
    PermutedDistinctIds(sorted, nodes);
    var id := ui.selectedNodeIds[0];
    assert HasNode(sorted, id) by {
      var i :| 0 <= i < |nodes| && nodes[i].id == id;
      assert nodes[i] in multiset(sorted);
      var j :| 0 <= j < |sorted| && sorted[j] == nodes[i];
    }
    var c := PositionOf(sorted, id);
    TabRoundTrip(c, n);
    var f := TabIndex(c, n, false);
    var b := TabIndex(c, n, true);
    PositionOfDistinct(sorted, f);
    PositionOfDistinct(sorted, b);
    assert PressTab(ui, nodes, false).selectedNodeIds == [sorted[f].id];
    assert PressTab(ui, nodes, true).selectedNodeIds == [sorted[b].id];
  }

  /** Going forward from a node that is not last in the order never moves
      to a node with a smaller `orderIndex`. */
  lemma TabFollowsOrder(nodes: seq<Node>, selected: seq<int>)
    requires |nodes| > 0 && |selected| > 0
    ensures var sorted := SortBy(nodes, OrderKey);
            var c := PositionOf(sorted, selected[0]);
            0 <= c < |sorted| - 1 ==>
              TabTarget(nodes, selected, false) == Some(sorted[c + 1].id)
              && sorted[c].orderIndex <= sorted[c + 1].orderIndex
  {
    var sorted := SortBy(nodes, OrderKey);
    var c := PositionOf(sorted, selected[0]);
    if 0 <= c < |sorted| - 1 {
      TabSteps(c, |sorted|);
    }
  }

  /** The node status the canvas reads: a node without an entry counts as
      not ready. */
  predicate Faded(n: Node, status: map<int, NodeStatus>) {
    n.id !in status || !status[n.id].isConditionMet || n.isComplete
  }

  /** fadedNodeIds: nothing while focus mode is off; otherwise the ids of
      the nodes whose condition is unmet, or which are complete. */
  function FadedIds(focus: bool, nodes: seq<Node>, status: map<int, NodeStatus>): (r: set<int>)
    ensures !focus ==> r == {}
    ensures focus ==> forall id :: id in r <==> exists n :: n in nodes && n.id == id && Faded(n, status)
  {
    if !focus then {} else set n | n in nodes && Faded(n, status) :: n.id
  }

  /** With the status table the store derives, a node fades in focus mode
      exactly when it is complete or its readiness rule does not hold. */
  lemma FadedIsNotReady(nodes: seq<Node>, conns: seq<Connection>, i: int)
    requires DistinctIds(nodes) && 0 <= i < |nodes|
    ensures nodes[i].id in FadedIds(true, nodes, StatusMap(nodes, conns)) <==>
              nodes[i].isComplete || !Ready(nodes[i], conns, CompletedIds(nodes))
  {
    var status := StatusMap(nodes, conns);
    var n := nodes[i];
    assert n in nodes;
    if n.id in FadedIds(true, nodes, status) {
      var m :| m in nodes && m.id == n.id && Faded(m, status);
      var j :| 0 <= j < |nodes| && nodes[j] == m;
      assert j == i;
    }
  }

  /** visibleConnections: in focus mode a connection touching a faded node
      is hidden; any other connection is shown when one of its ends is among
      the nodes inside the viewport. */
  function VisibleConnections(conns: seq<Connection>, visible: set<int>, focus: bool, faded: set<int>): (r: seq<Connection>)
    ensures forall c :: c in r <==>
              c in conns
              && !(focus && (c.fromNode in faded || c.toNode in faded))
              && (c.fromNode in visible || c.toNode in visible)
  {
    Filter(conns, (c: Connection) =>
      !(focus && (c.fromNode in faded || c.toNode in faded))
      && (c.fromNode in visible || c.toNode in visible))
  }

  /** Focus mode only removes connections: everything it shows is shown
      without it, and with focus off every connection with a visible end is
      shown. */
  lemma FocusOnlyHides(conns: seq<Connection>, visible: set<int>, nodes: seq<Node>, status: map<int, NodeStatus>)
    ensures var off := VisibleConnections(conns, visible, false, FadedIds(false, nodes, status));
            var on := VisibleConnections(conns, visible, true, FadedIds(true, nodes, status));
            && (forall c :: c in on ==> c in off)
            && (forall c :: c in off <==> c in conns && (c.fromNode in visible || c.toNode in visible))
  {
  }

  /** In focus mode no connection shown touches a node that is faded. */
  lemma FocusHidesFaded(conns: seq<Connection>, visible: set<int>, nodes: seq<Node>, status: map<int, NodeStatus>, c: Connection)
    requires c in VisibleConnections(conns, visible, true, FadedIds(true, nodes, status))
    ensures forall n :: n in nodes && Faded(n, status) ==> n.id != c.fromNode && n.id != c.toNode
  {
  }
}

=== FILE: canvasview.dfy ===
/** Pointer gestures on the canvas (storeActionsCanvasView.ts): grabbing a
    node, dragging and resizing nodes, dragging and resizing canvas
    drawings, and the mouse-up that ends a gesture with one undo snapshot.
    Conversions between screen and canvas coordinates divide by the zoom
    factor; they arrive here already done, as canvas-space deltas and
    rectangles. */
module CanvasView {
  import opened Common
  import opened Types
  import opened DerivedState
  import opened Store

  // ---------------------------------------------------------------------
  // Grabbing a node

  /** The node can be grabbed: it exists and is not pinned. */
  predicate Grabbable(nodes: seq<Node>, id: int) {
    match FindNode(nodes, id)
    case Some(n) => !n.isPinned
    case None => false
  }

  /** The selection after a click on node `id`: shift toggles its
      membership; a plain click on an unselected node selects only it and on
      a selected node keeps the selection. */
  function ClickSelection(sel: seq<int>, id: int, shift: bool): (r: seq<int>)
    ensures id in r <==> !(shift && id in sel)
    ensures forall x :: x != id ==> (x in r <==> x in sel && (shift || id in sel))
    ensures Distinct(sel) ==> Distinct(r)
  {
    if shift then
      if id in sel then Filter(sel, (x: int) => x != id) else sel + [id]
    else if id in sel then sel else [id]
  }

  /** Shift-clicking a node twice leaves the same members selected. */
  lemma ShiftClickTwice(sel: seq<int>, id: int)
    ensures forall x :: x in ClickSelection(ClickSelection(sel, id, true), id, true) <==> x in sel
  {
  }

  /** The position of the node `find` returns for `id`. */
  function PosOf(nodes: seq<Node>, id: int): Option<Point> {
    match FindNode(nodes, id)
    case Some(n) => Some(n.pos)
    case None => None
  }

  /** `Map.get` on a list of (key, value) entries: the last entry for the
      key wins, as repeated `Map.set` calls leave it. */
  function LookupPos(entries: seq<(int, Point)>, id: int): Option<Point> {
    if |entries| == 0 then None
    else if entries[|entries| - 1].0 == id then Some(entries[|entries| - 1].1)
    else LookupPos(entries[..|entries| - 1], id)
  }

  /** The positions nodeMouseDown records: one entry per selected id that
      names a node. */
  function InitialPositions(nodes: seq<Node>, sel: seq<int>): (r: seq<(int, Point)>)
    ensures forall x :: LookupPos(r, x) == (if x in sel then PosOf(nodes, x) else None)
  {
    if |sel| == 0 then []
    else
      var init := sel[..|sel| - 1];
      var last := sel[|sel| - 1];
      var prev := InitialPositions(nodes, init);
      assert forall x :: x in sel <==> x in init || x == last;
      match PosOf(nodes, last)
      case Some(p) =>
        assert (prev + [(last, p)])[..|prev|] == prev;
        prev + [(last, p)]
      case None => prev
  }

  /** nodeMouseDown: outside drawing mode, a click on a grabbable node
      updates the selection, clears the drawing selection and starts a drag
      from the current mouse position, recording where every selected node
      is. A missing or pinned node starts nothing. */
  function NodeMouseDown(s: AppState, id: int, shift: bool): (r: AppState)
    ensures s.ui.drawingMode.Some? || !Grabbable(s.core.nodes, id) ==> r == s
    ensures r.core == s.core && r.derived == s.derived && r.past == s.past && r.future == s.future
    ensures s.ui.drawingMode.None? && Grabbable(s.core.nodes, id) ==>
              && r.ui.selectedNodeIds == ClickSelection(s.ui.selectedNodeIds, id, shift)
              && r.ui.selectedCanvasObjectIds == []
              && r.ui.dragInfo.isDragging && r.ui.dragInfo.startPos == s.ui.mousePosition
              && (forall x :: LookupPos(r.ui.dragInfo.initialNodePositions, x) ==
                               (if x in r.ui.selectedNodeIds then PosOf(s.core.nodes, x) else None))
              && r.ui.(selectedNodeIds := s.ui.selectedNodeIds, selectedCanvasObjectIds := s.ui.selectedCanvasObjectIds,
                       dragInfo := s.ui.dragInfo) == s.ui
  {
    if s.ui.drawingMode.Some? || !Grabbable(s.core.nodes, id) then s
    else
      var sel := ClickSelection(s.ui.selectedNodeIds, id, shift);
      s.(ui := s.ui.(selectedNodeIds := sel, selectedCanvasObjectIds := [],
                     dragInfo := DragInfo(s.ui.mousePosition, InitialPositions(s.core.nodes, sel), true)))
  }

  // ---------------------------------------------------------------------
  // Dragging and resizing nodes

  function Shift(p: Point, d: Point): Point {
    Point(p.x + d.x, p.y + d.y)
  }

  /** The node moved by a drag: a selected node with a recorded position
      goes to that position plus the delta. */
  function DragOne(n: Node, sel: seq<int>, initial: seq<(int, Point)>, d: Point): Node {
    if n.id in sel && LookupPos(initial, n.id).Some? then n.(pos := Shift(LookupPos(initial, n.id).value, d))
    else n
  }

  /** The node list during a drag. */
  function Dragged(nodes: seq<Node>, sel: seq<int>, initial: seq<(int, Point)>, d: Point): (r: seq<Node>)
    ensures |r| == |nodes|
    ensures forall i :: 0 <= i < |nodes| ==> r[i].(pos := nodes[i].pos) == nodes[i]
    ensures forall i :: 0 <= i < |nodes| && nodes[i].id !in sel ==> r[i] == nodes[i]
    ensures forall i :: 0 <= i < |nodes| && nodes[i].id in sel && LookupPos(initial, nodes[i].id).Some? ==>
              r[i].pos == Shift(LookupPos(initial, nodes[i].id).value, d)
  {
    seq(|nodes|, i requires 0 <= i < |nodes| => DragOne(nodes[i], sel, initial, d))
  }

  /** handleMouseUp's preDragNodes: every node with a recorded position is
      put back there. */
  function PreDrag(nodes: seq<Node>, initial: seq<(int, Point)>): (r: seq<Node>)
    ensures |r| == |nodes|
    ensures forall i :: 0 <= i < |nodes| ==> r[i].(pos := nodes[i].pos) == nodes[i]
    ensures forall i :: 0 <= i < |nodes| && LookupPos(initial, nodes[i].id).None? ==> r[i] == nodes[i]
    ensures forall i :: 0 <= i < |nodes| && LookupPos(initial, nodes[i].id).Some? ==>
              r[i].pos == LookupPos(initial, nodes[i].id).value
  {
    seq(|nodes|, i requires 0 <= i < |nodes| =>
      match LookupPos(initial, nodes[i].id)
      case Some(p) => nodes[i].(pos := p)
      case None => nodes[i])
  }

  /** Putting the dragged nodes back where nodeMouseDown found them gives
      the list the drag started from. */
  lemma PreDragUndoesDrag(nodes: seq<Node>, sel: seq<int>, d: Point)
    requires DistinctIds(nodes)
    ensures PreDrag(Dragged(nodes, sel, InitialPositions(nodes, sel), d), InitialPositions(nodes, sel)) == nodes
  {
    var initial := InitialPositions(nodes, sel);
    var r := PreDrag(Dragged(nodes, sel, initial, d), initial);
    forall i | 0 <= i < |nodes| ensures r[i] == nodes[i] {
      FindNodeDistinct(nodes, i);
    }
  }

  /** `Math.round(x / 10) * 10` for an integer x: JavaScript rounds halves
      upwards. */
  function SnapToGrid(x: int): (r: int)
    ensures r % 10 == 0
    ensures r - 5 <= x < r + 5
  {
    ((x + 5) / 10) * 10
  }

  function Max(a: int, b: int): int {
    if a >= b then a else b
  }

  /** A resized dimension: snapped to the 10-unit grid, never below `least`. */
  function SnapDimension(start: int, delta: int, least: int): (r: int)
    requires least % 10 == 0
    ensures r >= least && r % 10 == 0
    ensures r > least ==> r - 5 <= start + delta < r + 5
  {
    Max(least, SnapToGrid(start + delta))
  }

  /** A size already on the grid and above the minimum is kept by a resize
      of zero. */
  lemma SnapKeepsGridSizes(x: int, least: int)
    requires least % 10 == 0 && x % 10 == 0 && x >= least
    ensures SnapDimension(x, 0, least) == x
  {
    assert (x + 5) / 10 == x / 10;
  }

  predicate ResizesWidth(h: NodeHandle) {
    h == HandleBR || h == HandleR
  }

  predicate ResizesHeight(h: NodeHandle) {
    h == HandleBR || h == HandleB
  }

  /** The size during a node resize, computed from the size the gesture
      started with: width for the 'br' and 'r' handles (at least 100),
      height for 'br' and 'b' (at least 50). */
  function ResizedSize(info: ResizeInfo, d: Point): (sz: Size)
    ensures ResizesWidth(info.handle) ==> sz.width >= 100 && sz.width % 10 == 0
    ensures ResizesHeight(info.handle) ==> sz.height >= 50 && sz.height % 10 == 0
    ensures !ResizesWidth(info.handle) ==> sz.width == info.startSize.width
    ensures !ResizesHeight(info.handle) ==> sz.height == info.startSize.height
  {
    Size(if ResizesWidth(info.handle) then SnapDimension(info.startSize.width, d.x, 100) else info.startSize.width,
         if ResizesHeight(info.handle) then SnapDimension(info.startSize.height, d.y, 50) else info.startSize.height)
  }

  /** The node list during a resize: only the resized node's size changes. */
  function Resized(nodes: seq<Node>, info: ResizeInfo, d: Point): (r: seq<Node>)
    ensures |r| == |nodes|
    ensures forall i :: 0 <= i < |nodes| ==> r[i].(size := nodes[i].size) == nodes[i]
    ensures forall i :: 0 <= i < |nodes| && nodes[i].id != info.nodeId ==> r[i] == nodes[i]
    ensures forall i :: 0 <= i < |nodes| && nodes[i].id == info.nodeId ==> r[i].size == ResizedSize(info, d)
  {
    seq(|nodes|, i requires 0 <= i < |nodes| =>
      if nodes[i].id == info.nodeId then nodes[i].(size := ResizedSize(info, d)) else nodes[i])
  }

  /** handleMouseUp's preResizeNodes: the resized node gets its starting
      size back. */
  function PreResize(nodes: seq<Node>, info: ResizeInfo): (r: seq<Node>)
    ensures |r| == |nodes|
    ensures forall i :: 0 <= i < |nodes| ==> r[i].(size := nodes[i].size) == nodes[i]
    ensures forall i :: 0 <= i < |nodes| && nodes[i].id == info.nodeId ==> r[i].size == info.startSize
  {
    seq(|nodes|, i requires 0 <= i < |nodes| =>
      if nodes[i].id == info.nodeId then nodes[i].(size := info.startSize) else nodes[i])
  }

  /** Restoring the starting size after any resize moves gives back the
      list the resize started from, when the recorded size is the node's. */
  lemma PreResizeUndoesResize(nodes: seq<Node>, info: ResizeInfo, d: Point)
    requires forall n :: n in nodes && n.id == info.nodeId ==> n.size == info.startSize
    ensures PreResize(Resized(nodes, info, d), info) == nodes
  {
    var r := PreResize(Resized(nodes, info, d), info);
    forall i | 0 <= i < |nodes| ensures r[i] == nodes[i] {
      assert nodes[i] in nodes;
    }
  }

  // ---------------------------------------------------------------------
  // Dragging and resizing canvas drawings

  /** A drawing moved by `d`: both ends of a line, the corner of the others. */
  function Translate(o: CanvasObject, d: Point): (r: CanvasObject)
    ensures r.id == o.id
  {
    match o
    case Line(id, start, end, sc, sw, so, sa, ea) => Line(id, Shift(start, d), Shift(end, d), sc, sw, so, sa, ea)
    case TextBox(id, pos, t, fs, c, w, h) => TextBox(id, Shift(pos, d), t, fs, c, w, h)
    case Shape(id, k, pos, sz, fc, sc, sw, fo, so, sm) => Shape(id, k, Shift(pos, d), sz, fc, sc, sw, fo, so, sm)
  }

  function Neg(d: Point): Point {
    Point(-d.x, -d.y)
  }

  /** Moving back by the same amount undoes a move. */
  lemma TranslateBack(o: CanvasObject, d: Point)
    ensures Translate(Translate(o, d), Neg(d)) == o
  {
  }

  predicate HasE(h: ObjectHandle) { h == E || h == NE || h == SE }
  predicate HasW(h: ObjectHandle) { h == W || h == NW || h == SW }
  predicate HasS(h: ObjectHandle) { h == S || h == SE || h == SW }
  predicate HasN(h: ObjectHandle) { h == N || h == NE || h == NW }

  /** The box a resize handle produces from (x, y, width, height): east
      and south handles grow the far edges, west and north handles move the
      near edges; each dimension is then raised to at least 10 without
      moving the corner back. */
  function ResizeBox(x: int, y: int, w: int, h: int, hd: ObjectHandle, d: Point): (b: Rectangle)
    ensures b.width >= 10 && b.height >= 10
    ensures b.x == (if HasW(hd) then x + d.x else x) && b.y == (if HasN(hd) then y + d.y else y)
    ensures HasW(hd) && w - d.x >= 10 ==> b.x + b.width == x + w
    ensures HasN(hd) && h - d.y >= 10 ==> b.y + b.height == y + h
    ensures !HasE(hd) && !HasW(hd) ==> b.width == Max(10, w)
    ensures !HasS(hd) && !HasN(hd) ==> b.height == Max(10, h)
    ensures HasE(hd) ==> b.width == Max(10, w + d.x)
    ensures HasS(hd) ==> b.height == Max(10, h + d.y)
  {
    var w1 := if HasE(hd) then w + d.x else w;
    var nx := if HasW(hd) then x + d.x else x;
    var w2 := if HasW(hd) then w1 - d.x else w1;
    var h1 := if HasS(hd) then h + d.y else h;
    var ny := if HasN(hd) then y + d.y else y;
    var h2 := if HasN(hd) then h1 - d.y else h1;
    Rectangle(nx, ny, Max(10, w2), Max(10, h2))
  }

  /** A drawing during a resize. A line moves its start for the south-west
      and north-west handles and its end for every other handle; text boxes
      and shapes take the box ResizeBox computes. */
  function ResizeObject(o: CanvasObject, hd: ObjectHandle, d: Point): (r: CanvasObject)
    ensures r.id == o.id
    ensures r.Line? <==> o.Line?
    ensures o.Line? && (hd == SW || hd == NW) ==> r.Line? && r.start == Shift(o.start, d) && r.end == o.end
    ensures o.Line? && !(hd == SW || hd == NW) ==> r.Line? && r.start == o.start && r.end == Shift(o.end, d)
    ensures o.TextBox? ==> r.TextBox? && r.width >= 10 && r.height >= 10
    ensures o.Shape? ==> r.Shape? && r.size.width >= 10 && r.size.height >= 10
  {
    match o
    case Line(id, start, end, sc, sw, so, sa, ea) =>
      if hd == SW || hd == NW then Line(id, Shift(start, d), end, sc, sw, so, sa, ea)
      else Line(id, start, Shift(end, d), sc, sw, so, sa, ea)
    case TextBox(id, pos, t, fs, c, w, h) =>
      var b := ResizeBox(pos.x, pos.y, w, h, hd, d);
      TextBox(id, Point(b.x, b.y), t, fs, c, b.width, b.height)
    case Shape(id, k, pos, size, fc, sc, sw, fo, so, sm) =>
      var b := ResizeBox(pos.x, pos.y, size.width, size.height, hd, d);
      Shape(id, k, Point(b.x, b.y), Size(b.width, b.height), fc, sc, sw, fo, so, sm)
  }

  /** `initialObjectStates.get(id)`. */
  function LookupObject(states: seq<CanvasObject>, id: string): (r: Option<CanvasObject>)
    ensures r.Some? ==> r.value in states && r.value.id == id
    ensures r.None? ==> forall o :: o in states ==> o.id != id
  {
    if |states| == 0 then None
    else if states[|states| - 1].id == id then Some(states[|states| - 1])
    else
      var init := states[..|states| - 1];
      assert forall o :: o in states <==> o in init || o == states[|states| - 1];
      LookupObject(init, id)
  }

  /** One drawing during a canvas-object gesture: a selected drawing with a
      recorded initial state is moved or resized from that state. */
  function GestureOne(o: CanvasObject, sel: seq<string>, info: ObjectDragInfo, d: Point): CanvasObject {
    if o.id !in sel then o
    else match LookupObject(info.initialObjectStates, o.id)
      case None => o
      case Some(init) =>
        if info.isDragging then Translate(init, d)
        else if info.isResizing && info.resizeHandle.Some? then ResizeObject(init, info.resizeHandle.value, d)
        else o
  }

  /** The drawings during a canvas-object gesture. */
  function GestureObjects(objs: seq<CanvasObject>, sel: seq<string>, info: ObjectDragInfo, d: Point)
    : (r: seq<CanvasObject>)
    ensures |r| == |objs|
    ensures forall i :: 0 <= i < |objs| ==> r[i].id == objs[i].id
    ensures forall i :: 0 <= i < |objs| && objs[i].id !in sel ==> r[i] == objs[i]
    ensures forall i :: 0 <= i < |objs| && LookupObject(info.initialObjectStates, objs[i].id).None? ==> r[i] == objs[i]
    ensures forall i :: 0 <= i < |objs| && objs[i].id in sel && info.isDragging
                        && LookupObject(info.initialObjectStates, objs[i].id).Some? ==>
              r[i] == Translate(LookupObject(info.initialObjectStates, objs[i].id).value, d)
  {
    seq(|objs|, i requires 0 <= i < |objs| => GestureOne(objs[i], sel, info, d))
  }

  /** A node lies within a rectangle drawing, edges included. */
  predicate InsideSwarm(n: Node, sw: CanvasObject)
    requires sw.Shape?
  {
    && n.pos.x >= sw.pos.x && n.pos.y >= sw.pos.y
    && n.pos.x + n.size.width <= sw.pos.x + sw.size.width
    && n.pos.y + n.size.height <= sw.pos.y + sw.size.height
  }

  /** A selected swarm rectangle being dragged. */
  predicate DraggedSwarm(o: CanvasObject, sel: seq<string>) {
    o.Shape? && o.kind == Rect && o.isSwarm && o.id in sel
  }

  /** The id of a node as the gesture recorded it lies in the initial
      rectangle of one of the dragged swarms. */
  predicate CarriedBySwarm(id: int, initNodes: seq<Node>, swarms: seq<CanvasObject>, states: seq<CanvasObject>) {
    exists m, w :: m in initNodes && m.id == id && w in swarms
      && LookupObject(states, w.id).Some? && LookupObject(states, w.id).value.Shape?
      && InsideSwarm(m, LookupObject(states, w.id).value)
  }

  /** `initialNodePositions.get(id)` over the recorded nodes. */
  function RecordedPos(initNodes: seq<Node>, id: int): (r: Option<Point>)
    ensures r.Some? ==> exists m :: m in initNodes && m.id == id && m.pos == r.value
    ensures r.None? ==> forall m :: m in initNodes ==> m.id != id
  {
    if |initNodes| == 0 then None
    else if initNodes[|initNodes| - 1].id == id then Some(initNodes[|initNodes| - 1].pos)
    else
      var init := initNodes[..|initNodes| - 1];
      assert forall m :: m in initNodes <==> m in init || m == initNodes[|initNodes| - 1];
      RecordedPos(init, id)
  }

  /** The nodes during a swarm drag: every node that lay inside a dragged
      swarm's initial rectangle moves with it from its recorded position. */
  function SwarmNodes(nodes: seq<Node>, newObjs: seq<CanvasObject>, sel: seq<string>, info: ObjectDragInfo, d: Point)
    : (r: seq<Node>)
    ensures |r| == |nodes|
    ensures forall i :: 0 <= i < |nodes| ==> r[i].(pos := nodes[i].pos) == nodes[i]
    ensures !(info.isDragging && info.initialNodeStates.Some?) ==> r == nodes
    ensures forall i :: 0 <= i < |nodes| && r[i] != nodes[i] ==>
              && info.initialNodeStates.Some?
              && CarriedBySwarm(nodes[i].id, info.initialNodeStates.value,
                                Filter(newObjs, (o: CanvasObject) => DraggedSwarm(o, sel)), info.initialObjectStates)
  {
    if !(info.isDragging && info.initialNodeStates.Some?) then nodes
    else
      var initNodes := info.initialNodeStates.value;
      var swarms := Filter(newObjs, (o: CanvasObject) => DraggedSwarm(o, sel));
      seq(|nodes|, i requires 0 <= i < |nodes| =>
        if CarriedBySwarm(nodes[i].id, initNodes, swarms, info.initialObjectStates)
           && RecordedPos(initNodes, nodes[i].id).Some?
        then nodes[i].(pos := Shift(RecordedPos(initNodes, nodes[i].id).value, d))
        else nodes[i])
  }

  // ---------------------------------------------------------------------
  // handleMouseMove

  /** The gesture in progress, as handleMouseMove tests for it in order. */
  datatype Gesture = ObjectGesture | Drawing | Panning | NodeDrag | NodeResize | Pointing

  function GestureOf(ui: Ui): (g: Gesture) {
    if ui.canvasObjectDragInfo.Some? then ObjectGesture
    else if ui.drawingObject.Some? then Drawing
    else if ui.isPanning then Panning
    else if ui.dragInfo.isDragging then NodeDrag
    else if ui.resizeInfo.Some? then NodeResize
    else Pointing
  }

  /** The selection rectangle spanned by its start and the mouse. */
  function SpanRect(a: Point, b: Point): (r: Rectangle)
    ensures r.width >= 0 && r.height >= 0
    ensures r.x <= a.x && r.x <= b.x && r.y <= a.y && r.y <= b.y
    ensures r.x + r.width == Max(a.x, b.x) && r.y + r.height == Max(a.y, b.y)
  {
    Rectangle(if a.x <= b.x then a.x else b.x, if a.y <= b.y then a.y else b.y,
              if a.x <= b.x then b.x - a.x else a.x - b.x, if a.y <= b.y then b.y - a.y else a.y - b.y)
  }

  /** The corners of a shape as a rectangle. */
  function BoxOf(o: CanvasObject): Rectangle
    requires o.Shape?
  {
    Rectangle(o.pos.x, o.pos.y, o.size.width, o.size.height)
  }

  /** The drawing preview as handleMouseMove updates it towards the canvas
      point `p`: a shape is re-spanned between its stored position and `p`,
      a line's end moves to `p`, and a text box is left alone. */
  function Preview(o: CanvasObject, p: Point): (r: CanvasObject)
    ensures o.Shape? ==> r.Shape? && BoxOf(r) == SpanRect(p, o.pos) && r.(pos := o.pos, size := o.size) == o
    ensures o.Line? ==> r.Line? && r.end == p && r.(end := o.end) == o
    ensures o.TextBox? ==> r == o
  {
    match o
    case Shape(_, _, _, _, _, _, _, _, _, _) =>
      var b := SpanRect(p, o.pos);
      o.(pos := Point(b.x, b.y), size := Size(b.width, b.height))
    case Line(_, _, _, _, _, _, _, _) => o.(end := p)
    case TextBox(_, _, _, _, _, _, _) => o
  }

  /** While the mouse stays below and to the right of the press point the
      stored position is never moved, so the preview spans the press point
      and the mouse. */
  lemma PreviewKeepsCornerDownRight(o: CanvasObject, p: Point)
    requires o.Shape? && o.pos.x <= p.x && o.pos.y <= p.y
    ensures Preview(o, p).pos == o.pos
    ensures BoxOf(Preview(o, p)) == Rectangle(o.pos.x, o.pos.y, p.x - o.pos.x, p.y - o.pos.y)
  {
  }

  /** The preview as the code makes it after a press at (5, 5) and moves to
      (4, 4) and then (3, 3): the second move spans from (4, 4), the corner
      the first move stored, so the shape is 1 by 1 and no longer reaches the
      press point. The corrected preview is 2 by 2. */
  lemma PreviewDriftExample(o: CanvasObject)
    requires o.Shape? && o.pos == Point(5, 5)
    ensures Preview(Preview(o, Point(4, 4)), Point(3, 3)).size == Size(1, 1)
    ensures PreviewFrom(PreviewFrom(o, Point(5, 5), Point(4, 4)), Point(5, 5), Point(3, 3)).size == Size(2, 2)
  {
  }

  /** The intended preview: the shape spans the press point `anchor` and
      the mouse, whatever path the mouse took; lines and text as before. */
  function PreviewFrom(o: CanvasObject, anchor: Point, p: Point): (r: CanvasObject)
    ensures o.Shape? ==> r.Shape? && BoxOf(r) == SpanRect(p, anchor) && r.(pos := o.pos, size := o.size) == o
    ensures !o.Shape? ==> r == Preview(o, p)
  {
    if o.Shape? then
      var b := SpanRect(p, anchor);
      o.(pos := Point(b.x, b.y), size := Size(b.width, b.height))
    else Preview(o, p)
  }

  /** The corrected preview depends on the last mouse position only, and
      agrees with the code's while the mouse stays below and to the right
      of the press point. */
  lemma PreviewFromIgnoresPath(o: CanvasObject, anchor: Point, p: Point, q: Point)
    ensures PreviewFrom(PreviewFrom(o, anchor, p), anchor, q) == PreviewFrom(o, anchor, q)
    ensures o.Shape? && o.pos == anchor && anchor.x <= q.x && anchor.y <= q.y ==>
              PreviewFrom(o, anchor, q) == Preview(o, q)
  {
  }

  /** handleMouseMove for the node and drawing gestures and the plain
      pointer. `mouse` is the screen position; `at` is that position in
      canvas units and `d` the movement since the gesture began in canvas
      units. The panning branch only records the mouse position here. No
      history entry is pushed. */
  function HandleMouseMove(s: AppState, mouse: Point, at: Point, d: Point): (r: AppState)
    ensures r.past == s.past && r.future == s.future
    ensures Consistent(s) ==> Consistent(r)
    ensures GestureOf(s.ui) == NodeDrag ==>
              r.core == s.core.(nodes := Dragged(s.core.nodes, s.ui.selectedNodeIds, s.ui.dragInfo.initialNodePositions, d))
    ensures GestureOf(s.ui) == NodeResize ==>
              r.core == s.core.(nodes := Resized(s.core.nodes, s.ui.resizeInfo.value, d))
    ensures GestureOf(s.ui) == ObjectGesture ==>
              var objs := GestureObjects(s.core.canvasObjects, s.ui.selectedCanvasObjectIds, s.ui.canvasObjectDragInfo.value, d);
              r.core == s.core.(canvasObjects := objs,
                                nodes := SwarmNodes(s.core.nodes, objs, s.ui.selectedCanvasObjectIds,
                                                    s.ui.canvasObjectDragInfo.value, d))
    ensures GestureOf(s.ui) in {Drawing, Panning, Pointing} ==> r.core == s.core
    ensures GestureOf(s.ui) == Pointing && s.ui.isSelecting && s.ui.selectionStart.Some? ==>
              r.ui.selectionRect == Some(SpanRect(mouse, s.ui.selectionStart.value))
    ensures GestureOf(s.ui) == Drawing ==> r.ui.drawingObject == Some(Preview(s.ui.drawingObject.value, at))
    ensures GestureOf(s.ui) != Drawing ==> r.ui.drawingObject == s.ui.drawingObject
    ensures GestureOf(s.ui) != ObjectGesture ==> r.ui.mousePosition == mouse
    ensures GestureOf(s.ui) == ObjectGesture ==> r.ui == s.ui
    ensures r.ui.(mousePosition := s.ui.mousePosition, selectionRect := s.ui.selectionRect,
                  drawingObject := s.ui.drawingObject) == s.ui
  {
    match GestureOf(s.ui)
    case ObjectGesture =>
      var info := s.ui.canvasObjectDragInfo.value;
      var objs := GestureObjects(s.core.canvasObjects, s.ui.selectedCanvasObjectIds, info, d);
      Refresh(s, s.core.(canvasObjects := objs,
                         nodes := SwarmNodes(s.core.nodes, objs, s.ui.selectedCanvasObjectIds, info, d)))
    case NodeDrag =>
      var t := s.(ui := s.ui.(mousePosition := mouse));
      Refresh(t, s.core.(nodes := Dragged(s.core.nodes, s.ui.selectedNodeIds, s.ui.dragInfo.initialNodePositions, d)))
    case NodeResize =>
      var t := s.(ui := s.ui.(mousePosition := mouse));
      Refresh(t, s.core.(nodes := Resized(s.core.nodes, s.ui.resizeInfo.value, d)))
    case Pointing =>
      if s.ui.isSelecting && s.ui.selectionStart.Some? then
        s.(ui := s.ui.(mousePosition := mouse, selectionRect := Some(SpanRect(mouse, s.ui.selectionStart.value))))
      else s.(ui := s.ui.(mousePosition := mouse))
    case Drawing =>
      s.(ui := s.ui.(mousePosition := mouse, drawingObject := Some(Preview(s.ui.drawingObject.value, at))))
    case Panning => s.(ui := s.ui.(mousePosition := mouse))
  }

  // ---------------------------------------------------------------------
  // handleMouseUp

  /** Each drawing with a recorded initial state goes back to that state;
      the others stay as they are. */
  function RestoreObjects(objs: seq<CanvasObject>, states: seq<CanvasObject>): (r: seq<CanvasObject>)
    ensures |r| == |objs|
    ensures forall i :: 0 <= i < |objs| && LookupObject(states, objs[i].id).None? ==> r[i] == objs[i]
    ensures forall i :: 0 <= i < |objs| && LookupObject(states, objs[i].id).Some? ==>
              r[i] == LookupObject(states, objs[i].id).value
  {
    seq(|objs|, i requires 0 <= i < |objs| =>
      match LookupObject(states, objs[i].id)
      case Some(o) => o
      case None => objs[i])
  }

  /** The undo snapshot of a canvas-object gesture AS WRITTEN: the drawing
      list of the snapshot is just the recorded initial states, so every
      drawing the gesture did not touch is missing from it. */
  function ObjectSnapshotAsWritten(core: CoreState, info: ObjectDragInfo): (c: CoreState)
    ensures c.canvasObjects == info.initialObjectStates
    ensures c.(canvasObjects := core.canvasObjects, nodes := core.nodes) == core
  {
    core.(canvasObjects := info.initialObjectStates, nodes := info.initialNodeStates.GetOr(core.nodes))
  }

  /** A drawing outside the gesture is lost from the as-written snapshot,
      and so from the document an undo brings back. */
  lemma ObjectSnapshotAsWrittenDropsUntouched(core: CoreState, info: ObjectDragInfo, k: int)
    requires 0 <= k < |core.canvasObjects|
    requires LookupObject(info.initialObjectStates, core.canvasObjects[k].id).None?
    ensures core.canvasObjects[k] !in ObjectSnapshotAsWritten(core, info).canvasObjects
  {
  }

  /** Two drawings, a gesture that moved only the first: the as-written
      snapshot holds one drawing. */
  lemma ObjectSnapshotAsWrittenExample(core: CoreState, a: CanvasObject, b: CanvasObject, info: ObjectDragInfo)
    requires core.canvasObjects == [a, b] && a.id != b.id
    requires info.initialObjectStates == [a]
    ensures |ObjectSnapshotAsWritten(core, info).canvasObjects| == 1
    ensures b !in ObjectSnapshotAsWritten(core, info).canvasObjects
  {
  }

  /** The corrected undo snapshot of a canvas-object gesture: the live
      document with the gesture's drawings back in their initial states (and,
      for a swarm drag, the node list as it was). */
  function ObjectSnapshot(core: CoreState, info: ObjectDragInfo): (c: CoreState)
    ensures c.canvasObjects == RestoreObjects(core.canvasObjects, info.initialObjectStates)
    ensures c.(canvasObjects := core.canvasObjects, nodes := core.nodes) == core
  {
    core.(canvasObjects := RestoreObjects(core.canvasObjects, info.initialObjectStates),
          nodes := info.initialNodeStates.GetOr(core.nodes))
  }

  /** Restoring the recorded states after any gesture movement gives back
      the drawings the gesture started from, when the states were taken
      from them. */
  lemma RestoreUndoesGesture(objs: seq<CanvasObject>, sel: seq<string>, info: ObjectDragInfo, d: Point)
    requires DistinctObjectIds(objs)
    requires forall o :: o in info.initialObjectStates ==> o in objs
    ensures RestoreObjects(GestureObjects(objs, sel, info, d), info.initialObjectStates) == objs
  {
    var moved := GestureObjects(objs, sel, info, d);
    var r := RestoreObjects(moved, info.initialObjectStates);
    forall i | 0 <= i < |objs| ensures r[i] == objs[i] {
      var l := LookupObject(info.initialObjectStates, objs[i].id);
      if l.Some? {
        var j :| 0 <= j < |objs| && objs[j] == l.value;
        assert objs[j].id == objs[i].id;
        if i < j { assert false; }
        if j < i { assert false; }
      }
    }
  }

  /** The corrected snapshot keeps every drawing the gesture did not touch,
      in place. */
  lemma ObjectSnapshotKeepsUntouched(core: CoreState, info: ObjectDragInfo, k: int)
    requires 0 <= k < |core.canvasObjects|
    requires LookupObject(info.initialObjectStates, core.canvasObjects[k].id).None?
    ensures |ObjectSnapshot(core, info).canvasObjects| == |core.canvasObjects|
    ensures ObjectSnapshot(core, info).canvasObjects[k] == core.canvasObjects[k]
  {
  }

  /** A drawing still being drawn is kept: a line whose ends differ, a
      shape at least one unit wide and high; text never needs the check. */
  predicate ValidDrawing(o: CanvasObject) {
    match o
    case Line(_, start, end, _, _, _, _, _) => start != end
    case Shape(_, _, _, size, _, _, _, _, _, _) => size.width >= 1 && size.height >= 1
    case TextBox(_, _, _, _, _, _, _) => true
  }

  /** Node and selection rectangles overlap (strictly). */
  predicate Overlaps(n: Node, r: Rectangle) {
    && n.pos.x < r.x + r.width && n.pos.x + n.size.width > r.x
    && n.pos.y < r.y + r.height && n.pos.y + n.size.height > r.y
  }

  /** The ids of the nodes a selection rectangle touches, each once, in
      document order. */
  function HitIds(nodes: seq<Node>, rect: Rectangle): (r: seq<int>)
    ensures Distinct(r)
    ensures forall x :: x in r <==> exists n :: n in nodes && n.id == x && Overlaps(n, rect)
  {
    if |nodes| == 0 then []
    else
      var init := nodes[..|nodes| - 1];
      var last := nodes[|nodes| - 1];
      var prev := HitIds(init, rect);
      assert forall n :: n in nodes <==> n in init || n == last;
      if Overlaps(last, rect) && last.id !in prev then prev + [last.id] else prev
  }

  /** The undo snapshot a node gesture leaves: the document with the
      dragged nodes at their recorded positions or the resized node at its
      starting size. Nothing for a drag with no recorded position. */
  function NodeGestureSnapshot(core: CoreState, ui: Ui): (c: Option<CoreState>)
    ensures ui.dragInfo.isDragging && |ui.dragInfo.initialNodePositions| > 0 ==>
              c == Some(core.(nodes := PreDrag(core.nodes, ui.dragInfo.initialNodePositions)))
    ensures !(ui.dragInfo.isDragging && |ui.dragInfo.initialNodePositions| > 0) && ui.resizeInfo.Some? ==>
              c == Some(core.(nodes := PreResize(core.nodes, ui.resizeInfo.value)))
    ensures c.Some? ==> c.value.(nodes := core.nodes) == core
    ensures c.None? <==> !(ui.dragInfo.isDragging && |ui.dragInfo.initialNodePositions| > 0) && ui.resizeInfo.None?
  {
    if ui.dragInfo.isDragging && |ui.dragInfo.initialNodePositions| > 0 then
      Some(core.(nodes := PreDrag(core.nodes, ui.dragInfo.initialNodePositions)))
    else if ui.resizeInfo.Some? then Some(core.(nodes := PreResize(core.nodes, ui.resizeInfo.value)))
    else None
  }

  /** handleMouseUp. A canvas-object gesture ends with one snapshot and
      nothing else; a drawing in progress is committed when valid and
      dropped either way; otherwise a node drag or resize pushes one
      snapshot (marking a file-backed document dirty), every gesture flag
      is reset, a selection rectangle selects the nodes it touches, and a
      connection dropped away from a port opens the canvas menu at `client`.
      `rect` is the selection rectangle in canvas units. */
  function HandleMouseUp(s: AppState, rect: Rectangle, onPort: bool, client: Point): (r: AppState)
    ensures Consistent(s) ==> Consistent(r)
    ensures s.ui.canvasObjectDragInfo.Some? ==>
              && r.core == s.core && r.derived == s.derived
              && r.past == s.past + [ObjectSnapshot(s.core, s.ui.canvasObjectDragInfo.value)] && r.future == []
              && r.ui == s.ui.(canvasObjectDragInfo := None)
    ensures s.ui.canvasObjectDragInfo.None? && s.ui.drawingObject.Some? ==>
              && r.ui.drawingObject.None?
              && (ValidDrawing(s.ui.drawingObject.value) ==>
                    && r.core == s.core.(canvasObjects := s.core.canvasObjects + [s.ui.drawingObject.value])
                    && r.past == s.past + [s.core] && r.future == [])
              && (!ValidDrawing(s.ui.drawingObject.value) ==>
                    r == s.(ui := s.ui.(drawingObject := None)))
    ensures s.ui.canvasObjectDragInfo.None? && s.ui.drawingObject.None? ==>
              && r.core == s.core && r.derived == s.derived
              && (match NodeGestureSnapshot(s.core, s.ui)
                  case Some(snap) => r.past == s.past + [snap] && r.future == []
                  case None => r.past == s.past && r.future == s.future)
              && !r.ui.isPanning && !r.ui.isSelecting && r.ui.selectionStart.None? && r.ui.selectionRect.None?
              && r.ui.resizeInfo.None? && !r.ui.dragInfo.isDragging
              && r.ui.selectedNodeIds == (if s.ui.isSelecting && s.ui.selectionRect.Some? then HitIds(s.core.nodes, rect)
                                          else s.ui.selectedNodeIds)
              && (s.ui.connectingInfo.Some? && !onPort ==> r.ui.contextMenu == Some(ContextMenu(client.x, client.y, OnCanvas)))
  {
    match s.ui.canvasObjectDragInfo
    case Some(info) =>
      s.(past := s.past + [ObjectSnapshot(s.core, info)], future := [], ui := s.ui.(canvasObjectDragInfo := None))
    case None =>
      match s.ui.drawingObject
      case Some(obj) => ReleaseDrawing(s, obj)
      case None => ReleaseNodeGesture(s, rect, onPort, client)
  }

  /** The mouse-up that ends a drawing: a valid drawing is committed, and
      the drawing in progress is dropped either way. */
  function ReleaseDrawing(s: AppState, obj: CanvasObject): (r: AppState)
    ensures Consistent(s) ==> Consistent(r)
    ensures r.ui.drawingObject.None?
    ensures ValidDrawing(obj) ==>
              && r.core == s.core.(canvasObjects := s.core.canvasObjects + [obj])
              && r.past == s.past + [s.core] && r.future == []
    ensures !ValidDrawing(obj) ==> r == s.(ui := s.ui.(drawingObject := None))
  {
    var t := if ValidDrawing(obj)
             then Commit(s, NoChange().(canvasObjects := Some(s.core.canvasObjects + [obj])))
             else s;
    t.(ui := t.ui.(drawingObject := None))
  }

  /** The mouse-up that ends a node gesture (or none): a node drag or
      resize pushes its snapshot, the gesture flags are reset, a selection
      rectangle selects what it touches, and a connection dropped away from
      a port opens the canvas menu. */
  function ReleaseNodeGesture(s: AppState, rect: Rectangle, onPort: bool, client: Point): (r: AppState)
    ensures r.core == s.core && r.derived == s.derived
    ensures match NodeGestureSnapshot(s.core, s.ui)
            case Some(snap) => r.past == s.past + [snap] && r.future == []
            case None => r.past == s.past && r.future == s.future
    ensures !r.ui.isPanning && !r.ui.isSelecting && r.ui.selectionStart.None? && r.ui.selectionRect.None?
    ensures r.ui.resizeInfo.None? && !r.ui.dragInfo.isDragging
    ensures r.ui.selectedNodeIds == (if s.ui.isSelecting && s.ui.selectionRect.Some? then HitIds(s.core.nodes, rect)
                                     else s.ui.selectedNodeIds)
    ensures s.ui.connectingInfo.Some? && !onPort ==> r.ui.contextMenu == Some(ContextMenu(client.x, client.y, OnCanvas))
  {
    var snap := NodeGestureSnapshot(s.core, s.ui);
    var ui := s.ui.(isPanning := false, isSelecting := false, selectionStart := None, resizeInfo := None,
                    dragInfo := s.ui.dragInfo.(isDragging := false), selectionRect := None,
                    isFileDirty := if snap.Some? && s.ui.editingMode == File then true else s.ui.isFileDirty,
                    selectedNodeIds := if s.ui.isSelecting && s.ui.selectionRect.Some? then HitIds(s.core.nodes, rect)
                                       else s.ui.selectedNodeIds,
                    contextMenu := if s.ui.connectingInfo.Some? && !onPort
                                   then Some(ContextMenu(client.x, client.y, OnCanvas)) else s.ui.contextMenu);
    match snap
    case Some(c) => s.(past := s.past + [c], future := [], ui := ui)
    case None => s.(ui := ui)
  }

  /** handleMouseUp as the code stands: a canvas-object gesture pushes the
      as-written snapshot, which holds only the gesture's drawings; every
      other case is the same. */
  function HandleMouseUpAsWritten(s: AppState, rect: Rectangle, onPort: bool, client: Point): (r: AppState)
    ensures s.ui.canvasObjectDragInfo.Some? ==>
              && r.core == s.core && r.derived == s.derived
              && r.past == s.past + [ObjectSnapshotAsWritten(s.core, s.ui.canvasObjectDragInfo.value)]
              && r.future == [] && r.ui == s.ui.(canvasObjectDragInfo := None)
    ensures s.ui.canvasObjectDragInfo.None? ==> r == HandleMouseUp(s, rect, onPort, client)
  {
    match s.ui.canvasObjectDragInfo
    case Some(info) =>
      s.(past := s.past + [ObjectSnapshotAsWritten(s.core, info)], future := [], ui := s.ui.(canvasObjectDragInfo := None))
    case None => HandleMouseUp(s, rect, onPort, client)
  }

  /** A grab on a free node, without shift on an already selected node,
      starts a node drag with at least one recorded position. */
  lemma GrabStartsDrag(s: AppState, id: int, shift: bool)
    requires s.ui.drawingMode.None? && Grabbable(s.core.nodes, id)
    requires s.ui.canvasObjectDragInfo.None? && s.ui.drawingObject.None? && !s.ui.isPanning
    requires !(shift && id in s.ui.selectedNodeIds)
    ensures var s1 := NodeMouseDown(s, id, shift);
            && GestureOf(s1.ui) == NodeDrag
            && |s1.ui.dragInfo.initialNodePositions| > 0
            && s1.ui.dragInfo.initialNodePositions == InitialPositions(s.core.nodes, s1.ui.selectedNodeIds)
  {
    var s1 := NodeMouseDown(s, id, shift);
    var initial := s1.ui.dragInfo.initialNodePositions;
    assert id in s1.ui.selectedNodeIds;
    assert LookupPos(initial, id) == PosOf(s.core.nodes, id);
  }

  /** Releasing a node drag with recorded positions pushes the document
      with those positions put back. */
  lemma ReleaseDragSnapshot(s: AppState, rect: Rectangle, onPort: bool, client: Point)
    requires s.ui.canvasObjectDragInfo.None? && s.ui.drawingObject.None?
    requires s.ui.dragInfo.isDragging && |s.ui.dragInfo.initialNodePositions| > 0
    ensures HandleMouseUp(s, rect, onPort, client).past
            == s.past + [s.core.(nodes := PreDrag(s.core.nodes, s.ui.dragInfo.initialNodePositions))]
  {
  }

  /** A move during a node drag moves the dragged nodes and leaves the
      gesture as it is. */
  lemma MoveDuringDrag(s: AppState, mouse: Point, at: Point, d: Point)
    requires GestureOf(s.ui) == NodeDrag
    ensures var r := HandleMouseMove(s, mouse, at, d);
            && r.core.nodes == Dragged(s.core.nodes, s.ui.selectedNodeIds, s.ui.dragInfo.initialNodePositions, d)
            && r.ui.dragInfo == s.ui.dragInfo && r.past == s.past
            && r.ui.canvasObjectDragInfo.None? && r.ui.drawingObject.None?
  {
  }

  /** Grab, drag, release, undo: one undo step brings back the document the
      drag started from. */
  lemma UndoNodeDrag(s: AppState, id: int, shift: bool, mouse: Point, at: Point, d: Point, rect: Rectangle,
                     onPort: bool, client: Point)
    requires Consistent(s) && DistinctIds(s.core.nodes)
    requires s.ui.drawingMode.None? && Grabbable(s.core.nodes, id)
    requires s.ui.canvasObjectDragInfo.None? && s.ui.drawingObject.None? && !s.ui.isPanning
    requires !(shift && id in s.ui.selectedNodeIds)
    ensures Undo(HandleMouseUp(HandleMouseMove(NodeMouseDown(s, id, shift), mouse, at, d), rect, onPort, client)).core
            == s.core
  {
    var s1 := NodeMouseDown(s, id, shift);
    GrabStartsDrag(s, id, shift);
    var sel := s1.ui.selectedNodeIds;
    var initial := s1.ui.dragInfo.initialNodePositions;
    var s2 := HandleMouseMove(s1, mouse, at, d);
    MoveDuringDrag(s1, mouse, at, d);
    ReleaseDragSnapshot(s2, rect, onPort, client);
    PreDragUndoesDrag(s.core.nodes, sel, d);
    var s3 := HandleMouseUp(s2, rect, onPort, client);
    assert s3.past == s.past + [s.core];
  }

  /** Move or resize drawings, release, undo: one undo step brings back the
      document the gesture started from, when its recorded states were
      taken from that document. */
  lemma UndoObjectGesture(s: AppState, mouse: Point, at: Point, d: Point, rect: Rectangle, onPort: bool, client: Point)
    requires Consistent(s) && s.ui.canvasObjectDragInfo.Some?
    requires DistinctObjectIds(s.core.canvasObjects)
    requires forall o :: o in s.ui.canvasObjectDragInfo.value.initialObjectStates ==> o in s.core.canvasObjects
    requires s.ui.canvasObjectDragInfo.value.initialNodeStates in {None, Some(s.core.nodes)}
    ensures Undo(HandleMouseUp(HandleMouseMove(s, mouse, at, d), rect, onPort, client)).core == s.core
  {
    var info := s.ui.canvasObjectDragInfo.value;
    var s2 := HandleMouseMove(s, mouse, at, d);
    RestoreUndoesGesture(s.core.canvasObjects, s.ui.selectedCanvasObjectIds, info, d);
    var s3 := HandleMouseUp(s2, rect, onPort, client);
    assert s3.past == s.past + [s.core];
  }

  /** Move or resize drawings, release, undo, as the code stands: every
      drawing the gesture did not touch is missing from the document the
      undo brings back. */
  lemma UndoObjectGestureAsWritten(s: AppState, mouse: Point, at: Point, d: Point, rect: Rectangle,
                                   onPort: bool, client: Point, k: int)
    requires s.ui.canvasObjectDragInfo.Some?
    requires 0 <= k < |s.core.canvasObjects|
    requires LookupObject(s.ui.canvasObjectDragInfo.value.initialObjectStates, s.core.canvasObjects[k].id).None?
    ensures s.core.canvasObjects[k]
              !in Undo(HandleMouseUpAsWritten(HandleMouseMove(s, mouse, at, d), rect, onPort, client)).core.canvasObjects
  {
    var info := s.ui.canvasObjectDragInfo.value;
    var s2 := HandleMouseMove(s, mouse, at, d);
    assert s2.ui == s.ui;
    var s3 := HandleMouseUpAsWritten(s2, rect, onPort, client);
    assert s3.past[|s3.past| - 1] == ObjectSnapshotAsWritten(s2.core, info);
    ObjectSnapshotAsWrittenDropsUntouched(s.core, info, k);
  }
}

=== FILE: changelog.dfy ===
/** The paged changelog of the information dialog
    (components/ChangelogModal.tsx): five entries a page, with previous and
    next buttons that stop at the ends. */
module Changelog {
  const ItemsPerPage: nat := 5

  /** `Math.ceil(n / 5)`: the number of pages; none for an empty log. */
  function TotalPages(n: nat): (r: nat)
    ensures r * ItemsPerPage >= n
    ensures r > 0 ==> (r - 1) * ItemsPerPage < n
  {
    (n + ItemsPerPage - 1) / ItemsPerPage
  }

  /** Array.prototype.slice(a, b) for non-negative bounds: both are cut
      down to the length, and crossed bounds give nothing. */
  function Slice<T>(s: seq<T>, a: nat, b: nat): (r: seq<T>)
    ensures a <= b <= |s| ==> r == s[a..b]
    ensures |s| <= a || b <= a ==> r == []
  {
    var lo := if a < |s| then a else |s|;
    var hi := if b < |s| then b else |s|;
    if lo < hi then s[lo..hi] else []
  }

  /** The entries shown on page `page` (counted from 0). */
  function PageItems<T>(items: seq<T>, page: nat): (r: seq<T>)
    ensures |r| <= ItemsPerPage
    ensures page < TotalPages(|items|) ==> 0 < |r|
    ensures page >= TotalPages(|items|) ==> r == []
  {
    Slice(items, page * ItemsPerPage, (page + 1) * ItemsPerPage)
  }

  /** The pages from `page` on, one after the other. */
  function PagesFrom<T>(items: seq<T>, page: nat): seq<T>
    decreases TotalPages(|items|) - page
  {
    if page >= TotalPages(|items|) then []
    else PageItems(items, page) + PagesFrom(items, page + 1)
  }

  /** Reading every page in order gives every entry once, in order: the
      pages cut the log without gap or overlap. */
  lemma {:induction false} PagesCover<T>(items: seq<T>, page: nat)
    requires page <= TotalPages(|items|)
    ensures PagesFrom(items, page) == items[Min(page * ItemsPerPage, |items|)..]
    decreases TotalPages(|items|) - page
  {
    if page < TotalPages(|items|) {
      PagesCover(items, page + 1);
      var lo := page * ItemsPerPage;
      var hi := Min((page + 1) * ItemsPerPage, |items|);
      assert PageItems(items, page) == items[lo..hi];
      assert items[lo..hi] + items[hi..] == items[lo..];
    } else {
      assert page * ItemsPerPage >= |items|;
    }
  }

  function Min(a: int, b: int): int {
    if a < b then a else b
  }

  /** All pages together are the whole log. */
  lemma AllPages<T>(items: seq<T>)
    ensures PagesFrom(items, 0) == items
  {
    PagesCover(items, 0);
  }

  /** The previous-page button: `Math.max(0, p - 1)`. */
  function Prev(page: int): (r: int)
    ensures r >= 0
    ensures page > 0 ==> r == page - 1
    ensures page <= 0 ==> r == 0
  {
    if page - 1 > 0 then page - 1 else 0
  }

  /** The next-page button: `Math.min(totalPages - 1, p + 1)`. */
  function Next(page: int, total: int): (r: int)
    ensures r <= total - 1
    ensures page < total - 1 ==> r == page + 1
    ensures page >= total - 1 ==> r == total - 1
  {
    if total - 1 < page + 1 then total - 1 else page + 1
  }

  predicate PrevDisabled(page: int) {
    page == 0
  }

  predicate NextDisabled(page: int, total: int) {
    page >= total - 1
  }

  /** From a page that exists the buttons only reach pages that exist; an
      enabled button moves exactly one page and its click is undone by the
      other button. */
  lemma NavigationStaysInRange(page: int, total: int)
    requires 0 <= page < total
    ensures 0 <= Prev(page) < total && 0 <= Next(page, total) < total
    ensures !PrevDisabled(page) ==> Prev(page) == page - 1 && Next(Prev(page), total) == page
    ensures !NextDisabled(page, total) ==> Next(page, total) == page + 1 && Prev(Next(page, total)) == page
    ensures PrevDisabled(page) ==> Prev(page) == page
    ensures NextDisabled(page, total) ==> Next(page, total) == page
  {
  }

  /** With an empty log both buttons are disabled; the next button would
      lead to page -1 if it could be clicked. */
  lemma EmptyLog()
    ensures TotalPages(0) == 0
    ensures PrevDisabled(0) && NextDisabled(0, TotalPages(0))
    ensures Next(0, TotalPages(0)) == -1
  {
  }

  /** Clicking next `k` times from the first page. */
  function NextTimes(page: int, total: int, k: nat): int {
    if k == 0 then page else Next(NextTimes(page, total, k - 1), total)
  }

  /** Clicking next from the first page walks the pages in order and then
      stays on the last. */
  lemma {:induction false} NextWalks(total: int, k: nat)
    requires total > 0
    ensures NextTimes(0, total, k) == Min(k, total - 1)
  {
    if k > 0 {
      NextWalks(total, k - 1);
    }
  }
}

=== FILE: clipboard.dfy ===
/** Copy and paste of nodes (storeActionsClipboard.ts). Copying keeps the
    selected nodes and the connections running between them; pasting adds
    fresh copies with consecutive new ids, moved so that their bounding
    box's top-left corner lands on the paste point, and rewires the copied
    connections to the copies. */
module ClipboardActions {
  import opened Common
  import opened Types
  import opened Store
  import Utils

  /** copySelection: nothing happens for an empty selection; otherwise the
      clipboard holds the selected nodes and exactly the connections with
      both ends selected, each in document order. */
  function CopySelection(s: AppState): (r: AppState)
    ensures |s.ui.selectedNodeIds| == 0 ==> r == s
    ensures |s.ui.selectedNodeIds| > 0 ==>
              && r.ui.clipboard.Some?
              && (forall n :: n in r.ui.clipboard.value.nodes <==> n in s.core.nodes && n.id in s.ui.selectedNodeIds)
              && (forall c :: c in r.ui.clipboard.value.connections <==>
                    c in s.core.connections && c.fromNode in s.ui.selectedNodeIds && c.toNode in s.ui.selectedNodeIds)
              && r == s.(ui := s.ui.(clipboard := r.ui.clipboard))
  {
    if |s.ui.selectedNodeIds| == 0 then s
    else
      var sel := s.ui.selectedNodeIds;
      var clip := Clipboard(Filter(s.core.nodes, (n: Node) => n.id in sel),
                            Filter(s.core.connections, (c: Connection) => c.fromNode in sel && c.toNode in sel));
      s.(ui := s.ui.(clipboard := Some(clip)))
  }

  /** Every copied connection runs between copied nodes, which is what
      pasting relies on to rewire it. */
  predicate Closed(clip: Clipboard) {
    forall c :: c in clip.connections ==> c.fromNode in Ids(clip.nodes) && c.toNode in Ids(clip.nodes)
  }

  /** In a document whose connections name existing nodes, a copy is closed. */
  lemma CopyIsClosed(s: AppState)
    requires forall c :: c in s.core.connections ==> c.fromNode in Ids(s.core.nodes) && c.toNode in Ids(s.core.nodes)
    requires |s.ui.selectedNodeIds| > 0
    ensures Closed(CopySelection(s).ui.clipboard.value)
  {
    var clip := CopySelection(s).ui.clipboard.value;
    var sel := s.ui.selectedNodeIds;
    forall c | c in clip.connections ensures c.fromNode in Ids(clip.nodes) && c.toNode in Ids(clip.nodes) {
      SelectedIsCopied(s.core.nodes, sel, clip.nodes, c.fromNode);
      SelectedIsCopied(s.core.nodes, sel, clip.nodes, c.toNode);
    }
  }

  /** A selected id of an existing node is the id of a copied node. */
  lemma SelectedIsCopied(nodes: seq<Node>, sel: seq<int>, copied: seq<Node>, x: int)
    requires forall n :: n in copied <==> n in nodes && n.id in sel
    requires x in Ids(nodes) && x in sel
    ensures x in Ids(copied)
  {
    var i :| 0 <= i < |nodes| && nodes[i].id == x;
    assert nodes[i] in copied;
    var j :| 0 <= j < |copied| && copied[j] == nodes[i];
    assert Ids(copied)[j] == x;
  }

  /** The smallest x and y of the copied nodes' positions. */
  function MinCorner(ns: seq<Node>): (r: Point)
    requires |ns| > 0
    ensures forall n :: n in ns ==> r.x <= n.pos.x && r.y <= n.pos.y
    ensures exists n :: n in ns && n.pos.x == r.x
    ensures exists n :: n in ns && n.pos.y == r.y
  {
    if |ns| == 1 then ns[0].pos
    else
      var m := MinCorner(ns[1..]);
      assert forall n :: n in ns ==> n == ns[0] || n in ns[1..];
      Point(if ns[0].pos.x < m.x then ns[0].pos.x else m.x, if ns[0].pos.y < m.y then ns[0].pos.y else m.y)
  }

  /** The offset that takes the copied nodes' top-left corner to `at`. */
  function PasteShift(ns: seq<Node>, at: Point): Point {
    if |ns| == 0 then Point(0, 0) else Point(at.x - MinCorner(ns).x, at.y - MinCorner(ns).y)
  }

  /** The pasted copy of a node: new id, moved, not complete. */
  function Copy(n: Node, id: int, shift: Point): Node {
    n.(id := id, pos := Point(n.pos.x + shift.x, n.pos.y + shift.y), isComplete := false)
  }

  /** The copies, made one after another as pasting does: each takes the
      fresh id of the document plus the copies made before it. */
  function FreshCopies(nodes: seq<Node>, clip: seq<Node>, shift: Point): (r: seq<Node>)
    ensures |r| == |clip|
    ensures forall i :: 0 <= i < |clip| ==> r[i] == Copy(clip[i], Utils.NewNodeId(nodes) + i, shift)
  {
    if |clip| == 0 then []
    else
      var prev := FreshCopies(nodes, clip[..|clip| - 1], shift);
      var id := Utils.NewNodeId(nodes + prev);
      NextFreshId(nodes, prev);
      prev + [Copy(clip[|clip| - 1], id, shift)]
  }

  /** Appending nodes numbered consecutively from the fresh id moves the
      fresh id on by their count. */
  lemma NextFreshId(nodes: seq<Node>, added: seq<Node>)
    requires forall i :: 0 <= i < |added| ==> added[i].id == Utils.NewNodeId(nodes) + i
    ensures Utils.NewNodeId(nodes + added) == Utils.NewNodeId(nodes) + |added|
  {
    var base := Utils.NewNodeId(nodes);
    var r := Utils.NewNodeId(nodes + added);
    if |added| == 0 {
      assert nodes + added == nodes;
    } else {
      var last := added[|added| - 1];
      assert last in nodes + added;
      assert r > base + |added| - 1;
      var w :| w in nodes + added && w.id == r - 1;
      assert w !in nodes;
      var i :| 0 <= i < |added| && added[i] == w;
    }
  }

  /** `idMap.get`: the id of the copy of the last copied node with id `x`
      (later `Map.set` calls overwrite earlier ones). */
  function RemapId(clip: seq<Node>, base: int, x: int): (r: Option<int>)
    ensures r.None? <==> x !in Ids(clip)
    ensures r.Some? ==> exists i :: 0 <= i < |clip| && clip[i].id == x && r.value == base + i
  {
    if |clip| == 0 then None
    else if clip[|clip| - 1].id == x then Some(base + |clip| - 1)
    else
      var r := RemapId(clip[..|clip| - 1], base, x);
      assert Ids(clip) == Ids(clip[..|clip| - 1]) + [clip[|clip| - 1].id];
      r
  }

  /** The copied connections with both ends moved to the copies. */
  function Rewire(conns: seq<Connection>, clip: seq<Node>, base: int): (r: seq<Connection>)
    requires forall c :: c in conns ==> c.fromNode in Ids(clip) && c.toNode in Ids(clip)
    ensures |r| == |conns|
    ensures forall j :: 0 <= j < |conns| ==>
              r[j] == conns[j].(fromNode := RemapId(clip, base, conns[j].fromNode).value,
                                toNode := RemapId(clip, base, conns[j].toNode).value)
  {
    seq(|conns|, j requires 0 <= j < |conns| =>
      conns[j].(fromNode := RemapId(clip, base, conns[j].fromNode).value,
                toNode := RemapId(clip, base, conns[j].toNode).value))
  }

  /** The rewired connections run between the copies. */
  lemma RewiredBetweenCopies(nodes: seq<Node>, clip: Clipboard, at: Point)
    requires Closed(clip)
    ensures var copies := FreshCopies(nodes, clip.nodes, PasteShift(clip.nodes, at));
            var conns := Rewire(clip.connections, clip.nodes, Utils.NewNodeId(nodes));
            forall j :: 0 <= j < |conns| ==> conns[j].fromNode in Ids(copies) && conns[j].toNode in Ids(copies)
  {
    var base := Utils.NewNodeId(nodes);
    var copies := FreshCopies(nodes, clip.nodes, PasteShift(clip.nodes, at));
    var conns := Rewire(clip.connections, clip.nodes, base);
    assert forall i :: 0 <= i < |copies| ==> copies[i].id == base + i;
    forall j | 0 <= j < |conns| ensures conns[j].fromNode in Ids(copies) && conns[j].toNode in Ids(copies) {
      assert clip.connections[j] in clip.connections;
      RemappedIsCopy(clip.nodes, base, copies, clip.connections[j].fromNode);
      RemappedIsCopy(clip.nodes, base, copies, clip.connections[j].toNode);
    }
  }

  /** A copied id is remapped to the id of one of the copies, for copies
      numbered consecutively from `base`. */
  lemma RemappedIsCopy(clip: seq<Node>, base: int, copies: seq<Node>, x: int)
    requires |copies| == |clip| && forall i :: 0 <= i < |copies| ==> copies[i].id == base + i
    requires x in Ids(clip)
    ensures RemapId(clip, base, x).value in Ids(copies)
  {
    var a :| 0 <= a < |clip| && clip[a].id == x && RemapId(clip, base, x).value == base + a;
    assert Ids(copies)[a] == base + a;
  }

  /** pasteFromClipboard: nothing happens with an empty clipboard;
      otherwise one commit appends the copies and the rewired connections,
      and the selection becomes the copies. `at` is the paste point in
      canvas units. */
  function Paste(s: AppState, at: Point): (r: AppState)
    requires s.ui.clipboard.Some? ==> Closed(s.ui.clipboard.value)
    ensures s.ui.clipboard.None? ==> r == s
    ensures s.ui.clipboard.Some? ==>
              var clip := s.ui.clipboard.value;
              var copies := FreshCopies(s.core.nodes, clip.nodes, PasteShift(clip.nodes, at));
              && r.core.nodes == s.core.nodes + copies
              && r.core.connections == s.core.connections + Rewire(clip.connections, clip.nodes, Utils.NewNodeId(s.core.nodes))
              && r.core.(nodes := s.core.nodes, connections := s.core.connections) == s.core
              && r.past == s.past + [s.core] && r.future == []
              && r.ui.selectedNodeIds == Ids(copies)
  {
    match s.ui.clipboard
    case None => s
    case Some(clip) =>
      var copies := FreshCopies(s.core.nodes, clip.nodes, PasteShift(clip.nodes, at));
      var conns := Rewire(clip.connections, clip.nodes, Utils.NewNodeId(s.core.nodes));
      var t := Commit(s, NoChange().(nodes := Some(s.core.nodes + copies),
                                     connections := Some(s.core.connections + conns)));
      t.(ui := t.ui.(selectedNodeIds := Ids(copies)))
  }

  /** Pasting keeps node ids distinct: the copies' ids are consecutive and
      above every id in use. */
  lemma PasteKeepsIdsDistinct(s: AppState, at: Point)
    requires s.ui.clipboard.Some? && Closed(s.ui.clipboard.value)
    requires DistinctIds(s.core.nodes)
    ensures DistinctIds(Paste(s, at).core.nodes)
    ensures Distinct(Paste(s, at).ui.selectedNodeIds)
  {
    var clip := s.ui.clipboard.value;
    var copies := FreshCopies(s.core.nodes, clip.nodes, PasteShift(clip.nodes, at));
    AppendConsecutive(s.core.nodes, copies);
  }

  /** Nodes numbered consecutively from the fresh id have distinct ids, and
      appending them to a duplicate-free list keeps it duplicate-free. */
  lemma AppendConsecutive(nodes: seq<Node>, added: seq<Node>)
    requires DistinctIds(nodes)
    requires forall i :: 0 <= i < |added| ==> added[i].id == Utils.NewNodeId(nodes) + i
    ensures DistinctIds(nodes + added)
    ensures Distinct(Ids(added))
  {
    var r := nodes + added;
    var n := |nodes|;
    forall i, j | 0 <= i < j < |r| ensures r[i].id != r[j].id {
      if j >= n {
        assert r[j] == added[j - n];
        if i < n {
          assert r[i] == nodes[i];
          assert nodes[i] in nodes;
        } else {
          assert r[i] == added[i - n];
        }
      } else {
        assert r[i] == nodes[i] && r[j] == nodes[j];
      }
    }
  }

  /** Each copy sits at its original's position plus the shift. */
  lemma CopyPositions(nodes: seq<Node>, clip: seq<Node>, shift: Point)
    ensures var copies := FreshCopies(nodes, clip, shift);
            forall i :: 0 <= i < |clip| ==>
              copies[i].pos == Point(clip[i].pos.x + shift.x, clip[i].pos.y + shift.y)
  {
  }

  /** Pasting keeps the copies' layout: offsets between copies equal those
      between the originals. */
  lemma CopiesKeepOffsets(nodes: seq<Node>, clip: seq<Node>, at: Point)
    ensures var copies := FreshCopies(nodes, clip, PasteShift(clip, at));
            forall i, j :: 0 <= i < |clip| && 0 <= j < |clip| ==>
              && copies[i].pos.x - copies[j].pos.x == clip[i].pos.x - clip[j].pos.x
              && copies[i].pos.y - copies[j].pos.y == clip[i].pos.y - clip[j].pos.y
  {
    CopyPositions(nodes, clip, PasteShift(clip, at));
  }

  /** The top-left corner of the nodes' positions is `at`: no node lies
      left of or above it, and some node lies on each of its two edges. */
  predicate CornerAt(ns: seq<Node>, at: Point) {
    && (forall i :: 0 <= i < |ns| ==> at.x <= ns[i].pos.x && at.y <= ns[i].pos.y)
    && (exists i :: 0 <= i < |ns| && ns[i].pos.x == at.x)
    && (exists i :: 0 <= i < |ns| && ns[i].pos.y == at.y)
  }

  /** The copies' top-left corner is the paste point. */
  lemma CopiesCornerAt(nodes: seq<Node>, clip: seq<Node>, at: Point)
    requires |clip| > 0
    ensures CornerAt(FreshCopies(nodes, clip, PasteShift(clip, at)), at)
  {
    var shift := PasteShift(clip, at);
    CopyPositions(nodes, clip, shift);
    ShiftedCorner(clip, FreshCopies(nodes, clip, shift), shift, MinCorner(clip), at);
  }

  /** Moving nodes by `at` minus their corner `m` puts the corner of the
      moved nodes at `at`. */
  lemma ShiftedCorner(clip: seq<Node>, copies: seq<Node>, shift: Point, m: Point, at: Point)
    requires |copies| == |clip|
    requires shift == Point(at.x - m.x, at.y - m.y)
    requires forall i :: 0 <= i < |clip| ==>
               copies[i].pos == Point(clip[i].pos.x + shift.x, clip[i].pos.y + shift.y)
    requires forall n :: n in clip ==> m.x <= n.pos.x && m.y <= n.pos.y
    requires exists n :: n in clip && n.pos.x == m.x
    requires exists n :: n in clip && n.pos.y == m.y
    ensures CornerAt(copies, at)
  {
    forall i | 0 <= i < |copies| ensures at.x <= copies[i].pos.x && at.y <= copies[i].pos.y {
      assert clip[i] in clip;
    }
    var a :| a in clip && a.pos.x == m.x;
    var i :| 0 <= i < |clip| && clip[i] == a;
    assert copies[i].pos.x == at.x;
    var b :| b in clip && b.pos.y == m.y;
    var j :| 0 <= j < |clip| && clip[j] == b;
    assert copies[j].pos.y == at.y;
  }

  /** With distinct copied ids, a copied connection between the k-th and
      l-th copied nodes becomes a connection between the k-th and l-th
      copies. */
  lemma RewireFollowsCopies(clip: Clipboard, base: int, j: int, k: int, l: int)
    requires Closed(clip) && DistinctIds(clip.nodes)
    requires 0 <= j < |clip.connections| && 0 <= k < |clip.nodes| && 0 <= l < |clip.nodes|
    requires clip.connections[j].fromNode == clip.nodes[k].id && clip.connections[j].toNode == clip.nodes[l].id
    ensures Rewire(clip.connections, clip.nodes, base)[j].fromNode == base + k
    ensures Rewire(clip.connections, clip.nodes, base)[j].toNode == base + l
  {
    var c := clip.connections[j];
    assert c in clip.connections;
    var a :| 0 <= a < |clip.nodes| && clip.nodes[a].id == c.fromNode
             && RemapId(clip.nodes, base, c.fromNode).value == base + a;
    if a < k { assert false; }
    if k < a { assert false; }
    var b :| 0 <= b < |clip.nodes| && clip.nodes[b].id == c.toNode
             && RemapId(clip.nodes, base, c.toNode).value == base + b;
    if b < l { assert false; }
    if l < b { assert false; }
  }
}

=== FILE: common.dfy ===
/** Shared vocabulary of the model: optional values, the array helpers the
    store leans on (filter, distinctness, last-match lookup) and the
    whitespace trimming JavaScript's String.prototype.trim performs. */
module Common {

  /** A value that may be absent: `null`/`undefined` in the store. */
  datatype Option<+T> = None | Some(value: T) {
    /** The `??` operator: the value when present, otherwise the default. */
    function GetOr(default: T): T {
      match this
      case Some(v) => v
      case None => default
    }
  }

  /** No element occurs twice: the shape of a JavaScript Set kept as an
      insertion-ordered sequence. */
  predicate Distinct<T(==)>(s: seq<T>) {
    forall i, j :: 0 <= i < j < |s| ==> s[i] != s[j]
  }

  /** Array.prototype.filter: the elements satisfying `keep`, in order. */
  function Filter<T(==, !new)>(s: seq<T>, keep: T -> bool): (r: seq<T>)
    ensures |r| <= |s|
    ensures forall x :: x in r <==> x in s && keep(x)
    ensures Distinct(s) ==> Distinct(r)
  {
    if |s| == 0 then []
    else
      var rest := Filter(s[1..], keep);
      assert forall x :: x in s <==> x == s[0] || x in s[1..];
      if keep(s[0]) then [s[0]] + rest else rest
  }

  /** Filtering with a predicate that holds everywhere keeps the sequence. */
  lemma {:induction false} FilterAll<T(!new)>(s: seq<T>, keep: T -> bool)
    requires forall i :: 0 <= i < |s| ==> keep(s[i])
    ensures Filter(s, keep) == s
  {
    if |s| > 0 {
      FilterAll(s[1..], keep);
    }
  }

  /** Filtering a one-element sequence. */
  lemma FilterSingle<T(!new)>(x: T, keep: T -> bool)
    ensures Filter([x], keep) == if keep(x) then [x] else []
  {
    assert [x][1..] == [];
  }

  /** Filtering distributes over concatenation. */
  lemma {:induction false} FilterConcat<T(!new)>(a: seq<T>, b: seq<T>, keep: T -> bool)
    ensures Filter(a + b, keep) == Filter(a, keep) + Filter(b, keep)
  {
    if |a| == 0 {
      assert a + b == b;
    } else {
      assert (a + b)[1..] == a[1..] + b;
      FilterConcat(a[1..], b, keep);
    }
  }

  /** Some element of a non-empty set. */
  lemma PickFrom<T>(s: set<T>) returns (x: T)
    requires s != {}
    ensures x in s
  {
    assert exists y :: y in s by {
      if forall y :: y !in s { assert false; }
    }
    x :| x in s;
  }

  /** The elements of a sequence as a set. */
  function Elements<T>(s: seq<T>): set<T> {
    set x | x in s
  }

  /** A duplicate-free sequence has as many distinct elements as entries. */
  lemma {:induction false} DistinctCard<T>(s: seq<T>)
    requires Distinct(s)
    ensures |Elements(s)| == |s|
  {
    if |s| > 0 {
      DistinctCard(s[1..]);
      assert Elements(s) == Elements(s[1..]) + {s[0]};
      assert s[0] !in Elements(s[1..]);
    }
  }

  /** Any sequence has at most as many distinct elements as entries. */
  lemma {:induction false} CardAtMostLength<T>(s: seq<T>)
    ensures |Elements(s)| <= |s|
  {
    if |s| > 0 {
      CardAtMostLength(s[1..]);
      assert Elements(s) == Elements(s[1..]) + {s[0]};
    }
  }

  /** A duplicate-free sequence drawn from `b` is no longer than `b`. */
  lemma DistinctWithinBound<T>(a: seq<T>, b: seq<T>)
    requires Distinct(a)
    requires forall x :: x in a ==> x in b
    ensures |a| <= |b|
  {
    DistinctCard(a);
    CardAtMostLength(b);
    SubsetCard(Elements(a), Elements(b));
  }

  /** A subset is no larger than its superset. */
  lemma SubsetCard<T>(a: set<T>, b: set<T>)
    requires a <= b
    ensures |a| <= |b|
  {
    assert b == a + (b - a);
  }

  /** Two duplicate-free sequences over a duplicate-free pool of the same
      length as the first: the first contains the whole pool. */
  lemma DistinctFillsPool<T>(a: seq<T>, pool: seq<T>)
    requires Distinct(a) && Distinct(pool)
    requires forall x :: x in a ==> x in pool
    requires |a| == |pool|
    ensures forall x :: x in pool ==> x in a
  {
    DistinctCard(a);
    DistinctCard(pool);
    assert Elements(a) <= Elements(pool);
    if exists x :: x in pool && x !in a {
      var x :| x in pool && x !in a;
      assert Elements(a) <= Elements(pool) - {x};
      SubsetCard(Elements(a), Elements(pool) - {x});
      assert false;
    }
  }

  /** The characters String.prototype.trim removes: the white space and
      line terminators of section 12.2 and 12.3 of ECMA-262 (tab, line
      feed, vertical tab, form feed, carriage return, space, no-break space,
      the byte order mark, the other space separators of Unicode category
      Zs, and the line and paragraph separators). */
  predicate IsSpace(c: char) {
    || c == ' ' || '\t' <= c <= '\r'
    || c == '\U{A0}' || c == '\U{1680}' || '\U{2000}' <= c <= '\U{200A}'
    || c == '\U{2028}' || c == '\U{2029}' || c == '\U{202F}' || c == '\U{205F}'
    || c == '\U{3000}' || c == '\U{FEFF}'
  }

  predicate AllSpace(s: string) {
    forall i :: 0 <= i < |s| ==> IsSpace(s[i])
  }

  /** Length of the leading run of whitespace. */
  function LeadingSpace(s: string): (n: nat)
    ensures n <= |s|
    ensures forall i :: 0 <= i < n ==> IsSpace(s[i])
    ensures n < |s| ==> !IsSpace(s[n])
  {
    SpaceRunFrom(s, 0)
  }

  /** Length of the whitespace run that starts at position `i`. */
  function SpaceRunFrom(s: string, i: nat): (n: nat)
    requires i <= |s|
    ensures i + n <= |s|
    ensures forall k :: i <= k < i + n ==> IsSpace(s[k])
    ensures i + n < |s| ==> !IsSpace(s[i + n])
    decreases |s| - i
  {
    if i == |s| || !IsSpace(s[i]) then 0 else 1 + SpaceRunFrom(s, i + 1)
  }

  /** Length of the trailing run of whitespace. */
  function TrailingSpace(s: string): (n: nat)
    ensures n <= |s|
    ensures forall i :: |s| - n <= i < |s| ==> IsSpace(s[i])
    ensures n < |s| ==> !IsSpace(s[|s| - n - 1])
  {
    SpaceRunBefore(s, |s|)
  }

  /** Length of the whitespace run that ends just before position `j`. */
  function SpaceRunBefore(s: string, j: nat): (n: nat)
    requires j <= |s|
    ensures n <= j
    ensures forall k :: j - n <= k < j ==> IsSpace(s[k])
    ensures n < j ==> !IsSpace(s[j - n - 1])
  {
    if j == 0 || !IsSpace(s[j - 1]) then 0 else 1 + SpaceRunBefore(s, j - 1)
  }

  /** Seven pieces joined, with the third and fifth cut out again: the
      rest in order. */
  lemma StripJoin<T>(a: seq<T>, b: seq<T>, p: seq<T>, c: seq<T>, q: seq<T>, d: seq<T>, e: seq<T>)
    ensures var t := a + b + p + c + q + d + e;
            var i := |a| + |b|;
            var j := i + |p| + |c|;
            t[..i] + t[i + |p|..j] + t[j + |q|..] == a + (b + c + d) + e
  {
    var t := a + b + p + c + q + d + e;
    var i := |a| + |b|;
    var j := i + |p| + |c|;
    assert t[..i] == a + b;
    assert t[i + |p|..j] == c;
    assert t[j + |q|..] == d + e;
  }

  /** A sequence cut at two points is the three pieces in order. */
  lemma SliceJoin<T>(s: seq<T>, i: nat, j: nat)
    requires i <= j <= |s|
    ensures s[..i] + s[i..j] + s[j..] == s
  {
    assert s[..i] + s[i..j] == s[..j];
    assert s[..j] + s[j..] == s;
  }

  /** The three pieces of a join are its slices. */
  lemma ThreeParts<T>(a: seq<T>, m: seq<T>, b: seq<T>)
    ensures var t := a + m + b;
            && t[..|a|] == a && t[|a|..|a| + |m|] == m && t[|a| + |m|..] == b
  {
  }

  /** The positions `i` to `j` of a text are all whitespace. */
  lemma SpaceSlice(s: string, i: nat, j: nat)
    requires i <= j <= |s| && forall k :: i <= k < j ==> IsSpace(s[k])
    ensures AllSpace(s[i..j])
  {
    assert forall k :: 0 <= k < j - i ==> s[i..j][k] == s[i + k];
  }

  /** String.prototype.trim: the text between the leading and trailing
      whitespace runs. */
  function Trim(s: string): (r: string)
    ensures |r| <= |s|
    ensures |r| > 0 ==> !IsSpace(r[0]) && !IsSpace(r[|r| - 1])
    ensures |r| == 0 <==> AllSpace(s)
  {
    var a := LeadingSpace(s);
    var b := TrailingSpace(s[a..]);
    TrimEnds(s);
    s[a..|s| - b]
  }

  /** The text between the two runs has no whitespace at either end, and
      it is empty exactly for blank text. */
  lemma TrimEnds(s: string)
    ensures var a := LeadingSpace(s);
            var r := s[a..|s| - TrailingSpace(s[a..])];
            && (|r| > 0 ==> !IsSpace(r[0]) && !IsSpace(r[|r| - 1]))
            && (|r| == 0 <==> AllSpace(s))
  {
    var a := LeadingSpace(s);
    var rest := s[a..];
    var b := TrailingSpace(rest);
    if a < |s| {
      assert rest[0] == s[a];
      assert !AllSpace(s) by { assert !IsSpace(s[a]); }
      assert b < |rest|;
      assert s[a..|s| - b][|s| - b - a - 1] == rest[|rest| - b - 1];
    }
  }

  /** The trimmed text is a slice of the text with only whitespace around
      it. */
  lemma TrimIsSlice(s: string)
    ensures var r := Trim(s);
            exists i :: && 0 <= i <= |s| - |r| && r == s[i..i + |r|]
                        && AllSpace(s[..i]) && AllSpace(s[i + |r|..])
  {
    var a := LeadingSpace(s);
    var r := Trim(s);
    if a == |s| {
      assert r == [] && s[a..a] == [] && s[..a] == s;
      assert AllSpace(s[..a]) by {
        forall k | 0 <= k < a ensures IsSpace(s[..a][k]) {
          assert s[..a][k] == s[k];
        }
      }
      assert AllSpace(s[a..]);
    } else {
      var rest := s[a..];
      var b := TrailingSpace(rest);
      assert r == s[a..|s| - b];
      assert r == s[a..a + |r|];
      var head := s[..a];
      assert AllSpace(head) by {
        forall k | 0 <= k < |head| ensures IsSpace(head[k]) {
          assert head[k] == s[k];
        }
      }
      var tail := s[a + |r|..];
      assert tail == rest[|rest| - b..];
      assert AllSpace(tail) by {
        forall k | 0 <= k < |tail| ensures IsSpace(tail[k]) {
          assert tail[k] == rest[|rest| - b + k];
        }
      }
    }
  }

  /** ASCII lower-casing, the part of toLowerCase the model needs. */
  function ToLower(s: string): (r: string)
    ensures |r| == |s|
    ensures forall i :: 0 <= i < |s| ==> r[i] == LowerChar(s[i])
  {
    seq(|s|, i requires 0 <= i < |s| => LowerChar(s[i]))
  }

  function LowerChar(c: char): char {
    if 'A' <= c <= 'Z' then (c as int + 32) as char else c
  }

  /** How many times `c` occurs in `s`. */
  function Occurrences(s: string, c: char): nat {
    if |s| == 0 then 0 else (if s[0] == c then 1 else 0) + Occurrences(s[1..], c)
  }

  lemma {:induction false} OccurrencesConcat(a: string, b: string, c: char)
    ensures Occurrences(a + b, c) == Occurrences(a, c) + Occurrences(b, c)
  {
    if |a| > 0 {
      OccurrencesConcat(a[1..], b, c);
      assert (a + b)[1..] == a[1..] + b;
    } else {
      assert a + b == b;
    }
  }

  lemma {:induction false} NoOccurrences(s: string, c: char)
    requires c !in s
    ensures Occurrences(s, c) == 0
  {
    if |s| > 0 {
      assert s[0] in s;
      assert forall x :: x in s[1..] ==> x in s;
      NoOccurrences(s[1..], c);
    }
  }

  /** String.prototype.split(c) for a one-character separator: the pieces
      between the separators; there is always at least one. */
  function SplitOn(s: string, c: char): (r: seq<string>)
    ensures |r| >= 1
    ensures forall i :: 0 <= i < |r| ==> c !in r[i]
  {
    if |s| == 0 then [""]
    else
      var rest := SplitOn(s[1..], c);
      if s[0] == c then [""] + rest
      else [[s[0]] + rest[0]] + rest[1..]
  }

  /** There is one more piece than there are separators. */
  lemma {:induction false} SplitCount(s: string, c: char)
    ensures |SplitOn(s, c)| == Occurrences(s, c) + 1
  {
    if |s| > 0 {
      SplitCount(s[1..], c);
    }
  }

  /** Array.prototype.join(c). */
  function JoinOn(pieces: seq<string>, c: char): string {
    if |pieces| == 0 then ""
    else if |pieces| == 1 then pieces[0]
    else pieces[0] + [c] + JoinOn(pieces[1..], c)
  }

  /** Joining pieces free of the separator puts one separator between each
      neighbouring pair. */
  lemma {:induction false} JoinCount(pieces: seq<string>, c: char)
    requires |pieces| > 0 && forall i :: 0 <= i < |pieces| ==> c !in pieces[i]
    ensures Occurrences(JoinOn(pieces, c), c) == |pieces| - 1
  {
    NoOccurrences(pieces[0], c);
    if |pieces| > 1 {
      JoinCount(pieces[1..], c);
      OccurrencesConcat(pieces[0] + [c], JoinOn(pieces[1..], c), c);
      OccurrencesConcat(pieces[0], [c], c);
      assert Occurrences([c], c) == 1 by { assert [c][1..] == ""; }
    }
  }

  /** Joining the pieces of a split gives the text back. */
  lemma {:induction false} JoinSplit(s: string, c: char)
    ensures JoinOn(SplitOn(s, c), c) == s
  {
    if |s| > 0 {
      JoinSplit(s[1..], c);
      var rest := SplitOn(s[1..], c);
      if s[0] == c {
        assert ([""] + rest)[1..] == rest;
        assert s == "" + [c] + s[1..];
      } else if |rest| == 1 {
        assert s == [s[0]] + rest[0];
      } else {
        var r := [[s[0]] + rest[0]] + rest[1..];
        assert r[1..] == rest[1..];
        assert JoinOn(rest, c) == rest[0] + [c] + JoinOn(rest[1..], c);
        assert s == [s[0]] + s[1..];
      }
    }
  }

  /** Splitting pieces joined by a separator they do not contain gives the
      pieces back. */
  lemma {:induction false} SplitJoin(pieces: seq<string>, c: char)
    requires |pieces| > 0 && forall i :: 0 <= i < |pieces| ==> c !in pieces[i]
    ensures SplitOn(JoinOn(pieces, c), c) == pieces
  {
    if |pieces| == 1 {
      SplitPiece(pieces[0], "", c);
      assert pieces[0] + "" == pieces[0];
    } else {
      var tail := JoinOn(pieces[1..], c);
      SplitJoin(pieces[1..], c);
      SplitPiece(pieces[0], [c] + tail, c);
      assert pieces[0] + [c] + tail == pieces[0] + ([c] + tail);
      assert ([c] + tail)[1..] == tail;
      var r := SplitOn([c] + tail, c);
      assert r == [""] + pieces[1..];
      assert r[0] == "" && r[1..] == pieces[1..];
      assert pieces[0] + "" == pieces[0];
      assert [pieces[0]] + pieces[1..] == pieces;
    }
  }

  /** A separator-free prefix becomes the front of the first piece. */
  lemma {:induction false} SplitPiece(p: string, rest: string, c: char)
    requires c !in p
    ensures var r := SplitOn(rest, c);
            SplitOn(p + rest, c) == [p + r[0]] + r[1..]
  {
    if |p| == 0 {
      assert p + rest == rest;
      var r := SplitOn(rest, c);
      assert p + r[0] == r[0];
      assert [r[0]] + r[1..] == r;
    } else {
      assert p[0] in p;
      assert forall x :: x in p[1..] ==> x in p;
      SplitPiece(p[1..], rest, c);
      assert (p + rest)[1..] == p[1..] + rest;
      assert (p + rest)[0] == p[0];
      assert [p[0]] + (p[1..] + SplitOn(rest, c)[0]) == p + SplitOn(rest, c)[0];
    }
  }

  /** A text without surrounding whitespace is its own trim, so trimming
      twice is trimming once. */
  lemma TrimTrimmed(s: string)
    requires |s| > 0 ==> !IsSpace(s[0]) && !IsSpace(s[|s| - 1])
    ensures Trim(s) == s
  {
    if |s| > 0 {
      assert LeadingSpace(s) == 0;
      assert s[0..] == s;
      assert TrailingSpace(s) == 0;
      assert s[..|s| - 0] == s;
    }
  }

  /** The last piece of a split is what follows the last separator. */
  lemma {:induction false} SplitLast(a: string, b: string, c: char)
    requires c !in b
    ensures var r := SplitOn(a + [c] + b, c);
            |r| >= 2 && r[|r| - 1] == b
  {
    var s := a + [c] + b;
    if |a| == 0 {
      assert s == [c] + b;
      assert s[1..] == b;
      SplitJoin([b], c);
      assert JoinOn([b], c) == b;
    } else {
      SplitLast(a[1..], b, c);
      assert s[1..] == a[1..] + [c] + b;
    }
  }

  /** A text without the separator splits into itself. */
  lemma SplitWhole(s: string, c: char)
    requires c !in s
    ensures SplitOn(s, c) == [s]
  {
    SplitJoin([s], c);
    assert JoinOn([s], c) == s;
  }
}

=== FILE: connections.dfy ===
/** Connection commands (storeActionsConnection.ts): finishing a drag
    between two ports, deleting a connection, splitting one with a new node
    and switching its wireless drawing mode. */
module ConnectionActions {
  import opened Common
  import opened Types
  import opened DerivedState
  import opened Store
  import opened NodeActions
  import Utils

  /** Two connections with the same four endpoint fields; the wireless
      flag is not compared. */
  predicate SameEnds(a: Connection, b: Connection) {
    a.fromNode == b.fromNode && a.fromPortId == b.fromPortId && a.toNode == b.toNode && a.toPortId == b.toPortId
  }

  /** Some connection already enters input `portId` of node `id`. */
  predicate InputTaken(conns: seq<Connection>, id: int, portId: string) {
    exists c :: c in conns && c.toNode == id && c.toPortId == portId
  }

  /** Some connection already leaves output `portId` of node `id`. */
  predicate OutputTaken(conns: seq<Connection>, id: int, portId: string) {
    exists c :: c in conns && c.fromNode == id && c.fromPortId == portId
  }

  /** The discipline connectEnd enforces: no input port and no output
      port carries two connections. */
  predicate PortsExclusive(conns: seq<Connection>) {
    forall i, j :: 0 <= i < j < |conns| ==>
      && !(conns[i].toNode == conns[j].toNode && conns[i].toPortId == conns[j].toPortId)
      && !(conns[i].fromNode == conns[j].fromNode && conns[i].fromPortId == conns[j].fromPortId)
  }

  /** The connection connectEnd would create on input `portId` of node
      `id`, or None when it refuses: no pending connection, the same node
      at both ends, or either port already in use. */
  function Proposed(conns: seq<Connection>, pending: Option<PortRef>, id: int, portId: string): (r: Option<Connection>)
    ensures r.Some? <==> && pending.Some? && pending.value.nodeId != id
                         && !InputTaken(conns, id, portId)
                         && !OutputTaken(conns, pending.value.nodeId, pending.value.portId)
    ensures r.Some? ==> r.value == Connection(pending.value.nodeId, pending.value.portId, id, portId, false)
  {
    if pending.None? || pending.value.nodeId == id then None
    else
      var c := Connection(pending.value.nodeId, pending.value.portId, id, portId, false);
      if InputTaken(conns, id, portId) || OutputTaken(conns, c.fromNode, c.fromPortId) then None
      else Some(c)
  }

  /** connectEnd: ignored while a drawing tool is active. Otherwise an
      acceptable connection is committed at the end of the list, and the
      pending connection is dropped in every case. */
  function ConnectEnd(s: AppState, id: int, portId: string): (r: AppState)
    ensures s.ui.drawingMode.Some? ==> r == s
    ensures s.ui.drawingMode.None? ==> r.ui.connectingInfo.None?
    ensures s.ui.drawingMode.None? && Proposed(s.core.connections, s.ui.connectingInfo, id, portId).None? ==>
              r == s.(ui := s.ui.(connectingInfo := None))
    ensures s.ui.drawingMode.None? && Proposed(s.core.connections, s.ui.connectingInfo, id, portId).Some? ==>
              && Consistent(r)
              && r.core == s.core.(connections := s.core.connections
                                     + [Proposed(s.core.connections, s.ui.connectingInfo, id, portId).value])
              && r.past == s.past + [s.core] && r.future == []
              && r.ui == s.ui.(isFileDirty := s.ui.editingMode == File, connectingInfo := None)
  {
    if s.ui.drawingMode.Some? then s
    else
      match Proposed(s.core.connections, s.ui.connectingInfo, id, portId)
      case None => s.(ui := s.ui.(connectingInfo := None))
      case Some(c) =>
        var r := Commit(s, NoChange().(connections := Some(s.core.connections + [c])));
        r.(ui := r.ui.(connectingInfo := None))
  }

  /** connectEnd never puts two connections on one port. */
  lemma ConnectEndKeepsPortsExclusive(s: AppState, id: int, portId: string)
    requires PortsExclusive(s.core.connections)
    ensures PortsExclusive(ConnectEnd(s, id, portId).core.connections)
  {
    var p := Proposed(s.core.connections, s.ui.connectingInfo, id, portId);
    if s.ui.drawingMode.None? && p.Some? {
      var conns := s.core.connections + [p.value];
      forall i, j | 0 <= i < j < |conns|
        ensures !(conns[i].toNode == conns[j].toNode && conns[i].toPortId == conns[j].toPortId)
        ensures !(conns[i].fromNode == conns[j].fromNode && conns[i].fromPortId == conns[j].fromPortId)
      {
        assert conns[i] == s.core.connections[i] && conns[i] in s.core.connections;
        if j < |s.core.connections| {
          assert conns[j] == s.core.connections[j];
        }
      }
    }
  }

  function NotSameEnds(c: Connection): Connection -> bool {
    (d: Connection) => !SameEnds(d, c)
  }

  /** deleteConnection: every connection with the same four endpoint
      fields goes, in one commit. */
  function DeleteConnection(s: AppState, c: Connection): (r: AppState)
    ensures CommittedFrom(s, r)
    ensures forall d :: d in r.core.connections <==> d in s.core.connections && !SameEnds(d, c)
    ensures |r.core.connections| <= |s.core.connections|
    ensures r.core == s.core.(connections := r.core.connections)
  {
    Commit(s, NoChange().(connections := Some(Filter(s.core.connections, NotSameEnds(c)))))
  }

  /** Deleting the connection connectEnd just made gives back the
      connection list it started from. */
  lemma DeleteAfterConnect(s: AppState, id: int, portId: string)
    requires s.ui.drawingMode.None?
    requires Proposed(s.core.connections, s.ui.connectingInfo, id, portId).Some?
    ensures var c := Proposed(s.core.connections, s.ui.connectingInfo, id, portId).value;
            DeleteConnection(ConnectEnd(s, id, portId), c).core.connections == s.core.connections
  {
    var c := Proposed(s.core.connections, s.ui.connectingInfo, id, portId).value;
    var conns := s.core.connections;
    forall i | 0 <= i < |conns| ensures NotSameEnds(c)(conns[i]) {
      assert conns[i] in conns;
    }
    FilterAll(conns, NotSameEnds(c));
    FilterConcat(conns, [c], NotSameEnds(c));
    FilterSingle(c, NotSameEnds(c));
    assert conns + [] == conns;
  }

  /** Flips the wireless flag of the connections with the ends of `c`. */
  function FlipWireless(conns: seq<Connection>, c: Connection): (r: seq<Connection>)
    ensures |r| == |conns|
    ensures forall i :: 0 <= i < |conns| ==>
              r[i] == (if SameEnds(conns[i], c) then conns[i].(isWireless := !conns[i].isWireless) else conns[i])
  {
    seq(|conns|, i requires 0 <= i < |conns| =>
      if SameEnds(conns[i], c) then conns[i].(isWireless := !conns[i].isWireless) else conns[i])
  }

  /** toggleConnectionWirelessMode. */
  function ToggleWireless(s: AppState, c: Connection): (r: AppState)
    ensures CommittedFrom(s, r)
    ensures r.core == s.core.(connections := FlipWireless(s.core.connections, c))
  {
    Commit(s, NoChange().(connections := Some(FlipWireless(s.core.connections, c))))
  }

  /** Toggling twice gives the connections back, and a toggle changes only
      the matching connections' flag. */
  lemma ToggleWirelessTwice(s: AppState, c: Connection)
    ensures ToggleWireless(ToggleWireless(s, c), c).core == s.core
    ensures forall i :: 0 <= i < |s.core.connections| ==>
              (ToggleWireless(s, c).core.connections[i] != s.core.connections[i] <==> SameEnds(s.core.connections[i], c))
  {
    assert FlipWireless(FlipWireless(s.core.connections, c), c) == s.core.connections;
  }

  /** The connection list without the entry at position `k`; a position
      outside the list removes nothing. */
  function RemoveAt(conns: seq<Connection>, k: int): (r: seq<Connection>)
    ensures 0 <= k < |conns| ==> |r| == |conns| - 1 && r == conns[..k] + conns[k + 1..]
    ensures !(0 <= k < |conns|) ==> r == conns
  {
    if 0 <= k < |conns| then conns[..k] + conns[k + 1..] else conns
  }

  /** Both endpoint nodes are known to the id table and carry the ports
      of `c`. */
  predicate Splittable(s: AppState, c: Connection) {
    PortsPresent(s.derived.nodesById, c)
  }

  /** The node put in the middle of a split connection: one input "I", one
      output "O", the document's node colour, 180 by 80, incomplete,
      unpinned, AND logic, difficulty 1 and the next order index. */
  function MiddleNode(id: int, pos: Point, color: string, inPort: string, outPort: string, orderIndex: int): (n: Node)
    ensures n.id == id && n.pos == pos && n.title == "Nodo Intermedio" && n.color == color
    ensures n.inputs == [Port(inPort, "I")] && n.outputs == [Port(outPort, "O")]
    ensures n.orderIndex == orderIndex && !n.isComplete && !n.isPinned
  {
    Node(id, pos, "Nodo Intermedio", "", color, Size(180, 80),
         [Port(inPort, "I")], [Port(outPort, "O")], false, "AND", 1, None, None, false, None, orderIndex, 0)
  }

  /** insertNodeInConnection. The connection to split is the list entry at
      position `k` (the source removes that very object, not every equal
      one); `pos` is the placement the view computes between the two
      ports, and `inPort`, `outPort` are the fresh port ids. Nothing
      happens unless both endpoint nodes are known and carry the ports. */
  function InsertNodeInConnection(s: AppState, c: Connection, k: int, pos: Point, inPort: string, outPort: string)
    : (r: AppState)
    requires 0 <= k < |s.core.connections| ==> s.core.connections[k] == c
    ensures !Splittable(s, c) ==> r == s
    ensures Splittable(s, c) ==>
              && CommittedFrom(s, r)
              && |r.core.nodes| == |s.core.nodes| + 1
              && r.core.nodes[..|s.core.nodes|] == s.core.nodes
              && (var n := r.core.nodes[|s.core.nodes|];
                  && (forall i :: 0 <= i < |s.core.nodes| ==> s.core.nodes[i].id < n.id)
                  && n == MiddleNode(n.id, pos, s.core.nodeColor, inPort, outPort, NextOrderIndex(s.core.nodes))
                  && r.core.connections == RemoveAt(s.core.connections, k)
                       + [Connection(c.fromNode, c.fromPortId, n.id, inPort, c.isWireless),
                          Connection(n.id, outPort, c.toNode, c.toPortId, c.isWireless)])
              && r.core == s.core.(nodes := r.core.nodes, connections := r.core.connections)
  {
    if !Splittable(s, c) then s
    else
      var id := Utils.NewNodeId(s.core.nodes);
      var n := MiddleNode(id, pos, s.core.nodeColor, inPort, outPort, NextOrderIndex(s.core.nodes));
      var conns := RemoveAt(s.core.connections, k)
                   + [Connection(c.fromNode, c.fromPortId, id, inPort, c.isWireless),
                      Connection(id, outPort, c.toNode, c.toPortId, c.isWireless)];
      assert (s.core.nodes + [n])[..|s.core.nodes|] == s.core.nodes;
      assert forall i :: 0 <= i < |s.core.nodes| ==> s.core.nodes[i] in s.core.nodes;
      CommitNodesAndConnections(s, s.core.nodes + [n], conns)
  }

  /** On a consistent state with distinct ids, a wired connection can be
      split. */
  lemma WiredIsSplittable(s: AppState, c: Connection)
    requires Consistent(s) && DistinctIds(s.core.nodes)
    requires Wired(s.core.nodes, c)
    ensures Splittable(s, c)
  {
    var a :| a in s.core.nodes && a.id == c.fromNode && HasPort(a.outputs, c.fromPortId);
    var b :| b in s.core.nodes && b.id == c.toNode && HasPort(b.inputs, c.toPortId);
    IndexedById(s.core.nodes, a);
    IndexedById(s.core.nodes, b);
  }

  /** The two halves of a split join existing nodes and ports once the
      new node is appended. */
  lemma HalvesWired(nodes: seq<Node>, c: Connection, n: Node, inPort: string, outPort: string, w: bool)
    requires Wired(nodes, c)
    requires n.inputs == [Port(inPort, "I")] && n.outputs == [Port(outPort, "O")]
    ensures Wired(nodes + [n], Connection(c.fromNode, c.fromPortId, n.id, inPort, w))
    ensures Wired(nodes + [n], Connection(n.id, outPort, c.toNode, c.toPortId, w))
  {
    var a :| a in nodes && a.id == c.fromNode && HasPort(a.outputs, c.fromPortId);
    var b :| b in nodes && b.id == c.toNode && HasPort(b.inputs, c.toPortId);
    assert a in nodes + [n] && b in nodes + [n] && n in nodes + [n];
    assert n.inputs[0] in n.inputs && n.outputs[0] in n.outputs;
  }

  /** Splitting a wired connection: both halves of the new path
      A -> new -> B join existing nodes and ports. */
  lemma SplitIsWired(s: AppState, c: Connection, k: int, pos: Point, inPort: string, outPort: string)
    requires Splittable(s, c)
    requires 0 <= k < |s.core.connections| && s.core.connections[k] == c
    requires Wired(s.core.nodes, c)
    ensures var r := InsertNodeInConnection(s, c, k, pos, inPort, outPort);
            && |r.core.connections| == |s.core.connections| + 1
            && Wired(r.core.nodes, r.core.connections[|r.core.connections| - 2])
            && Wired(r.core.nodes, r.core.connections[|r.core.connections| - 1])
  {
    var r := InsertNodeInConnection(s, c, k, pos, inPort, outPort);
    var n := r.core.nodes[|s.core.nodes|];
    assert r.core.nodes == s.core.nodes + [n];
    HalvesWired(s.core.nodes, c, n, inPort, outPort, c.isWireless);
  }

  /** With distinct ids, the id table maps a node's id to that node. */
  lemma IndexedById(nodes: seq<Node>, a: Node)
    requires DistinctIds(nodes) && a in nodes
    ensures var m := IndexBy(nodes, (n: Node) => n.id); a.id in m && m[a.id] == a
  {
    var m := IndexBy(nodes, (n: Node) => n.id);
    var i :| 0 <= i < |nodes| && nodes[i] == a;
    var j :| 0 <= j < |nodes| && nodes[j] == m[a.id];
  }
}

=== FILE: derived.dfy ===
/** The lookup tables and readiness status recomputed from the core state
    after every change (storeUtils.ts). */
module DerivedState {
  import opened Common
  import opened Types

  /** Object.fromEntries over `[key(x), x]` pairs: every key present in the
      list maps to the LAST element carrying it. */
  function IndexBy<K(==, !new), T(==, !new)>(s: seq<T>, key: T -> K): (m: map<K, T>)
    ensures forall x :: x in s ==> key(x) in m
    ensures forall k :: k in m ==> m[k] in s && key(m[k]) == k
  {
    if |s| == 0 then map[]
    else
      var init := s[..|s| - 1];
      var last := s[|s| - 1];
      var m := IndexBy(init, key);
      assert forall x :: x in s <==> x in init || x == last;
      m[key(last) := last]
  }

  /** The last element carrying a key is the one the table keeps. */
  lemma {:induction false} IndexByLast<K(!new), T(!new)>(s: seq<T>, key: T -> K, i: int)
    requires 0 <= i < |s|
    requires forall j :: i < j < |s| ==> key(s[j]) != key(s[i])
    ensures IndexBy(s, key)[key(s[i])] == s[i]
  {
    if i < |s| - 1 {
      var init := s[..|s| - 1];
      assert init[i] == s[i];
      IndexByLast(init, key, i);
    }
  }

  /** Membership test used by the grouping below. */
  function ChildOf(parent: int): Mininode -> bool {
    (m: Mininode) => m.parentId == parent
  }

  /** The mininodes grouped by owner: each mininode, in list order, is
      appended to its owner's bucket. */
  function GroupByParent(ms: seq<Mininode>): map<int, seq<Mininode>> {
    if |ms| == 0 then map[]
    else
      var g := GroupByParent(ms[..|ms| - 1]);
      var last := ms[|ms| - 1];
      var bucket := if last.parentId in g then g[last.parentId] else [];
      g[last.parentId := bucket + [last]]
  }

  /** An owner has a bucket exactly when it owns a mininode, and the
      bucket lists that owner's mininodes in their original order. */
  lemma {:induction false} GroupByParentSpec(ms: seq<Mininode>, q: int)
    ensures q in GroupByParent(ms) <==> |Filter(ms, ChildOf(q))| > 0
    ensures q in GroupByParent(ms) ==> GroupByParent(ms)[q] == Filter(ms, ChildOf(q))
  {
    if |ms| > 0 {
      var init := ms[..|ms| - 1];
      var last := ms[|ms| - 1];
      GroupByParentSpec(init, q);
      assert ms == init + [last];
      FilterConcat(init, [last], ChildOf(q));
      FilterSingle(last, ChildOf(q));
    }
  }

  /** Ids of the completed nodes. */
  function CompletedIds(nodes: seq<Node>): set<int> {
    set n | n in nodes && n.isComplete :: n.id
  }

  /** Input ports of node `id` fed by at least one connection. */
  function ConnectedInputs(conns: seq<Connection>, id: int): set<string> {
    set c | c in conns && c.toNode == id :: c.toPortId
  }

  /** Input ports of node `id` fed by a connection from a completed node. */
  function ActiveInputs(conns: seq<Connection>, id: int, completed: set<int>): set<string> {
    set c | c in conns && c.toNode == id && c.fromNode in completed :: c.toPortId
  }

  /** Some connection from a completed node feeds input port `port` of `id`. */
  predicate PortFed(conns: seq<Connection>, id: int, port: string, completed: set<int>) {
    exists d :: d in conns && d.toNode == id && d.toPortId == port && d.fromNode in completed
  }

  /** The readiness rule stated directly: a node without inputs is always
      ready; an AND node is ready when every connected input port is fed by
      a completed node (so an AND node with nothing connected is ready); any
      other node is ready when at least one completed node feeds it. */
  predicate Ready(node: Node, conns: seq<Connection>, completed: set<int>) {
    if |node.inputs| == 0 then true
    else if node.inputLogic == "AND" then
      forall c :: c in conns && c.toNode == node.id ==> PortFed(conns, node.id, c.toPortId, completed)
    else
      exists c :: c in conns && c.toNode == node.id && c.fromNode in completed
  }

  lemma SameCardSubset<T>(a: set<T>, b: set<T>)
    requires a <= b && |a| == |b|
    ensures a == b
  {
    assert |b - a| == |b| - |a|;
  }

  /** The status of one node, decided by comparing the sizes of its
      connected and active input-port sets. */
  function StatusOf(node: Node, conns: seq<Connection>, completed: set<int>): (st: NodeStatus)
    ensures st.activeInputs <= ConnectedInputs(conns, node.id)
    ensures forall p :: p in st.activeInputs <==> PortFed(conns, node.id, p, completed)
    ensures st.isConditionMet <==> Ready(node, conns, completed)
  {
    var connected := ConnectedInputs(conns, node.id);
    var active := ActiveInputs(conns, node.id, completed);
    assert active <= connected;
    assert forall p :: p in active <==> PortFed(conns, node.id, p, completed) by {
      forall p ensures p in active <==> PortFed(conns, node.id, p, completed) {
        if PortFed(conns, node.id, p, completed) {
          var d :| d in conns && d.toNode == node.id && d.toPortId == p && d.fromNode in completed;
          assert d.toPortId in active;
        }
      }
    }
    var met :=
      if |node.inputs| == 0 then true
      else if node.inputLogic == "AND" then |connected| == |active|
      else |active| > 0;
    assert met <==> Ready(node, conns, completed) by {
      if |node.inputs| > 0 && node.inputLogic == "AND" {
        if |connected| == |active| {
          SameCardSubset(active, connected);
          forall c | c in conns && c.toNode == node.id
            ensures PortFed(conns, node.id, c.toPortId, completed)
          {
            assert c.toPortId in connected;
          }
        } else {
          assert active != connected;
          var p :| p in connected && p !in active;
          var c :| c in conns && c.toNode == node.id && c.toPortId == p;
        }
      } else if |node.inputs| > 0 {
        if |active| > 0 {
          var p :| p in active;
          var c :| c in conns && c.toNode == node.id && c.fromNode in completed && c.toPortId == p;
        } else {
          forall c | c in conns && c.toNode == node.id && c.fromNode in completed
            ensures c.toPortId in active
          {
            assert PortFed(conns, node.id, c.toPortId, completed);
          }
        }
      }
    }
    NodeStatus(met, active)
  }

  /** The node table: every node's id is a key, and with distinct ids each
      key maps to the node carrying it. */
  function NodeTable(nodes: seq<Node>): (m: map<int, Node>)
    ensures forall n :: n in nodes ==> n.id in m
    ensures forall id :: id in m ==> m[id] in nodes && m[id].id == id
    ensures DistinctIds(nodes) ==> forall n :: n in nodes ==> m[n.id] == n
  {
    var byId := IndexBy(nodes, (n: Node) => n.id);
    assert DistinctIds(nodes) ==> forall n :: n in nodes ==> byId[n.id] == n by {
      if DistinctIds(nodes) {
        forall n | n in nodes ensures byId[n.id] == n {
          var i :| 0 <= i < |nodes| && nodes[i] == n;
          IndexByLast(nodes, (n: Node) => n.id, i);
        }
      }
    }
    byId
  }

  /** The status of every node; for a repeated id the last node decides,
      as with the source's Map.set in list order. Its keys are the node
      table's. */
  function StatusMap(nodes: seq<Node>, conns: seq<Connection>): (m: map<int, NodeStatus>)
    ensures m.Keys == NodeTable(nodes).Keys
    ensures forall n :: n in nodes ==> n.id in m
    ensures forall id :: id in m ==> HasNode(nodes, id)
    ensures DistinctIds(nodes) ==> forall n :: n in nodes ==>
              m[n.id] == StatusOf(n, conns, CompletedIds(nodes))
  {
    var byId := NodeTable(nodes);
    var completed := CompletedIds(nodes);
    assert forall id :: id in byId ==> HasNode(nodes, id) by {
      forall id | id in byId ensures HasNode(nodes, id) {
        var i :| 0 <= i < |nodes| && nodes[i] == byId[id];
      }
    }
    map id | id in byId :: StatusOf(byId[id], conns, completed)
  }

  /** The owner table: every owner of a file is a key, and each bucket
      lists that owner's files in their order. */
  function OwnerTable(ms: seq<Mininode>): (g: map<int, seq<Mininode>>)
    ensures forall m :: m in ms ==> m.parentId in g
    ensures forall q :: q in g ==> g[q] == Filter(ms, ChildOf(q))
  {
    var groups := GroupByParent(ms);
    forall q | q in groups ensures groups[q] == Filter(ms, ChildOf(q)) {
      GroupByParentSpec(ms, q);
    }
    forall m | m in ms ensures m.parentId in groups {
      GroupByParentSpec(ms, m.parentId);
      assert m in Filter(ms, ChildOf(m.parentId));
    }
    groups
  }

  /** computeDerivedState: each table holds exactly the ids present, each
      entry is an element carrying its key, the owner table lists each
      owner's files in order, and every node has a status. */
  function ComputeDerived(core: CoreState): (d: Derived)
    ensures forall n :: n in core.nodes ==> n.id in d.nodesById
    ensures forall id :: id in d.nodesById ==> d.nodesById[id] in core.nodes && d.nodesById[id].id == id
    ensures DistinctIds(core.nodes) ==> forall n :: n in core.nodes ==> d.nodesById[n.id] == n
    ensures forall m :: m in core.mininodes ==> m.id in d.mininodesById
    ensures forall id :: id in d.mininodesById ==>
              d.mininodesById[id] in core.mininodes && d.mininodesById[id].id == id
    ensures forall o :: o in core.canvasObjects ==> o.id in d.canvasObjectsById
    ensures forall id :: id in d.canvasObjectsById ==>
              d.canvasObjectsById[id] in core.canvasObjects && d.canvasObjectsById[id].id == id
    ensures forall m :: m in core.mininodes ==> m.parentId in d.mininodesByParentId
    ensures forall q :: q in d.mininodesByParentId ==>
              d.mininodesByParentId[q] == Filter(core.mininodes, ChildOf(q))
    ensures d.nodeStatus.Keys == d.nodesById.Keys
    ensures DistinctIds(core.nodes) ==> forall n :: n in core.nodes ==>
              d.nodeStatus[n.id] == StatusOf(n, core.connections, CompletedIds(core.nodes))
  {
    var byId := NodeTable(core.nodes);
    var status := StatusMap(core.nodes, core.connections);
    Derived(
      byId,
      IndexBy(core.mininodes, (m: Mininode) => m.id),
      OwnerTable(core.mininodes),
      IndexBy(core.canvasObjects, (o: CanvasObject) => o.id),
      status)
  }

  /** The store invariant: the lookup tables describe the current core. */
  predicate Consistent(s: AppState) {
    s.derived == ComputeDerived(s.core)
  }
}

=== FILE: drawing.dfy ===
/** Drawing commands (storeActionsDrawing.ts): choosing a drawing tool,
    replacing, deleting and restyling canvas drawings, and turning a
    rectangle into a swarm. */
module Drawing {
  import opened Common
  import opened Types
  import opened Store
  import opened UiActions

  /** setDrawingMode: choosing the current tool again (or no tool while none
      is chosen) turns drawing off and clears the drawing selection; choosing
      another tool drops a pending connection and the node selection, and
      keeps the drawing selection only for the edit tool. */
  function SetDrawingMode(s: AppState, mode: Option<DrawingTool>): (r: AppState)
    ensures r.core == s.core && r.derived == s.derived && r.past == s.past && r.future == s.future
    ensures s.ui.drawingMode == mode ==>
              r.ui == s.ui.(drawingMode := None, selectedCanvasObjectIds := [])
    ensures s.ui.drawingMode != mode ==>
              && r.ui.drawingMode == mode && r.ui.connectingInfo.None? && r.ui.selectedNodeIds == []
              && r.ui.selectedCanvasObjectIds == (if mode == Some(EditObjects) then s.ui.selectedCanvasObjectIds else [])
              && r.ui.(drawingMode := s.ui.drawingMode, connectingInfo := s.ui.connectingInfo,
                       selectedNodeIds := s.ui.selectedNodeIds,
                       selectedCanvasObjectIds := s.ui.selectedCanvasObjectIds) == s.ui
  {
    if s.ui.drawingMode == mode then
      s.(ui := s.ui.(drawingMode := None, selectedCanvasObjectIds := []))
    else
      s.(ui := s.ui.(drawingMode := mode, connectingInfo := None, selectedNodeIds := [],
                     selectedCanvasObjectIds := if mode == Some(EditObjects) then s.ui.selectedCanvasObjectIds else []))
  }

  /** Choosing the same tool twice toggles: drawing ends up off with
      nothing selected when another tool was active, and back on that tool
      when it was the active one. */
  lemma ChooseToolTwice(s: AppState, mode: DrawingTool)
    ensures var r := SetDrawingMode(SetDrawingMode(s, Some(mode)), Some(mode));
            && r.core == s.core
            && (s.ui.drawingMode != Some(mode) ==> r.ui.drawingMode.None? && r.ui.selectedCanvasObjectIds == [])
            && (s.ui.drawingMode == Some(mode) ==> r.ui.drawingMode == Some(mode) && r.ui.selectedNodeIds == [])
  {
  }

  /** The drawings with the one carrying `o`'s id replaced by `o`. */
  function ReplaceObject(objs: seq<CanvasObject>, o: CanvasObject): (r: seq<CanvasObject>)
    ensures |r| == |objs|
    ensures forall i :: 0 <= i < |objs| ==> r[i] == if objs[i].id == o.id then o else objs[i]
  {
    seq(|objs|, i requires 0 <= i < |objs| => if objs[i].id == o.id then o else objs[i])
  }

  /** updateCanvasObject: one commit replacing the drawing with the same id;
      nothing else in the document changes. */
  function UpdateCanvasObject(s: AppState, o: CanvasObject): (r: AppState)
    ensures r.core.canvasObjects == ReplaceObject(s.core.canvasObjects, o)
    ensures r.core.(canvasObjects := s.core.canvasObjects) == s.core
    ensures r.past == s.past + [s.core] && r.future == []
  {
    Commit(s, NoChange().(canvasObjects := Some(ReplaceObject(s.core.canvasObjects, o))))
  }

  /** Replacing keeps the ids in place, so distinct ids stay distinct, and
      when the id is in use the replacement is the one drawing under it. */
  lemma ReplaceObjectKeepsIds(objs: seq<CanvasObject>, o: CanvasObject)
    requires DistinctObjectIds(objs)
    ensures DistinctObjectIds(ReplaceObject(objs, o))
    ensures (exists i :: 0 <= i < |objs| && objs[i].id == o.id) <==> o in ReplaceObject(objs, o)
  {
    var r := ReplaceObject(objs, o);
    assert forall i :: 0 <= i < |objs| ==> r[i].id == objs[i].id;
    if o in r {
      var i :| 0 <= i < |r| && r[i] == o;
      assert objs[i].id == o.id;
    }
  }

  /** confirmDeleteSelectedCanvasObjects: one commit removing exactly the
      selected drawings; the selection empties and the top dialog closes. */
  function ConfirmDeleteSelectedCanvasObjects(s: AppState): (r: AppState)
    ensures forall o :: o in r.core.canvasObjects <==>
              o in s.core.canvasObjects && o.id !in s.ui.selectedCanvasObjectIds
    ensures r.core.(canvasObjects := s.core.canvasObjects) == s.core
    ensures r.past == s.past + [s.core] && r.future == []
    ensures r.ui.selectedCanvasObjectIds == []
    ensures r.ui.activeModals == CloseModal(s.ui).activeModals
  {
    var sel := s.ui.selectedCanvasObjectIds;
    var t := Commit(s, NoChange().(canvasObjects := Some(Filter(s.core.canvasObjects, (o: CanvasObject) => o.id !in sel))));
    t.(ui := CloseModal(t.ui.(selectedCanvasObjectIds := [])))
  }

  /** The style fields a restyle carries; an absent field, or one of the
      wrong type, is `None`. */
  datatype StyleUpdate = StyleUpdate(
    fillColor: Option<string>,
    strokeColor: Option<string>,
    strokeWidth: Option<int>,
    fillOpacity: Option<int>,
    strokeOpacity: Option<int>)

  /** One drawing restyled: rectangles and ellipses take every field given,
      lines take only the stroke colour and width, text is left alone. */
  function Restyle(o: CanvasObject, u: StyleUpdate): (r: CanvasObject)
    ensures r.id == o.id
    ensures o.TextBox? ==> r == o
    ensures o.Line? ==> r.Line? && r.start == o.start && r.end == o.end
                        && r.strokeColor == u.strokeColor.GetOr(o.strokeColor)
                        && r.strokeWidth == u.strokeWidth.GetOr(o.strokeWidth)
                        && r.strokeOpacity == o.strokeOpacity
                        && r.startArrow == o.startArrow && r.endArrow == o.endArrow
    ensures o.Shape? ==> r.Shape? && r.kind == o.kind && r.pos == o.pos && r.size == o.size
                         && r.fillColor == u.fillColor.GetOr(o.fillColor)
                         && r.strokeColor == u.strokeColor.GetOr(o.strokeColor)
                         && r.strokeWidth == u.strokeWidth.GetOr(o.strokeWidth)
                         && r.fillOpacity == (if u.fillOpacity.Some? then u.fillOpacity else o.fillOpacity)
                         && r.strokeOpacity == (if u.strokeOpacity.Some? then u.strokeOpacity else o.strokeOpacity)
                         && r.isSwarm == o.isSwarm
  {
    match o
    case TextBox(_, _, _, _, _, _, _) => o
    case Line(id, start, end, sc, sw, so, sa, ea) =>
      Line(id, start, end, u.strokeColor.GetOr(sc), u.strokeWidth.GetOr(sw), so, sa, ea)
    case Shape(id, kind, pos, size, fc, sc, sw, fo, so, swarm) =>
      Shape(id, kind, pos, size, u.fillColor.GetOr(fc), u.strokeColor.GetOr(sc), u.strokeWidth.GetOr(sw),
            if u.fillOpacity.Some? then u.fillOpacity else fo,
            if u.strokeOpacity.Some? then u.strokeOpacity else so, swarm)
  }

  /** Restyling twice with the same fields is restyling once. */
  lemma RestyleIdempotent(o: CanvasObject, u: StyleUpdate)
    ensures Restyle(Restyle(o, u), u) == Restyle(o, u)
  {
  }

  function RestyleSelected(objs: seq<CanvasObject>, sel: seq<string>, u: StyleUpdate): (r: seq<CanvasObject>)
    ensures |r| == |objs|
    ensures forall i :: 0 <= i < |objs| ==> r[i] == if objs[i].id in sel then Restyle(objs[i], u) else objs[i]
  {
    seq(|objs|, i requires 0 <= i < |objs| => if objs[i].id in sel then Restyle(objs[i], u) else objs[i])
  }

  /** updateSelectedCanvasObjects: one commit restyling the selected
      drawings; unselected ones and the rest of the document stay. */
  function UpdateSelectedCanvasObjects(s: AppState, u: StyleUpdate): (r: AppState)
    ensures |r.core.canvasObjects| == |s.core.canvasObjects|
    ensures forall i :: 0 <= i < |s.core.canvasObjects| ==>
              && r.core.canvasObjects[i].id == s.core.canvasObjects[i].id
              && (s.core.canvasObjects[i].id !in s.ui.selectedCanvasObjectIds ==>
                    r.core.canvasObjects[i] == s.core.canvasObjects[i])
              && (s.core.canvasObjects[i].TextBox? ==> r.core.canvasObjects[i] == s.core.canvasObjects[i])
    ensures r.core.canvasObjects == RestyleSelected(s.core.canvasObjects, s.ui.selectedCanvasObjectIds, u)
    ensures r.core.(canvasObjects := s.core.canvasObjects) == s.core
    ensures r.past == s.past + [s.core] && r.future == []
  {
    Commit(s, NoChange().(canvasObjects := Some(RestyleSelected(s.core.canvasObjects, s.ui.selectedCanvasObjectIds, u))))
  }

  /** Restyling the same selection twice gives the drawings restyling once
      gives. */
  lemma RestyleSelectedIdempotent(objs: seq<CanvasObject>, sel: seq<string>, u: StyleUpdate)
    ensures RestyleSelected(RestyleSelected(objs, sel, u), sel, u) == RestyleSelected(objs, sel, u)
  {
    var once := RestyleSelected(objs, sel, u);
    var twice := RestyleSelected(once, sel, u);
    forall i | 0 <= i < |objs| ensures twice[i] == once[i] {
      RestyleIdempotent(objs[i], u);
    }
  }

  /** One drawing with its swarm flag flipped when it is the rectangle with
      that id. */
  function FlipSwarm(o: CanvasObject, id: string): (r: CanvasObject)
    ensures r.id == o.id
    ensures !(o.Shape? && o.kind == Rect && o.id == id) ==> r == o
    ensures o.Shape? && o.kind == Rect && o.id == id ==>
              r.Shape? && r.isSwarm == !o.isSwarm && r.kind == o.kind && r.pos == o.pos && r.size == o.size
  {
    match o
    case Shape(oid, Rect, pos, size, fc, sc, sw, fo, so, swarm) =>
      if oid == id then Shape(oid, Rect, pos, size, fc, sc, sw, fo, so, !swarm) else o
    case _ => o
  }

  function FlipSwarms(objs: seq<CanvasObject>, id: string): (r: seq<CanvasObject>)
    ensures |r| == |objs|
    ensures forall i :: 0 <= i < |objs| ==> r[i] == FlipSwarm(objs[i], id)
  {
    seq(|objs|, i requires 0 <= i < |objs| => FlipSwarm(objs[i], id))
  }

  /** toggleSwarm: one commit flipping the swarm flag of the rectangles
      with that id; every other drawing stays. */
  function ToggleSwarm(s: AppState, id: string): (r: AppState)
    ensures r.core.canvasObjects == FlipSwarms(s.core.canvasObjects, id)
    ensures r.core.(canvasObjects := s.core.canvasObjects) == s.core
    ensures r.past == s.past + [s.core] && r.future == []
  {
    Commit(s, NoChange().(canvasObjects := Some(FlipSwarms(s.core.canvasObjects, id))))
  }

  /** Toggling twice gives back the drawings. */
  lemma ToggleSwarmTwice(objs: seq<CanvasObject>, id: string)
    ensures FlipSwarms(FlipSwarms(objs, id), id) == objs
  {
    var r := FlipSwarms(FlipSwarms(objs, id), id);
    forall i | 0 <= i < |objs| ensures r[i] == objs[i] {
      match objs[i]
      case Shape(_, _, _, _, _, _, _, _, _, _) => {}
      case _ => {}
    }
  }
}

=== FILE: editnode.dfy ===
/** The node editor dialog (EditNodeModal.tsx): saving the edited node,
    committing an edited title, and the lists of the node's neighbours it
    offers for navigation. */
module EditNode {
  import opened Common
  import opened Types

  /** handleSave: the edited node is passed on only when its title is not
      blank. */
  function SaveEdited(edited: Node): (r: Option<Node>)
    ensures r.Some? <==> !AllSpace(edited.title)
    ensures r.Some? ==> r.value == edited
  {
    if Trim(edited.title) != "" then Some(edited) else None
  }

  /** handleTitleSave: a blank edited title is replaced by the node's title
      from before the edit; any other title is kept as typed. */
  function CommitTitle(edited: string, original: string): (r: string)
    ensures !AllSpace(edited) ==> r == edited
    ensures AllSpace(edited) ==> r == original
  {
    if Trim(edited) == "" then original else edited
  }

  /** After a title is committed the node can be saved whenever its title
      before the edit could. */
  lemma CommittedTitleSaves(n: Node, edited: string, original: string)
    requires !AllSpace(original)
    ensures SaveEdited(n.(title := CommitTitle(edited, original))).Some?
  {
  }

  /** The neighbours the connections name on one side of `id`, in the
      order of the connections, looked up in the id table; connections to
      ids the table lacks give nothing. */
  function Linked(conns: seq<Connection>, byId: map<int, Node>, id: int, incoming: bool): (r: seq<Node>)
    ensures forall x :: x in r <==> exists c :: c in conns && Links(c, byId, id, incoming, x)
  {
    if |conns| == 0 then []
    else
      var c := conns[0];
      var rest := Linked(conns[1..], byId, id, incoming);
      assert forall d :: d in conns <==> d == c || d in conns[1..];
      var other := if incoming then c.fromNode else c.toNode;
      if (if incoming then c.toNode else c.fromNode) == id && other in byId then
        assert Links(c, byId, id, incoming, byId[other]);
        [byId[other]] + rest
      else
        assert forall x :: !Links(c, byId, id, incoming, x);
        rest
  }

  /** Connection `c` makes `x` a neighbour of `id` on the given side. */
  predicate Links(c: Connection, byId: map<int, Node>, id: int, incoming: bool, x: Node) {
    if incoming then c.toNode == id && c.fromNode in byId && byId[c.fromNode] == x
    else c.fromNode == id && c.toNode in byId && byId[c.toNode] == x
  }

  /** One `Map.set` on an insertion-ordered map held as a list: an id
      already present keeps its place and takes the new node, a new id goes
      last. */
  function MapSet(acc: seq<Node>, n: Node): (r: seq<Node>)
    requires DistinctIds(acc)
    ensures DistinctIds(r)
    ensures n in r
    ensures forall x :: x in r ==> x == n || x in acc
    ensures forall x :: x in acc && x.id != n.id ==> x in r
    ensures forall k :: HasNode(r, k) <==> HasNode(acc, k) || k == n.id
  {
    if HasNode(acc, n.id) then
      var i := IdPosition(acc, n.id);
      var r := acc[i := n];
      assert r[i] == n;
      assert forall x :: x in acc && x.id != n.id ==> x in r by {
        forall x | x in acc && x.id != n.id ensures x in r {
          var j :| 0 <= j < |acc| && acc[j] == x;
          assert r[j] == x;
        }
      }
      assert forall k :: HasNode(acc, k) ==> HasNode(r, k) by {
        forall k | HasNode(acc, k) ensures HasNode(r, k) {
          var x :| x in acc && x.id == k;
          if x.id != n.id { assert x in r; } else { assert n in r; }
        }
      }
      r
    else
      var r := acc + [n];
      assert forall x :: x in r <==> x == n || x in acc;
      r
  }

  /** The position of the node with id `k` in an id-distinct list. */
  function IdPosition(acc: seq<Node>, k: int): (i: nat)
    requires HasNode(acc, k)
    ensures i < |acc| && acc[i].id == k
  {
    if acc[0].id == k then 0
    else
      assert HasNode(acc[1..], k) by {
        var x :| x in acc && x.id == k;
        assert x in acc[1..] by { var j :| 0 <= j < |acc| && acc[j] == x; assert j > 0; assert acc[1..][j - 1] == x; }
      }
      1 + IdPosition(acc[1..], k)
  }

  /** `Array.from(new Map(list.map(n => [n.id, n])).values())`: one node
      per id, each taken from the list, and every id of the list present. */
  function UniqueById(s: seq<Node>): (r: seq<Node>)
    ensures DistinctIds(r)
    ensures forall x :: x in r ==> x in s
    ensures forall k :: HasNode(r, k) <==> HasNode(s, k)
  {
    if |s| == 0 then []
    else
      var init := s[..|s| - 1];
      var last := s[|s| - 1];
      assert s == init + [last];
      var acc := UniqueById(init);
      var r := MapSet(acc, last);
      assert forall k :: HasNode(s, k) <==> HasNode(init, k) || k == last.id by {
        forall k ensures HasNode(s, k) <==> HasNode(init, k) || k == last.id {
          if HasNode(s, k) {
            var x :| x in s && x.id == k;
            assert x in init || x == last;
          }
          if HasNode(init, k) {
            var x :| x in init && x.id == k;
            assert x in s;
          }
        }
      }
      r
  }

  /** When the list gives one node per id, deduplication keeps every node. */
  lemma UniqueKeepsConsistent(s: seq<Node>)
    requires forall x, y :: x in s && y in s && x.id == y.id ==> x == y
    ensures forall x :: x in UniqueById(s) <==> x in s
  {
    var r := UniqueById(s);
    forall x | x in s ensures x in r {
      assert HasNode(s, x.id);
      var y :| y in r && y.id == x.id;
      assert y in s;
    }
  }

  /** The previous (incoming) or next (outgoing) nodes of `id` the dialog
      lists. */
  function Neighbours(conns: seq<Connection>, byId: map<int, Node>, id: int, incoming: bool): (r: seq<Node>)
    ensures DistinctIds(r)
  {
    UniqueById(Linked(conns, byId, id, incoming))
  }

  /** With an id table that files every node under its own id, the listed
      neighbours are exactly the nodes a connection links on that side, each
      once. */
  lemma NeighboursExact(conns: seq<Connection>, byId: map<int, Node>, id: int, incoming: bool)
    requires forall k :: k in byId ==> byId[k].id == k
    ensures var r := Neighbours(conns, byId, id, incoming);
            && DistinctIds(r)
            && forall x :: x in r <==> exists c :: c in conns && Links(c, byId, id, incoming, x)
  {
    var s := Linked(conns, byId, id, incoming);
    forall x, y | x in s && y in s && x.id == y.id ensures x == y {
      var c :| c in conns && Links(c, byId, id, incoming, x);
      var d :| d in conns && Links(d, byId, id, incoming, y);
    }
    UniqueKeepsConsistent(s);
  }
}

=== FILE: export.dfy ===
/** The graph half of the HTML export (storeActionsIO.ts): the end nodes,
    the flow that ends at a chosen node, the Kahn order with its fallback
    on a cycle, the final renumbering, the escaping of mininode content,
    the selection export and loading a document. */
module Export {
  import opened Common
  import opened Sorting
  import opened Types
  import opened Kahn
  import opened TopoSort
  import opened DerivedState
  import opened Store
  import opened UiActions

  /** The number of connections leaving `id`. */
  function OutDegree(conns: seq<Connection>, id: int): (d: nat)
    ensures d == 0 <==> forall c :: c in conns ==> c.fromNode != id
  {
    if |conns| == 0 then 0
    else
      var init := conns[..|conns| - 1];
      assert forall c :: c in conns <==> c in init || c == conns[|conns| - 1];
      OutDegree(init, id) + (if conns[|conns| - 1].fromNode == id then 1 else 0)
  }

  /** The nodes no connection leaves, in document order. */
  function EndNodes(nodes: seq<Node>, conns: seq<Connection>): (r: seq<Node>)
    ensures forall n :: n in r <==> n in nodes && forall c :: c in conns ==> c.fromNode != n.id
    ensures |r| <= |nodes|
  {
    Filter(nodes, (n: Node) => OutDegree(conns, n.id) == 0)
  }

  /** Every connection into a member of `s` starts at a member of `s`. */
  predicate UpstreamClosed(conns: seq<Connection>, s: set<int>) {
    forall c :: c in conns && c.toNode in s ==> c.fromNode in s
  }

  function Sources(conns: seq<Connection>): set<int> {
    set c | c in conns :: c.fromNode
  }

  lemma StrictSubsetCard<T>(a: set<T>, b: set<T>, x: T)
    requires a <= b && x in b && x !in a
    ensures |a| < |b|
  {
    SubsetCard(a, b - {x});
  }

  /** The ids with a connection into `v`. */
  function Preds(conns: seq<Connection>, v: int): set<int> {
    set c | c in conns && c.toNode == v :: c.fromNode
  }

  /** The inner loop of getAncestors: every source of a connection into
      `cur` not yet visited is appended to the queue. */
  method EnqueuePreds(conns: seq<Connection>, cur: int, visited: set<int>, queue: seq<int>) returns (q: seq<int>)
    ensures queue <= q
    ensures forall v :: v in q ==> v in queue || v in Preds(conns, cur)
    ensures forall v :: v in Preds(conns, cur) ==> v in visited || v in q
  {
    q := queue;
    var incoming := Filter(conns, (c: Connection) => c.toNode == cur);
    var j := 0;
    while j < |incoming|
      invariant 0 <= j <= |incoming|
      invariant queue <= q
      invariant forall v :: v in q ==> v in queue || v in Preds(conns, cur)
      invariant forall k :: 0 <= k < j ==> incoming[k].fromNode in visited || incoming[k].fromNode in q
    {
      var from := incoming[j].fromNode;
      assert incoming[j] in conns;
      if from !in visited {
        q := q + [from];
      }
      j := j + 1;
    }
    forall v | v in Preds(conns, cur) ensures v in visited || v in q {
      var c :| c in conns && c.toNode == cur && c.fromNode == v;
      assert c in incoming;
      var k :| 0 <= k < |incoming| && incoming[k] == c;
    }
  }

  /** Every member of `s` has its predecessors in `s`. */
  lemma ClosedHasPreds(conns: seq<Connection>, s: set<int>, v: int)
    requires UpstreamClosed(conns, s) && v in s
    ensures Preds(conns, v) <= s
  {
  }

  /** getAncestors: a breadth-first search backwards from `start`. Its
      result is the least upstream-closed set holding `start`: the start and
      every node that reaches it. */
  method Ancestors(conns: seq<Connection>, start: int) returns (anc: set<int>)
    ensures start in anc
    ensures UpstreamClosed(conns, anc)
    ensures forall s :: start in s && UpstreamClosed(conns, s) ==> anc <= s
  {
    var pool := {start} + Sources(conns);
    var queue := [start];
    anc := {};
    while |queue| > 0
      invariant anc <= pool
      invariant forall v :: v in queue ==> v in pool
      invariant start in anc || start in queue
      invariant forall v :: v in anc ==> forall u :: u in Preds(conns, v) ==> u in anc || u in queue
      invariant forall s :: start in s && UpstreamClosed(conns, s) ==>
                  anc <= s && forall v :: v in queue ==> v in s
      decreases |pool - anc|, |queue|
    {
      var cur := queue[0];
      var rest := queue[1..];
      assert forall v :: v in queue <==> v == cur || v in rest;
      if cur in anc {
        queue := rest;
      } else {
        StrictSubsetCard(pool - (anc + {cur}), pool - anc, cur);
        anc := anc + {cur};
        queue := EnqueuePreds(conns, cur, anc, rest);
        forall s | start in s && UpstreamClosed(conns, s) ensures forall v :: v in queue ==> v in s {
          ClosedHasPreds(conns, s, cur);
        }
      }
    }
    forall c | c in conns && c.toNode in anc ensures c.fromNode in anc {
      assert c.fromNode in Preds(conns, c.toNode);
    }
  }

  /** What one export covers: the nodes and connections it processes and
      the heading of the document. */
  datatype Scope = Scope(nodes: seq<Node>, conns: seq<Connection>, title: string)

  /** The title of the node with id `id`, or the empty string. */
  function TitleOf(nodes: seq<Node>, id: int): string {
    match FindNode(nodes, id)
    case Some(n) => n.title
    case None => ""
  }

  /** The flow ending at `endId`: its ancestors, the connections between
      them, and a heading naming the end node. */
  method FlowScope(core: CoreState, endId: int) returns (sc: Scope, anc: set<int>)
    ensures endId in anc && UpstreamClosed(core.connections, anc)
    ensures forall s :: endId in s && UpstreamClosed(core.connections, s) ==> anc <= s
    ensures forall n :: n in sc.nodes <==> n in core.nodes && n.id in anc
    ensures forall c :: c in sc.conns <==> c in core.connections && c.fromNode in anc && c.toNode in anc
    ensures sc.title == core.canvasTitle + " (Flujo: " + TitleOf(core.nodes, endId) + ")"
  {
    anc := Ancestors(core.connections, endId);
    var inFlow := anc;
    sc := Scope(Filter(core.nodes, (n: Node) => n.id in inFlow),
                Filter(core.connections, (c: Connection) => c.fromNode in inFlow && c.toNode in inFlow),
                core.canvasTitle + " (Flujo: " + TitleOf(core.nodes, endId) + ")");
  }

  /** The fallback comparator `a.orderIndex - b.orderIndex`. */
  function ByOrderIndex(): Node -> Key {
    (n: Node) => Key(n.orderIndex, 0)
  }

  /** The initial queue is ordered by the orderIndex of the node an id names. */
  function RootKey(nodes: seq<Node>): int -> Key {
    (id: int) => match FindNode(nodes, id)
          case Some(n) => Key(n.orderIndex, 0)
          case None => Key(0, 0)
  }

  /** The position `new Map(outputs.map((p, i) => [p.id, i]))` stores for a
      port id: the last port carrying it. A missing port id ranks after
      every present one, as `?? Infinity` does; two missing ones compare
      equal. */
  function PortIndex(ports: seq<Port>, pid: string): (i: nat)
    ensures i <= |ports|
    ensures i < |ports| ==> ports[i].id == pid && forall j :: i < j < |ports| ==> ports[j].id != pid
    ensures i == |ports| ==> forall p :: p in ports ==> p.id != pid
  {
    if |ports| == 0 then 0
    else if ports[|ports| - 1].id == pid then |ports| - 1
    else
      var init := ports[..|ports| - 1];
      assert forall p :: p in ports <==> p in init || p == ports[|ports| - 1];
      var i := PortIndex(init, pid);
      if i == |init| then |ports| else i
  }

  /** A successor is ranked by the position of the output port it leaves. */
  function PortKey(nodes: seq<Node>): Connection -> Key {
    (c: Connection) => match FindNode(nodes, c.fromNode)
          case Some(n) => Key(PortIndex(n.outputs, c.fromPortId), 0)
          case None => Key(0, 0)
  }

  /** The ordering step of exportToHtml. With duplicate ids the emitted
      list is necessarily shorter than the node list, so the fallback is
      taken without running the algorithm. */
  method OrderForExport(nodes: seq<Node>, conns: seq<Connection>) returns (sorted: seq<Node>, acyclic: bool)
    ensures |sorted| == |nodes|
    ensures forall n :: n in sorted <==> n in nodes
    ensures acyclic <==> DistinctIds(nodes) && !HasCycle(Ids(nodes), Live(Ids(nodes), conns))
    ensures acyclic ==> DistinctIds(sorted) && RespectsEdges(Ids(sorted), Live(Ids(nodes), conns))
    ensures acyclic ==> SortBy(Roots(Ids(nodes), Live(Ids(nodes), conns)), RootKey(nodes)) <= Ids(sorted)
    ensures acyclic ==> FifoOrder(Ids(nodes), conns, RootKey(nodes), PortKey(nodes), Ids(sorted))
    ensures !acyclic ==> multiset(sorted) == multiset(nodes) && SortedBy(sorted, ByOrderIndex())
    ensures !acyclic ==> sorted == SortBy(nodes, ByOrderIndex())
  {
    acyclic := false;
    sorted := SortBy(nodes, ByOrderIndex());
    assert forall n :: n in sorted <==> n in multiset(nodes);
    if DistinctIds(nodes) {
      var r, emitted := KahnNodes(nodes, conns, RootKey(nodes), PortKey(nodes));
      if r.Sorted? {
        sorted := r.nodes;
        acyclic := true;
      }
    }
  }

  /** `sortedNodes.map((node, index) => ({...node, orderIndex: index + 1}))`. */
  function Numbered(s: seq<Node>): (r: seq<Node>)
    ensures |r| == |s|
    ensures forall i :: 0 <= i < |s| ==> r[i] == s[i].(orderIndex := i + 1)
  {
    seq(|s|, i requires 0 <= i < |s| => s[i].(orderIndex := i + 1))
  }

  /** exportToHtml's argument: absent, `null` (export everything, as picked
      in the end-node dialog) or an end-node id. */
  datatype EndChoice = Unspecified | ExportAll | EndAt(id: int)

  /** Whether the export is restricted to a flow: `if (endNodeId)`, so the
      id 0 exports everything. */
  predicate IsFlow(choice: EndChoice) {
    choice.EndAt? && choice.id != 0
  }

  /** The outcome: the end-node dialog is needed, or the document heading
      and the nodes exported, in order. */
  datatype ExportResult = ChooseEndNode(endNodes: seq<Node>) | Html(title: string, nodes: seq<Node>)

  /** The graph part of exportToHtml. `sc` is the processed scope, `anc`
      the ancestor set of a flow export and `sorted` the order found before
      renumbering. */
  method PlanHtmlExport(core: CoreState, choice: EndChoice)
    returns (r: ExportResult, sc: Scope, anc: set<int>, sorted: seq<Node>)
    ensures r.ChooseEndNode? <==> choice.Unspecified? && |EndNodes(core.nodes, core.connections)| > 1
    ensures r.ChooseEndNode? ==> r.endNodes == EndNodes(core.nodes, core.connections)
    ensures r.Html? && !IsFlow(choice) ==> sc == Scope(core.nodes, core.connections, core.canvasTitle)
    ensures r.Html? && IsFlow(choice) ==>
              && choice.id in anc && UpstreamClosed(core.connections, anc)
              && (forall s :: choice.id in s && UpstreamClosed(core.connections, s) ==> anc <= s)
              && (forall n :: n in sc.nodes <==> n in core.nodes && n.id in anc)
              && (forall c :: c in sc.conns <==> c in core.connections && c.fromNode in anc && c.toNode in anc)
    ensures r.Html? ==> r.title == sc.title && r.nodes == Numbered(sorted)
    ensures r.Html? ==> |sorted| == |sc.nodes| && forall n :: n in sorted <==> n in sc.nodes
    ensures r.Html? && DistinctIds(sc.nodes) && !HasCycle(Ids(sc.nodes), Live(Ids(sc.nodes), sc.conns)) ==>
              RespectsEdges(Ids(sorted), Live(Ids(sc.nodes), sc.conns))
    ensures r.Html? && !(DistinctIds(sc.nodes) && !HasCycle(Ids(sc.nodes), Live(Ids(sc.nodes), sc.conns))) ==>
              multiset(sorted) == multiset(sc.nodes) && SortedBy(sorted, ByOrderIndex())
  {
    anc := {};
    sorted := [];
    sc := Scope(core.nodes, core.connections, core.canvasTitle);
    var ends := EndNodes(core.nodes, core.connections);
    if choice.Unspecified? && |ends| > 1 {
      r := ChooseEndNode(ends);
      return;
    }
    if IsFlow(choice) {
      sc, anc := FlowScope(core, choice.id);
    }
    var acyclic;
    sorted, acyclic := OrderForExport(sc.nodes, sc.conns);
    r := Html(sc.title, Numbered(sorted));
  }

  /** The exported list is numbered 1..N in output order and carries every
      processed node, with only its orderIndex rewritten. */
  lemma NumberedExport(nodes: seq<Node>, sorted: seq<Node>)
    requires |sorted| == |nodes| && forall n :: n in sorted <==> n in nodes
    ensures forall i :: 0 <= i < |sorted| ==> Numbered(sorted)[i].orderIndex == i + 1
    ensures Ids(Numbered(sorted)) == Ids(sorted)
    ensures forall n :: n in nodes ==> exists i :: 0 <= i < |sorted| && Numbered(sorted)[i] == n.(orderIndex := i + 1)
  {
    var out := Numbered(sorted);
    forall n | n in nodes
      ensures exists i :: 0 <= i < |sorted| && out[i] == n.(orderIndex := i + 1)
    {
      var i :| 0 <= i < |sorted| && sorted[i] == n;
      assert out[i] == n.(orderIndex := i + 1);
    }
  }

  /** exportToHtml's effect on the editor: the end-node dialog opens, or
      the export completes and the top modal (the dialog, if it was open)
      closes. The document is never changed. */
  method ExportToHtml(s: AppState, choice: EndChoice) returns (r: AppState, out: ExportResult)
    ensures r.core == s.core && r.derived == s.derived && r.past == s.past && r.future == s.future
    ensures out.ChooseEndNode? <==> choice.Unspecified? && |EndNodes(s.core.nodes, s.core.connections)| > 1
    ensures out.ChooseEndNode? ==> r.ui == OpenModal(s.ui, SelectEndNode(out.endNodes))
    ensures out.Html? ==> r.ui == CloseModal(s.ui)
  {
    var sc, anc, sorted;
    out, sc, anc, sorted := PlanHtmlExport(s.core, choice);
    if out.ChooseEndNode? {
      r := s.(ui := OpenModal(s.ui, SelectEndNode(out.endNodes)));
    } else {
      r := s.(ui := CloseModal(s.ui));
    }
  }

  /** The selected nodes, as exportSelectionToHtml picks them. */
  function InSelection(sel: seq<int>): Node -> bool {
    (n: Node) => n.id in sel
  }

  /** exportSelectionToHtml: nothing with an empty selection; otherwise the
      selected nodes sorted by orderIndex (stably, and not renumbered). */
  function SelectionExport(core: CoreState, sel: seq<int>): (r: Option<ExportResult>)
    ensures r.None? <==> |sel| == 0
    ensures r.Some? ==> r.value.Html? && r.value.title == core.canvasTitle + " (Selección)"
    ensures r.Some? ==> SortedBy(r.value.nodes, ByOrderIndex())
    ensures r.Some? ==> multiset(r.value.nodes) == multiset(Filter(core.nodes, InSelection(sel)))
    ensures r.Some? ==> forall n :: n in r.value.nodes <==> n in core.nodes && n.id in sel
  {
    if |sel| == 0 then None
    else
      var chosen := Filter(core.nodes, InSelection(sel));
      var sorted := SortBy(chosen, ByOrderIndex());
      assert forall n :: n in sorted <==> n in multiset(chosen);
      Some(Html(core.canvasTitle + " (Selección)", sorted))
  }

  /** `.replace(/c/g, rep)` for a single character. */
  function ReplaceChar(s: string, c: char, rep: string): (r: string)
    ensures c !in rep ==> c !in r
    ensures forall d :: d in r ==> d in rep || (d in s && d != c)
  {
    if |s| == 0 then ""
    else
      assert forall d :: d in s <==> d == s[0] || d in s[1..];
      (if s[0] == c then rep else [s[0]]) + ReplaceChar(s[1..], c, rep)
  }

  /** The escaping of mininode content: `&` first, then `<`, then `>`. */
  function EscapeContent(s: string): (r: string)
    ensures '<' !in r && '>' !in r
  {
    ReplaceChar(ReplaceChar(ReplaceChar(s, '&', "&amp;"), '<', "&lt;"), '>', "&gt;")
  }

  /** What the three passes do to one character. */
  function EscapeChar(c: char): string {
    if c == '&' then "&amp;" else if c == '<' then "&lt;" else if c == '>' then "&gt;" else [c]
  }

  /** An HTML reader's decoding of the three entities. */
  function Unescape(s: string): string
    decreases |s|
  {
    if |s| == 0 then ""
    else if |s| >= 5 && s[..5] == "&amp;" then "&" + Unescape(s[5..])
    else if |s| >= 4 && s[..4] == "&lt;" then "<" + Unescape(s[4..])
    else if |s| >= 4 && s[..4] == "&gt;" then ">" + Unescape(s[4..])
    else [s[0]] + Unescape(s[1..])
  }

  lemma {:induction false} ReplaceCharConcat(a: string, b: string, c: char, rep: string)
    ensures ReplaceChar(a + b, c, rep) == ReplaceChar(a, c, rep) + ReplaceChar(b, c, rep)
  {
    if |a| > 0 {
      assert (a + b)[1..] == a[1..] + b;
      ReplaceCharConcat(a[1..], b, c, rep);
    } else {
      assert a + b == b;
    }
  }

  /** Replacing in a one-character string. */
  lemma ReplaceCharSingle(d: char, c: char, rep: string)
    ensures ReplaceChar([d], c, rep) == if d == c then rep else [d]
  {
    assert [d][1..] == "";
  }

  /** Escaping a single character: the later passes leave the entity the
      `&` pass wrote untouched. */
  lemma EscapeSingle(d: char)
    ensures EscapeContent([d]) == EscapeChar(d)
  {
    ReplaceCharSingle(d, '&', "&amp;");
    if d == '&' {
      var a := "&amp;";
      assert a == ['&'] + ['a'] + ['m'] + ['p'] + [';'];
      ReplaceCharConcat(['&'] + ['a'] + ['m'] + ['p'], [';'], '<', "&lt;");
      ReplaceCharConcat(['&'] + ['a'] + ['m'], ['p'], '<', "&lt;");
      ReplaceCharConcat(['&'] + ['a'], ['m'], '<', "&lt;");
      ReplaceCharConcat(['&'], ['a'], '<', "&lt;");
      ReplaceCharSingle('&', '<', "&lt;");
      ReplaceCharSingle('a', '<', "&lt;");
      ReplaceCharSingle('m', '<', "&lt;");
      ReplaceCharSingle('p', '<', "&lt;");
      ReplaceCharSingle(';', '<', "&lt;");
      assert ReplaceChar(a, '<', "&lt;") == a;
      ReplaceCharConcat(['&'] + ['a'] + ['m'] + ['p'], [';'], '>', "&gt;");
      ReplaceCharConcat(['&'] + ['a'] + ['m'], ['p'], '>', "&gt;");
      ReplaceCharConcat(['&'] + ['a'], ['m'], '>', "&gt;");
      ReplaceCharConcat(['&'], ['a'], '>', "&gt;");
      ReplaceCharSingle('&', '>', "&gt;");
      ReplaceCharSingle('a', '>', "&gt;");
      ReplaceCharSingle('m', '>', "&gt;");
      ReplaceCharSingle('p', '>', "&gt;");
      ReplaceCharSingle(';', '>', "&gt;");
    } else {
      ReplaceCharSingle(d, '<', "&lt;");
      if d == '<' {
        var l := "&lt;";
        assert l == ['&'] + ['l'] + ['t'] + [';'];
        ReplaceCharConcat(['&'] + ['l'] + ['t'], [';'], '>', "&gt;");
        ReplaceCharConcat(['&'] + ['l'], ['t'], '>', "&gt;");
        ReplaceCharConcat(['&'], ['l'], '>', "&gt;");
        ReplaceCharSingle('&', '>', "&gt;");
        ReplaceCharSingle('l', '>', "&gt;");
        ReplaceCharSingle('t', '>', "&gt;");
        ReplaceCharSingle(';', '>', "&gt;");
      } else {
        ReplaceCharSingle(d, '>', "&gt;");
      }
    }
  }

  /** The three passes act character by character. */
  lemma EscapeCons(s: string)
    requires |s| > 0
    ensures EscapeContent(s) == EscapeChar(s[0]) + EscapeContent(s[1..])
  {
    var a, b := [s[0]], s[1..];
    assert s == a + b;
    ReplaceCharConcat(a, b, '&', "&amp;");
    ReplaceCharConcat(ReplaceChar(a, '&', "&amp;"), ReplaceChar(b, '&', "&amp;"), '<', "&lt;");
    ReplaceCharConcat(ReplaceChar(ReplaceChar(a, '&', "&amp;"), '<', "&lt;"),
                      ReplaceChar(ReplaceChar(b, '&', "&amp;"), '<', "&lt;"), '>', "&gt;");
    EscapeSingle(s[0]);
  }

  /** Decoding the escaped content gives the content back: the escaping
      loses nothing. */
  lemma {:induction false} UnescapeEscape(s: string)
    ensures Unescape(EscapeContent(s)) == s
  {
    if |s| == 0 {
      assert EscapeContent(s) == "";
    } else {
      EscapeCons(s);
      UnescapeEscape(s[1..]);
      UnescapeFront(s[0], EscapeContent(s[1..]));
      assert s == [s[0]] + s[1..];
    }
  }

  /** Decoding reads an escaped character back off the front. */
  lemma UnescapeFront(c: char, e: string)
    ensures Unescape(EscapeChar(c) + e) == [c] + Unescape(e)
  {
    var x := EscapeChar(c) + e;
    if c == '&' {
      assert x[..5] == "&amp;" && x[5..] == e;
    } else if c == '<' {
      assert x[..4] == "&lt;" && x[4..] == e;
      assert |x| >= 5 ==> x[..5][1] == 'l';
    } else if c == '>' {
      assert x[..4] == "&gt;" && x[4..] == e;
      assert |x| >= 5 ==> x[..5][1] == 'g';
    } else {
      assert x[0] == c && x[1..] == e;
      assert |x| >= 4 ==> x[..4][0] == c;
      assert |x| >= 5 ==> x[..5][0] == c;
    }
  }

  /** loadState: the document is replaced, both history stacks and the node
      selection are emptied and the lookup tables recomputed. */
  function LoadState(s: AppState, p: CorePatch): (r: AppState)
    ensures Consistent(r)
    ensures r.core == Merge(s.core, p)
    ensures r.past == [] && r.future == []
    ensures r.ui.selectedNodeIds == []
    ensures r.ui.(selectedNodeIds := s.ui.selectedNodeIds) == s.ui
  {
    Refresh(s.(past := [], future := [], ui := s.ui.(selectedNodeIds := [])), Merge(s.core, p))
  }

  /** A freshly loaded document has nothing to undo or redo. */
  lemma LoadedHasNoHistory(s: AppState, d: CoreState)
    ensures Undo(LoadState(s, Whole(d))) == LoadState(s, Whole(d))
    ensures Redo(LoadState(s, Whole(d))) == LoadState(s, Whole(d))
    ensures LoadState(s, Whole(d)).core == d
  {
    MergeIdentities(s.core, d);
  }
}

=== FILE: i18n.dfy ===
/** Translation lookup (components/locales/i18n.ts): a dotted key walks
    the nested tables of a language pack, a missing entry falls back to the
    key itself, and `{{name}}` placeholders are filled in. */
module I18n {
  import opened Common

  /** A language pack: nested tables whose leaves are texts. */
  datatype Entry = Text(text: string) | Table(entries: map<string, Entry>)

  /** `translations[language] || es`: the requested pack, Spanish when the
      language is not one the editor ships. */
  function PackFor(language: string, es: Entry, en: Entry): (r: Entry)
    ensures language == "en" ==> r == en
    ensures language != "en" ==> r == es
  {
    if language == "es" then es else if language == "en" then en else es
  }

  /** The walk along a key's segments: each must name an entry of the
      table reached so far, and the last must reach a text. */
  function Resolve(e: Entry, path: seq<string>): (r: Option<string>)
    ensures |path| == 0 ==> (r.Some? <==> e.Text?)
    ensures |path| == 0 && e.Text? ==> r.value == e.text
    ensures |path| > 0 && r.Some? ==> e.Table? && path[0] in e.entries
    decreases path
  {
    if |path| == 0 then
      if e.Text? then Some(e.text) else None
    else if e.Table? && path[0] in e.entries then
      Resolve(e.entries[path[0]], path[1..])
    else None
  }

  /** A key that is not in the pack, or that names a table, resolves to
      nothing; a walk that hits a text before the key ends does too. */
  lemma ResolveMisses(e: Entry, path: seq<string>)
    requires |path| > 0
    ensures e.Text? ==> Resolve(e, path).None?
    ensures e.Table? && path[0] !in e.entries ==> Resolve(e, path).None?
    ensures e.Table? ==> Resolve(e, []).None?
  {
  }

  /** The pack holding one text under the given path. */
  function Nest(path: seq<string>, text: string): (r: Entry)
    ensures |path| > 0 ==> r.Table? && r.entries.Keys == {path[0]}
  {
    if |path| == 0 then Text(text)
    else Table(map[path[0] := Nest(path[1..], text)])
  }

  /** The text a path was stored under is found again along that path. */
  lemma {:induction false} ResolveNest(path: seq<string>, text: string)
    ensures Resolve(Nest(path, text), path) == Some(text)
  {
    if |path| > 0 {
      ResolveNest(path[1..], text);
    }
  }

  /** `{{name}}`, the placeholder a replacement fills. */
  function Placeholder(name: string): (r: string)
    ensures |r| == |name| + 4 && r[0] == '{'
  {
    "{{" + name + "}}"
  }

  /** String.prototype.replace with a global pattern matched literally:
      every non-overlapping occurrence, scanning from the left, becomes
      `with`. */
  function ReplaceAll(s: string, pat: string, with: string): (r: string)
    requires |pat| > 0
    ensures |s| < |pat| ==> r == s
    ensures with == pat ==> r == s
    ensures |with| == |pat| ==> |r| == |s|
    decreases |s|
  {
    if |s| < |pat| then s
    else if s[..|pat|] == pat then
      var tail := ReplaceAll(s[|pat|..], pat, with);
      assert with == pat ==> with + tail == s by {
        if with == pat {
          assert s == s[..|pat|] + s[|pat|..];
        }
      }
      with + tail
    else
      var tail := ReplaceAll(s[1..], pat, with);
      assert with == pat ==> [s[0]] + tail == s by {
        if with == pat {
          assert s == [s[0]] + s[1..];
        }
      }
      [s[0]] + tail
  }

  /** Text without the pattern's first character passes through
      unchanged, and the replacement carries on after it. */
  lemma {:induction false} ReplaceSkips(a: string, rest: string, pat: string, with: string)
    requires |pat| > 0 && pat[0] !in a
    ensures ReplaceAll(a + rest, pat, with) == a + ReplaceAll(rest, pat, with)
  {
    if |a| > 0 {
      var s := a + rest;
      assert s[0] == a[0] && a[0] in a;
      assert forall c :: c in a[1..] ==> c in a;
      ReplaceSkips(a[1..], rest, pat, with);
      assert s[1..] == a[1..] + rest;
      if |s| >= |pat| {
        assert s[..|pat|][0] != pat[0];
      } else {
        var tail := ReplaceAll(rest, pat, with);
        ReplaceShort(rest, pat, with);
        assert a + tail == s;
      }
    } else {
      assert a + rest == rest;
    }
  }

  /** A text shorter than the pattern is left as it is. */
  lemma ReplaceShort(s: string, pat: string, with: string)
    requires 0 < |pat| && |s| < |pat|
    ensures ReplaceAll(s, pat, with) == s
  {
  }

  /** A text without the pattern's first character is left as it is. */
  lemma ReplaceNone(s: string, pat: string, with: string)
    requires |pat| > 0 && pat[0] !in s
    ensures ReplaceAll(s, pat, with) == s
  {
    ReplaceSkips(s, "", pat, with);
    assert s + "" == s;
  }

  /** An occurrence of the pattern after text without its first character
      becomes the value, and the scan resumes right after it. */
  lemma {:induction false} ReplaceAtPattern(a: string, pat: string, b: string, with: string)
    requires |pat| > 0 && pat[0] !in a
    ensures ReplaceAll(a + pat + b, pat, with) == a + with + ReplaceAll(b, pat, with)
  {
    ReplaceSkips(a, pat + b, pat, with);
    assert a + pat + b == a + (pat + b);
    var s := pat + b;
    assert s[..|pat|] == pat && s[|pat|..] == b;
  }

  /** A placeholder after brace-free text is replaced by the value, and the
      rest of the text is scanned for further occurrences. */
  lemma {:induction false} FillOne(a: string, name: string, b: string, value: string)
    requires '{' !in a
    ensures ReplaceAll(a + Placeholder(name) + b, Placeholder(name), value)
            == a + value + ReplaceAll(b, Placeholder(name), value)
  {
    ReplaceAtPattern(a, Placeholder(name), b, value);
  }

  /** The pieces joined with `sep` between each two. */
  function Interleave(pieces: seq<string>, sep: string): (r: string)
    requires |pieces| > 0
  {
    if |pieces| == 1 then pieces[0] else pieces[0] + sep + Interleave(pieces[1..], sep)
  }

  /** The global flag: EVERY occurrence of the pattern between pieces
      without its first character becomes the value. */
  lemma {:induction false} ReplaceEvery(pieces: seq<string>, pat: string, with: string)
    requires |pieces| > 0 && |pat| > 0
    requires forall i :: 0 <= i < |pieces| ==> pat[0] !in pieces[i]
    ensures ReplaceAll(Interleave(pieces, pat), pat, with) == Interleave(pieces, with)
    decreases |pieces|
  {
    if |pieces| == 1 {
      ReplaceNone(pieces[0], pat, with);
    } else {
      var rest := pieces[1..];
      assert forall i :: 0 <= i < |rest| ==> rest[i] == pieces[i + 1];
      ReplaceAtPattern(pieces[0], pat, Interleave(rest, pat), with);
      ReplaceEvery(rest, pat, with);
    }
  }

  /** Scanning for one placeholder passes over a different one. */
  lemma {:induction false} OtherPlaceholder(other: string, c: string, name: string, with: string)
    requires other != name
    requires '{' !in other && '}' !in other && '{' !in name && '}' !in name
    ensures ReplaceAll(Placeholder(other) + c, Placeholder(name), with)
            == Placeholder(other) + ReplaceAll(c, Placeholder(name), with)
  {
    var pat := Placeholder(name);
    var s := Placeholder(other) + c;
    var tail := other + "}}";
    var s1 := "{" + tail + c;
    assert s == "{" + s1;
    SecondBrace(tail, c, name, with);
    if |s| >= |pat| {
      NotPrefix(other, c, name);
      ReplaceMissHead('{', s1, pat, with);
    }
    assert "{" + ("{" + tail) == Placeholder(other);
  }

  /** A lone `{` followed by brace-free text cannot start a placeholder. */
  lemma {:induction false} SecondBrace(tail: string, c: string, name: string, with: string)
    requires '{' !in tail && |tail| > 0
    ensures ReplaceAll("{" + tail + c, Placeholder(name), with)
            == "{" + tail + ReplaceAll(c, Placeholder(name), with)
  {
    var pat := Placeholder(name);
    var s1 := "{" + tail + c;
    ReplaceSkips(tail, c, pat, with);
    assert s1 == ['{'] + (tail + c);
    if |s1| >= |pat| {
      assert s1[..|pat|][1] == tail[0] && tail[0] in tail;
      ReplaceMissHead('{', tail + c, pat, with);
    }
  }

  /** Where the pattern does not start, the first character is kept. */
  lemma ReplaceMissHead(x: char, s: string, pat: string, with: string)
    requires 0 < |pat| <= |s| + 1 && ([x] + s)[..|pat|] != pat
    ensures ReplaceAll([x] + s, pat, with) == [x] + ReplaceAll(s, pat, with)
  {
    assert ([x] + s)[1..] == s;
  }

  /** A placeholder does not start with a different one. */
  lemma {:induction false} NotPrefix(other: string, c: string, name: string)
    requires other != name
    requires '}' !in other && '}' !in name
    requires |Placeholder(other) + c| >= |Placeholder(name)|
    ensures (Placeholder(other) + c)[..|Placeholder(name)|] != Placeholder(name)
  {
    var s := Placeholder(other) + c;
    var pat := Placeholder(name);
    if |name| < |other| {
      assert s[..|pat|][|name| + 2] == other[|name|] && other[|name|] in other;
      assert pat[|name| + 2] == '}';
    } else if |name| > |other| {
      assert s[..|pat|][|other| + 2] == '}';
      assert pat[|other| + 2] == name[|other|] && name[|other|] in name;
    } else {
      assert !(forall i :: 0 <= i < |name| ==> name[i] == other[i]);
      var i :| 0 <= i < |name| && name[i] != other[i];
      assert s[..|pat|][i + 2] == other[i] && pat[i + 2] == name[i];
    }
  }

  /** The replacements, applied one after the other in the order their
      names are listed. */
  function ApplyAll(s: string, reps: seq<(string, string)>): (r: string)
    ensures (forall k :: 0 <= k < |reps| ==> reps[k].1 == Placeholder(reps[k].0)) ==> r == s
    ensures |reps| == 0 ==> r == s
    decreases |reps|
  {
    if |reps| == 0 then s
    else ApplyAll(ReplaceAll(s, Placeholder(reps[0].0), reps[0].1), reps[1..])
  }

  /** Two different placeholders are both filled, each by its own value,
      when the first value brings in no brace. */
  lemma {:induction false} FillTwo(a: string, n1: string, b: string, n2: string, c: string,
                                   v1: string, v2: string)
    requires '{' !in a && '{' !in b && '{' !in c && '{' !in v1
    requires n1 != n2 && '{' !in n1 && '}' !in n1 && '{' !in n2 && '}' !in n2
    ensures ApplyAll(a + Placeholder(n1) + b + Placeholder(n2) + c, [(n1, v1), (n2, v2)])
            == a + v1 + b + v2 + c
  {
    var t := a + Placeholder(n1) + b + Placeholder(n2) + c;
    var front := a + v1 + b;
    FirstOfTwo(a, n1, b, n2, c, v1);
    assert '{' !in front;
    FillOne(front, n2, c, v2);
    ReplaceNone(c, Placeholder(n2), v2);
    var t1 := front + Placeholder(n2) + c;
    var reps := [(n1, v1), (n2, v2)];
    assert ApplyAll(t, reps) == ApplyAll(t1, reps[1..]);
    assert ApplyAll(t1, reps[1..]) == ApplyAll(front + v2 + c, reps[2..]);
  }

  /** The first pass of FillTwo: only the first placeholder changes. */
  lemma {:induction false} FirstOfTwo(a: string, n1: string, b: string, n2: string, c: string,
                                      v1: string)
    requires '{' !in a && '{' !in b && '{' !in c
    requires n1 != n2 && '{' !in n1 && '}' !in n1 && '{' !in n2 && '}' !in n2
    ensures ReplaceAll(a + Placeholder(n1) + b + Placeholder(n2) + c, Placeholder(n1), v1)
            == a + v1 + b + Placeholder(n2) + c
  {
    var p1 := Placeholder(n1);
    var p2 := Placeholder(n2);
    assert a + p1 + b + p2 + c == a + p1 + (b + (p2 + c));
    FillOne(a, n1, b + (p2 + c), v1);
    ReplaceSkips(b, p2 + c, p1, v1);
    OtherPlaceholder(n2, c, n1, v1);
    ReplaceNone(c, p1, v1);
    assert a + v1 + (b + (p2 + c)) == a + v1 + b + p2 + c;
  }

  /** The keys are applied in order: a value given for an earlier key is
      itself scanned for the later keys' placeholders. */
  lemma {:induction false} LaterKeyFillsEarlierValue(n1: string, n2: string, v: string)
    requires '{' !in v
    ensures ApplyAll(Placeholder(n1), [(n1, Placeholder(n2)), (n2, v)]) == v
  {
    var p1 := Placeholder(n1);
    var p2 := Placeholder(n2);
    assert p1 == [] + p1 + [];
    FillOne([], n1, [], p2);
    assert [] + p2 + ReplaceAll([], p1, p2) == p2 + [];
    assert p2 == [] + p2 + [];
    FillOne([], n2, [], v);
    var reps := [(n1, p2), (n2, v)];
    assert ApplyAll(p1, reps) == ApplyAll(p2, reps[1..]);
    assert ApplyAll(p2, reps[1..]) == ApplyAll(v, reps[2..]);
  }

  /** A text without braces comes out of every replacement unchanged. */
  lemma {:induction false} ApplyNone(s: string, reps: seq<(string, string)>)
    requires '{' !in s
    ensures ApplyAll(s, reps) == s
  {
    if |reps| > 0 {
      ReplaceNone(s, Placeholder(reps[0].0), reps[0].1);
      ApplyNone(s, reps[1..]);
    }
  }

  /** `t(key, replacements)`: the text the dotted key names, with the
      placeholders filled; the key itself when the pack has no text
      under it. */
  function Translate(pack: Entry, key: string, reps: seq<(string, string)>): (r: string)
    ensures Resolve(pack, SplitOn(key, '.')).None? ==> r == key
    ensures |reps| == 0 && Resolve(pack, SplitOn(key, '.')).Some? ==> r == Resolve(pack, SplitOn(key, '.')).value
  {
    match Resolve(pack, SplitOn(key, '.'))
    case None => key
    case Some(text) => ApplyAll(text, reps)
  }

  /** A text stored under dot-free segments is what the key joining those
      segments with dots translates to. */
  lemma TranslateFinds(path: seq<string>, text: string)
    requires |path| > 0 && forall i :: 0 <= i < |path| ==> '.' !in path[i]
    ensures Translate(Nest(path, text), JoinOn(path, '.'), []) == text
  {
    SplitJoin(path, '.');
    ResolveNest(path, text);
  }

  /** Looking up a key the pack lacks shows the key. */
  lemma TranslateMissing(pack: Entry, key: string, reps: seq<(string, string)>)
    requires pack.Table? && SplitOn(key, '.')[0] !in pack.entries
    ensures Translate(pack, key, reps) == key
  {
  }

  /** A text with one placeholder, stored under dot-free segments, comes
      back with the value in the placeholder's place. */
  lemma TranslateFills(path: seq<string>, a: string, name: string, b: string, value: string)
    requires |path| > 0 && forall i :: 0 <= i < |path| ==> '.' !in path[i]
    requires '{' !in a && '{' !in b
    ensures Translate(Nest(path, a + Placeholder(name) + b), JoinOn(path, '.'), [(name, value)]) == a + value + b
  {
    var text := a + Placeholder(name) + b;
    SplitJoin(path, '.');
    ResolveNest(path, text);
    FillOne(a, name, b, value);
    ReplaceNone(b, Placeholder(name), value);
    var reps := [(name, value)];
    assert ApplyAll(text, reps) == ApplyAll(a + value + b, reps[1..]);
  }

  /** Every occurrence of a placeholder in the stored text is filled, not
      only the first. */
  lemma TranslateFillsEvery(path: seq<string>, pieces: seq<string>, name: string, value: string)
    requires |path| > 0 && forall i :: 0 <= i < |path| ==> '.' !in path[i]
    requires |pieces| > 0 && forall i :: 0 <= i < |pieces| ==> '{' !in pieces[i]
    ensures Translate(Nest(path, Interleave(pieces, Placeholder(name))), JoinOn(path, '.'), [(name, value)])
            == Interleave(pieces, value)
  {
    var text := Interleave(pieces, Placeholder(name));
    SplitJoin(path, '.');
    ResolveNest(path, text);
    ReplaceEvery(pieces, Placeholder(name), value);
    var reps := [(name, value)];
    assert ApplyAll(text, reps) == ApplyAll(Interleave(pieces, value), reps[1..]);
  }

  /** Two different placeholders are filled by their own values. */
  lemma TranslateFillsTwo(path: seq<string>, a: string, n1: string, b: string, n2: string, c: string,
                          v1: string, v2: string)
    requires |path| > 0 && forall i :: 0 <= i < |path| ==> '.' !in path[i]
    requires '{' !in a && '{' !in b && '{' !in c && '{' !in v1
    requires n1 != n2 && '{' !in n1 && '}' !in n1 && '{' !in n2 && '}' !in n2
    ensures Translate(Nest(path, a + Placeholder(n1) + b + Placeholder(n2) + c), JoinOn(path, '.'),
                      [(n1, v1), (n2, v2)])
            == a + v1 + b + v2 + c
  {
    SplitJoin(path, '.');
    ResolveNest(path, a + Placeholder(n1) + b + Placeholder(n2) + c);
    FillTwo(a, n1, b, n2, c, v1, v2);
  }

  /** The download entry of the context menu with its title filled in. */
  lemma DownloadLabel(title: string)
    ensures var pack := Nest(["contextMenu", "downloadMininode"], "Descargar archivo ({{title}})");
            Translate(pack, "contextMenu.downloadMininode", [("title", title)])
              == "Descargar archivo (" + title + ")"
  {
    var path := ["contextMenu", "downloadMininode"];
    var key := JoinOn(path, '.');
    assert key == "contextMenu.downloadMininode" by {
      assert path[1..] == ["downloadMininode"];
    }
    var a := "Descargar archivo (";
    var b := ")";
    assert "Descargar archivo ({{title}})" == a + Placeholder("title") + b;
    TranslateFills(path, a, "title", b, title);
  }
}

=== FILE: kahn.dfy ===
/** Kahn's linearisation of the node graph, the algorithm behind
    topologicalSort, reorganizeOrderIndex and the HTML export. Nodes are
    given by their distinct ids in node order; only connections whose two
    endpoints are among those ids take part. The initial queue (nodes with
    no incoming connection) is ordered by `rootKey`; each emitted node's
    outgoing connections are visited in `edgeKey` order, and a target whose
    last pending predecessor is emitted joins the back of the queue. */
module Kahn {
  import opened Common
  import opened Sorting
  import opened Types

  /** The connections the ordering considers: both endpoints present. */
  function Live(ids: seq<int>, conns: seq<Connection>): seq<Connection> {
    Filter(conns, (c: Connection) => c.fromNode in ids && c.toNode in ids)
  }

  /** The connections leaving `u`, in connection order. */
  function Outgoing(edges: seq<Connection>, u: int): seq<Connection> {
    Filter(edges, (c: Connection) => c.fromNode == u)
  }

  /** How many connections into `v` come from a node not yet in `done`:
      the in-degree counter of `v` once `done` has been emitted. */
  function Pending(edges: seq<Connection>, v: int, done: seq<int>): nat {
    if |edges| == 0 then 0
    else (if edges[0].toNode == v && edges[0].fromNode !in done then 1 else 0)
         + Pending(edges[1..], v, done)
  }

  /** How many connections in `s` point at `v`. */
  function CountTo(s: seq<Connection>, v: int): nat {
    if |s| == 0 then 0 else (if s[0].toNode == v then 1 else 0) + CountTo(s[1..], v)
  }

  /** The nodes with no incoming connection, in node order. */
  function Roots(ids: seq<int>, edges: seq<Connection>): seq<int> {
    Filter(ids, (v: int) => Pending(edges, v, []) == 0)
  }

  /** Position of `x` in `s`, or -1 when absent. */
  function IndexOf(s: seq<int>, x: int): (i: int)
    ensures -1 <= i < |s|
    ensures i >= 0 <==> x in s
    ensures i >= 0 ==> s[i] == x
  {
    if |s| == 0 then -1
    else if s[0] == x then 0
    else
      var j := IndexOf(s[1..], x);
      if j < 0 then -1 else j + 1
  }

  lemma {:induction false} IndexOfAppend(s: seq<int>, u: int, x: int)
    requires u !in s
    ensures x in s ==> IndexOf(s + [u], x) == IndexOf(s, x)
    ensures x == u ==> IndexOf(s + [u], x) == |s|
  {
    if |s| > 0 {
      assert (s + [u])[1..] == s[1..] + [u];
      IndexOfAppend(s[1..], u, x);
    }
  }

  /** Every connection whose target is listed has its source listed
      earlier. */
  predicate RespectsEdges(order: seq<int>, edges: seq<Connection>) {
    forall c :: c in edges && c.toNode in order ==>
      c.fromNode in order && IndexOf(order, c.fromNode) < IndexOf(order, c.toNode)
  }

  /** Membership of `v` in a candidate cycle, named so that the closure
      condition below is only unfolded for members a proof mentions. */
  predicate InCore(core: set<int>, v: int) {
    v in core
  }

  /** A non-empty set of nodes each of which has an incoming connection from
      inside the set: the certificate that a directed cycle exists. */
  ghost predicate CyclicCore(ids: seq<int>, edges: seq<Connection>, core: set<int>) {
    && core != {}
    && (forall v :: v in core ==> v in ids)
    && (forall v :: InCore(core, v) ==> exists c :: c in edges && c.toNode == v && c.fromNode in core)
  }

  ghost predicate HasCycle(ids: seq<int>, edges: seq<Connection>) {
    exists core :: CyclicCore(ids, edges, core)
  }

  /** `v` is a node the order has not listed. */
  predicate Unlisted(ids: seq<int>, order: seq<int>, v: int) {
    v in ids && v !in order
  }

  lemma {:induction false} PendingZero(edges: seq<Connection>, v: int, done: seq<int>)
    ensures Pending(edges, v, done) == 0 <==>
            forall c :: c in edges && c.toNode == v ==> c.fromNode in done
  {
    if |edges| > 0 {
      PendingZero(edges[1..], v, done);
      assert forall c :: c in edges <==> c == edges[0] || c in edges[1..];
    }
  }

  /** Emitting `u` removes exactly the connections from `u` from the
      pending count of every node. */
  lemma {:induction false} PendingStep(edges: seq<Connection>, v: int, done: seq<int>, u: int)
    requires u !in done
    ensures Pending(edges, v, done) == Pending(edges, v, done + [u]) + CountTo(Outgoing(edges, u), v)
  {
    if |edges| > 0 {
      PendingStep(edges[1..], v, done, u);
      FilterConcat([edges[0]], edges[1..], (c: Connection) => c.fromNode == u);
      FilterSingle(edges[0], (c: Connection) => c.fromNode == u);
      assert edges == [edges[0]] + edges[1..];
      var rest := Outgoing(edges[1..], u);
      if edges[0].fromNode == u {
        assert Outgoing(edges, u) == [edges[0]] + rest;
        assert ([edges[0]] + rest)[1..] == rest;
      }
    }
  }

  lemma {:induction false} CountToConcat(a: seq<Connection>, b: seq<Connection>, v: int)
    ensures CountTo(a + b, v) == CountTo(a, v) + CountTo(b, v)
  {
    if |a| > 0 {
      assert (a + b)[1..] == a[1..] + b;
      CountToConcat(a[1..], b, v);
    } else {
      assert a + b == b;
    }
  }

  lemma {:induction false} CountToInsert(x: Connection, s: seq<Connection>, key: Connection -> Key, v: int)
    ensures CountTo(Insert(x, s, key), v) == CountTo([x], v) + CountTo(s, v)
  {
    if |s| == 0 {
    } else if KeyLe(key(x), key(s[0])) {
      CountToConcat([x], s, v);
    } else {
      CountToInsert(x, s[1..], key, v);
      var rest := Insert(x, s[1..], key);
      assert Insert(x, s, key) == [s[0]] + rest;
      assert ([s[0]] + rest)[1..] == rest;
      assert [x][1..] == [];
    }
  }

  /** Sorting a neighbour list does not change how often a target occurs. */
  lemma {:induction false} CountToSort(s: seq<Connection>, key: Connection -> Key, v: int)
    ensures CountTo(SortBy(s, key), v) == CountTo(s, v)
  {
    if |s| > 0 {
      CountToSort(s[1..], key, v);
      CountToInsert(s[0], SortBy(s[1..], key), key, v);
      assert [s[0]][1..] == [];
    }
  }

  lemma CountToPrefix(s: seq<Connection>, j: int, w: int)
    requires 0 <= j < |s|
    ensures CountTo(s[..j + 1], w) == CountTo(s[..j], w) + (if s[j].toNode == w then 1 else 0)
    ensures CountTo(s[..j + 1], w) <= CountTo(s, w)
  {
    assert s[..j + 1] == s[..j] + [s[j]];
    CountToConcat(s[..j], [s[j]], w);
    assert [s[j]][1..] == [];
    assert s == s[..j + 1] + s[j + 1..];
    CountToConcat(s[..j + 1], s[j + 1..], w);
  }

  /** The queue and the emitted list never hold more nodes than exist. */
  lemma LengthBound(order: seq<int>, queue: seq<int>, ids: seq<int>)
    requires Distinct(order) && Distinct(queue)
    requires forall v :: v in order ==> v in ids
    requires forall v :: v in queue ==> v in ids && v !in order
    ensures |order| + |queue| <= |ids|
  {
    var both := order + queue;
    assert forall x :: x in both ==> x in ids;
    assert Distinct(both) by {
      forall i, j | 0 <= i < j < |both| ensures both[i] != both[j] {
        if j >= |order| && i < |order| {
          assert both[j] in queue;
        }
      }
    }
    DistinctWithinBound(both, ids);
  }

  lemma MultisetDistinct(a: seq<int>, b: seq<int>)
    requires multiset(a) == multiset(b) && Distinct(b)
    ensures Distinct(a)
  {
    forall i, j | 0 <= i < j < |a| ensures a[i] != a[j] {
      if a[i] == a[j] {
        assert a == a[..i] + [a[i]] + a[i + 1..j] + [a[j]] + a[j + 1..];
        assert multiset(a)[a[i]] >= 2;
        DistinctMultiplicity(b, a[i]);
      }
    }
  }

  lemma {:induction false} DistinctMultiplicity(b: seq<int>, x: int)
    requires Distinct(b)
    ensures multiset(b)[x] <= 1
  {
    if |b| > 0 {
      DistinctMultiplicity(b[1..], x);
      assert b == [b[0]] + b[1..];
      if b[0] == x {
        assert x !in b[1..];
      }
    }
  }

  /** `nb` lists the connections leaving `u`, in some order. */
  ghost predicate NeighbourList(live: seq<Connection>, u: int, nb: seq<Connection>) {
    && (forall c :: c in nb ==> c in live && c.fromNode == u)
    && (forall v :: CountTo(nb, v) == CountTo(Outgoing(live, u), v))
  }

  /** The sorted outgoing connections are such a list. */
  lemma SortedNeighbours(live: seq<Connection>, u: int, edgeKey: Connection -> Key)
    ensures NeighbourList(live, u, SortBy(Outgoing(live, u), edgeKey))
  {
    var out := Outgoing(live, u);
    var nb := SortBy(out, edgeKey);
    forall c | c in nb ensures c in live && c.fromNode == u {
      assert c in multiset(nb);
    }
    forall v ensures CountTo(nb, v) == CountTo(out, v) {
      CountToSort(out, edgeKey, v);
    }
  }

  /** Facts about the `j`-th neighbour visited after emitting `u`. */
  lemma StepFacts(live: seq<Connection>, before: seq<int>, u: int, nb: seq<Connection>, j: int)
    requires u !in before
    requires forall c :: c in live && c.toNode == u ==> c.fromNode in before
    requires RespectsEdges(before, live)
    requires NeighbourList(live, u, nb)
    requires 0 <= j < |nb|
    ensures nb[j] in live
    ensures nb[j].toNode != u && nb[j].toNode !in before
    ensures Pending(live, nb[j].toNode, before) >= CountTo(nb[..j + 1], nb[j].toNode)
  {
    var c := nb[j];
    assert c in nb;
    var v := c.toNode;
    CountToPrefix(nb, j, v);
    PendingStep(live, v, before, u);
  }

  lemma RespectsExtend(before: seq<int>, u: int, live: seq<Connection>)
    requires u !in before
    requires RespectsEdges(before, live)
    requires forall c :: c in live && c.toNode == u ==> c.fromNode in before
    ensures RespectsEdges(before + [u], live)
  {
    var order := before + [u];
    forall c | c in live && c.toNode in order
      ensures c.fromNode in order && IndexOf(order, c.fromNode) < IndexOf(order, c.toNode)
    {
      IndexOfAppend(before, u, c.fromNode);
      IndexOfAppend(before, u, c.toNode);
    }
  }

  /** In an edge-respecting order, a listed member of a set whose every
      member has a predecessor inside the set sits at position `k` or later,
      for every `k`: so no member is listed at all. */
  lemma {:induction false} CoreAbove(order: seq<int>, edges: seq<Connection>, core: set<int>, x: int, k: nat)
    requires RespectsEdges(order, edges)
    requires forall v :: InCore(core, v) ==> exists c :: c in edges && c.toNode == v && c.fromNode in core
    requires x in core && x in order
    ensures IndexOf(order, x) >= k
    decreases k
  {
    if k > 0 {
      assert InCore(core, x);
      var c :| c in edges && c.toNode == x && c.fromNode in core;
      CoreAbove(order, edges, core, c.fromNode, k - 1);
    }
  }

  /** An order listing every node and respecting every connection rules
      out any cyclic core. */
  lemma CompleteOrderAcyclic(order: seq<int>, ids: seq<int>, edges: seq<Connection>)
    requires RespectsEdges(order, edges)
    requires forall v :: v in ids ==> v in order
    ensures !HasCycle(ids, edges)
  {
    if HasCycle(ids, edges) {
      var core :| CyclicCore(ids, edges, core);
      var v := PickFrom(core);
      CoreAbove(order, edges, core, v, |order|);
    }
  }

  /** Nodes left unlisted, each with an unlisted predecessor, form a
      cyclic core. */
  lemma StuckIsCore(order: seq<int>, ids: seq<int>, edges: seq<Connection>)
    requires Distinct(ids) && Distinct(order)
    requires forall v :: v in order ==> v in ids
    requires |order| < |ids|
    requires forall v :: Unlisted(ids, order, v) ==>
               exists c :: c in edges && c.toNode == v && c.fromNode !in order
    requires forall c :: c in edges ==> c.fromNode in ids && c.toNode in ids
    ensures HasCycle(ids, edges)
  {
    var core := set v | v in ids && v !in order;
    if core == {} {
      forall x | x in ids ensures x in order {
        assert x !in core;
      }
      DistinctWithinBound(ids, order);
    }
    forall v | InCore(core, v) ensures exists c :: c in edges && c.toNode == v && c.fromNode in core {
      assert Unlisted(ids, order, v);
      var c :| c in edges && c.toNode == v && c.fromNode !in order;
      assert c.fromNode in core;
    }
    assert CyclicCore(ids, edges, core);
  }

  /** Visiting the `k`-th neighbour frees its target: the target is not
      emitted, no connection into it is pending once `done` is emitted,
      and no later neighbour in the list points at it again. */
  predicate Fires(live: seq<Connection>, nb: seq<Connection>, k: int, done: seq<int>)
    requires 0 <= k < |nb|
  {
    var v := nb[k].toNode;
    v !in done && Pending(live, v, done) == 0 && CountTo(nb[k + 1..], v) == 0
  }

  /** The targets the first `j` visits free, in visiting order. */
  function FreedPrefix(live: seq<Connection>, nb: seq<Connection>, j: int, done: seq<int>): seq<int>
    requires 0 <= j <= |nb|
    decreases j
  {
    if j == 0 then []
    else FreedPrefix(live, nb, j - 1, done) + (if Fires(live, nb, j - 1, done) then [nb[j - 1].toNode] else [])
  }

  /** The nodes that join the back of the queue when `u`, the last node of
      `done`, is emitted: its outgoing connections in `edgeKey` order, each
      target at its last visit, when that visit leaves nothing pending. */
  function Freed(live: seq<Connection>, u: int, done: seq<int>, edgeKey: Connection -> Key): seq<int> {
    var nb := SortBy(Outgoing(live, u), edgeKey);
    FreedPrefix(live, nb, |nb|, done)
  }

  /** Everything enqueued after the roots while `order` is emitted, in
      enqueueing order: what each emitted node freed, one after another. */
  function Released(live: seq<Connection>, order: seq<int>, edgeKey: Connection -> Key): seq<int>
    decreases |order|
  {
    if |order| == 0 then []
    else Released(live, order[..|order| - 1], edgeKey) + Freed(live, order[|order| - 1], order, edgeKey)
  }

  /** `order` is the queue's FIFO order over the nodes `ids`: the roots
      sorted by `rootKey`, then what each emitted node freed, in turn. */
  predicate FifoOrder(ids: seq<int>, conns: seq<Connection>, rootKey: int -> Key, edgeKey: Connection -> Key,
                      order: seq<int>)
  {
    order == SortBy(Roots(ids, Live(ids, conns)), rootKey) + Released(Live(ids, conns), order, edgeKey)
  }

  /** Relaxing the `j`-th neighbour brings its counter to zero exactly
      when that visit frees it. */
  lemma FiresIff(live: seq<Connection>, ids: seq<int>, before: seq<int>, u: int, nb: seq<Connection>,
                 j: int, indeg: map<int, int>)
    requires u !in before
    requires forall c :: c in live ==> c.fromNode in ids && c.toNode in ids
    requires forall c :: c in live && c.toNode == u ==> c.fromNode in before
    requires RespectsEdges(before, live)
    requires NeighbourList(live, u, nb)
    requires 0 <= j < |nb|
    requires Counted(live, ids, before, nb[..j], indeg)
    ensures nb[j].toNode in indeg
    ensures indeg[nb[j].toNode] - 1 == 0 <==> Fires(live, nb, j, before + [u])
  {
    var v := nb[j].toNode;
    StepFacts(live, before, u, nb, j);
    assert v in ids;
    assert v !in before + [u];
    PendingStep(live, v, before, u);
    CountToPrefix(nb, j, v);
    assert nb == nb[..j + 1] + nb[j + 1..];
    CountToConcat(nb[..j + 1], nb[j + 1..], v);
  }

  /** The queue is its state before the inner loop followed by what the
      first `j` visits freed. */
  predicate Enqueued(live: seq<Connection>, nb: seq<Connection>, j: int, done: seq<int>,
                     queue0: seq<int>, queue: seq<int>)
    requires 0 <= j <= |nb|
  {
    queue == queue0 + FreedPrefix(live, nb, j, done)
  }

  /** Enqueueing what the `j`-th visit frees extends the freed prefix. */
  lemma FreedPrefixStep(live: seq<Connection>, nb: seq<Connection>, j: int, done: seq<int>,
                        queue0: seq<int>, queue: seq<int>, queue': seq<int>)
    requires 0 <= j < |nb|
    requires queue == queue0 + FreedPrefix(live, nb, j, done)
    requires queue' == if Fires(live, nb, j, done) then queue + [nb[j].toNode] else queue
    ensures queue' == queue0 + FreedPrefix(live, nb, j + 1, done)
  {
  }

  /** Emitting `u` after `order` releases what `u` frees after what
      `order` released. */
  lemma ReleasedSnoc(live: seq<Connection>, order: seq<int>, u: int, edgeKey: Connection -> Key)
    ensures Released(live, order + [u], edgeKey) == Released(live, order, edgeKey) + Freed(live, u, order + [u], edgeKey)
  {
    var o := order + [u];
    assert o[..|o| - 1] == order;
  }

  /** Moving the head of the queue to the end of the order, and appending
      `f` to both sides, keeps the two sides equal. */
  lemma ShiftHead(order: seq<int>, queue: seq<int>, q0: seq<int>, rel: seq<int>, f: seq<int>)
    requires |queue| > 0 && order + queue == q0 + rel
    ensures (order + [queue[0]]) + (queue[1..] + f) == q0 + (rel + f)
  {
    calc {
      (order + [queue[0]]) + (queue[1..] + f);
    ==  { assert queue == [queue[0]] + queue[1..]; }
      (order + queue) + f;
    ==
      (q0 + rel) + f;
    }
  }

  /** Emitting the head and enqueueing what it freed keeps the order and
      the queue together equal to the roots followed by everything
      released so far. */
  lemma ReleasedStep(live: seq<Connection>, order: seq<int>, queue: seq<int>, queue': seq<int>,
                     edgeKey: Connection -> Key, q0: seq<int>)
    requires |queue| > 0
    requires order + queue == q0 + Released(live, order, edgeKey)
    requires queue' == queue[1..] + Freed(live, queue[0], order + [queue[0]], edgeKey)
    ensures (order + [queue[0]]) + queue' == q0 + Released(live, order + [queue[0]], edgeKey)
  {
    ReleasedSnoc(live, order, queue[0], edgeKey);
    ShiftHead(order, queue, q0, Released(live, order, edgeKey), Freed(live, queue[0], order + [queue[0]], edgeKey));
  }

  /** What holds after the first `j` neighbours of `u` are relaxed. */
  ghost predicate RelaxInv(live: seq<Connection>, ids: seq<int>, order: seq<int>, before: seq<int>,
                           nb: seq<Connection>, j: int, indeg: map<int, int>, queue: seq<int>, q0: seq<int>)
  {
    && 0 <= j <= |nb|
    && Counted(live, ids, before, nb[..j], indeg)
    && Queued(ids, order, indeg, queue, q0)
  }

  /** Each counter is the number of pending edges into its node that are
      not among the relaxed ones. */
  ghost predicate Counted(live: seq<Connection>, ids: seq<int>, before: seq<int>, relaxed: seq<Connection>,
                          indeg: map<int, int>)
  {
    forall v :: v in ids ==> v in indeg && indeg[v] == Pending(live, v, before) - CountTo(relaxed, v)
  }

  /** The queue is duplicate-free, outside the order, and holds exactly the
      not-yet-emitted nodes whose counter is zero. */
  ghost predicate Queued(ids: seq<int>, order: seq<int>, indeg: map<int, int>, queue: seq<int>, q0: seq<int>)
  {
    && Distinct(queue)
    && (forall v :: v in queue ==> v in ids && v !in order)
    && (forall v :: v in ids && v !in order ==> v in indeg && (indeg[v] == 0 <==> v in queue))
    && q0 <= order + queue
  }

  /** Relaxing the `j`-th neighbour keeps the inner invariant. */
  lemma RelaxStep(live: seq<Connection>, ids: seq<int>, before: seq<int>, u: int, nb: seq<Connection>,
                  j: int, indeg: map<int, int>, queue: seq<int>, q0: seq<int>,
                  indeg': map<int, int>, queue': seq<int>)
    requires u !in before
    requires forall c :: c in live ==> c.fromNode in ids && c.toNode in ids
    requires forall c :: c in live && c.toNode == u ==> c.fromNode in before
    requires RespectsEdges(before, live)
    requires NeighbourList(live, u, nb)
    requires j < |nb|
    requires RelaxInv(live, ids, before + [u], before, nb, j, indeg, queue, q0)
    requires indeg' == indeg[nb[j].toNode := indeg[nb[j].toNode] - 1]
    requires queue' == if indeg'[nb[j].toNode] == 0 then queue + [nb[j].toNode] else queue
    ensures RelaxInv(live, ids, before + [u], before, nb, j + 1, indeg', queue', q0)
  {
    var order := before + [u];
    var v := nb[j].toNode;
    StepFacts(live, before, u, nb, j);
    assert v !in order;
    CounterStep(live, ids, before, nb, j, indeg, indeg');
    QueueStep(ids, order, v, indeg, indeg', queue, queue', q0);
  }

  /** The inner loop's state after `j` visits: the counters and the queue
      as `RelaxInv` describes them, the queue grown by what was freed. */
  ghost predicate RelaxState(live: seq<Connection>, ids: seq<int>, before: seq<int>, u: int, nb: seq<Connection>,
                             j: int, indeg: map<int, int>, queue: seq<int>, q0: seq<int>, queue0: seq<int>)
  {
    && 0 <= j <= |nb|
    && RelaxInv(live, ids, before + [u], before, nb, j, indeg, queue, q0)
    && Enqueued(live, nb, j, before + [u], queue0, queue)
  }

  /** The next neighbour's target has a counter. */
  lemma TargetCounted(live: seq<Connection>, ids: seq<int>, before: seq<int>, u: int, nb: seq<Connection>,
                      j: int, indeg: map<int, int>, queue: seq<int>, q0: seq<int>, queue0: seq<int>)
    requires forall c :: c in live ==> c.fromNode in ids && c.toNode in ids
    requires NeighbourList(live, u, nb)
    requires j < |nb|
    requires RelaxState(live, ids, before, u, nb, j, indeg, queue, q0, queue0)
    ensures nb[j].toNode in indeg
  {
    assert nb[j] in nb;
  }

  /** One visit of the inner loop: the invariant carries over, and the
      queue grows by exactly what the visit frees. */
  lemma RelaxVisit(live: seq<Connection>, ids: seq<int>, before: seq<int>, u: int, nb: seq<Connection>,
                   j: int, indeg: map<int, int>, queue: seq<int>, q0: seq<int>,
                   indeg': map<int, int>, queue': seq<int>, queue0: seq<int>)
    requires u !in before
    requires forall c :: c in live ==> c.fromNode in ids && c.toNode in ids
    requires forall c :: c in live && c.toNode == u ==> c.fromNode in before
    requires RespectsEdges(before, live)
    requires NeighbourList(live, u, nb)
    requires j < |nb|
    requires RelaxState(live, ids, before, u, nb, j, indeg, queue, q0, queue0)
    requires nb[j].toNode in indeg
    requires indeg' == indeg[nb[j].toNode := indeg[nb[j].toNode] - 1]
    requires queue' == if indeg'[nb[j].toNode] == 0 then queue + [nb[j].toNode] else queue
    ensures RelaxState(live, ids, before, u, nb, j + 1, indeg', queue', q0, queue0)
  {
    FiresIff(live, ids, before, u, nb, j, indeg);
    FreedPrefixStep(live, nb, j, before + [u], queue0, queue, queue');
    RelaxStep(live, ids, before, u, nb, j, indeg, queue, q0, indeg', queue');
  }

  /** The decrement keeps every counter equal to the pending edges not yet
      relaxed. */
  lemma CounterStep(live: seq<Connection>, ids: seq<int>, before: seq<int>, nb: seq<Connection>, j: int,
                    indeg: map<int, int>, indeg': map<int, int>)
    requires 0 <= j < |nb| && nb[j].toNode in indeg
    requires Counted(live, ids, before, nb[..j], indeg)
    requires indeg' == indeg[nb[j].toNode := indeg[nb[j].toNode] - 1]
    ensures Counted(live, ids, before, nb[..j + 1], indeg')
  {
    forall w | w in ids
      ensures w in indeg' && indeg'[w] == Pending(live, w, before) - CountTo(nb[..j + 1], w)
    {
      CountToPrefix(nb, j, w);
    }
  }

  /** Enqueueing the neighbour exactly when its counter reaches zero keeps
      the queue duplicate-free, outside the order, and equal to the
      not-yet-emitted nodes whose counter is zero. */
  lemma QueueStep(ids: seq<int>, order: seq<int>, v: int, indeg: map<int, int>, indeg': map<int, int>,
                  queue: seq<int>, queue': seq<int>, q0: seq<int>)
    requires v in ids && v !in order
    requires Queued(ids, order, indeg, queue, q0)
    requires indeg' == indeg[v := indeg[v] - 1] && indeg'[v] >= 0
    requires queue' == if indeg'[v] == 0 then queue + [v] else queue
    ensures Queued(ids, order, indeg', queue', q0)
  {
    if indeg'[v] == 0 {
      assert v !in queue;
      assert order + queue' == (order + queue) + [v];
    }
  }

  /** The inner loop of Kahn's algorithm: after emitting `u`, decrement
      the counter of each neighbour in `nb` order and enqueue a neighbour
      whose counter reaches zero. */
  method Relax(live: seq<Connection>, ids: seq<int>, ghost before: seq<int>, u: int, nb: seq<Connection>,
               indeg0: map<int, int>, queue0: seq<int>, ghost q0: seq<int>)
    returns (indeg: map<int, int>, queue: seq<int>)
    requires u !in before
    requires forall c :: c in live ==> c.fromNode in ids && c.toNode in ids
    requires forall c :: c in live && c.toNode == u ==> c.fromNode in before
    requires RespectsEdges(before, live)
    requires NeighbourList(live, u, nb)
    requires RelaxInv(live, ids, before + [u], before, nb, 0, indeg0, queue0, q0)
    ensures RelaxInv(live, ids, before + [u], before, nb, |nb|, indeg, queue, q0)
    ensures queue == queue0 + FreedPrefix(live, nb, |nb|, before + [u])
  {
    indeg, queue := indeg0, queue0;
    var j := 0;
    while j < |nb|
      invariant RelaxState(live, ids, before, u, nb, j, indeg, queue, q0, queue0)
      decreases |nb| - j
    {
      var v := nb[j].toNode;
      TargetCounted(live, ids, before, u, nb, j, indeg, queue, q0, queue0);
      var indeg' := indeg[v := indeg[v] - 1];
      var queue' := if indeg'[v] == 0 then queue + [v] else queue;
      RelaxVisit(live, ids, before, u, nb, j, indeg, queue, q0, indeg', queue', queue0);
      indeg, queue := indeg', queue';
      j := j + 1;
    }
  }

  /** What holds each time the outer loop pops the queue. */
  ghost predicate OuterInv(ids: seq<int>, live: seq<Connection>, order: seq<int>, queue: seq<int>,
                           indeg: map<int, int>, q0: seq<int>)
  {
    && Distinct(order) && Distinct(queue)
    && (forall v :: v in order ==> v in ids)
    && (forall v :: v in queue ==> v in ids && v !in order)
    && (forall v :: v in ids ==> v in indeg && indeg[v] == Pending(live, v, order))
    && (forall v :: v in ids && v !in order ==> (indeg[v] == 0 <==> v in queue))
    && RespectsEdges(order, live)
    && q0 <= order + queue
  }

  /** The counters and the sorted roots satisfy the invariant before the
      first pop. */
  lemma Start(ids: seq<int>, live: seq<Connection>, rootKey: int -> Key, indeg: map<int, int>)
    requires Distinct(ids)
    requires indeg == map v | v in ids :: Pending(live, v, [])
    ensures OuterInv(ids, live, [], SortBy(Roots(ids, live), rootKey), indeg, SortBy(Roots(ids, live), rootKey))
  {
    var roots := Roots(ids, live);
    var queue := SortBy(roots, rootKey);
    MultisetDistinct(queue, roots);
    forall v ensures v in queue <==> v in roots {
      assert v in queue <==> v in multiset(queue);
    }
    assert [] + queue == queue;
  }

  /** Popping the head `u` of the queue: every connection into `u` comes
      from an emitted node, and the inner loop may start. */
  lemma Emit(ids: seq<int>, live: seq<Connection>, order: seq<int>, queue: seq<int>,
             indeg: map<int, int>, q0: seq<int>, nb: seq<Connection>)
    requires OuterInv(ids, live, order, queue, indeg, q0)
    requires |queue| > 0
    ensures queue[0] in ids && queue[0] !in order
    ensures forall c :: c in live && c.toNode == queue[0] ==> c.fromNode in order
    ensures RelaxInv(live, ids, order + [queue[0]], order, nb, 0, indeg, queue[1..], q0)
    ensures |order| < |ids|
  {
    var u := queue[0];
    assert u in queue;
    PendingZero(live, u, order);
    LengthBound(order, queue, ids);
    assert nb[..0] == [];
    assert order + queue == (order + [u]) + queue[1..];
    forall v | v in queue[1..] ensures v != u {
      var i :| 0 <= i < |queue[1..]| && queue[1..][i] == v;
      assert queue[i + 1] == v;
    }
  }

  /** After relaxing all neighbours of `u`, the outer invariant holds for
      the order extended by `u`. */
  lemma Settle(ids: seq<int>, live: seq<Connection>, order: seq<int>, u: int, nb: seq<Connection>,
               indeg: map<int, int>, queue: seq<int>, q0: seq<int>)
    requires Distinct(order) && (forall v :: v in order ==> v in ids)
    requires u in ids && u !in order
    requires forall c :: c in live && c.toNode == u ==> c.fromNode in order
    requires RespectsEdges(order, live)
    requires NeighbourList(live, u, nb)
    requires RelaxInv(live, ids, order + [u], order, nb, |nb|, indeg, queue, q0)
    ensures OuterInv(ids, live, order + [u], queue, indeg, q0)
  {
    assert nb[..|nb|] == nb;
    forall v | v in ids ensures indeg[v] == Pending(live, v, order + [u]) {
      PendingStep(live, v, order, u);
    }
    RespectsExtend(order, u, live);
  }

  /** When the queue runs dry, the nodes left out each wait on another
      node left out, and the order is complete exactly when no cyclic core
      exists. */
  lemma Finish(ids: seq<int>, live: seq<Connection>, order: seq<int>, indeg: map<int, int>, q0: seq<int>)
    requires Distinct(ids)
    requires forall c :: c in live ==> c.fromNode in ids && c.toNode in ids
    requires OuterInv(ids, live, order, [], indeg, q0)
    ensures q0 <= order
    ensures forall v :: Unlisted(ids, order, v) ==>
              exists c :: c in live && c.toNode == v && c.fromNode !in order
    ensures |order| == |ids| <==> !HasCycle(ids, live)
  {
    assert order + [] == order;
    assert forall v :: v in order ==> v in ids;
    forall v | Unlisted(ids, order, v)
      ensures exists c :: c in live && c.toNode == v && c.fromNode !in order
    {
      PendingZero(live, v, order);
    }
    if |order| == |ids| {
      DistinctFillsPool(order, ids);
      CompleteOrderAcyclic(order, ids, live);
    } else {
      DistinctWithinBound(order, ids);
      StuckIsCore(order, ids, live);
    }
  }

  /** Kahn's algorithm. The result lists distinct nodes, every connection
      between listed nodes points forward, and it is the queue's FIFO
      order: the sorted roots, then what each emitted node freed, in turn.
      The result is short exactly when the graph has a cycle; then every
      node left out waits on another node left out. */
  method Linearize(ids: seq<int>, conns: seq<Connection>, rootKey: int -> Key, edgeKey: Connection -> Key)
    returns (order: seq<int>)
    requires Distinct(ids)
    ensures Distinct(order)
    ensures forall v :: v in order ==> v in ids
    ensures RespectsEdges(order, Live(ids, conns))
    ensures SortBy(Roots(ids, Live(ids, conns)), rootKey) <= order
    ensures order == SortBy(Roots(ids, Live(ids, conns)), rootKey) + Released(Live(ids, conns), order, edgeKey)
    ensures forall v :: Unlisted(ids, order, v) ==>
              exists c :: c in Live(ids, conns) && c.toNode == v && c.fromNode !in order
    ensures |order| == |ids| <==> !HasCycle(ids, Live(ids, conns))
  {
    var live := Live(ids, conns);
    var indeg: map<int, int> := map v | v in ids :: Pending(live, v, []);
    var queue := SortBy(Roots(ids, live), rootKey);
    Start(ids, live, rootKey, indeg);
    ghost var q0 := queue;
    order := [];
    while |queue| > 0
      invariant OuterInv(ids, live, order, queue, indeg, q0)
      invariant order + queue == q0 + Released(live, order, edgeKey)
      decreases |ids| - |order|
    {
      var u := queue[0];
      var nb := SortBy(Outgoing(live, u), edgeKey);
      SortedNeighbours(live, u, edgeKey);
      Emit(ids, live, order, queue, indeg, q0, nb);
      var queue';
      indeg, queue' := Relax(live, ids, order, u, nb, indeg, queue[1..], q0);
      ReleasedStep(live, order, queue, queue', edgeKey, q0);
      queue := queue';
      Settle(ids, live, order, u, nb, indeg, queue, q0);
      order := order + [u];
    }
    Finish(ids, live, order, indeg, q0);
    assert order + [] == order;
  }
}

=== FILE: migrations.dfy ===
/** The load sanitiser (storeMigrations.ts): turns a loosely typed saved
    document into a core state by filling defaults, dropping nodes without
    a numeric id, connections whose endpoint nodes are gone or whose port
    ids are empty, and drawings without an id or type.

    A raw field is `None` when it is absent or null. JavaScript's `||`
    replaces every falsy value (absent, null, the empty string, 0, false)
    while `??` replaces only absent and null; each field below follows the
    operator the sanitiser uses for it. */
module Migrations {
  import opened Common
  import opened Types

  /** A node as read from a file. `id` is `None` unless it is a number;
      `inputs`/`outputs` are `None` unless they are arrays. */
  datatype RawNode = RawNode(
    id: Option<int>,
    pos: Option<Point>,
    title: Option<string>,
    description: Option<string>,
    color: Option<string>,
    size: Option<Size>,
    inputs: Option<seq<Port>>,
    outputs: Option<seq<Port>>,
    isComplete: Option<bool>,
    inputLogic: Option<string>,
    difficulty: Option<int>,
    icon: Option<string>,
    iconColor: Option<string>,
    isPinned: Option<bool>,
    synthesis: Option<string>,
    orderIndex: Option<int>,
    time: Option<int>)

  datatype RawMininode = RawMininode(
    id: int,
    parentId: int,
    title: Option<string>,
    content: Option<string>,
    icon: Option<string>,
    pos: Option<Point>)

  /** A connection as read from a file; an endpoint that is not a number is
      `None`. */
  datatype RawConnection = RawConnection(
    fromNode: Option<int>,
    fromPortId: Option<string>,
    toNode: Option<int>,
    toPortId: Option<string>,
    isWireless: Option<bool>)

  /** A drawing as read from a file, and whether it carried a type tag. */
  datatype RawObject = RawObject(obj: CanvasObject, hasType: bool)

  /** A saved document. List entries that are null are `None`. */
  datatype SaveData = SaveData(
    nodes: Option<seq<Option<RawNode>>>,
    mininodes: Option<seq<Option<RawMininode>>>,
    connections: Option<seq<Option<RawConnection>>>,
    canvasObjects: Option<seq<Option<RawObject>>>,
    canvasTitle: Option<string>,
    backgroundColor: Option<string>,
    gridColor: Option<string>,
    nodeColor: Option<string>,
    showMininodePreviews: Option<bool>,
    checkboxPosition: Option<string>,
    contextMenuEnabled: Option<bool>,
    defaultEditorMode: Option<string>,
    autosaveEnabled: Option<bool>)

  /** `text || fallback` on a string. */
  function OrText(text: Option<string>, fallback: string): (r: string)
    ensures text.Some? && text.value != "" ==> r == text.value
    ensures text.None? || text.value == "" ==> r == fallback
  {
    if text.Some? && text.value != "" then text.value else fallback
  }

  /** The non-null entries whose id is a number, in order. */
  function NumberedNodes(raws: seq<Option<RawNode>>): (r: seq<RawNode>)
    ensures forall n :: n in r <==> Some(n) in raws && n.id.Some?
    ensures forall i :: 0 <= i < |r| ==> r[i].id.Some?
  {
    if |raws| == 0 then []
    else
      var rest := NumberedNodes(raws[1..]);
      assert forall x :: x in raws <==> x == raws[0] || x in raws[1..];
      if raws[0].Some? && raws[0].value.id.Some? then [raws[0].value] + rest else rest
  }

  /** One node with defaults filled in; `index` is its position among the
      surviving nodes. */
  function SanitizeNode(n: RawNode, index: nat): (r: Node)
    requires n.id.Some?
    ensures r.id == n.id.value
    ensures r.pos == n.pos.GetOr(Point(0, 0)) && r.size == n.size.GetOr(Size(180, 80))
    ensures r.title == OrText(n.title, "Untitled Node") && r.description == OrText(n.description, "")
    ensures r.color == OrText(n.color, "#475569")
    ensures r.inputs == n.inputs.GetOr([]) && r.outputs == n.outputs.GetOr([])
    ensures r.isComplete == n.isComplete.GetOr(false) && r.isPinned == n.isPinned.GetOr(false)
    ensures r.inputLogic == OrText(n.inputLogic, "AND")
    ensures n.inputLogic.Some? && n.inputLogic.value != "" ==> r.inputLogic == n.inputLogic.value
    ensures r.difficulty == n.difficulty.GetOr(1)
    ensures r.icon == n.icon && r.iconColor == n.iconColor && r.synthesis == n.synthesis
    ensures n.orderIndex.Some? ==> r.orderIndex == n.orderIndex.value
    ensures n.orderIndex.None? && n.id.value != 0 ==> r.orderIndex == n.id.value
    ensures n.orderIndex.None? && n.id.value == 0 ==> r.orderIndex == index + 1
    ensures r.time == n.time.GetOr(0)
  {
    var id := n.id.value;
    Node(id, n.pos.GetOr(Point(0, 0)), OrText(n.title, "Untitled Node"), OrText(n.description, ""),
         OrText(n.color, "#475569"), n.size.GetOr(Size(180, 80)), n.inputs.GetOr([]), n.outputs.GetOr([]),
         n.isComplete.GetOr(false), OrText(n.inputLogic, "AND"), n.difficulty.GetOr(1), n.icon,
         n.iconColor, n.isPinned.GetOr(false), n.synthesis, n.orderIndex.GetOr(if id != 0 then id else index + 1), n.time.GetOr(0))
  }

  function SanitizeMininode(m: RawMininode): (r: Mininode)
    ensures r.id == m.id && r.parentId == m.parentId
    ensures r.title == OrText(m.title, "untitled.txt") && r.content == OrText(m.content, "")
    ensures r.icon == OrText(m.icon, "txt") && r.pos == m.pos.GetOr(Point(0, 0))
  {
    Mininode(m.id, m.parentId, OrText(m.title, "untitled.txt"), OrText(m.content, ""),
             OrText(m.icon, "txt"), m.pos.GetOr(Point(0, 0)))
  }

  /** A connection survives when both endpoints are numbers naming
      surviving nodes and both port ids are non-empty strings. Whether the
      ports exist on those nodes is not checked. */
  predicate Survives(c: RawConnection, ids: seq<int>) {
    && c.fromNode.Some? && c.fromNode.value in ids
    && c.toNode.Some? && c.toNode.value in ids
    && c.fromPortId.Some? && c.fromPortId.value != ""
    && c.toPortId.Some? && c.toPortId.value != ""
  }

  function SanitizeConnection(c: RawConnection): (r: Connection)
    requires c.fromNode.Some? && c.toNode.Some? && c.fromPortId.Some? && c.toPortId.Some?
    ensures r.fromNode == c.fromNode.value && r.toNode == c.toNode.value
    ensures r.fromPortId == c.fromPortId.value && r.toPortId == c.toPortId.value
    ensures r.isWireless == c.isWireless.GetOr(false)
  {
    Connection(c.fromNode.value, c.fromPortId.value, c.toNode.value, c.toPortId.value, c.isWireless.GetOr(false))
  }

  /** The surviving connections, with `isWireless` defaulted, in order. */
  function SanitizeConnections(raws: seq<Option<RawConnection>>, ids: seq<int>): (r: seq<Connection>)
    ensures forall c :: c in r ==> c.fromNode in ids && c.toNode in ids && c.fromPortId != "" && c.toPortId != ""
    ensures forall c :: Some(c) in raws && Survives(c, ids) ==> SanitizeConnection(c) in r
    ensures forall c :: c in r ==> exists rc :: Some(rc) in raws && Survives(rc, ids) && SanitizeConnection(rc) == c
  {
    if |raws| == 0 then []
    else
      var rest := SanitizeConnections(raws[1..], ids);
      assert forall x :: x in raws <==> x == raws[0] || x in raws[1..];
      if raws[0].Some? && Survives(raws[0].value, ids) then [SanitizeConnection(raws[0].value)] + rest
      else rest
  }

  /** A drawing is kept when it is non-null, has a non-empty id and a type. */
  predicate KeptObject(o: Option<RawObject>) {
    o.Some? && o.value.obj.id != "" && o.value.hasType
  }

  function SanitizeObjects(raws: seq<Option<RawObject>>): (r: seq<CanvasObject>)
    ensures forall o :: o in r <==> exists ro :: ro in raws && KeptObject(ro) && ro.value.obj == o
  {
    if |raws| == 0 then []
    else
      var rest := SanitizeObjects(raws[1..]);
      assert forall x :: x in raws <==> x == raws[0] || x in raws[1..];
      if KeptObject(raws[0]) then [raws[0].value.obj] + rest else rest
  }

  /** The surviving nodes with defaults filled in, in order; their ids are
      the numeric ids of the raw nodes. */
  function SanitizeNodes(kept: seq<RawNode>): (r: seq<Node>)
    requires forall i :: 0 <= i < |kept| ==> kept[i].id.Some?
    ensures |r| == |kept|
    ensures forall i :: 0 <= i < |kept| ==> r[i] == SanitizeNode(kept[i], i)
    ensures forall x :: x in Ids(r) <==> exists n :: n in kept && n.id == Some(x)
  {
    var nodes := seq(|kept|, i requires 0 <= i < |kept| => SanitizeNode(kept[i], i));
    assert forall x :: x in Ids(nodes) <==> exists n :: n in kept && n.id == Some(x) by {
      forall x | x in Ids(nodes) ensures exists n :: n in kept && n.id == Some(x) {
        var i :| 0 <= i < |nodes| && Ids(nodes)[i] == x;
        assert kept[i] in kept;
      }
      forall x | exists n :: n in kept && n.id == Some(x) ensures x in Ids(nodes) {
        var n :| n in kept && n.id == Some(x);
        var i :| 0 <= i < |kept| && kept[i] == n;
        assert Ids(nodes)[i] == x;
      }
    }
    nodes
  }

  /** The mininodes with defaults filled in, in order. The list is mapped
      without a null filter, so a null entry makes the load throw: `None`. */
  function SanitizeMininodes(ms: seq<Option<RawMininode>>): (r: Option<seq<Mininode>>)
    ensures r.None? <==> None in ms
    ensures r.Some? ==> |r.value| == |ms|
    ensures r.Some? ==> forall i :: 0 <= i < |ms| ==> ms[i].Some? && r.value[i] == SanitizeMininode(ms[i].value)
  {
    if None in ms then None
    else
      assert forall i :: 0 <= i < |ms| ==> ms[i].Some? by {
        forall i | 0 <= i < |ms| ensures ms[i].Some? {
          assert ms[i] in ms;
        }
      }
      Some(seq(|ms|, i requires 0 <= i < |ms| => SanitizeMininode(ms[i].value)))
  }

  /** sanitizeAndMigrateState. The load throws exactly when the mininode
      list holds a null entry; otherwise the document is assembled from the
      sanitised parts. */
  function Sanitize(d: SaveData): (r: Option<CoreState>)
    ensures r.None? <==> None in d.mininodes.GetOr([])
    ensures r.Some? ==> r.value.mininodes == SanitizeMininodes(d.mininodes.GetOr([])).value
    ensures r.Some? ==> r.value == Assemble(d, r.value.mininodes)
    ensures r.Some? ==> Clean(r.value)
  {
    match SanitizeMininodes(d.mininodes.GetOr([]))
    case None => None
    case Some(ms) =>
      AssembledClean(d, ms);
      Some(Assemble(d, ms))
  }

  /** A document assembled from clean mininodes is clean. */
  lemma AssembledClean(d: SaveData, ms: seq<Mininode>)
    requires forall m :: m in ms ==> CleanMininode(m)
    ensures Clean(Assemble(d, ms))
  {
  }

  /** The document built from a saved one and its sanitised mininodes:
      nodes without a numeric id are dropped, mininodes are kept whether or
      not their owner survives, connections are filtered against the
      surviving nodes, and the settings take their defaults. */
  function Assemble(d: SaveData, mininodes: seq<Mininode>): (r: CoreState)
    ensures r.nodes == SanitizeNodes(NumberedNodes(d.nodes.GetOr([])))
    ensures forall x :: x in Ids(r.nodes) <==> exists n :: Some(n) in d.nodes.GetOr([]) && n.id == Some(x)
    ensures r.mininodes == mininodes
    ensures r.connections == SanitizeConnections(d.connections.GetOr([]), Ids(r.nodes))
    ensures forall c :: c in r.connections ==> c.fromNode in Ids(r.nodes) && c.toNode in Ids(r.nodes)
    ensures forall c :: Some(c) in d.connections.GetOr([]) && Survives(c, Ids(r.nodes)) ==>
              SanitizeConnection(c) in r.connections
    ensures r.canvasObjects == SanitizeObjects(d.canvasObjects.GetOr([]))
    ensures forall o :: o in r.canvasObjects <==>
              exists ro :: ro in d.canvasObjects.GetOr([]) && KeptObject(ro) && ro.value.obj == o
    ensures r.canvasTitle == OrText(d.canvasTitle, "Untitled")
    ensures r.backgroundColor == OrText(d.backgroundColor, "#202c3c")
    ensures r.gridColor == OrText(d.gridColor, "#3b4a60")
    ensures r.nodeColor == OrText(d.nodeColor, "#475569")
    ensures r.showMininodePreviews == d.showMininodePreviews.GetOr(false)
    ensures r.checkboxPosition == OrText(d.checkboxPosition, "left")
    ensures r.contextMenuEnabled == d.contextMenuEnabled.GetOr(true)
    ensures r.defaultEditorMode == OrText(d.defaultEditorMode, "split")
    ensures r.autosaveEnabled == d.autosaveEnabled.GetOr(false)
  {
    var nodes := SanitizeNodes(NumberedNodes(d.nodes.GetOr([])));
    CoreState(
      nodes,
      mininodes,
      SanitizeConnections(d.connections.GetOr([]), Ids(nodes)),
      SanitizeObjects(d.canvasObjects.GetOr([])),
      OrText(d.nodeColor, "#475569"),
      OrText(d.backgroundColor, "#202c3c"),
      OrText(d.gridColor, "#3b4a60"),
      OrText(d.canvasTitle, "Untitled"),
      d.showMininodePreviews.GetOr(false),
      OrText(d.checkboxPosition, "left"),
      d.contextMenuEnabled.GetOr(true),
      OrText(d.defaultEditorMode, "split"),
      d.autosaveEnabled.GetOr(false))
  }

  // ---------------------------------------------------------------------
  // The sanitiser's fixed points

  predicate CleanNode(n: Node) {
    n.title != "" && n.color != "" && n.inputLogic != ""
  }

  predicate CleanMininode(m: Mininode) {
    m.title != "" && m.icon != ""
  }

  predicate CleanConnection(c: Connection, ids: seq<int>) {
    c.fromNode in ids && c.toNode in ids && c.fromPortId != "" && c.toPortId != ""
  }

  /** What every sanitised document satisfies: the text fields with a
      non-empty default are non-empty, every connection names surviving
      nodes and non-empty ports, and every drawing has an id. */
  predicate Clean(c: CoreState) {
    && (forall n :: n in c.nodes ==> CleanNode(n))
    && (forall m :: m in c.mininodes ==> CleanMininode(m))
    && (forall k :: k in c.connections ==> CleanConnection(k, Ids(c.nodes)))
    && (forall o :: o in c.canvasObjects ==> o.id != "")
    && c.canvasTitle != "" && c.backgroundColor != "" && c.gridColor != "" && c.nodeColor != ""
    && c.checkboxPosition != "" && c.defaultEditorMode != ""
  }

  /** A document written back out with every field present, as saving a
      core state does. */
  function Unparse(c: CoreState): (d: SaveData)
    ensures d.nodes == Some(UnparseNodes(c.nodes))
    ensures d.connections == Some(UnparseConnections(c.connections))
  {
    SaveData(
      Some(UnparseNodes(c.nodes)),
      Some(UnparseMininodes(c.mininodes)),
      Some(UnparseConnections(c.connections)),
      Some(UnparseObjects(c.canvasObjects)),
      Some(c.canvasTitle), Some(c.backgroundColor), Some(c.gridColor), Some(c.nodeColor),
      Some(c.showMininodePreviews), Some(c.checkboxPosition), Some(c.contextMenuEnabled),
      Some(c.defaultEditorMode), Some(c.autosaveEnabled))
  }

  function UnparseNode(n: Node): RawNode {
    RawNode(Some(n.id), Some(n.pos), Some(n.title), Some(n.description), Some(n.color), Some(n.size),
            Some(n.inputs), Some(n.outputs), Some(n.isComplete), Some(n.inputLogic), Some(n.difficulty),
            n.icon, n.iconColor, Some(n.isPinned), n.synthesis, Some(n.orderIndex), Some(n.time))
  }

  function UnparseNodes(ns: seq<Node>): (r: seq<Option<RawNode>>)
    ensures |r| == |ns|
  {
    if |ns| == 0 then [] else [Some(UnparseNode(ns[0]))] + UnparseNodes(ns[1..])
  }

  function UnparseMininodes(ms: seq<Mininode>): (r: seq<Option<RawMininode>>)
    ensures |r| == |ms|
    ensures forall i :: 0 <= i < |ms| ==>
              r[i] == Some(RawMininode(ms[i].id, ms[i].parentId, Some(ms[i].title), Some(ms[i].content),
                                       Some(ms[i].icon), Some(ms[i].pos)))
  {
    seq(|ms|, i requires 0 <= i < |ms| =>
      Some(RawMininode(ms[i].id, ms[i].parentId, Some(ms[i].title), Some(ms[i].content),
                       Some(ms[i].icon), Some(ms[i].pos))))
  }

  function UnparseConnection(c: Connection): RawConnection {
    RawConnection(Some(c.fromNode), Some(c.fromPortId), Some(c.toNode), Some(c.toPortId), Some(c.isWireless))
  }

  function UnparseConnections(cs: seq<Connection>): (r: seq<Option<RawConnection>>) {
    if |cs| == 0 then [] else [Some(UnparseConnection(cs[0]))] + UnparseConnections(cs[1..])
  }

  function UnparseObjects(os: seq<CanvasObject>): (r: seq<Option<RawObject>>) {
    if |os| == 0 then [] else [Some(RawObject(os[0], true))] + UnparseObjects(os[1..])
  }

  lemma {:induction false} NumberedUnparsed(ns: seq<Node>)
    ensures var k := NumberedNodes(UnparseNodes(ns));
            |k| == |ns| && forall i :: 0 <= i < |ns| ==> k[i] == UnparseNode(ns[i])
  {
    if |ns| > 0 {
      NumberedUnparsed(ns[1..]);
      var k := NumberedNodes(UnparseNodes(ns));
      assert UnparseNodes(ns)[1..] == UnparseNodes(ns[1..]);
      assert k == [UnparseNode(ns[0])] + NumberedNodes(UnparseNodes(ns[1..]));
    }
  }

  lemma {:induction false} ConnectionsUnparsed(conns: seq<Connection>, ids: seq<int>)
    requires forall k :: k in conns ==> CleanConnection(k, ids)
    ensures SanitizeConnections(UnparseConnections(conns), ids) == conns
  {
    if |conns| > 0 {
      assert conns[0] in conns;
      assert forall k :: k in conns[1..] ==> k in conns;
      ConnectionsUnparsed(conns[1..], ids);
      ConnectionUnparsed(conns[0], UnparseConnections(conns[1..]), ids);
      assert conns == [conns[0]] + conns[1..];
    }
  }

  /** A clean connection written out survives sanitising unchanged. */
  lemma ConnectionUnparsed(c: Connection, rest: seq<Option<RawConnection>>, ids: seq<int>)
    requires CleanConnection(c, ids)
    ensures SanitizeConnections([Some(UnparseConnection(c))] + rest, ids) == [c] + SanitizeConnections(rest, ids)
  {
    assert ([Some(UnparseConnection(c))] + rest)[1..] == rest;
  }

  lemma {:induction false} ObjectsUnparsed(objs: seq<CanvasObject>)
    requires forall o :: o in objs ==> o.id != ""
    ensures SanitizeObjects(UnparseObjects(objs)) == objs
  {
    if |objs| > 0 {
      assert objs[0] in objs;
      assert forall o :: o in objs[1..] ==> o in objs;
      ObjectsUnparsed(objs[1..]);
      ObjectUnparsed(objs[0], UnparseObjects(objs[1..]));
      assert objs == [objs[0]] + objs[1..];
    }
  }

  /** A drawing with an id, written out in front of others, is loaded in
      front of them. */
  lemma ObjectUnparsed(o: CanvasObject, rest: seq<Option<RawObject>>)
    requires o.id != ""
    ensures SanitizeObjects([Some(RawObject(o, true))] + rest) == [o] + SanitizeObjects(rest)
  {
    assert ([Some(RawObject(o, true))] + rest)[1..] == rest;
  }

  lemma NodeUnparsed(n: Node, index: nat)
    requires CleanNode(n)
    ensures SanitizeNode(UnparseNode(n), index) == n
  {
  }

  lemma NodesUnparsed(ns: seq<Node>)
    requires forall n :: n in ns ==> CleanNode(n)
    ensures SanitizeNodes(NumberedNodes(UnparseNodes(ns))) == ns
  {
    NumberedUnparsed(ns);
    var k := NumberedNodes(UnparseNodes(ns));
    var r := SanitizeNodes(k);
    forall i | 0 <= i < |ns| ensures r[i] == ns[i] {
      assert ns[i] in ns;
      assert k[i] == UnparseNode(ns[i]);
      NodeUnparsed(ns[i], i);
    }
  }

  lemma MininodesUnparsed(ms: seq<Mininode>)
    requires forall m :: m in ms ==> CleanMininode(m)
    ensures SanitizeMininodes(UnparseMininodes(ms)) == Some(ms)
  {
    var u := UnparseMininodes(ms);
    assert None !in u by {
      forall i | 0 <= i < |u| ensures u[i] != None {
      }
    }
    var r := SanitizeMininodes(u).value;
    forall i | 0 <= i < |ms| ensures r[i] == ms[i] {
      assert ms[i] in ms;
    }
    assert r == ms;
  }

  /** A document is left as it is by writing it out and loading it back
      exactly when it is clean. */
  lemma CleanIsFixedPoint(c: CoreState)
    ensures Sanitize(Unparse(c)) == Some(c) <==> Clean(c)
  {
    if Clean(c) {
      var d := Unparse(c);
      MininodesUnparsed(c.mininodes);
      var r := Sanitize(d).value;
      NodesUnparsed(c.nodes);
      assert r.nodes == c.nodes;
      assert r.mininodes == c.mininodes;
      ConnectionsUnparsed(c.connections, Ids(c.nodes));
      assert r.connections == c.connections;
      ObjectsUnparsed(c.canvasObjects);
      assert r.canvasObjects == c.canvasObjects;
    }
  }

  /** Sanitising is idempotent: loading a sanitised document that was
      written back out gives the same document. */
  lemma SanitizeIdempotent(d: SaveData)
    requires Sanitize(d).Some?
    ensures Sanitize(Unparse(Sanitize(d).value)) == Sanitize(d)
  {
    CleanIsFixedPoint(Sanitize(d).value);
  }

  /** The sanitiser keeps a connection into a port its target node does not
      have: only the endpoint nodes are checked. */
  lemma PortsNotChecked(n: Node)
    requires n.id == 1 && |n.inputs| == 0 && CleanNode(n)
    ensures var c := RawConnection(Some(1), Some("out"), Some(1), Some("in"), None);
            var d := SaveData(Some([Some(UnparseNode(n))]), None, Some([Some(c)]), None,
                              None, None, None, None, None, None, None, None, None);
            Sanitize(d).Some?
            && Sanitize(d).value.connections == [Connection(1, "out", 1, "in", false)]
  {
    var c := RawConnection(Some(1), Some("out"), Some(1), Some("in"), None);
    var d := SaveData(Some([Some(UnparseNode(n))]), None, Some([Some(c)]), None,
                      None, None, None, None, None, None, None, None, None);
    assert UnparseNodes([n]) == [Some(UnparseNode(n))];
    NodesUnparsed([n]);
    assert SanitizeMininodes([]) == Some([]);
    var r := Sanitize(d).value;
    assert r.nodes == [n];
    assert Ids(r.nodes) == [1];
    OneConnectionKept(c, [1]);
  }

  /** A lone connection that passes the filter is loaded as it is. */
  lemma OneConnectionKept(c: RawConnection, ids: seq<int>)
    requires Survives(c, ids)
    ensures SanitizeConnections([Some(c)], ids) == [SanitizeConnection(c)]
  {
    assert [Some(c)][1..] == [];
  }
}

=== FILE: mininodeeditor.dfy ===
/** The mininode editor dialog (EditMininodeModal.tsx): the icon chosen
    from the file extension while the title is typed, and the defaults
    applied when the mininode is saved. */
module MininodeEditor {
  import opened Common
  import opened Types

  /** The file icons the editor knows (Icon.tsx). */
  const IconTypes: seq<string> := ["py", "js", "html", "css", "json", "bat", "ps1", "php", "cmd", "txt", "generic"]

  /** `title.split('.').pop().toLowerCase()`: the lower-cased text after the
      last dot, or the whole title when it has no dot. */
  function Extension(title: string): (r: string)
    ensures '.' !in r
  {
    var pieces := SplitOn(title, '.');
    var last := pieces[|pieces| - 1];
    var r := ToLower(last);
    assert forall i :: 0 <= i < |r| ==> r[i] != '.' by {
      forall i | 0 <= i < |r| ensures r[i] != '.' {
        assert last[i] != '.';
      }
    }
    r
  }

  /** handleTitleChange: a non-empty extension naming a known icon is the
      icon; anything else gives the generic one. */
  function IconFor(title: string): (r: string)
    ensures r in IconTypes
    ensures r == Extension(title) || r == "generic"
  {
    var ext := Extension(title);
    if ext != "" && ext in IconTypes then ext else "generic"
  }

  /** Every known icon name is already lower case. */
  lemma IconTypesLower(ext: string)
    requires ext in IconTypes
    ensures ToLower(ext) == ext
  {
  }

  /** The extension of a title is what follows its last dot, lower-cased. */
  lemma ExtensionAfterDot(name: string, ext: string)
    requires '.' !in ext
    ensures Extension(name + "." + ext) == ToLower(ext)
  {
    SplitLast(name, ext, '.');
    assert name + "." + ext == name + ['.'] + ext;
  }

  /** A title ending in `.` and a known extension takes that extension's
      icon, whatever comes before the dot. */
  lemma IconFromExtension(name: string, ext: string)
    requires ext in IconTypes
    ensures IconFor(name + "." + ext) == ext
  {
    assert '.' !in ext;
    ExtensionAfterDot(name, ext);
    IconTypesLower(ext);
  }

  /** A title whose extension is upper case picks the same icon as its
      lower-case spelling. */
  lemma IconIgnoresCase(name: string, ext: string)
    requires '.' !in ext
    ensures IconFor(name + "." + ext) == IconFor(name + "." + ToLower(ext))
  {
    var lower := ToLower(ext);
    assert '.' !in lower by {
      forall i | 0 <= i < |lower| ensures lower[i] != '.' {
        assert ext[i] != '.';
      }
    }
    ExtensionAfterDot(name, ext);
    ExtensionAfterDot(name, lower);
    assert ToLower(lower) == lower;
  }

  /** A title without a dot is read as an extension of its own: the title
      "js" picks the JavaScript icon. */
  lemma IconOfDotless(title: string)
    requires '.' !in title
    ensures IconFor(title) == if ToLower(title) in IconTypes then ToLower(title) else "generic"
  {
    SplitWhole(title, '.');
  }

  /** Typing a title: the title is taken as typed and the icon follows it. */
  function ChangeTitle(m: Mininode, title: string): (r: Mininode)
    ensures r.title == title && r.icon in IconTypes
    ensures r.(title := m.title, icon := m.icon) == m
  {
    m.(title := title, icon := IconFor(title))
  }

  /** handleSave: the title trimmed, "untitled.txt" when nothing is left;
      an empty icon becomes "txt". */
  function SaveEdit(m: Mininode): (r: Mininode)
    ensures r.title != "" && !AllSpace(r.title)
    ensures !AllSpace(m.title) ==> r.title == Trim(m.title)
    ensures AllSpace(m.title) ==> r.title == "untitled.txt"
    ensures m.icon != "" ==> r.icon == m.icon
    ensures m.icon == "" ==> r.icon == "txt"
    ensures r.(title := m.title, icon := m.icon) == m
  {
    var t := Trim(m.title);
    var title := if t == "" then "untitled.txt" else t;
    assert !IsSpace(title[0]);
    m.(title := title, icon := if m.icon == "" then "txt" else m.icon)
  }

  /** Saving a saved mininode changes nothing. */
  lemma SaveIdempotent(m: Mininode)
    ensures SaveEdit(SaveEdit(m)) == SaveEdit(m)
  {
    var r := SaveEdit(m);
    var t := Trim(m.title);
    if t != "" {
      TrimTrimmed(t);
    } else {
      TrimTrimmed("untitled.txt");
    }
  }

  /** After the title is typed the icon it chose survives the save. */
  lemma SaveKeepsTypedIcon(m: Mininode, title: string)
    ensures SaveEdit(ChangeTitle(m, title)).icon == IconFor(title)
  {
  }
}

=== FILE: mininodes.dfy ===
/** Mininode commands (storeActionsMininode.ts): attaching a new text file
    to a node, saving an edited one, deleting the one a confirmation dialog
    names, and moving one to another owner. Each document change is one
    commit. */
module Mininodes {
  import opened Common
  import opened Types
  import opened Store
  import opened UiActions
  import Utils

  /** No two mininodes share an id. */
  predicate DistinctMininodeIds(ms: seq<Mininode>) {
    forall i, j :: 0 <= i < j < |ms| ==> ms[i].id != ms[j].id
  }

  /** Array.prototype.find on mininodes by id. */
  function FindMininode(ms: seq<Mininode>, id: int): (r: Option<Mininode>)
    ensures r.None? <==> forall m :: m in ms ==> m.id != id
    ensures r.Some? ==> r.value in ms && r.value.id == id
  {
    if |ms| == 0 then None
    else if ms[0].id == id then Some(ms[0])
    else
      assert forall m :: m in ms ==> m == ms[0] || m in ms[1..];
      FindMininode(ms[1..], id)
  }

  /** The file addMininode attaches: an empty text file at the owner's
      origin. */
  function NewMininode(id: int, parentId: int): (m: Mininode)
    ensures m.id == id && m.parentId == parentId
    ensures m.title == "nuevo_diente.txt" && m.content == "" && m.icon == "txt"
    ensures m.pos == Point(0, 0)
  {
    Mininode(id, parentId, "nuevo_diente.txt", "", "txt", Point(0, 0))
  }

  /** addMininode: one commit appending a file with an id above every
      existing one, owned by `parentId`; its editor opens on top. */
  function AddMininode(s: AppState, parentId: int): (r: AppState)
    ensures |r.core.mininodes| == |s.core.mininodes| + 1
    ensures r.core.mininodes[..|s.core.mininodes|] == s.core.mininodes
    ensures var m := r.core.mininodes[|s.core.mininodes|];
            && m.parentId == parentId && m.content == "" && m.icon == "txt"
            && (forall o :: o in s.core.mininodes ==> o.id < m.id)
            && r.ui.activeModals == s.ui.activeModals + [EditMininode(m)]
    ensures r.core.mininodes[|s.core.mininodes|] ==
              NewMininode(Utils.NewMininodeId(s.core.mininodes), parentId)
    ensures r.core.(mininodes := s.core.mininodes) == s.core
    ensures r.past == s.past + [s.core] && r.future == []
  {
    var m := NewMininode(Utils.NewMininodeId(s.core.mininodes), parentId);
    var t := Commit(s, NoChange().(mininodes := Some(s.core.mininodes + [m])));
    t.(ui := OpenModal(t.ui, EditMininode(m)))
  }

  lemma AddMininodeKeepsIdsDistinct(s: AppState, parentId: int)
    requires DistinctMininodeIds(s.core.mininodes)
    ensures DistinctMininodeIds(AddMininode(s, parentId).core.mininodes)
  {
    var ms := AddMininode(s, parentId).core.mininodes;
    var n := |s.core.mininodes|;
    assert ms == ms[..n] + [ms[n]];
    AppendLargerMininodeId(s.core.mininodes, ms[n]);
  }

  /** Appending a mininode whose id exceeds every id present keeps the ids
      distinct. */
  lemma AppendLargerMininodeId(ms: seq<Mininode>, m: Mininode)
    requires DistinctMininodeIds(ms)
    requires forall o :: o in ms ==> o.id < m.id
    ensures DistinctMininodeIds(ms + [m])
  {
    var r := ms + [m];
    forall i, j | 0 <= i < j < |r| ensures r[i].id != r[j].id {
      assert r[i] == ms[i] && r[i] in ms;
      if j < |ms| {
        assert r[j] == ms[j];
      }
    }
  }

  /** The mininode list with every entry carrying `m`'s id replaced by `m`. */
  function Replace(ms: seq<Mininode>, m: Mininode): (r: seq<Mininode>)
    ensures |r| == |ms|
    ensures forall i :: 0 <= i < |ms| ==> r[i] == if ms[i].id == m.id then m else ms[i]
  {
    seq(|ms|, i requires 0 <= i < |ms| => if ms[i].id == m.id then m else ms[i])
  }

  /** saveMininode: one commit replacing the file with the same id, then the
      editor closes. A file whose id is unknown changes nothing in the
      list, though the commit still happens. */
  function SaveMininode(s: AppState, m: Mininode): (r: AppState)
    ensures |r.core.mininodes| == |s.core.mininodes|
    ensures forall i :: 0 <= i < |s.core.mininodes| && s.core.mininodes[i].id != m.id ==>
              r.core.mininodes[i] == s.core.mininodes[i]
    ensures forall i :: 0 <= i < |s.core.mininodes| && s.core.mininodes[i].id == m.id ==>
              r.core.mininodes[i] == m
    ensures r.core.(mininodes := s.core.mininodes) == s.core
    ensures r.past == s.past + [s.core] && r.future == []
    ensures r.ui == CloseModal(s.ui.(isFileDirty := s.ui.editingMode == File))
  {
    var t := Commit(s, NoChange().(mininodes := Some(Replace(s.core.mininodes, m))));
    t.(ui := CloseModal(t.ui))
  }

  /** Saving keeps the list's ids, so it keeps them distinct, and the saved
      file is then the one found under its id. */
  lemma {:induction false} ReplaceKeepsIds(ms: seq<Mininode>, m: Mininode)
    requires DistinctMininodeIds(ms)
    requires exists o :: o in ms && o.id == m.id
    ensures DistinctMininodeIds(Replace(ms, m))
    ensures FindMininode(Replace(ms, m), m.id) == Some(m)
  {
    var r := Replace(ms, m);
    assert forall i :: 0 <= i < |r| ==> r[i].id == ms[i].id;
    var o :| o in ms && o.id == m.id;
    var k :| 0 <= k < |ms| && ms[k] == o;
    var f := FindMininode(r, m.id);
    var j :| 0 <= j < |r| && r[j] == f.value;
    assert r[j] == m;
  }

  /** The mininode list without the files carrying `id`, in their order. */
  function WithoutId(ms: seq<Mininode>, id: int): (r: seq<Mininode>)
    ensures forall m :: m in r <==> m in ms && m.id != id
  {
    Filter(ms, (m: Mininode) => m.id != id)
  }

  /** confirmDeleteMininode: when the top dialog asks to delete a mininode,
      one commit removes every file with that id and the dialog closes;
      otherwise nothing happens. */
  function ConfirmDeleteMininode(s: AppState): (r: AppState)
    ensures !(|s.ui.activeModals| > 0 && s.ui.activeModals[|s.ui.activeModals| - 1].DeleteMininode?) ==> r == s
    ensures |s.ui.activeModals| > 0 && s.ui.activeModals[|s.ui.activeModals| - 1].DeleteMininode? ==>
              var id := s.ui.activeModals[|s.ui.activeModals| - 1].mininodeId;
              && r.core.mininodes == WithoutId(s.core.mininodes, id)
              && r.core.(mininodes := s.core.mininodes) == s.core
              && r.past == s.past + [s.core] && r.future == []
              && r.ui.activeModals == s.ui.activeModals[..|s.ui.activeModals| - 1]
  {
    if |s.ui.activeModals| > 0 && s.ui.activeModals[|s.ui.activeModals| - 1].DeleteMininode? then
      var id := s.ui.activeModals[|s.ui.activeModals| - 1].mininodeId;
      var t := Commit(s, NoChange().(mininodes := Some(WithoutId(s.core.mininodes, id))));
      t.(ui := CloseModal(t.ui))
    else s
  }

  /** Deleting by the id of a file just appended with a fresh id leaves the
      list it was appended to. */
  lemma DeleteAfterAppend(ms: seq<Mininode>, m: Mininode)
    requires forall o :: o in ms ==> o.id < m.id
    ensures WithoutId(ms + [m], m.id) == ms
  {
    var keep := (o: Mininode) => o.id != m.id;
    FilterAll(ms, keep);
    FilterConcat(ms, [m], keep);
    FilterSingle(m, keep);
  }

  /** Confirming the deletion of a file appended with a fresh id leaves the
      mininode list it was appended to. */
  lemma DeleteAppended(t: AppState, ms: seq<Mininode>, m: Mininode)
    requires |t.ui.activeModals| > 0 && t.ui.activeModals[|t.ui.activeModals| - 1] == DeleteMininode(m.id)
    requires t.core.mininodes == ms + [m]
    requires forall o :: o in ms ==> o.id < m.id
    ensures ConfirmDeleteMininode(t).core.mininodes == ms
  {
    DeleteAfterAppend(ms, m);
  }

  /** Confirming the deletion of a file right after adding it leaves the
      mininode list it was added to. */
  lemma DeleteAfterAdd(s: AppState, parentId: int)
    ensures var a := AddMininode(s, parentId);
            var m := a.core.mininodes[|s.core.mininodes|];
            var d := ConfirmDeleteMininode(a.(ui := a.ui.(activeModals := a.ui.activeModals + [DeleteMininode(m.id)])));
            d.core.mininodes == s.core.mininodes
  {
    var a := AddMininode(s, parentId);
    var ms := s.core.mininodes;
    var m := a.core.mininodes[|ms|];
    assert a.core.mininodes == ms + [m];
    DeleteAppended(a.(ui := a.ui.(activeModals := a.ui.activeModals + [DeleteMininode(m.id)])), ms, m);
  }

  /** The mininode list with every file carrying `id` moved to `parent`. */
  function Reparent(ms: seq<Mininode>, id: int, parent: int): (r: seq<Mininode>)
    ensures |r| == |ms|
    ensures forall i :: 0 <= i < |ms| ==>
              r[i] == if ms[i].id == id then ms[i].(parentId := parent) else ms[i]
  {
    seq(|ms|, i requires 0 <= i < |ms| => if ms[i].id == id then ms[i].(parentId := parent) else ms[i])
  }

  /** moveMininode: nothing happens when no file has the id or the first
      one found already belongs to `parent`; otherwise one commit moves it,
      and nothing else in the document changes. */
  function MoveMininode(s: AppState, id: int, parent: int): (r: AppState)
    ensures FindMininode(s.core.mininodes, id).None? ==> r == s
    ensures FindMininode(s.core.mininodes, id).Some? && FindMininode(s.core.mininodes, id).value.parentId == parent ==>
              r == s
    ensures FindMininode(s.core.mininodes, id).Some? && FindMininode(s.core.mininodes, id).value.parentId != parent ==>
              && |r.core.mininodes| == |s.core.mininodes|
              && (forall i :: 0 <= i < |s.core.mininodes| ==>
                    && r.core.mininodes[i].(parentId := s.core.mininodes[i].parentId) == s.core.mininodes[i]
                    && (s.core.mininodes[i].id == id ==> r.core.mininodes[i].parentId == parent)
                    && (s.core.mininodes[i].id != id ==> r.core.mininodes[i] == s.core.mininodes[i]))
              && r.core.(mininodes := s.core.mininodes) == s.core
              && r.past == s.past + [s.core] && r.future == []
  {
    match FindMininode(s.core.mininodes, id)
    case None => s
    case Some(m) =>
      if m.parentId == parent then s
      else Commit(s, NoChange().(mininodes := Some(Reparent(s.core.mininodes, id, parent))))
  }

  /** Moving a file to another owner and back restores the mininode list
      when ids are distinct. */
  lemma ReparentBack(ms: seq<Mininode>, k: int, parent: int)
    requires DistinctMininodeIds(ms) && 0 <= k < |ms|
    ensures Reparent(Reparent(ms, ms[k].id, parent), ms[k].id, ms[k].parentId) == ms
  {
    var r := Reparent(Reparent(ms, ms[k].id, parent), ms[k].id, ms[k].parentId);
    forall i | 0 <= i < |ms| ensures r[i] == ms[i] {
      if ms[i].id == ms[k].id && i != k {
        if i < k { assert false; } else { assert false; }
      }
    }
  }

  /** After a move, the first file found under the id is the moved one. */
  lemma FindAfterReparent(ms: seq<Mininode>, k: int, parent: int)
    requires DistinctMininodeIds(ms) && 0 <= k < |ms|
    ensures FindMininode(Reparent(ms, ms[k].id, parent), ms[k].id) == Some(ms[k].(parentId := parent))
  {
    var r := Reparent(ms, ms[k].id, parent);
    var f := FindMininode(r, ms[k].id);
    var j :| 0 <= j < |r| && r[j] == f.value;
    if j < k { assert false; }
    if k < j { assert false; }
  }

  /** Moving a file to another owner and back, through the command, restores
      the mininode list when ids are distinct. */
  lemma MoveBack(s: AppState, id: int, parent: int)
    requires DistinctMininodeIds(s.core.mininodes)
    requires FindMininode(s.core.mininodes, id).Some?
    ensures var back := FindMininode(s.core.mininodes, id).value.parentId;
            MoveMininode(MoveMininode(s, id, parent), id, back).core.mininodes == s.core.mininodes
  {
    var ms := s.core.mininodes;
    var m := FindMininode(ms, id).value;
    var k :| 0 <= k < |ms| && ms[k] == m;
    if m.parentId != parent {
      var ms1 := Reparent(ms, id, parent);
      var s1 := Commit(s, NoChange().(mininodes := Some(ms1)));
      assert MoveMininode(s, id, parent) == s1;
      assert s1.core.mininodes == ms1;
      FindAfterReparent(ms, k, parent);
      var s2 := Commit(s1, NoChange().(mininodes := Some(Reparent(ms1, id, m.parentId))));
      assert MoveMininode(s1, id, m.parentId) == s2;
      ReparentBack(ms, k, parent);
    }
  }
}

=== FILE: nodeactions.dfy ===
/** Node commands (storeActionsNode.ts): creating nodes from templates,
    saving an edited node, toggling flags, cascade deletion and port
    management. Every document change is one commit. */
module NodeActions {
  import opened Common
  import opened Types
  import opened DerivedState
  import opened Store
  import opened UiActions
  import Utils

  /** The node templates offered by the toolbar and the context menu. */
  datatype Template = Normal | Starter | Finish | AndGate | OrGate | Blank

  /** One more than the largest `orderIndex`, or 1 for no nodes. */
  function NextOrderIndex(nodes: seq<Node>): (r: int)
    ensures |nodes| == 0 ==> r == 1
    ensures forall i :: 0 <= i < |nodes| ==> nodes[i].orderIndex < r
    ensures |nodes| > 0 ==> exists i :: 0 <= i < |nodes| && nodes[i].orderIndex == r - 1
  {
    if |nodes| == 0 then 1
    else if |nodes| == 1 then nodes[0].orderIndex + 1
    else
      var rest := NextOrderIndex(nodes[1..]);
      assert forall i :: 1 <= i < |nodes| ==> nodes[i] == nodes[1..][i - 1];
      if nodes[0].orderIndex + 1 > rest then nodes[0].orderIndex + 1 else rest
  }

  /** The node a template produces. `portIds(k)` is the k-th port id handed
      out while building it: the default input and output first, then the
      two inputs of a gate. */
  function TemplateNode(t: Template, id: int, pos: Point, color: string, orderIndex: int,
                        portIds: int -> string): (n: Node)
    ensures n.id == id && n.pos == pos && n.orderIndex == orderIndex
    ensures !n.isComplete && !n.isPinned && n.size == Size(180, 80)
    ensures t == Starter ==> |n.inputs| == 0 && |n.outputs| == 1
    ensures t == Finish ==> |n.inputs| == 1 && |n.outputs| == 0
    ensures t == AndGate ==> |n.inputs| == 2 && |n.outputs| == 1 && n.inputLogic == "AND"
    ensures t == OrGate ==> |n.inputs| == 2 && |n.outputs| == 1 && n.inputLogic == "OR"
    ensures t == Blank ==> |n.inputs| == 0 && |n.outputs| == 0
    ensures t == Normal ==> |n.inputs| == 1 && |n.outputs| == 1 && n.inputLogic == "AND"
    ensures |n.inputs| == 0 <==> t == Starter || t == Blank
  {
    var base := Node(id, pos, "Nodo Nuevo", "", color, Size(180, 80),
                     [Port(portIds(0), "Input")], [Port(portIds(1), "Output")],
                     false, "AND", 1, None, None, false, None, orderIndex, 0);
    match t
    case Normal => base
    case Starter => base.(title := "Nodo de Inicio", inputs := [])
    case Finish => base.(title := "Nodo Final", outputs := [])
    case AndGate =>
      base.(title := "Nodo Y (AND)", icon := Some("node-and"),
            inputs := [Port(portIds(2), "Input A"), Port(portIds(3), "Input B")], inputLogic := "AND")
    case OrGate =>
      base.(title := "Nodo O (OR)", icon := Some("node-or"),
            inputs := [Port(portIds(2), "Input A"), Port(portIds(3), "Input B")], inputLogic := "OR")
    case Blank => base.(title := "Nodo Vacío", inputs := [], outputs := [])
  }

  /** The node addNode would create in `nodes` at canvas point `pos`. */
  function NewNode(nodes: seq<Node>, t: Template, pos: Point, color: string, portIds: int -> string): (n: Node)
    ensures n.pos == pos && n.color == color
    ensures forall m :: m in nodes ==> m.id < n.id
    ensures |nodes| > 0 ==> exists m :: m in nodes && m.id == n.id - 1
    ensures |nodes| == 0 ==> n.id == 1 && n.orderIndex == 1
    ensures forall i :: 0 <= i < |nodes| ==> nodes[i].orderIndex < n.orderIndex
    ensures |nodes| > 0 ==> exists i :: 0 <= i < |nodes| && nodes[i].orderIndex == n.orderIndex - 1
  {
    TemplateNode(t, Utils.NewNodeId(nodes), pos, color, NextOrderIndex(nodes), portIds)
  }

  /** addNode: leaves drawing mode and commits the node list with one new
      node at the end. `pos` is the canvas point the view computes. */
  function AddNode(s: AppState, t: Template, pos: Point, portIds: int -> string): (r: AppState)
    ensures Consistent(r)
    ensures |r.core.nodes| == |s.core.nodes| + 1
    ensures r.core.nodes[..|s.core.nodes|] == s.core.nodes
    ensures var n := r.core.nodes[|s.core.nodes|];
            && n.pos == pos && !n.isComplete
            && (forall i :: 0 <= i < |s.core.nodes| ==> s.core.nodes[i].id < n.id)
            && (forall i :: 0 <= i < |s.core.nodes| ==> s.core.nodes[i].orderIndex < n.orderIndex)
    ensures r.core.nodes[|s.core.nodes|] ==
              TemplateNode(t, Utils.NewNodeId(s.core.nodes), pos, s.core.nodeColor,
                           NextOrderIndex(s.core.nodes), portIds)
    ensures r.core == s.core.(nodes := r.core.nodes)
    ensures r.past == s.past + [s.core] && r.future == []
    ensures r.ui == s.ui.(drawingMode := None, isFileDirty := s.ui.editingMode == File)
    ensures DistinctIds(s.core.nodes) ==> DistinctIds(r.core.nodes)
  {
    var n := NewNode(s.core.nodes, t, pos, s.core.nodeColor, portIds);
    assert forall i :: 0 <= i < |s.core.nodes| ==> s.core.nodes[i] in s.core.nodes;
    assert (s.core.nodes + [n])[..|s.core.nodes|] == s.core.nodes;
    AppendNode(s.(ui := s.ui.(drawingMode := None)), n)
  }

  /** One commit appending `n`, whose id exceeds every id present. */
  function AppendNode(s: AppState, n: Node): (r: AppState)
    requires forall i :: 0 <= i < |s.core.nodes| ==> s.core.nodes[i].id < n.id
    ensures Consistent(r)
    ensures r.core.nodes == s.core.nodes + [n]
    ensures r.core == s.core.(nodes := r.core.nodes)
    ensures r.past == s.past + [s.core] && r.future == []
    ensures r.ui == s.ui.(isFileDirty := s.ui.editingMode == File)
    ensures DistinctIds(s.core.nodes) ==> DistinctIds(r.core.nodes)
  {
    AppendLargerId(s.core.nodes, n);
    CommitNodes(s, s.core.nodes + [n])
  }

  /** A node whose id exceeds every id in a duplicate-free list can be
      appended without creating a duplicate. */
  lemma AppendLargerId(nodes: seq<Node>, n: Node)
    requires forall i :: 0 <= i < |nodes| ==> nodes[i].id < n.id
    ensures DistinctIds(nodes) ==> DistinctIds(nodes + [n])
  {
    var r := nodes + [n];
    forall i, j | 0 <= i < j < |r| && DistinctIds(nodes) ensures r[i].id != r[j].id {
      assert r[i] == nodes[i];
      if j < |nodes| {
        assert r[j] == nodes[j];
      }
    }
  }

  /** addNodeAndConnect: from a pending connection and an open context
      menu, creates a node centred on the menu's canvas point `at` and wires
      the pending output to its first input. A template without inputs
      only cancels the pending connection. */
  function AddNodeAndConnect(s: AppState, t: Template, at: Point, portIds: int -> string): (r: AppState)
    ensures s.ui.connectingInfo.None? || s.ui.contextMenu.None? ==> r == s
    ensures s.ui.connectingInfo.Some? && s.ui.contextMenu.Some? && (t == Starter || t == Blank) ==>
              r == s.(ui := s.ui.(connectingInfo := None))
    ensures s.ui.connectingInfo.Some? && s.ui.contextMenu.Some? && t != Starter && t != Blank ==>
              && Consistent(r)
              && |r.core.nodes| == |s.core.nodes| + 1
              && |r.core.connections| == |s.core.connections| + 1
              && r.core.nodes[..|s.core.nodes|] == s.core.nodes
              && r.core.connections[..|s.core.connections|] == s.core.connections
              && (var n := r.core.nodes[|s.core.nodes|];
                  var c := r.core.connections[|s.core.connections|];
                  && n == TemplateNode(t, Utils.NewNodeId(s.core.nodes), Point(at.x - 90, at.y - 40),
                                       s.core.nodeColor, NextOrderIndex(s.core.nodes), portIds)
                  && (forall i :: 0 <= i < |s.core.nodes| ==> s.core.nodes[i].id < n.id)
                  && |n.inputs| > 0
                  && c == Connection(s.ui.connectingInfo.value.nodeId, s.ui.connectingInfo.value.portId,
                                     n.id, n.inputs[0].id, false))
              && r.past == s.past + [s.core] && r.future == []
              && r.ui.connectingInfo.None?
  {
    if s.ui.connectingInfo.None? || s.ui.contextMenu.None? then s
    else
      var n := NewNode(s.core.nodes, t, Point(at.x - 90, at.y - 40), s.core.nodeColor, portIds);
      assert forall i :: 0 <= i < |s.core.nodes| ==> s.core.nodes[i] in s.core.nodes;
      if |n.inputs| == 0 then s.(ui := s.ui.(connectingInfo := None))
      else
        var from := s.ui.connectingInfo.value;
        Attach(s, n, Connection(from.nodeId, from.portId, n.id, n.inputs[0].id, false))
  }

  /** Commits one more node and one more connection, then clears the
      pending connection. */
  function Attach(s: AppState, n: Node, c: Connection): (r: AppState)
    ensures Consistent(r)
    ensures |r.core.nodes| == |s.core.nodes| + 1 && |r.core.connections| == |s.core.connections| + 1
    ensures r.core.nodes[..|s.core.nodes|] == s.core.nodes && r.core.nodes[|s.core.nodes|] == n
    ensures r.core.connections[..|s.core.connections|] == s.core.connections
    ensures r.core.connections[|s.core.connections|] == c
    ensures r.past == s.past + [s.core] && r.future == []
    ensures r.ui.connectingInfo.None?
  {
    var p := SetNodes(s.core.nodes + [n]).(connections := Some(s.core.connections + [c]));
    assert (s.core.nodes + [n])[..|s.core.nodes|] == s.core.nodes;
    assert (s.core.connections + [c])[..|s.core.connections|] == s.core.connections;
    var r := Commit(s, p);
    r.(ui := r.ui.(connectingInfo := None))
  }

  /** Whether a port list has a port with id `id`. */
  predicate HasPort(ports: seq<Port>, id: string) {
    exists p :: p in ports && p.id == id
  }

  /** Each port with its name trimmed. */
  function TrimNames(ps: seq<Port>): (r: seq<Port>)
    ensures |r| == |ps|
    ensures forall i :: 0 <= i < |ps| ==> r[i] == ps[i].(name := Trim(ps[i].name))
  {
    seq(|ps|, i requires 0 <= i < |ps| => ps[i].(name := Trim(ps[i].name)))
  }

  function Named(): Port -> bool {
    (p: Port) => |p.name| > 0
  }

  /** The port list saveNodeState keeps: names trimmed, blank ones dropped. */
  function CleanPorts(ps: seq<Port>): (r: seq<Port>)
    ensures |r| <= |ps|
    ensures forall p :: p in r <==> |p.name| > 0 && exists q :: q in ps && p == q.(name := Trim(q.name))
  {
    var t := TrimNames(ps);
    assert forall p :: p in t <==> exists q :: q in ps && p == q.(name := Trim(q.name)) by {
      forall p ensures p in t <==> exists q :: q in ps && p == q.(name := Trim(q.name)) {
        if exists q :: q in ps && p == q.(name := Trim(q.name)) {
          var q :| q in ps && p == q.(name := Trim(q.name));
          var i :| 0 <= i < |ps| && ps[i] == q;
          assert t[i] == p;
        }
      }
    }
    Filter(t, Named())
  }

  /** The node as saveNodeState stores it. Sizes are whole numbers here,
      so the rounding of the width and height is the identity. */
  function CleanNode(n: Node): (r: Node)
    ensures r.id == n.id
    ensures r.title == Trim(n.title) && r.description == Trim(n.description)
    ensures r.inputs == CleanPorts(n.inputs) && r.outputs == CleanPorts(n.outputs)
    ensures r.(title := n.title, description := n.description, inputs := n.inputs, outputs := n.outputs) == n
  {
    n.(title := Trim(n.title), description := Trim(n.description),
       inputs := CleanPorts(n.inputs), outputs := CleanPorts(n.outputs))
  }

  /** Every node with the id of `n` replaced by `n`; the others kept. */
  function ReplaceNode(nodes: seq<Node>, n: Node): (r: seq<Node>)
    ensures |r| == |nodes|
    ensures forall i :: 0 <= i < |nodes| ==> r[i] == (if nodes[i].id == n.id then n else nodes[i])
    ensures Ids(r) == Ids(nodes)
  {
    seq(|nodes|, i requires 0 <= i < |nodes| => if nodes[i].id == n.id then n else nodes[i])
  }

  /** A connection whose two endpoint nodes exist and carry its ports, as
      looked up in the id table (the last node with an id wins). */
  predicate PortsPresent(byId: map<int, Node>, c: Connection) {
    && c.fromNode in byId && c.toNode in byId
    && HasPort(byId[c.fromNode].outputs, c.fromPortId)
    && HasPort(byId[c.toNode].inputs, c.toPortId)
  }

  /** The connections that still fit the node list. */
  function PruneDangling(nodes: seq<Node>, conns: seq<Connection>): (r: seq<Connection>)
    ensures forall c :: c in r <==> c in conns && PortsPresent(IndexBy(nodes, (n: Node) => n.id), c)
  {
    var byId := IndexBy(nodes, (n: Node) => n.id);
    Filter(conns, (c: Connection) => PortsPresent(byId, c))
  }

  /** A connection is wired to existing ports: some node with its source id
      has the output port and some node with its target id has the input
      port. */
  predicate Wired(nodes: seq<Node>, c: Connection) {
    && (exists a :: a in nodes && a.id == c.fromNode && HasPort(a.outputs, c.fromPortId))
    && (exists b :: b in nodes && b.id == c.toNode && HasPort(b.inputs, c.toPortId))
  }

  /** With distinct ids, the table lookup agrees with the direct reading:
      the connections kept are exactly the wired ones. */
  lemma PruneDanglingWired(nodes: seq<Node>, conns: seq<Connection>)
    requires DistinctIds(nodes)
    ensures forall c :: c in PruneDangling(nodes, conns) <==> c in conns && Wired(nodes, c)
  {
    var byId := IndexBy(nodes, (n: Node) => n.id);
    forall a | a in nodes ensures a.id in byId && byId[a.id] == a {
      var i :| 0 <= i < |nodes| && nodes[i] == a;
      var j :| 0 <= j < |nodes| && nodes[j] == byId[a.id];
      assert nodes[i].id == nodes[j].id;
    }
    forall c | c in conns ensures PortsPresent(byId, c) <==> Wired(nodes, c) {
      if PortsPresent(byId, c) {
        assert byId[c.fromNode] in nodes && byId[c.toNode] in nodes;
      }
    }
  }

  /** The modal stack with every editor of node `n.id` showing `n`. */
  function RefreshEditors(modals: seq<Modal>, n: Node): (r: seq<Modal>)
    ensures |r| == |modals|
    ensures forall i :: 0 <= i < |modals| ==>
              r[i] == (if modals[i].EditNode? && modals[i].node.id == n.id then EditNode(n) else modals[i])
  {
    seq(|modals|, i requires 0 <= i < |modals| =>
      if modals[i].EditNode? && modals[i].node.id == n.id then EditNode(n) else modals[i])
  }

  /** saveNodeState: stores the cleaned node in place of every node with
      its id, drops the connections whose ports are gone, and refreshes
      open editors of that node. */
  function SaveNodeState(s: AppState, updated: Node): (r: AppState)
    ensures Consistent(r)
    ensures r.core.nodes == ReplaceNode(s.core.nodes, CleanNode(updated))
    ensures forall c :: c in r.core.connections <==>
              c in s.core.connections && PortsPresent(IndexBy(r.core.nodes, (n: Node) => n.id), c)
    ensures r.core == s.core.(nodes := r.core.nodes, connections := r.core.connections)
    ensures r.past == s.past + [s.core] && r.future == []
    ensures r.ui == s.ui.(isFileDirty := s.ui.editingMode == File,
                          activeModals := RefreshEditors(s.ui.activeModals, CleanNode(updated)))
  {
    var cleaned := CleanNode(updated);
    var nodes := ReplaceNode(s.core.nodes, cleaned);
    var conns := PruneDangling(nodes, s.core.connections);
    var r := Commit(s, SetNodes(nodes).(connections := Some(conns)));
    r.(ui := r.ui.(activeModals := RefreshEditors(s.ui.activeModals, cleaned)))
  }

  /** After a save on a node list with distinct ids, every surviving
      connection is wired to existing ports, and every old connection that
      still fits is kept. */
  lemma SaveNodeStateWired(s: AppState, updated: Node, c: Connection)
    requires DistinctIds(s.core.nodes)
    ensures var r := SaveNodeState(s, updated);
            c in r.core.connections <==> c in s.core.connections && Wired(r.core.nodes, c)
  {
    var nodes := ReplaceNode(s.core.nodes, CleanNode(updated));
    assert Ids(nodes) == Ids(s.core.nodes);
    assert DistinctIds(nodes) by {
      forall i, j | 0 <= i < j < |nodes| ensures nodes[i].id != nodes[j].id {
        assert Ids(nodes)[i] == Ids(s.core.nodes)[i] && Ids(nodes)[j] == Ids(s.core.nodes)[j];
      }
    }
    PruneDanglingWired(nodes, s.core.connections);
  }

  /** Flips `isComplete` on the nodes with id `id`. */
  function FlipComplete(nodes: seq<Node>, id: int): (r: seq<Node>)
    ensures |r| == |nodes|
    ensures forall i :: 0 <= i < |nodes| ==>
              r[i] == (if nodes[i].id == id then nodes[i].(isComplete := !nodes[i].isComplete) else nodes[i])
  {
    seq(|nodes|, i requires 0 <= i < |nodes| =>
      if nodes[i].id == id then nodes[i].(isComplete := !nodes[i].isComplete) else nodes[i])
  }

  /** Flips `isPinned` on the nodes with id `id`. */
  function FlipPinned(nodes: seq<Node>, id: int): (r: seq<Node>)
    ensures |r| == |nodes|
    ensures forall i :: 0 <= i < |nodes| ==>
              r[i] == (if nodes[i].id == id then nodes[i].(isPinned := !nodes[i].isPinned) else nodes[i])
  {
    seq(|nodes|, i requires 0 <= i < |nodes| =>
      if nodes[i].id == id then nodes[i].(isPinned := !nodes[i].isPinned) else nodes[i])
  }

  /** toggleNodeComplete: always a commit, even for an unknown id. */
  function ToggleNodeComplete(s: AppState, id: int): (r: AppState)
    ensures CommittedFrom(s, r)
    ensures r.core == s.core.(nodes := FlipComplete(s.core.nodes, id))
  {
    CommitNodes(s, FlipComplete(s.core.nodes, id))
  }

  /** toggleNodePin. */
  function ToggleNodePin(s: AppState, id: int): (r: AppState)
    ensures CommittedFrom(s, r)
    ensures r.core == s.core.(nodes := FlipPinned(s.core.nodes, id))
  {
    CommitNodes(s, FlipPinned(s.core.nodes, id))
  }

  /** Toggling twice gives the node list back; only the target's flag
      differs after one toggle. */
  lemma ToggleTwice(s: AppState, id: int)
    ensures ToggleNodeComplete(ToggleNodeComplete(s, id), id).core == s.core
    ensures ToggleNodePin(ToggleNodePin(s, id), id).core == s.core
    ensures forall i :: 0 <= i < |s.core.nodes| ==>
              (ToggleNodeComplete(s, id).core.nodes[i].isComplete != s.core.nodes[i].isComplete
               <==> s.core.nodes[i].id == id)
  {
    FlipTwice(s.core.nodes, id);
  }

  /** Each flip undoes itself. */
  lemma FlipTwice(nodes: seq<Node>, id: int)
    ensures FlipComplete(FlipComplete(nodes, id), id) == nodes
    ensures FlipPinned(FlipPinned(nodes, id), id) == nodes
  {
    assert FlipComplete(FlipComplete(nodes, id), id) == nodes;
    assert FlipPinned(FlipPinned(nodes, id), id) == nodes;
  }

  /** Every node with `isComplete` cleared. */
  function AllIncomplete(nodes: seq<Node>): (r: seq<Node>)
    ensures |r| == |nodes|
    ensures forall i :: 0 <= i < |nodes| ==> r[i] == nodes[i].(isComplete := false)
  {
    seq(|nodes|, i requires 0 <= i < |nodes| => nodes[i].(isComplete := false))
  }

  predicate NoneComplete(nodes: seq<Node>) {
    forall i :: 0 <= i < |nodes| ==> !nodes[i].isComplete
  }

  /** confirmMarkAllIncomplete: when nothing is complete only the dialog
      closes; otherwise one commit clears every completion flag. */
  function ConfirmMarkAllIncomplete(s: AppState): (r: AppState)
    ensures NoneComplete(s.core.nodes) ==> r == s.(ui := CloseModal(s.ui))
    ensures !NoneComplete(s.core.nodes) ==>
              && Consistent(r)
              && r.past == s.past + [s.core] && r.future == []
              && r.core == s.core.(nodes := AllIncomplete(s.core.nodes))
              && r.ui == CloseModal(s.ui.(isFileDirty := s.ui.editingMode == File))
    ensures NoneComplete(r.core.nodes)
  {
    if NoneComplete(s.core.nodes) then s.(ui := CloseModal(s.ui))
    else
      var r := Commit(s, SetNodes(AllIncomplete(s.core.nodes)));
      r.(ui := CloseModal(r.ui))
  }

  /** Confirming twice: the second confirmation adds no history entry. */
  lemma MarkAllIncompleteTwice(s: AppState)
    ensures var r := ConfirmMarkAllIncomplete(s);
            var r2 := ConfirmMarkAllIncomplete(r);
            r2.core == r.core && r2.past == r.past
  {
  }

  /** The document with the nodes whose ids are in `gone` removed, with
      every connection touching them and every mininode they own. */
  function Prune(core: CoreState, gone: seq<int>): (r: CoreState)
    ensures forall n :: n in r.nodes <==> n in core.nodes && n.id !in gone
    ensures forall c :: c in r.connections <==>
              c in core.connections && c.fromNode !in gone && c.toNode !in gone
    ensures forall m :: m in r.mininodes <==> m in core.mininodes && m.parentId !in gone
    ensures r == core.(nodes := r.nodes, connections := r.connections, mininodes := r.mininodes)
  {
    core.(nodes := Filter(core.nodes, (n: Node) => n.id !in gone),
          connections := Filter(core.connections, (c: Connection) => c.fromNode !in gone && c.toNode !in gone),
          mininodes := Filter(core.mininodes, (m: Mininode) => m.parentId !in gone))
  }

  /** Referential integrity of a document: every connection joins two
      existing nodes and every mininode belongs to an existing node. */
  predicate Closed(core: CoreState) {
    && (forall c :: c in core.connections ==> HasNode(core.nodes, c.fromNode) && HasNode(core.nodes, c.toNode))
    && (forall m :: m in core.mininodes ==> HasNode(core.nodes, m.parentId))
  }

  lemma HasNodeIn(nodes: seq<Node>, id: int) returns (n: Node)
    requires HasNode(nodes, id)
    ensures n in nodes && n.id == id
  {
    var i :| 0 <= i < |nodes| && nodes[i].id == id;
    n := nodes[i];
  }

  /** Cascade deletion keeps the document closed. */
  lemma PruneKeepsClosed(core: CoreState, gone: seq<int>)
    requires Closed(core)
    ensures Closed(Prune(core, gone))
  {
    var r := Prune(core, gone);
    forall id | HasNode(core.nodes, id) && id !in gone ensures HasNode(r.nodes, id) {
      var n := HasNodeIn(core.nodes, id);
      assert n in r.nodes;
      var i :| 0 <= i < |r.nodes| && r.nodes[i] == n;
    }
  }

  function TopModal(ui: Ui): Option<Modal> {
    if |ui.activeModals| == 0 then None else Some(ui.activeModals[|ui.activeModals| - 1])
  }

  /** confirmDeleteNode: acts only when the visible dialog is a node
      deletion; then removes that node with its connections and mininodes
      and closes the dialog. */
  function ConfirmDeleteNode(s: AppState): (r: AppState)
    ensures !(TopModal(s.ui).Some? && TopModal(s.ui).value.DeleteNode?) ==> r == s
    ensures TopModal(s.ui).Some? && TopModal(s.ui).value.DeleteNode? ==>
              && Consistent(r)
              && r.core == Prune(s.core, [TopModal(s.ui).value.nodeId])
              && r.past == s.past + [s.core] && r.future == []
              && r.ui == CloseModal(s.ui.(isFileDirty := s.ui.editingMode == File))
  {
    match TopModal(s.ui)
    case Some(DeleteNode(id)) =>
      var r := Commit(s, CorePatchOf(Prune(s.core, [id])));
      r.(ui := CloseModal(r.ui))
    case _ => s
  }

  /** The update carrying the three lists a cascade deletion changes. */
  function CorePatchOf(c: CoreState): CorePatch {
    NoChange().(nodes := Some(c.nodes), connections := Some(c.connections), mininodes := Some(c.mininodes))
  }

  /** confirmDeleteSelection: with nothing selected only the dialog closes;
      otherwise the selected nodes go in one commit, the selection empties
      and the dialog closes. */
  function ConfirmDeleteSelection(s: AppState): (r: AppState)
    ensures |s.ui.selectedNodeIds| == 0 ==> r == s.(ui := CloseModal(s.ui))
    ensures |s.ui.selectedNodeIds| > 0 ==>
              && Consistent(r)
              && r.core == Prune(s.core, s.ui.selectedNodeIds)
              && r.past == s.past + [s.core] && r.future == []
              && r.ui == CloseModal(s.ui.(isFileDirty := s.ui.editingMode == File, selectedNodeIds := []))
    ensures forall n :: n in r.core.nodes ==> n.id !in s.ui.selectedNodeIds
  {
    if |s.ui.selectedNodeIds| == 0 then s.(ui := CloseModal(s.ui))
    else
      var r := Commit(s, CorePatchOf(Prune(s.core, s.ui.selectedNodeIds)));
      r.(ui := CloseModal(r.ui.(selectedNodeIds := [])))
  }

  /** The ports on one side of a node. */
  function Side(n: Node, isInput: bool): seq<Port> {
    if isInput then n.inputs else n.outputs
  }

  function WithSide(n: Node, isInput: bool, ps: seq<Port>): Node {
    if isInput then n.(inputs := ps) else n.(outputs := ps)
  }

  /** Appends `p` to one side of the nodes with id `id`. */
  function AppendPort(nodes: seq<Node>, id: int, isInput: bool, p: Port): (r: seq<Node>)
    ensures |r| == |nodes|
    ensures forall i :: 0 <= i < |nodes| ==>
              r[i] == (if nodes[i].id == id then WithSide(nodes[i], isInput, Side(nodes[i], isInput) + [p])
                       else nodes[i])
  {
    seq(|nodes|, i requires 0 <= i < |nodes| =>
      if nodes[i].id == id then WithSide(nodes[i], isInput, Side(nodes[i], isInput) + [p]) else nodes[i])
  }

  function NotPort(portId: string): Port -> bool {
    (p: Port) => p.id != portId
  }

  /** Removes port `portId` from one side of the nodes with id `id`. */
  function RemovePort(nodes: seq<Node>, id: int, isInput: bool, portId: string): (r: seq<Node>)
    ensures |r| == |nodes|
    ensures forall i :: 0 <= i < |nodes| ==>
              r[i] == (if nodes[i].id == id then WithSide(nodes[i], isInput, Filter(Side(nodes[i], isInput), NotPort(portId)))
                       else nodes[i])
  {
    seq(|nodes|, i requires 0 <= i < |nodes| =>
      if nodes[i].id == id then WithSide(nodes[i], isInput, Filter(Side(nodes[i], isInput), NotPort(portId)))
      else nodes[i])
  }

  /** A connection attached to port `portId` of node `id`, at either end. */
  predicate Touches(c: Connection, id: int, portId: string) {
    (c.fromNode == id && c.fromPortId == portId) || (c.toNode == id && c.toPortId == portId)
  }

  /** addPort: a port named "Nuevo" with the portIds id `portId`. */
  function AddPort(s: AppState, id: int, isInput: bool, portId: string): (r: AppState)
    ensures CommittedFrom(s, r)
    ensures r.core == s.core.(nodes := AppendPort(s.core.nodes, id, isInput, Port(portId, "Nuevo")))
  {
    Commit(s, SetNodes(AppendPort(s.core.nodes, id, isInput, Port(portId, "Nuevo"))))
  }

  /** deletePort: removes the port and every connection attached to a port
      of that id on that node, at either end. */
  function DeletePort(s: AppState, id: int, isInput: bool, portId: string): (r: AppState)
    ensures CommittedFrom(s, r)
    ensures r.core.nodes == RemovePort(s.core.nodes, id, isInput, portId)
    ensures forall c :: c in r.core.connections <==> c in s.core.connections && !Touches(c, id, portId)
    ensures r.core == s.core.(nodes := r.core.nodes, connections := r.core.connections)
  {
    var conns := Filter(s.core.connections, (c: Connection) => !Touches(c, id, portId));
    Commit(s, SetNodes(RemovePort(s.core.nodes, id, isInput, portId)).(connections := Some(conns)))
  }

  /** Removing a port just appended under an id the side did not use
      gives the node back. */
  lemma RemoveAfterAppend(n: Node, isInput: bool, p: Port)
    requires !HasPort(Side(n, isInput), p.id)
    ensures WithSide(n, isInput, Filter(Side(n, isInput) + [p], NotPort(p.id))) == n
  {
    var ps := Side(n, isInput);
    FilterConcat(ps, [p], NotPort(p.id));
    FilterSingle(p, NotPort(p.id));
    forall i | 0 <= i < |ps| ensures NotPort(p.id)(ps[i]) {
      assert ps[i] in ps;
    }
    FilterAll(ps, NotPort(p.id));
    assert ps + [] == ps;
  }

  /** The same on a whole node list. */
  lemma {:induction false} RemovePortAfterAppend(nodes: seq<Node>, id: int, isInput: bool, p: Port)
    requires forall n :: n in nodes && n.id == id ==> !HasPort(Side(n, isInput), p.id)
    ensures RemovePort(AppendPort(nodes, id, isInput, p), id, isInput, p.id) == nodes
  {
    var added := AppendPort(nodes, id, isInput, p);
    var back := RemovePort(added, id, isInput, p.id);
    forall i | 0 <= i < |nodes| ensures back[i] == nodes[i] {
      if nodes[i].id == id {
        assert nodes[i] in nodes;
        assert Side(added[i], isInput) == Side(nodes[i], isInput) + [p];
        RemoveAfterAppend(nodes[i], isInput, p);
      }
    }
  }

  /** Deleting a port just added with an unused id gives back the
      document the addition started from. */
  lemma DeleteAfterAddPort(s: AppState, id: int, isInput: bool, portId: string)
    requires forall n :: n in s.core.nodes && n.id == id ==> !HasPort(Side(n, isInput), portId)
    requires forall c :: c in s.core.connections ==> !Touches(c, id, portId)
    ensures DeletePort(AddPort(s, id, isInput, portId), id, isInput, portId).core == s.core
  {
    var a := AddPort(s, id, isInput, portId);
    var r := DeletePort(a, id, isInput, portId);
    RemovePortAfterAppend(s.core.nodes, id, isInput, Port(portId, "Nuevo"));
    assert r.core.nodes == s.core.nodes;
    var keep := (c: Connection) => !Touches(c, id, portId);
    forall i | 0 <= i < |s.core.connections| ensures keep(s.core.connections[i]) {
      assert s.core.connections[i] in s.core.connections;
    }
    FilterAll(s.core.connections, keep);
    assert r.core.connections == s.core.connections;
  }

  /** selectOnlyNode. */
  function SelectOnlyNode(ui: Ui, id: int): (r: Ui)
    ensures r.selectedNodeIds == [id] && r.selectedCanvasObjectIds == []
    ensures r.(selectedNodeIds := ui.selectedNodeIds, selectedCanvasObjectIds := ui.selectedCanvasObjectIds) == ui
  {
    ui.(selectedNodeIds := [id], selectedCanvasObjectIds := [])
  }
}

=== FILE: numerals.dfy ===
/** Decimal numerals: the `${n}` rendering of a non-negative integer and
    the prefix parse `parseInt(value, 10)` performs on an input field. */
module Numerals {
  import opened Common

  predicate IsDigit(c: char) {
    '0' <= c <= '9'
  }

  predicate AllDigits(s: string) {
    forall i :: 0 <= i < |s| ==> IsDigit(s[i])
  }

  function DigitChar(d: nat): (c: char)
    requires d < 10
    ensures IsDigit(c) && c as int - '0' as int == d
  {
    ('0' as int + d) as char
  }

  /** The value of a run of decimal digits, most significant first. */
  function DigitsValue(s: string): nat
    requires AllDigits(s)
  {
    if |s| == 0 then 0
    else DigitsValue(s[..|s| - 1]) * 10 + (s[|s| - 1] as int - '0' as int)
  }

  /** `${n}` for a natural number: the shortest digit run naming it. */
  function DecimalString(n: nat): (r: string)
    ensures |r| >= 1 && AllDigits(r)
    ensures r[0] == '0' ==> n == 0
  {
    if n < 10 then [DigitChar(n)]
    else DecimalString(n / 10) + [DigitChar(n % 10)]
  }

  /** Reading back a rendered number gives the number. */
  lemma {:induction false} DecimalValue(n: nat)
    ensures DigitsValue(DecimalString(n)) == n
  {
    var r := DecimalString(n);
    if n >= 10 {
      DecimalValue(n / 10);
      assert r[..|r| - 1] == DecimalString(n / 10);
    }
  }

  /** Length of the leading run of digits. */
  function LeadingDigits(s: string): (k: nat)
    ensures k <= |s|
    ensures forall i :: 0 <= i < k ==> IsDigit(s[i])
    ensures k < |s| ==> !IsDigit(s[k])
  {
    if |s| == 0 || !IsDigit(s[0]) then 0
    else 1 + LeadingDigits(s[1..])
  }

  /** parseInt(value, 10): leading whitespace is skipped, one sign is taken,
      then the longest run of digits is read; no digit at all is NaN,
      written `None`. Anything after the digits is ignored. */
  function ParseInt(s: string): (r: Option<int>)
    ensures r.None? <==>
              var t := s[LeadingSpace(s)..];
              var body := if |t| > 0 && (t[0] == '-' || t[0] == '+') then t[1..] else t;
              |body| == 0 || !IsDigit(body[0])
  {
    var t := s[LeadingSpace(s)..];
    var negative := |t| > 0 && t[0] == '-';
    var body := if |t| > 0 && (t[0] == '-' || t[0] == '+') then t[1..] else t;
    var k := LeadingDigits(body);
    if k == 0 then None
    else
      var v: int := DigitsValue(body[..k]);
      Some(if negative then -v else v)
  }

  /** A digit run in front extends the leading digit run by its length. */
  lemma {:induction false} DigitsPrefix(r: string, rest: string)
    requires AllDigits(r)
    ensures LeadingDigits(r + rest) == |r| + LeadingDigits(rest)
  {
    if |r| > 0 {
      DigitsPrefix(r[1..], rest);
      assert (r + rest)[1..] == r[1..] + rest;
    } else {
      assert r + rest == rest;
    }
  }

  /** The digit run of a rendered number is the whole numeral. */
  lemma DecimalDigitsRun(n: nat, rest: string)
    requires |rest| == 0 || !IsDigit(rest[0])
    ensures LeadingDigits(DecimalString(n) + rest) == |DecimalString(n)|
  {
    DigitsPrefix(DecimalString(n), rest);
  }

  /** Parsing a rendered number gives it back, whatever non-digit text
      follows it ("120px" parses as 120). */
  lemma ParseDecimal(n: nat, rest: string)
    requires |rest| == 0 || !IsDigit(rest[0])
    ensures ParseInt(DecimalString(n) + rest) == Some(n)
  {
    var r := DecimalString(n);
    var s := r + rest;
    assert s[0] == r[0];
    assert LeadingSpace(s) == 0;
    assert s[0..] == s;
    DecimalDigitsRun(n, rest);
    assert s[..|r|] == r;
    DecimalValue(n);
  }

  /** A minus sign in front negates the parsed number. */
  lemma ParseNegative(n: nat)
    ensures ParseInt("-" + DecimalString(n)) == Some(-(n as int))
  {
    var r := DecimalString(n);
    var s := "-" + r;
    assert LeadingSpace(s) == 0;
    assert s[0..] == s && s[1..] == r;
    DecimalDigitsRun(n, "");
    assert r + "" == r;
    assert r[..|r|] == r;
    DecimalValue(n);
  }
}

=== FILE: portmanager.dfy ===
/** The node settings panel (AdvancedNodeSettingsModal.tsx): editing a
    node's input and output port lists and its size before saving. */
module PortManager {
  import opened Common
  import opened Types
  import opened Numerals
  import NodeActions

  /** Array.prototype.findIndex on ports by id: the first position holding
      the id, or -1. */
  function FindPortIndex(ports: seq<Port>, id: string): (k: int)
    ensures -1 <= k < |ports|
    ensures k == -1 <==> forall i :: 0 <= i < |ports| ==> ports[i].id != id
    ensures k >= 0 ==> ports[k].id == id && forall i :: 0 <= i < k ==> ports[i].id != id
  {
    if |ports| == 0 then -1
    else if ports[0].id == id then 0
    else
      var k := FindPortIndex(ports[1..], id);
      if k == -1 then -1 else k + 1
  }

  /** The position splice uses for a start argument `k` on a list of
      length `len`: negative starts count from the end, and both ends clamp. */
  function SpliceStart(k: int, len: nat): (r: nat)
    ensures r <= len
    ensures 0 <= k <= len ==> r == k
    ensures k < 0 && len + k >= 0 ==> r == len + k
  {
    if k < 0 then (if len + k < 0 then 0 else len + k)
    else if k > len then len
    else k
  }

  function RemoveAt<T>(s: seq<T>, i: nat): (r: seq<T>)
    requires i < |s|
    ensures |r| == |s| - 1
    ensures multiset(r) + multiset{s[i]} == multiset(s)
  {
    assert s == s[..i] + [s[i]] + s[i + 1..];
    s[..i] + s[i + 1..]
  }

  function InsertAt<T>(s: seq<T>, i: nat, x: T): (r: seq<T>)
    requires i <= |s|
    ensures |r| == |s| + 1 && r[i] == x
    ensures multiset(r) == multiset(s) + multiset{x}
  {
    assert s == s[..i] + s[i..];
    s[..i] + [x] + s[i..]
  }

  /** Removing what was just inserted gives the list back. */
  lemma RemoveInserted<T>(s: seq<T>, i: nat, x: T)
    requires i <= |s|
    ensures RemoveAt(InsertAt(s, i, x), i) == s
  {
    var r := InsertAt(s, i, x);
    assert r[..i] == s[..i] && r[i + 1..] == s[i..];
    assert s[..i] + s[i..] == s;
  }

  /** handleRenamePort (handlePortChange): every port with the id gets the
      new name. */
  function RenamePort(ports: seq<Port>, id: string, name: string): (r: seq<Port>)
    ensures |r| == |ports|
    ensures forall i :: 0 <= i < |ports| ==> r[i].id == ports[i].id
    ensures forall i :: 0 <= i < |ports| ==> r[i].name == if ports[i].id == id then name else ports[i].name
  {
    seq(|ports|, i requires 0 <= i < |ports| => if ports[i].id == id then ports[i].(name := name) else ports[i])
  }

  predicate DistinctPortIds(ports: seq<Port>) {
    forall i, j :: 0 <= i < j < |ports| ==> ports[i].id != ports[j].id
  }

  /** Renaming a port and then giving it its old name back restores the
      list when port ids are distinct. */
  lemma RenameBack(ports: seq<Port>, k: nat, name: string)
    requires DistinctPortIds(ports) && k < |ports|
    ensures RenamePort(RenamePort(ports, ports[k].id, name), ports[k].id, ports[k].name) == ports
  {
    var r := RenamePort(RenamePort(ports, ports[k].id, name), ports[k].id, ports[k].name);
    forall i | 0 <= i < |ports| ensures r[i] == ports[i] {
      if ports[i].id == ports[k].id {
        if i < k { assert false; }
        if k < i { assert false; }
      }
    }
  }

  /** handleAddPort: a port named "Puerto Nuevo" is appended under an id
      taken from the clock and a random number, given here as `id`. */
  function AddPort(ports: seq<Port>, id: string): (r: seq<Port>)
    ensures |r| == |ports| + 1 && r[..|ports|] == ports
    ensures r[|ports|] == Port(id, "Puerto Nuevo")
  {
    ports + [Port(id, "Puerto Nuevo")]
  }

  /** handleRemovePort: every port with the id is dropped. */
  function RemovePort(ports: seq<Port>, id: string): (r: seq<Port>)
    ensures forall p :: p in r <==> p in ports && p.id != id
  {
    Filter(ports, (p: Port) => p.id != id)
  }

  /** Removing a port just added under an unused id gives the list back. */
  lemma RemoveAdded(ports: seq<Port>, id: string)
    requires forall p :: p in ports ==> p.id != id
    ensures RemovePort(AddPort(ports, id), id) == ports
  {
    var keep := (p: Port) => p.id != id;
    FilterConcat(ports, [Port(id, "Puerto Nuevo")], keep);
    FilterAll(ports, keep);
    FilterSingle(Port(id, "Puerto Nuevo"), keep);
  }

  /** A drag handle's id, absent or empty when nothing is dragged or
      hovered. */
  predicate Held(id: Option<string>) {
    id.Some? && id.value != ""
  }

  /** handleDrop: the dragged port is cut out at its findIndex position and
      spliced back in at the hovered port's findIndex position, both read
      from the list before the cut. A missing id is -1, which splice takes
      as the last position. Nothing moves when either handle is empty or
      both are the same port. */
  function DropPort(ports: seq<Port>, dragged: Option<string>, over: Option<string>): (r: seq<Port>)
    ensures !Held(dragged) || !Held(over) || dragged == over ==> r == ports
    ensures multiset(r) == multiset(ports)
  {
    if !Held(dragged) || !Held(over) || dragged == over || |ports| == 0 then ports
    else
      var d := SpliceStart(FindPortIndex(ports, dragged.value), |ports|);
      var rest := RemoveAt(ports, d);
      var t := SpliceStart(FindPortIndex(ports, over.value), |rest|);
      InsertAt(rest, t, ports[d])
  }

  /** When both ports are in the list, the dragged port ends up at the
      hovered port's old position and every other port keeps its relative
      order. */
  lemma DropMovesDragged(ports: seq<Port>, a: nat, b: nat)
    requires a < |ports| && b < |ports| && ports[a].id != ports[b].id
    requires ports[a].id != "" && ports[b].id != ""
    requires FindPortIndex(ports, ports[a].id) == a && FindPortIndex(ports, ports[b].id) == b
    ensures var r := DropPort(ports, Some(ports[a].id), Some(ports[b].id));
            && |r| == |ports| && r[b] == ports[a]
            && RemoveAt(r, b) == RemoveAt(ports, a)
  {
    var rest := RemoveAt(ports, a);
    assert b <= |rest|;
    var r := InsertAt(rest, b, ports[a]);
    assert DropPort(ports, Some(ports[a].id), Some(ports[b].id)) == r;
    RemoveInserted(rest, b, ports[a]);
  }

  predicate NamedIds(ports: seq<Port>) {
    forall i :: 0 <= i < |ports| ==> ports[i].id != ""
  }

  /** With distinct non-empty ids, a drop between two different ports is
      the cut at the dragged port's position and the insertion at the
      hovered one's. */
  lemma DropAt(ports: seq<Port>, a: nat, b: nat)
    requires DistinctPortIds(ports) && NamedIds(ports) && a < |ports| && b < |ports| && a != b
    ensures DropPort(ports, Some(ports[a].id), Some(ports[b].id)) == InsertAt(RemoveAt(ports, a), b, ports[a])
  {
    IdsAt(ports, a);
    IdsAt(ports, b);
  }

  /** Cutting a port out and inserting it back where it was restores the
      list. */
  lemma InsertRemoved<T>(s: seq<T>, i: nat)
    requires i < |s|
    ensures InsertAt(RemoveAt(s, i), i, s[i]) == s
  {
    var rest := RemoveAt(s, i);
    assert rest[..i] == s[..i] && rest[i..] == s[i + 1..];
    assert s == s[..i] + [s[i]] + s[i + 1..];
  }

  /** With distinct ids, dragging a port onto another and then the moved
      port back onto the port now at its old place restores the list. */
  lemma DropBack(ports: seq<Port>, a: nat, b: nat)
    requires DistinctPortIds(ports) && NamedIds(ports) && a < |ports| && b < |ports| && a != b
    ensures var r := DropPort(ports, Some(ports[a].id), Some(ports[b].id));
            DropPort(r, Some(ports[a].id), Some(r[a].id)) == ports
  {
    var x := ports[a];
    var rest := RemoveAt(ports, a);
    DropAt(ports, a, b);
    var r := InsertAt(rest, b, x);
    MovedClean(ports, a, b);
    DropAt(r, b, a);
    RemoveInserted(rest, b, x);
    InsertRemoved(ports, a);
  }

  /** After a move, ids are still distinct and non-empty. */
  lemma MovedClean(ports: seq<Port>, a: nat, b: nat)
    requires DistinctPortIds(ports) && NamedIds(ports) && a < |ports| && b < |ports|
    ensures DistinctPortIds(InsertAt(RemoveAt(ports, a), b, ports[a]))
    ensures NamedIds(InsertAt(RemoveAt(ports, a), b, ports[a]))
  {
    var x := ports[a];
    var rest := RemoveAt(ports, a);
    RestDistinct(ports, a);
    InsertedDistinct(rest, b, x);
    InsertedFrom(rest, b, x);
  }

  /** Every element after an insertion is the inserted one or an old one. */
  lemma InsertedFrom<T>(s: seq<T>, i: nat, x: T)
    requires i <= |s|
    ensures forall k :: 0 <= k < |InsertAt(s, i, x)| ==> InsertAt(s, i, x)[k] == x || InsertAt(s, i, x)[k] in s
  {
    var r := InsertAt(s, i, x);
    assert r == s[..i] + [x] + s[i..];
    forall k | 0 <= k < |r| ensures r[k] == x || r[k] in s {
      if k < i {
        assert r[k] == s[k];
      } else if k > i {
        assert r[k] == s[k - 1];
      }
    }
  }

  lemma IdsAt(ports: seq<Port>, k: nat)
    requires DistinctPortIds(ports) && k < |ports|
    ensures FindPortIndex(ports, ports[k].id) == k
  {
    var f := FindPortIndex(ports, ports[k].id);
    if 0 <= f < k { assert false; }
  }

  lemma RestDistinct(ports: seq<Port>, a: nat)
    requires DistinctPortIds(ports) && a < |ports|
    ensures DistinctPortIds(RemoveAt(ports, a))
    ensures forall p :: p in RemoveAt(ports, a) ==> p.id != ports[a].id && p in ports
  {
    var rest := RemoveAt(ports, a);
    assert forall i :: 0 <= i < |rest| ==> rest[i] == if i < a then ports[i] else ports[i + 1];
  }

  lemma InsertedDistinct(s: seq<Port>, i: nat, x: Port)
    requires DistinctPortIds(s) && i <= |s|
    requires forall p :: p in s ==> p.id != x.id
    ensures DistinctPortIds(InsertAt(s, i, x))
  {
    var r := InsertAt(s, i, x);
    assert forall k :: 0 <= k < |r| ==> r[k] == if k < i then s[k] else if k == i then x else s[k - 1];
    forall j, k | 0 <= j < k < |r| ensures r[j].id != r[k].id {
      if j == i { assert r[k] in s; } else if k == i { assert r[j] in s; }
    }
  }

  /** A port whose name is not blank. */
  predicate Named(p: Port) {
    Trim(p.name) != ""
  }

  /** handleSave's port filter: ports whose name trims to nothing are
      dropped; the names kept are not trimmed. */
  function KeepNamed(ports: seq<Port>): (r: seq<Port>)
    ensures forall p :: p in r <==> p in ports && !AllSpace(p.name)
  {
    Filter(ports, (p: Port) => Named(p))
  }

  /** handleSave: the edited node with blank-named ports dropped from both
      sides; everything else as edited. */
  function SavePorts(n: Node): (r: Node)
    ensures forall p :: p in r.inputs <==> p in n.inputs && !AllSpace(p.name)
    ensures forall p :: p in r.outputs <==> p in n.outputs && !AllSpace(p.name)
    ensures r.(inputs := n.inputs, outputs := n.outputs) == n
  {
    n.(inputs := KeepNamed(n.inputs), outputs := KeepNamed(n.outputs))
  }

  /** Saving twice drops nothing more. */
  lemma SavePortsIdempotent(n: Node)
    ensures SavePorts(SavePorts(n)) == SavePorts(n)
  {
    KeptAreNamed(n.inputs);
    KeptAreNamed(n.outputs);
  }

  lemma KeptAreNamed(ports: seq<Port>)
    ensures KeepNamed(KeepNamed(ports)) == KeepNamed(ports)
  {
    var k := KeepNamed(ports);
    assert forall i :: 0 <= i < |k| ==> k[i] in k;
    FilterAll(k, (p: Port) => Named(p));
  }

  /** KeepNamed unfolds at the front of the list. */
  lemma KeepFront(ports: seq<Port>)
    requires |ports| > 0
    ensures KeepNamed(ports) == (if Named(ports[0]) then [ports[0]] else []) + KeepNamed(ports[1..])
  {
    var keep := (p: Port) => Named(p);
    FilterConcat([ports[0]], ports[1..], keep);
    FilterSingle(ports[0], keep);
    assert [ports[0]] + ports[1..] == ports;
  }

  /** The store's save (saveNodeState) trims names and drops blank ones
      anyway, so the panel's own filter changes nothing it stores. */
  lemma {:induction false} StoreSubsumesPanel(ports: seq<Port>)
    ensures NodeActions.CleanPorts(KeepNamed(ports)) == NodeActions.CleanPorts(ports)
  {
    if |ports| > 0 {
      var p := ports[0];
      var tl := ports[1..];
      StoreSubsumesPanel(tl);
      KeepFront(ports);
      CleanFront(ports);
      if Named(p) {
        var k := [p] + KeepNamed(tl);
        assert KeepNamed(ports) == k;
        CleanFront(k);
        assert k[0] == p && k[1..] == KeepNamed(tl);
      } else {
        assert KeepNamed(ports) == KeepNamed(tl);
      }
    }
  }

  /** CleanPorts unfolds at the front of the list. */
  lemma CleanFront(ports: seq<Port>)
    requires |ports| > 0
    ensures NodeActions.CleanPorts(ports)
            == (if Named(ports[0]) then [ports[0].(name := Trim(ports[0].name))] else [])
               + NodeActions.CleanPorts(ports[1..])
  {
    var t := NodeActions.TrimNames(ports);
    var keep := NodeActions.Named();
    assert t == [t[0]] + NodeActions.TrimNames(ports[1..]);
    FilterConcat([t[0]], NodeActions.TrimNames(ports[1..]), keep);
    FilterSingle(t[0], keep);
  }

  /** handleSizeChange: the typed value is parsed with parseInt and taken
      as the width (or height) only when it is a number of at least 50;
      otherwise the size stays. */
  function SizeEdit(size: Size, width: bool, value: string): (r: Size)
    ensures ParseInt(value).Some? && ParseInt(value).value >= 50 ==>
              r == if width then size.(width := ParseInt(value).value) else size.(height := ParseInt(value).value)
    ensures !(ParseInt(value).Some? && ParseInt(value).value >= 50) ==> r == size
  {
    match ParseInt(value)
    case Some(v) =>
      if v >= 50 then (if width then size.(width := v) else size.(height := v)) else size
    case None => size
  }

  /** Typing a number sets the dimension exactly when it is at least 50. */
  lemma TypedSize(size: Size, width: bool, n: nat)
    ensures var r := SizeEdit(size, width, DecimalString(n));
            && (n >= 50 ==> (if width then r.width else r.height) == n)
            && (n < 50 ==> r == size)
  {
    ParseDecimal(n, "");
    assert DecimalString(n) + "" == DecimalString(n);
  }
}

=== FILE: reorganize.dfy ===
/** Renumbering `orderIndex` (storeActionsNode.ts): topologically for the
    whole graph, spatially for a selection. */
module Reorganize {
  import opened Common
  import opened Sorting
  import opened Types
  import opened DerivedState
  import opened Store
  import opened Kahn
  import opened TopoSort

  /** Every node numbered by its 1-based position in `order`. */
  function Renumber(nodes: seq<Node>, order: seq<int>): (r: seq<Node>)
    ensures |r| == |nodes|
    ensures forall i :: 0 <= i < |nodes| ==> r[i] == nodes[i].(orderIndex := IndexOf(order, nodes[i].id) + 1)
  {
    seq(|nodes|, i requires 0 <= i < |nodes| => nodes[i].(orderIndex := IndexOf(order, nodes[i].id) + 1))
  }

  /** The order indices are 1..n, each used once. */
  predicate NumberedOneToN(nodes: seq<Node>) {
    && (forall i :: 0 <= i < |nodes| ==> 1 <= nodes[i].orderIndex <= |nodes|)
    && (forall i, j :: 0 <= i < j < |nodes| ==> nodes[i].orderIndex != nodes[j].orderIndex)
  }

  /** Every connection between two listed nodes goes from a smaller order
      index to a larger one. */
  predicate IndexFollowsEdges(nodes: seq<Node>, conns: seq<Connection>) {
    forall c, i, j :: c in conns && 0 <= i < |nodes| && 0 <= j < |nodes|
                      && nodes[i].id == c.fromNode && nodes[j].id == c.toNode
                      ==> nodes[i].orderIndex < nodes[j].orderIndex
  }

  /** A complete Kahn order numbers a duplicate-free node list 1..n and
      respects every connection. */
  lemma RenumberFacts(nodes: seq<Node>, conns: seq<Connection>, order: seq<int>)
    requires DistinctIds(nodes)
    requires Distinct(order) && |order| == |nodes|
    requires forall v :: v in order ==> v in Ids(nodes)
    requires RespectsEdges(order, Live(Ids(nodes), conns))
    ensures NumberedOneToN(Renumber(nodes, order))
    ensures IndexFollowsEdges(Renumber(nodes, order), conns)
  {
    var ids := Ids(nodes);
    var r := Renumber(nodes, order);
    IdsDistinct(nodes);
    assert forall x :: x in order ==> x in ids;
    DistinctFillsPool(order, ids);
    forall i | 0 <= i < |nodes| ensures 1 <= r[i].orderIndex <= |nodes| {
      assert ids[i] in ids;
    }
    forall i, j | 0 <= i < j < |nodes| ensures r[i].orderIndex != r[j].orderIndex {
      assert ids[i] in ids && ids[j] in ids;
    }
    forall c, i, j | c in conns && 0 <= i < |nodes| && 0 <= j < |nodes|
                     && nodes[i].id == c.fromNode && nodes[j].id == c.toNode
      ensures r[i].orderIndex < r[j].orderIndex
    {
      assert ids[i] in ids && ids[j] in ids;
      assert c in Live(ids, conns);
    }
  }

  /** reorganizeOrderIndex. On a graph with a cycle nothing changes (only
      an error is logged). Nodes sharing an id never all reach the output,
      so that case also ends in the error branch. Otherwise one commit
      numbers the nodes by their position in `order`, the queue's FIFO
      order with roots and successors ranked by position. */
  method ReorganizeOrderIndex(s: AppState) returns (r: AppState, order: seq<int>)
    ensures !DistinctIds(s.core.nodes) ==> r == s
    ensures DistinctIds(s.core.nodes) && HasCycle(Ids(s.core.nodes), Live(Ids(s.core.nodes), s.core.connections))
            ==> r == s
    ensures DistinctIds(s.core.nodes) && !HasCycle(Ids(s.core.nodes), Live(Ids(s.core.nodes), s.core.connections))
            ==> && CommittedFrom(s, r)
                && r.core == s.core.(nodes := r.core.nodes)
                && |r.core.nodes| == |s.core.nodes|
                && (forall i :: 0 <= i < |s.core.nodes| ==>
                      r.core.nodes[i] == s.core.nodes[i].(orderIndex := r.core.nodes[i].orderIndex))
                && NumberedOneToN(r.core.nodes)
                && IndexFollowsEdges(r.core.nodes, s.core.connections)
    ensures DistinctIds(s.core.nodes) && !HasCycle(Ids(s.core.nodes), Live(Ids(s.core.nodes), s.core.connections))
            ==> && FifoOrder(Ids(s.core.nodes), s.core.connections, SpatialKey(s.core.nodes),
                             TargetKey(s.core.nodes), order)
                && r.core.nodes == Renumber(s.core.nodes, order)
  {
    var nodes := s.core.nodes;
    if !DistinctIds(nodes) {
      return s, [];
    }
    var ids := Ids(nodes);
    IdsDistinct(nodes);
    order := Linearize(ids, s.core.connections, SpatialKey(nodes), TargetKey(nodes));
    if |order| != |nodes| {
      return s, order;
    }
    RenumberFacts(nodes, s.core.connections, order);
    r := CommitNodes(s, Renumber(nodes, order));
  }

  /** The (y, x) reading order of a node. */
  function PosKey(): Node -> Key {
    (n: Node) => Key(n.pos.y, n.pos.x)
  }

  /** The smallest `orderIndex` of a non-empty list. */
  function MinOrderIndex(nodes: seq<Node>): (m: int)
    requires |nodes| > 0
    ensures forall i :: 0 <= i < |nodes| ==> m <= nodes[i].orderIndex
    ensures exists i :: 0 <= i < |nodes| && nodes[i].orderIndex == m
  {
    if |nodes| == 1 then nodes[0].orderIndex
    else
      var rest := MinOrderIndex(nodes[1..]);
      assert forall i :: 1 <= i < |nodes| ==> nodes[i] == nodes[1..][i - 1];
      if nodes[0].orderIndex < rest then nodes[0].orderIndex else rest
  }

  /** The last position of a node with id `id`, or -1. The source writes
      the new indices into a map by id, so a later entry overwrites an
      earlier one. */
  function LastPos(s: seq<Node>, id: int): (k: int)
    ensures -1 <= k < |s|
    ensures k >= 0 ==> s[k].id == id && forall j :: k < j < |s| ==> s[j].id != id
    ensures k == -1 ==> forall j :: 0 <= j < |s| ==> s[j].id != id
  {
    if |s| == 0 then -1
    else if s[|s| - 1].id == id then |s| - 1
    else LastPos(s[..|s| - 1], id)
  }

  function Selected(sel: seq<int>): Node -> bool {
    (n: Node) => n.id in sel
  }

  /** The selected nodes in reading order. */
  function SelectionOrder(nodes: seq<Node>, sel: seq<int>): seq<Node> {
    SortBy(Filter(nodes, Selected(sel)), PosKey())
  }

  /** The node list reorganizeOrderIndexForSelection commits: the
      selected nodes, in reading order, receive consecutive indices
      starting at their smallest current one. When no listed node is
      selected the list is unchanged. */
  function StampSelection(nodes: seq<Node>, sel: seq<int>): (r: seq<Node>)
    ensures |r| == |nodes|
    ensures forall i :: 0 <= i < |nodes| ==> r[i] == nodes[i].(orderIndex := r[i].orderIndex)
    ensures forall i :: 0 <= i < |nodes| && nodes[i].id !in sel ==> r[i] == nodes[i]
  {
    var chosen := Filter(nodes, Selected(sel));
    if |chosen| == 0 then nodes
    else Restamp(nodes, sel, SortBy(chosen, PosKey()), MinOrderIndex(chosen))
  }

  /** reorganizeOrderIndexForSelection: with an empty selection nothing
      happens; otherwise one commit of the restamped node list. */
  function ReorganizeForSelection(s: AppState): (r: AppState)
    ensures |s.ui.selectedNodeIds| == 0 ==> r == s
    ensures |s.ui.selectedNodeIds| > 0 ==>
              && CommittedFrom(s, r)
              && r.core == s.core.(nodes := StampSelection(s.core.nodes, s.ui.selectedNodeIds))
  {
    if |s.ui.selectedNodeIds| == 0 then s
    else Commit(s, SetNodes(StampSelection(s.core.nodes, s.ui.selectedNodeIds)))
  }

  /** Each selected node takes `lo` plus its last position in `sorted`;
      the other nodes are kept. */
  function Restamp(nodes: seq<Node>, sel: seq<int>, sorted: seq<Node>, lo: int): (r: seq<Node>)
    ensures |r| == |nodes|
    ensures forall i :: 0 <= i < |nodes| ==>
              r[i] == if nodes[i].id in sel then nodes[i].(orderIndex := lo + LastPos(sorted, nodes[i].id))
                      else nodes[i]
  {
    seq(|nodes|, i requires 0 <= i < |nodes| =>
      if nodes[i].id in sel then nodes[i].(orderIndex := lo + LastPos(sorted, nodes[i].id)) else nodes[i])
  }

  /** Filtering a duplicate-free node list keeps its ids distinct. */
  lemma {:induction false} FilterDistinctIds(nodes: seq<Node>, keep: Node -> bool)
    requires DistinctIds(nodes)
    ensures DistinctIds(Filter(nodes, keep))
  {
    if |nodes| > 0 {
      var rest := nodes[1..];
      assert DistinctIds(rest) by {
        forall i, j | 0 <= i < j < |rest| ensures rest[i].id != rest[j].id {
          assert rest[i] == nodes[i + 1] && rest[j] == nodes[j + 1];
        }
      }
      FilterDistinctIds(rest, keep);
      var f := Filter(rest, keep);
      if keep(nodes[0]) {
        forall x | x in f ensures x.id != nodes[0].id {
          var k :| 0 <= k < |rest| && rest[k] == x;
          assert nodes[k + 1] == x;
        }
        var r := [nodes[0]] + f;
        forall i, j | 0 <= i < j < |r| ensures r[i].id != r[j].id {
          if i == 0 {
            assert r[j] == f[j - 1] && f[j - 1] in f;
          } else {
            assert r[i] == f[i - 1] && r[j] == f[j - 1];
          }
        }
      }
    }
  }

  /** Reordering a duplicate-free node list keeps its ids distinct. */
  lemma PermutedDistinctIds(a: seq<Node>, b: seq<Node>)
    requires DistinctIds(b) && multiset(a) == multiset(b)
    ensures DistinctIds(a)
  {
    forall i, j | 0 <= i < j < |a| ensures a[i].id != a[j].id {
      assert a[i] in multiset(b) && a[j] in multiset(b);
      var p :| 0 <= p < |b| && b[p] == a[i];
      var q :| 0 <= q < |b| && b[q] == a[j];
      if p == q {
        TwiceInMultiset(a, i, j);
        DistinctMultiplicityNodes(b, p);
        assert false;
      }
    }
  }

  /** Two equal entries count twice in the multiset. */
  lemma TwiceInMultiset(a: seq<Node>, i: int, j: int)
    requires 0 <= i < j < |a|
    ensures a[i] == a[j] ==> multiset(a)[a[i]] >= 2
  {
    assert a == a[..i] + [a[i]] + a[i + 1..j] + [a[j]] + a[j + 1..];
  }

  /** In a duplicate-free node list every node occurs once. */
  lemma DistinctMultiplicityNodes(b: seq<Node>, p: int)
    requires DistinctIds(b) && 0 <= p < |b|
    ensures multiset(b)[b[p]] <= 1
  {
    var x := b[p];
    assert b == b[..p] + [x] + b[p + 1..];
    assert x !in b[..p] by {
      forall k | 0 <= k < p ensures b[..p][k] != x { assert b[k].id != b[p].id; }
    }
    assert x !in b[p + 1..] by {
      forall k | p < k < |b| ensures b[k] != x { assert b[k].id != b[p].id; }
    }
  }

  /** With distinct ids, the k-th selected node in reading order receives
      the smallest selected index plus k; the reading order is sorted by
      (y, x) and lists exactly the selected nodes. */
  lemma SelectionNumbering(nodes: seq<Node>, sel: seq<int>, k: int, i: int)
    requires DistinctIds(nodes)
    requires 0 <= k < |SelectionOrder(nodes, sel)|
    requires 0 <= i < |nodes| && nodes[i].id == SelectionOrder(nodes, sel)[k].id
    ensures nodes[i] == SelectionOrder(nodes, sel)[k]
    ensures StampSelection(nodes, sel)[i].orderIndex == MinOrderIndex(Filter(nodes, Selected(sel))) + k
  {
    var chosen := Filter(nodes, Selected(sel));
    var sorted := SortBy(chosen, PosKey());
    FilterDistinctIds(nodes, Selected(sel));
    PermutedDistinctIds(sorted, chosen);
    assert sorted[k] in multiset(chosen);
    assert sorted[k] in nodes;
    var p :| 0 <= p < |nodes| && nodes[p] == sorted[k];
    assert p == i;
    assert LastPos(sorted, sorted[k].id) == k;
  }

  /** The reading order is sorted by (y, x) and lists exactly the selected
      nodes. */
  lemma SelectionOrderFacts(nodes: seq<Node>, sel: seq<int>)
    ensures SortedBy(SelectionOrder(nodes, sel), PosKey())
    ensures forall n :: n in SelectionOrder(nodes, sel) <==> n in nodes && n.id in sel
  {
    var chosen := Filter(nodes, Selected(sel));
    var sorted := SortBy(chosen, PosKey());
    forall n ensures n in sorted <==> n in chosen {
      assert n in sorted <==> n in multiset(sorted);
      assert n in chosen <==> n in multiset(chosen);
    }
  }
}

=== FILE: sorting.dfy ===
/** Array.prototype.sort as the store uses it: a stable sort under a
    comparator that is a difference of one or two integer keys (`a.y - b.y ||
    a.x - b.x`, `a.orderIndex - b.orderIndex`, a port position). Keys are
    compared lexicographically; elements with equal keys keep their order. */
module Sorting {
  import opened Common

  /** A sort key: `major` decides, `minor` breaks ties. */
  datatype Key = Key(major: int, minor: int)

  predicate KeyLe(a: Key, b: Key) {
    a.major < b.major || (a.major == b.major && a.minor <= b.minor)
  }

  predicate SortedBy<T>(s: seq<T>, key: T -> Key) {
    forall i, j :: 0 <= i < j < |s| ==> KeyLe(key(s[i]), key(s[j]))
  }

  /** Every element's key is at least `b`. */
  predicate Above<T>(b: Key, s: seq<T>, key: T -> Key) {
    forall i :: 0 <= i < |s| ==> KeyLe(b, key(s[i]))
  }

  /** Places `x` in front of the first element whose key is not below its
      own, so `x` precedes every element with an equal key. */
  function Insert<T(==)>(x: T, s: seq<T>, key: T -> Key): (r: seq<T>)
    ensures |r| == |s| + 1
    ensures multiset(r) == multiset(s) + multiset{x}
  {
    if |s| == 0 then [x]
    else if KeyLe(key(x), key(s[0])) then [x] + s
    else
      assert s == [s[0]] + s[1..];
      [s[0]] + Insert(x, s[1..], key)
  }

  /** A lower bound of `x` and of `s` bounds the insertion result too. */
  lemma {:induction false} InsertAbove<T>(x: T, s: seq<T>, key: T -> Key, b: Key)
    requires Above(b, s, key) && KeyLe(b, key(x))
    ensures Above(b, Insert(x, s, key), key)
  {
    if |s| > 0 && !KeyLe(key(x), key(s[0])) {
      InsertAbove(x, s[1..], key, b);
    }
  }

  /** Inserting into a sorted sequence keeps it sorted. */
  lemma {:induction false} InsertSorted<T>(x: T, s: seq<T>, key: T -> Key)
    requires SortedBy(s, key)
    ensures SortedBy(Insert(x, s, key), key)
  {
    if |s| > 0 && !KeyLe(key(x), key(s[0])) {
      InsertSorted(x, s[1..], key);
      InsertAbove(x, s[1..], key, key(s[0]));
      var rest := Insert(x, s[1..], key);
      assert Insert(x, s, key) == [s[0]] + rest;
    }
  }

  /** The stable sort: insert the head into the sorted tail. */
  function SortBy<T(==)>(s: seq<T>, key: T -> Key): (r: seq<T>)
    ensures SortedBy(r, key)
    ensures |r| == |s|
    ensures multiset(r) == multiset(s)
  {
    if |s| == 0 then []
    else
      assert s == [s[0]] + s[1..];
      InsertSorted(s[0], SortBy(s[1..], key), key);
      Insert(s[0], SortBy(s[1..], key), key)
  }

  /** The elements carrying key `k`. */
  function WithKey<T(!new)>(key: T -> Key, k: Key): T -> bool {
    x => key(x) == k
  }

  lemma {:induction false} InsertStable<T(!new)>(x: T, s: seq<T>, key: T -> Key, k: Key)
    ensures Filter(Insert(x, s, key), WithKey(key, k))
            == (if key(x) == k then [x] else []) + Filter(s, WithKey(key, k))
  {
    var f := WithKey(key, k);
    FilterSingle(x, f);
    if |s| == 0 {
      assert Insert(x, s, key) == [x] + s;
      FilterConcat([x], s, f);
    } else if KeyLe(key(x), key(s[0])) {
      assert Insert(x, s, key) == [x] + s;
      FilterConcat([x], s, f);
    } else {
      var rest := Insert(x, s[1..], key);
      var tail := Filter(s[1..], f);
      InsertStable(x, s[1..], key, k);
      assert Insert(x, s, key) == [s[0]] + rest;
      FilterConcat([s[0]], rest, f);
      FilterConcat([s[0]], s[1..], f);
      FilterSingle(s[0], f);
      assert s == [s[0]] + s[1..];
      var head := Filter([s[0]], f);
      assert Filter(s, f) == head + tail;
      if f(x) {
        assert key(s[0]) != k;
        assert head == [];
        assert Filter(Insert(x, s, key), f) == [x] + tail;
      } else {
        assert Filter(rest, f) == tail;
        assert Filter(Insert(x, s, key), f) == head + tail;
      }
    }
  }

  /** Stability: among elements with the same key, the sorted order is the
      original order. */
  lemma {:induction false} SortStable<T(!new)>(s: seq<T>, key: T -> Key, k: Key)
    ensures Filter(SortBy(s, key), WithKey(key, k)) == Filter(s, WithKey(key, k))
  {
    if |s| > 0 {
      SortStable(s[1..], key, k);
      InsertStable(s[0], SortBy(s[1..], key), key, k);
      FilterConcat([s[0]], s[1..], WithKey(key, k));
      FilterSingle(s[0], WithKey(key, k));
      assert s == [s[0]] + s[1..];
    }
  }

  /** A sequence already in key order is returned unchanged. */
  lemma {:induction false} SortSorted<T>(s: seq<T>, key: T -> Key)
    requires forall i :: 0 <= i < |s| - 1 ==> KeyLe(key(s[i]), key(s[i + 1]))
    ensures SortBy(s, key) == s
  {
    if |s| > 0 {
      SortSorted(s[1..], key);
      assert SortBy(s[1..], key) == s[1..];
    }
  }
}

=== FILE: store.dfy ===
/** The store's state machine (storeActionsState.ts, storeActionsHistory.ts):
    every document change goes through a commit that pushes the previous
    document onto the undo stack and clears the redo stack; undo and redo
    move whole document snapshots between the two stacks. */
module Store {
  import opened Common
  import opened Types
  import opened DerivedState

  /** A partial document update: the fields present replace the current
      ones (`{ ...currentCoreState, ...newState }`). */
  datatype CorePatch = CorePatch(
    nodes: Option<seq<Node>>,
    mininodes: Option<seq<Mininode>>,
    connections: Option<seq<Connection>>,
    canvasObjects: Option<seq<CanvasObject>>,
    nodeColor: Option<string>,
    backgroundColor: Option<string>,
    gridColor: Option<string>,
    canvasTitle: Option<string>,
    showMininodePreviews: Option<bool>,
    checkboxPosition: Option<string>,
    contextMenuEnabled: Option<bool>,
    defaultEditorMode: Option<string>,
    autosaveEnabled: Option<bool>)

  /** The update that changes nothing. */
  function NoChange(): CorePatch {
    CorePatch(None, None, None, None, None, None, None, None, None, None, None, None, None)
  }

  /** The update spreading a whole snapshot, as undo and redo do. */
  function Whole(c: CoreState): CorePatch {
    CorePatch(Some(c.nodes), Some(c.mininodes), Some(c.connections), Some(c.canvasObjects),
              Some(c.nodeColor), Some(c.backgroundColor), Some(c.gridColor), Some(c.canvasTitle),
              Some(c.showMininodePreviews), Some(c.checkboxPosition), Some(c.contextMenuEnabled),
              Some(c.defaultEditorMode), Some(c.autosaveEnabled))
  }

  /** `{ ...core, ...patch }`. */
  function Merge(core: CoreState, p: CorePatch): CoreState {
    CoreState(
      p.nodes.GetOr(core.nodes),
      p.mininodes.GetOr(core.mininodes),
      p.connections.GetOr(core.connections),
      p.canvasObjects.GetOr(core.canvasObjects),
      p.nodeColor.GetOr(core.nodeColor),
      p.backgroundColor.GetOr(core.backgroundColor),
      p.gridColor.GetOr(core.gridColor),
      p.canvasTitle.GetOr(core.canvasTitle),
      p.showMininodePreviews.GetOr(core.showMininodePreviews),
      p.checkboxPosition.GetOr(core.checkboxPosition),
      p.contextMenuEnabled.GetOr(core.contextMenuEnabled),
      p.defaultEditorMode.GetOr(core.defaultEditorMode),
      p.autosaveEnabled.GetOr(core.autosaveEnabled))
  }

  /** The empty update leaves the document as it is, and a whole snapshot
      replaces it entirely. */
  lemma MergeIdentities(core: CoreState, d: CoreState)
    ensures Merge(core, NoChange()) == core
    ensures Merge(core, Whole(d)) == d
  {
  }

  /** A field the update carries replaces the document's, and a field it
      lacks keeps the document's. */
  lemma MergeFields(core: CoreState, p: CorePatch)
    ensures p.nodes.None? ==> Merge(core, p).nodes == core.nodes
    ensures p.nodes.Some? ==> Merge(core, p).nodes == p.nodes.value
    ensures p.mininodes.None? ==> Merge(core, p).mininodes == core.mininodes
    ensures p.mininodes.Some? ==> Merge(core, p).mininodes == p.mininodes.value
    ensures p.connections.None? ==> Merge(core, p).connections == core.connections
    ensures p.connections.Some? ==> Merge(core, p).connections == p.connections.value
    ensures p.canvasObjects.None? ==> Merge(core, p).canvasObjects == core.canvasObjects
    ensures p.canvasObjects.Some? ==> Merge(core, p).canvasObjects == p.canvasObjects.value
    ensures p.nodeColor.None? ==> Merge(core, p).nodeColor == core.nodeColor
    ensures p.nodeColor.Some? ==> Merge(core, p).nodeColor == p.nodeColor.value
    ensures p.canvasTitle.None? ==> Merge(core, p).canvasTitle == core.canvasTitle
    ensures p.canvasTitle.Some? ==> Merge(core, p).canvasTitle == p.canvasTitle.value
  {
  }

  /** Applying the same update twice is applying it once. */
  lemma MergeTwice(core: CoreState, p: CorePatch)
    ensures Merge(Merge(core, p), p) == Merge(core, p)
  {
  }

  /** Only the nodes change. */
  function SetNodes(nodes: seq<Node>): CorePatch {
    NoChange().(nodes := Some(nodes))
  }

  /** _updateState for a new document: the lookup tables are recomputed
      from it; the history stacks and the editor state are untouched. */
  function Refresh(s: AppState, core: CoreState): (r: AppState)
    ensures Consistent(r)
    ensures r.core == core
    ensures r.past == s.past && r.future == s.future && r.ui == s.ui
  {
    s.(core := core, derived := ComputeDerived(core))
  }

  /** updateCoreState: commits a document change. */
  function Commit(s: AppState, p: CorePatch): (r: AppState)
    ensures Consistent(r)
    ensures r.core == Merge(s.core, p)
    ensures r.past == s.past + [s.core]
    ensures r.future == []
    ensures r.ui == s.ui.(isFileDirty := s.ui.editingMode == File)
  {
    var t := s.(past := s.past + [s.core], future := [],
                ui := s.ui.(isFileDirty := s.ui.editingMode == File));
    Refresh(t, Merge(s.core, p))
  }

  /** Whether the state changed only in its document, derived tables and
      dirty flag, as a commit does. */
  predicate CommittedFrom(s: AppState, r: AppState) {
    && Consistent(r)
    && r.past == s.past + [s.core]
    && r.future == []
    && r.ui == s.ui.(isFileDirty := s.ui.editingMode == File)
  }

  /** A commit of a new node list, everything else unchanged. */
  function CommitNodes(s: AppState, nodes: seq<Node>): (r: AppState)
    ensures CommittedFrom(s, r)
    ensures r.core == s.core.(nodes := nodes)
  {
    Commit(s, SetNodes(nodes))
  }

  /** A commit of new nodes and connections, everything else unchanged. */
  function CommitNodesAndConnections(s: AppState, nodes: seq<Node>, conns: seq<Connection>): (r: AppState)
    ensures CommittedFrom(s, r)
    ensures r.core == s.core.(nodes := nodes, connections := conns)
  {
    Commit(s, SetNodes(nodes).(connections := Some(conns)))
  }

  /** undo: with an empty undo stack nothing happens; otherwise the last
      snapshot becomes the document and the document goes to the front of
      the redo stack. */
  function Undo(s: AppState): (r: AppState)
    ensures |s.past| == 0 ==> r == s
    ensures |s.past| > 0 ==>
              && Consistent(r)
              && r.core == s.past[|s.past| - 1]
              && r.past == s.past[..|s.past| - 1]
              && r.future == [s.core] + s.future
              && r.ui == s.ui
  {
    if |s.past| == 0 then s
    else
      var prev := s.past[|s.past| - 1];
      var t := s.(past := s.past[..|s.past| - 1], future := [s.core] + s.future);
      Refresh(t, Merge(s.core, Whole(prev)))
  }

  /** redo: with an empty redo stack nothing happens; otherwise the first
      redo snapshot becomes the document and the document goes to the end
      of the undo stack. */
  function Redo(s: AppState): (r: AppState)
    ensures |s.future| == 0 ==> r == s
    ensures |s.future| > 0 ==>
              && Consistent(r)
              && r.core == s.future[0]
              && r.past == s.past + [s.core]
              && r.future == s.future[1..]
              && r.ui == s.ui
  {
    if |s.future| == 0 then s
    else
      var next := s.future[0];
      var t := s.(past := s.past + [s.core], future := s.future[1..]);
      Refresh(t, Merge(s.core, Whole(next)))
  }

  /** clearHistory. */
  function ClearHistory(s: AppState): (r: AppState)
    ensures r.past == [] && r.future == []
    ensures r.core == s.core && r.derived == s.derived && r.ui == s.ui
  {
    s.(past := [], future := [])
  }

  /** Undoing a commit brings back the document and the undo stack it
      started from; the committed document waits on the redo stack. */
  lemma UndoCommit(s: AppState, p: CorePatch)
    ensures var r := Undo(Commit(s, p));
            && r.core == s.core
            && r.past == s.past
            && r.future == [Merge(s.core, p)]
            && (Consistent(s) ==> r.derived == s.derived)
  {
    var c := Commit(s, p);
    assert c.past[..|c.past| - 1] == s.past;
  }

  /** After an undo, a redo restores the document and both stacks. */
  lemma RedoUndoParts(s: AppState)
    requires |s.past| > 0
    ensures var r := Redo(Undo(s));
            r.core == s.core && r.past == s.past && r.future == s.future && r.ui == s.ui
  {
    var n := |s.past|;
    assert s.past == s.past[..n - 1] + [s.past[n - 1]];
  }

  /** Redo exactly reverses undo on a consistent state. */
  lemma RedoUndo(s: AppState)
    requires Consistent(s) && |s.past| > 0
    ensures Redo(Undo(s)) == s
  {
    RedoUndoParts(s);
    SameState(Redo(Undo(s)), s);
  }

  /** After a redo, an undo restores the document and both stacks. */
  lemma UndoRedoParts(s: AppState)
    requires |s.future| > 0
    ensures var r := Undo(Redo(s));
            r.core == s.core && r.past == s.past && r.future == s.future && r.ui == s.ui
  {
    var r := Redo(s);
    assert r.past == s.past + [s.core] && r.future == s.future[1..];
    assert |r.past| > 0 && r.past[|r.past| - 1] == s.core;
    assert r.past[..|r.past| - 1] == s.past;
    assert [r.core] + r.future == s.future;
  }

  /** Undo exactly reverses redo on a consistent state. */
  lemma UndoRedo(s: AppState)
    requires Consistent(s) && |s.future| > 0
    ensures Undo(Redo(s)) == s
  {
    UndoRedoParts(s);
    SameState(Undo(Redo(s)), s);
  }

  /** Two consistent states agreeing on the document, the stacks and the
      editor state are equal. */
  lemma SameState(a: AppState, b: AppState)
    requires Consistent(a) && Consistent(b)
    requires a.core == b.core && a.past == b.past && a.future == b.future && a.ui == b.ui
    ensures a == b
  {
  }

  /** Undo and redo only move snapshots: the total history length is
      fixed. */
  lemma HistoryConserved(s: AppState)
    ensures |Undo(s).past| + |Undo(s).future| == |s.past| + |s.future|
    ensures |Redo(s).past| + |Redo(s).future| == |s.past| + |s.future|
  {
  }

  /** Two commits, two undos and a redo: the document is the one the first
      commit produced, one step back from the second. */
  lemma CommitUndoRedoScenario(s: AppState, p1: CorePatch, p2: CorePatch)
    ensures var s1 := Commit(s, p1);
            var s2 := Commit(s1, p2);
            var r := Redo(Undo(Undo(s2)));
            && r.core == s1.core
            && r.past == s.past + [s.core]
            && r.future == [s2.core]
  {
    var s1 := Commit(s, p1);
    var s2 := Commit(s1, p2);
    var u1 := Undo(s2);
    assert s2.past[..|s2.past| - 1] == s.past + [s.core];
    var u2 := Undo(u1);
    assert u1.past[..|u1.past| - 1] == s.past;
  }
}

=== FILE: textformat.dfy ===
/** The description editor's formatting commands (EditNodeModal.tsx):
    wrapping the selection in markdown markers, turning the selected lines
    into a list, and inserting a table. The textarea's selection is a pair
    `start <= end` of offsets into its text, as the browser guarantees. */
module TextFormat {
  import opened Common
  import opened Numerals
  import Utils

  /** The description after a command and the selection it asks for. */
  datatype Edit = Edit(text: string, selStart: nat, selEnd: nat)

  /** The text with the `p` characters before the selection and the `q`
      after it taken out: what remains once the markers are removed. */
  function Strip(e: Edit, p: nat, q: nat): string
    requires p <= e.selStart <= e.selEnd && e.selEnd + q <= |e.text|
  {
    e.text[..e.selStart - p] + e.text[e.selStart..e.selEnd] + e.text[e.selEnd + q..]
  }

  /** `core` wrapped in `prefix`/`suffix`, with `lead` and `trail` kept
      outside the markers, between `before` and `after`; `core` ends up
      selected. */
  function Wrap(before: string, lead: string, prefix: string, core: string,
                suffix: string, trail: string, after: string): (r: Edit)
    ensures r.selStart == |before| + |lead| + |prefix| && r.selEnd == r.selStart + |core|
    ensures |r.text| == r.selEnd + |suffix| + |trail| + |after|
  {
    var a := |before| + |lead| + |prefix|;
    Edit(before + lead + prefix + core + suffix + trail + after, a, a + |core|)
  }

  /** The prefix sits right before the selection and the suffix right
      after it. */
  predicate MarkersAround(r: Edit, prefix: string, suffix: string) {
    && |prefix| <= r.selStart <= r.selEnd && r.selEnd + |suffix| <= |r.text|
    && r.text[r.selStart - |prefix|..r.selStart] == prefix
    && r.text[r.selEnd..r.selEnd + |suffix|] == suffix
  }

  /** In a wrap the text before keeps its place, the markers sit right
      around the selection, the selection is the core, and the text after
      follows the trailing piece. */
  lemma WrapParts(before: string, lead: string, prefix: string, core: string,
                  suffix: string, trail: string, after: string)
    ensures var r := Wrap(before, lead, prefix, core, suffix, trail, after);
            && r.text[..|before|] == before
            && MarkersAround(r, prefix, suffix)
            && r.text[r.selStart..r.selEnd] == core
            && r.text[r.selEnd + |suffix| + |trail|..] == after
  {
    var x := before + lead;
    var y := x + prefix;
    var z := y + core;
    var w := z + suffix;
    var t := w + trail + after;
    assert t[..|w|] == w && t[|w| + |trail|..] == after;
    assert w[..|z|] == z && z[..|y|] == y && y[..|x|] == x;
    assert t[..|before|] == before by { assert t[..|before|] == x[..|before|]; }
    assert t[|x|..|y|] == prefix by { assert t[|x|..|y|] == y[|x|..]; }
    assert t[|y|..|z|] == core by { assert t[|y|..|z|] == z[|y|..]; }
    assert t[|z|..|w|] == suffix by { assert t[|z|..|w|] == w[|z|..]; }
  }

  /** Taking the markers out of a wrap leaves the pieces in order. */
  lemma WrapStrip(before: string, lead: string, prefix: string, core: string,
                  suffix: string, trail: string, after: string)
    ensures Strip(Wrap(before, lead, prefix, core, suffix, trail, after), |prefix|, |suffix|)
            == before + (lead + core + trail) + after
  {
    StripJoin(before, lead, prefix, core, suffix, trail, after);
  }

  /** What applyFormat wraps: the selection, or the placeholder when
      nothing is selected. */
  function Inserted(text: string, start: nat, end: nat, placeholder: string): string
    requires start <= end <= |text|
  {
    if start < end then text[start..end] else placeholder
  }

  /** A text cut in three: leading whitespace, the text between, trailing
      whitespace. */
  datatype Pieces = Pieces(lead: string, core: string, trail: string)

  /** `p` cuts `s` into its leading whitespace, a middle that is empty
      exactly for blank text and otherwise starts and ends with a
      non-space character, and its trailing whitespace. */
  predicate IsCut(s: string, p: Pieces) {
    && p.lead + p.core + p.trail == s
    && AllSpace(p.lead) && AllSpace(p.trail)
    && (p.core == "" <==> AllSpace(s))
    && (|p.core| > 0 ==> !IsSpace(p.core[0]) && !IsSpace(p.core[|p.core| - 1]))
  }

  /** The cut applyFormat means to make: the leading whitespace run, then
      the trailing run of what follows it. */
  function Cut(s: string): (p: Pieces)
    ensures IsCut(s, p)
  {
    CutFacts(s);
    CutAt(s, LeadingSpace(s))
  }

  /** The cut after a leading run of `lead` characters. */
  function CutAt(s: string, lead: nat): Pieces
    requires lead <= |s|
  {
    var trail := TrailingSpace(s[lead..]);
    Pieces(s[..lead], s[lead..|s| - trail], s[|s| - trail..])
  }

  /** The cut's pieces, gathered. */
  lemma CutFacts(s: string)
    ensures IsCut(s, CutAt(s, LeadingSpace(s)))
  {
    CutJoins(s);
    CoreEnds(s);
  }

  /** The three pieces of the cut make up the text and the outer two are
      blank. */
  lemma CutJoins(s: string)
    ensures var lead := LeadingSpace(s);
            var trail := TrailingSpace(s[lead..]);
            && s[..lead] + s[lead..|s| - trail] + s[|s| - trail..] == s
            && AllSpace(s[..lead]) && AllSpace(s[|s| - trail..])
  {
    var lead := LeadingSpace(s);
    var trail := TrailingSpace(s[lead..]);
    SliceJoin(s, lead, |s| - trail);
    SpaceSlice(s, 0, lead);
    assert s[0..lead] == s[..lead];
    TrailingRun(s, lead);
    SpaceSlice(s, |s| - trail, |s|);
    assert s[|s| - trail..|s|] == s[|s| - trail..];
  }

  /** The trailing run of the text after its leading run covers the last
      positions of the text. */
  lemma TrailingRun(s: string, lead: nat)
    requires lead <= |s|
    ensures var trail := TrailingSpace(s[lead..]);
            && lead + trail <= |s|
            && forall k :: |s| - trail <= k < |s| ==> IsSpace(s[k])
  {
    var rest := s[lead..];
    assert forall k :: lead <= k < |s| ==> s[k] == rest[k - lead];
  }

  /** The middle of the cut is empty exactly for blank text, and otherwise
      starts and ends with a non-space character. */
  lemma CoreEnds(s: string)
    ensures var lead := LeadingSpace(s);
            var core := s[lead..|s| - TrailingSpace(s[lead..])];
            && (core == "" <==> AllSpace(s))
            && (|core| > 0 ==> !IsSpace(core[0]) && !IsSpace(core[|core| - 1]))
  {
    var lead := LeadingSpace(s);
    var rest := s[lead..];
    var trail := TrailingSpace(rest);
    var core := s[lead..|s| - trail];
    if lead < |s| {
      assert rest[0] == s[lead];
      assert !AllSpace(s) by { assert !IsSpace(s[lead]); }
      assert trail < |rest|;
      assert core[0] == s[lead];
      assert core[|core| - 1] == rest[|rest| - trail - 1];
    }
  }

  /** The middle of the intended cut is String.prototype.trim's result. */
  lemma CutIsTrim(s: string)
    ensures Cut(s).core == Trim(s)
  {
    TrimIsCore(s);
    var lead := LeadingSpace(s);
    var rest := s[lead..];
    var trail := TrailingSpace(rest);
    assert rest[..|rest| - trail] == s[lead..|s| - trail];
  }

  /** The cut as the code makes it: both runs are measured on the whole
      text and the middle is taken with substring, which swaps crossed
      bounds. */
  function CutAsWritten(s: string): (p: Pieces)
    ensures AllSpace(p.lead) && p.lead <= s
    ensures AllSpace(p.trail) && |p.trail| <= |s| && s[|s| - |p.trail|..] == p.trail
    ensures !AllSpace(s) ==> p.lead + p.core + p.trail == s
  {
    var lead := LeadingSpace(s);
    var trail := TrailingSpace(s);
    RunsAreSpace(s, lead, trail);
    Pieces(s[..lead], Utils.Substring(s, lead, |s| - trail), s[|s| - trail..])
  }

  /** The two whitespace runs of a text, and, when the text is not blank,
      the three pieces between and around them joined back. */
  lemma RunsAreSpace(s: string, lead: nat, trail: nat)
    requires lead == LeadingSpace(s) && trail == TrailingSpace(s)
    ensures AllSpace(s[..lead]) && AllSpace(s[|s| - trail..])
    ensures !AllSpace(s) ==> s[..lead] + Utils.Substring(s, lead, |s| - trail) + s[|s| - trail..] == s
  {
    forall i | 0 <= i < lead ensures IsSpace(s[..lead][i]) {
      assert s[..lead][i] == s[i];
    }
    var t := s[|s| - trail..];
    forall i | 0 <= i < |t| ensures IsSpace(t[i]) {
      assert t[i] == s[|s| - trail + i];
    }
    if !AllSpace(s) {
      var j :| 0 <= j < |s| && !IsSpace(s[j]);
      assert lead <= j < |s| - trail;
      assert Utils.Substring(s, lead, |s| - trail) == s[lead..|s| - trail];
      assert s == s[..lead] + s[lead..|s| - trail] + s[|s| - trail..];
    }
  }

  /** For a text with a non-space character the two cuts agree. */
  lemma CutAgrees(s: string)
    requires !AllSpace(s)
    ensures CutAsWritten(s) == Cut(s)
  {
    CutAtAgrees(s);
  }

  /** The code's cut is the intended one computed after the leading run. */
  lemma CutAtAgrees(s: string)
    requires !AllSpace(s)
    ensures CutAsWritten(s) == CutAt(s, LeadingSpace(s))
  {
    var lead := LeadingSpace(s);
    var j :| 0 <= j < |s| && !IsSpace(s[j]);
    assert lead <= j;
    TrailingAfterCut(s, lead, lead);
    SameTrailing(s, lead);
  }

  /** When the trailing run does not reach the leading one, the code's
      cut is the intended one. */
  lemma SameTrailing(s: string, lead: nat)
    requires lead == LeadingSpace(s) && lead < |s|
    requires TrailingSpace(s[lead..]) == TrailingSpace(s)
    ensures CutAsWritten(s) == CutAt(s, lead)
  {
    assert lead + TrailingSpace(s) <= |s|;
  }

  /** For a non-empty text of nothing but whitespace, the code's cut puts
      the whole text in each of the three pieces. */
  lemma CutAsWrittenBlank(s: string)
    requires |s| > 0 && AllSpace(s)
    ensures CutAsWritten(s) == Pieces(s, s, s)
  {
    LeadingAll(s);
    TrailingAll(s);
    assert s[..|s|] == s && s[0..] == s;
  }

  /** applyFormat as the code stands, using the code's cut. */
  function FormatAsWritten(text: string, start: nat, end: nat,
                           prefix: string, suffix: string, placeholder: string): (r: Edit)
    requires start <= end <= |text|
    ensures r.selStart == start + |CutAsWritten(Inserted(text, start, end, placeholder)).lead| + |prefix|
  {
    var p := CutAsWritten(Inserted(text, start, end, placeholder));
    if p.core == "" && start == end then
      Wrap(text[..start], "", prefix, placeholder, suffix, "", text[end..])
    else
      Wrap(text[..start], p.lead, prefix, p.core, suffix, p.trail, text[end..])
  }

  /** applyFormat with the intended cut: the markers go around the trimmed
      selection (or placeholder), its surrounding whitespace stays outside,
      the trimmed text is selected, and nothing else changes. */
  function Format(text: string, start: nat, end: nat,
                  prefix: string, suffix: string, placeholder: string): (r: Edit)
    requires start <= end <= |text|
    ensures start + |prefix| <= r.selStart <= r.selEnd && r.selEnd + |suffix| <= |r.text|
    ensures r.text[..start] == text[..start]
  {
    var p := Cut(Inserted(text, start, end, placeholder));
    if p.core == "" && start == end then
      WrapParts(text[..start], "", prefix, placeholder, suffix, "", text[end..]);
      Wrap(text[..start], "", prefix, placeholder, suffix, "", text[end..])
    else
      WrapParts(text[..start], p.lead, prefix, p.core, suffix, p.trail, text[end..]);
      Wrap(text[..start], p.lead, prefix, p.core, suffix, p.trail, text[end..])
  }

  /** applyFormat is one wrap of the text around the selection: the
      pieces it puts between the markers and around them make up the
      selection (or the placeholder at a bare cursor). */
  lemma FormatIsWrap(text: string, start: nat, end: nat, prefix: string, suffix: string, placeholder: string)
    returns (lead: string, core: string, trail: string)
    requires start <= end <= |text|
    ensures Format(text, start, end, prefix, suffix, placeholder)
            == Wrap(text[..start], lead, prefix, core, suffix, trail, text[end..])
    ensures lead + core + trail == Inserted(text, start, end, placeholder)
  {
    var p := Cut(Inserted(text, start, end, placeholder));
    if p.core == "" && start == end {
      lead, core, trail := "", placeholder, "";
      assert lead + core + trail == placeholder;
    } else {
      lead, core, trail := p.lead, p.core, p.trail;
    }
  }

  /** The prefix sits right before the new selection and the suffix right
      after it. */
  lemma FormatMarkers(text: string, start: nat, end: nat, prefix: string, suffix: string, placeholder: string)
    requires start <= end <= |text|
    ensures MarkersAround(Format(text, start, end, prefix, suffix, placeholder), prefix, suffix)
  {
    var lead, core, trail := FormatIsWrap(text, start, end, prefix, suffix, placeholder);
    WrapParts(text[..start], lead, prefix, core, suffix, trail, text[end..]);
  }

  /** Taking the markers out again leaves the text with the selection (or,
      when nothing was selected, the placeholder) where it was: formatting
      only adds the markers. */
  lemma FormatOnlyAddsMarkers(text: string, start: nat, end: nat, prefix: string, suffix: string, placeholder: string)
    requires start <= end <= |text|
    ensures var r := Format(text, start, end, prefix, suffix, placeholder);
            Strip(r, |prefix|, |suffix|) == text[..start] + Inserted(text, start, end, placeholder) + text[end..]
  {
    var lead, core, trail := FormatIsWrap(text, start, end, prefix, suffix, placeholder);
    WrapStrip(text[..start], lead, prefix, core, suffix, trail, text[end..]);
  }

  /** The new selection is the trimmed selection (or placeholder); only a
      blank placeholder inserted at a cursor is selected whole. */
  lemma FormatSelectsTrimmed(text: string, start: nat, end: nat, prefix: string, suffix: string, placeholder: string)
    requires start <= end <= |text|
    ensures var r := Format(text, start, end, prefix, suffix, placeholder);
            r.text[r.selStart..r.selEnd] ==
              if start == end && AllSpace(placeholder) then placeholder
              else Trim(Inserted(text, start, end, placeholder))
  {
    var ins := Inserted(text, start, end, placeholder);
    var p := Cut(ins);
    if p.core == "" && start == end {
      WrapParts(text[..start], "", prefix, placeholder, suffix, "", text[end..]);
    } else {
      WrapParts(text[..start], p.lead, prefix, p.core, suffix, p.trail, text[end..]);
    }
    CutIsTrim(ins);
  }

  /** The text between the leading run and the trailing run measured after
      it is the trimmed text. */
  lemma TrimIsCore(s: string)
    ensures var lead := LeadingSpace(s);
            var trail := TrailingSpace(s[lead..]);
            s[lead..|s| - trail] == Trim(s)
  {
    var lead := LeadingSpace(s);
    var rest := s[lead..];
    var trail := TrailingSpace(rest);
    if lead == |s| {
      assert rest == [] && trail == 0;
      assert Trim(s) == [];
    } else {
      assert Trim(s) == rest[..|rest| - trail];
      assert rest[..|rest| - trail] == s[lead..|s| - trail];
    }
  }

  /** The trailing whitespace run does not change when a prefix is cut off
      in front of the last non-space character. */
  lemma TrailingAfterCut(s: string, k: nat, j: nat)
    requires k <= j < |s| && !IsSpace(s[j])
    ensures TrailingSpace(s[k..]) == TrailingSpace(s)
  {
    var t := TrailingSpace(s);
    var c := s[k..];
    assert |s| - t > j;
    assert c[|c| - t - 1] == s[|s| - t - 1];
    assert forall i :: |c| - t <= i < |c| ==> c[i] == s[k + i];
  }

  /** Whenever the inserted text has a non-space character, the code as
      written and the corrected definition agree. */
  lemma FormatAgrees(text: string, start: nat, end: nat, prefix: string, suffix: string, placeholder: string)
    requires start <= end <= |text|
    requires !AllSpace(Inserted(text, start, end, placeholder))
    ensures FormatAsWritten(text, start, end, prefix, suffix, placeholder)
            == Format(text, start, end, prefix, suffix, placeholder)
  {
    CutAgrees(Inserted(text, start, end, placeholder));
  }

  /** As written, a selection of nothing but whitespace comes out three
      times: once before the prefix, once between the markers and once
      after the suffix. */
  lemma FormatAsWrittenRepeatsBlank(text: string, start: nat, end: nat, prefix: string, suffix: string, placeholder: string)
    requires start < end <= |text| && AllSpace(text[start..end])
    ensures var w := text[start..end];
            FormatAsWritten(text, start, end, prefix, suffix, placeholder).text
              == text[..start] + w + prefix + w + suffix + w + text[end..]
  {
    CutAsWrittenBlank(text[start..end]);
  }

  lemma LeadingAll(s: string)
    requires AllSpace(s)
    ensures LeadingSpace(s) == |s|
  {
  }

  lemma TrailingAll(s: string)
    requires AllSpace(s)
    ensures TrailingSpace(s) == |s|
  {
  }

  /** The corrected command keeps a blank selection once, in front of
      the markers, which then wrap nothing. */
  lemma FormatBlank(text: string, start: nat, end: nat, prefix: string, suffix: string, placeholder: string)
    requires start < end <= |text| && AllSpace(text[start..end])
    ensures Format(text, start, end, prefix, suffix, placeholder).text
              == text[..start] + text[start..end] + prefix + suffix + text[end..]
  {
    var w := text[start..end];
    LeadingAll(w);
    var p := Cut(w);
    assert p.lead == w && p.core == "" && p.trail == "";
  }

  /** Bold on a selection of two spaces: the code as written turns the
      two-character text into ten characters, where the corrected command
      gives six. */
  lemma FormatBlankExample()
    ensures FormatAsWritten("  ", 0, 2, "**", "**", "negrita").text == "  **  **  "
    ensures Format("  ", 0, 2, "**", "**", "negrita").text == "  ****"
  {
    BlankAsWritten("  ");
    BlankCorrected();
  }

  lemma BlankAsWritten(w: string)
    requires w == "  "
    ensures FormatAsWritten(w, 0, 2, "**", "**", "negrita").text == "  **  **  "
  {
    assert |w| == 2 && AllSpace(w);
    AsWrittenWholeBlank(w, "**", "**", "negrita");
  }

  lemma BlankCorrected()
    ensures Format("  ", 0, 2, "**", "**", "negrita").text == "  ****"
  {
    assert AllSpace("  ");
    CorrectedWholeBlank("  ", "**", "**", "negrita");
  }

  /** A blank text selected whole, formatted as the code stands: the text
      is written three times around the markers. */
  lemma AsWrittenWholeBlank(w: string, prefix: string, suffix: string, placeholder: string)
    requires |w| > 0 && AllSpace(w)
    ensures FormatAsWritten(w, 0, |w|, prefix, suffix, placeholder).text == w + prefix + w + suffix + w
  {
    assert w[0..|w|] == w && w[..0] == "" && w[|w|..] == "";
    FormatAsWrittenRepeatsBlank(w, 0, |w|, prefix, suffix, placeholder);
  }

  /** A blank text selected whole, formatted with the intended cut: the
      text once, then the two markers. */
  lemma CorrectedWholeBlank(w: string, prefix: string, suffix: string, placeholder: string)
    requires |w| > 0 && AllSpace(w)
    ensures Format(w, 0, |w|, prefix, suffix, placeholder).text == w + prefix + suffix
  {
    assert w[0..|w|] == w && w[..0] == "" && w[|w|..] == "";
    FormatBlank(w, 0, |w|, prefix, suffix, placeholder);
  }

  /** With nothing selected and a placeholder that has no surrounding
      whitespace, the markers and the placeholder go in at the cursor and
      the placeholder is selected. */
  lemma FormatAtCursor(text: string, at: nat, prefix: string, suffix: string, placeholder: string)
    requires at <= |text|
    requires |placeholder| > 0 && !IsSpace(placeholder[0]) && !IsSpace(placeholder[|placeholder| - 1])
    ensures var r := Format(text, at, at, prefix, suffix, placeholder);
            && r.text == text[..at] + prefix + placeholder + suffix + text[at..]
            && r.selStart == at + |prefix| && r.selEnd == r.selStart + |placeholder|
  {
    assert LeadingSpace(placeholder) == 0;
    assert placeholder[0..] == placeholder;
    assert TrailingSpace(placeholder) == 0;
    assert placeholder[..|placeholder|] == placeholder;
  }

  /** The table markdown insertTable puts in. */
  const Table: string :=
    "\n| Cabecera 1 | Cabecera 2 |\n| :--- | :--- |\n| Celda 1.1  | Celda 1.2  |\n| Celda 2.1  | Celda 2.2  |\n"

  /** insertTable: the selection is replaced by the table and the cursor
      lands right after it. */
  function InsertTable(text: string, start: nat, end: nat): (r: Edit)
    requires start <= end <= |text|
    ensures r.selStart == r.selEnd == start + |Table| <= |r.text|
    ensures r.text[..start] == text[..start]
    ensures r.text[start..r.selStart] == Table
    ensures r.text[r.selEnd..] == text[end..]
  {
    var t := text[..start] + Table + text[end..];
    assert t[..start] == text[..start];
    assert t[start..start + |Table|] == Table;
    assert t[start + |Table|..] == text[end..];
    Edit(t, start + |Table|, start + |Table|)
  }

  // ---------------------------------------------------------------------
  // Lines

  /** String.prototype.indexOf for one character from position `from`: the
      first position at or after it holding `c`, or -1. */
  function IndexOf(s: string, c: char, from: nat): (k: int)
    ensures k == -1 || from <= k < |s|
    ensures k == -1 ==> forall i :: from <= i < |s| ==> s[i] != c
    ensures k != -1 ==> s[k] == c && forall i :: from <= i < k ==> s[i] != c
    decreases |s| - from
  {
    if from >= |s| then -1
    else if s[from] == c then from
    else IndexOf(s, c, from + 1)
  }

  /** The last position at or before `n` holding `c`, or -1. */
  function LastAtOrBefore(s: string, c: char, n: int): (k: int)
    requires n >= -1
    ensures -1 <= k <= n && k < |s|
    ensures k != -1 ==> s[k] == c
    ensures forall i :: k < i <= n && i < |s| ==> s[i] != c
    decreases n + 1
  {
    if n < 0 then -1
    else if n < |s| && s[n] == c then n
    else LastAtOrBefore(s, c, n - 1)
  }

  /** String.prototype.lastIndexOf for one character from position `from`.
      A negative `from` is clamped to 0, so the character at position 0 is
      still examined. */
  function LastIndexOf(s: string, c: char, from: int): (k: int)
    ensures -1 <= k < |s| && k <= (if from < 0 then 0 else from)
    ensures k != -1 ==> s[k] == c
    ensures forall i :: k < i <= from && i < |s| ==> s[i] != c
  {
    LastAtOrBefore(s, c, if from < 0 then 0 else from)
  }

  /** The `/^\d+\.\s*` marker of a numbered line taken off, when there is
      one. */
  function StripNumber(line: string): (r: string)
    ensures |r| <= |line|
  {
    var k := LeadingDigits(line);
    if 0 < k < |line| && line[k] == '.' then
      var rest := line[k + 1..];
      rest[LeadingSpace(rest)..]
    else line
  }

  /** The `/^[\*\-]\s*` marker of a bulleted line taken off, when there is
      one. */
  function StripBullet(line: string): (r: string)
    ensures |r| <= |line|
  {
    if |line| > 0 && (line[0] == '*' || line[0] == '-') then
      var rest := line[1..];
      rest[LeadingSpace(rest)..]
    else line
  }

  /** One line of applyListFormat: blank lines stay; with the "1. " marker
      the line is numbered by its 1-based position among the selected
      lines, replacing any number it had; with another marker any bullet is
      replaced by the marker. */
  function ListLine(line: string, index: nat, marker: string): (r: string)
    ensures AllSpace(line) ==> r == line
  {
    if Trim(line) == "" then line
    else if marker == "1. " then DecimalString(index + 1) + ". " + StripNumber(line)
    else marker + StripBullet(line)
  }

  /** A listed line has a line break only if the line or the marker had
      one. */
  lemma ListLineNoBreak(line: string, index: nat, marker: string)
    requires '\n' !in line && '\n' !in marker
    ensures '\n' !in ListLine(line, index, marker)
  {
    if Trim(line) != "" {
      if marker == "1. " {
        var d := DecimalString(index + 1);
        assert '\n' !in d by { assert forall i :: 0 <= i < |d| ==> IsDigit(d[i]); }
        assert forall c :: c in StripNumber(line) ==> c in line;
      } else {
        assert forall c :: c in StripBullet(line) ==> c in line;
      }
    }
  }

  function ListLines(lines: seq<string>, marker: string): (r: seq<string>)
    ensures |r| == |lines|
    ensures forall i :: 0 <= i < |lines| ==> r[i] == ListLine(lines[i], i, marker)
  {
    seq(|lines|, i requires 0 <= i < |lines| => ListLine(lines[i], i, marker))
  }

  /** The end of the line holding position `end`: the next line break at
      or after it, or the end of the text. */
  function LineEnd(text: string, end: nat): (e: nat)
    requires end <= |text|
    ensures end <= e <= |text|
    ensures e < |text| ==> text[e] == '\n'
    ensures forall i :: end <= i < e ==> text[i] != '\n'
  {
    var k := IndexOf(text, '\n', end);
    if k == -1 then |text| else k
  }

  /** applyListFormat as the code stands. The line start is found with
      lastIndexOf('\n', start - 1), which at start 0 still looks at
      position 0: with the cursor at the very start of a text beginning
      with a line break, the line start (1) lies after the line end (0),
      substring swaps them, and the text around the lines is taken twice. */
  function ListFormatAsWritten(text: string, start: nat, end: nat, marker: string): (r: string)
    requires start <= end <= |text|
    ensures start == 0 && end == 0 && |text| > 0 && text[0] == '\n' ==> r == "\n\n" + text
  {
    var ls := LastIndexOf(text, '\n', start - 1) + 1;
    var le := LineEnd(text, end);
    var selected := Utils.Substring(text, ls, le);
    var r := Utils.Substring(text, 0, ls) + JoinOn(ListLines(SplitOn(selected, '\n'), marker), '\n')
             + Utils.Substring(text, le, |text|);
    if start == 0 && end == 0 && |text| > 0 && text[0] == '\n' then
      assert ls == 1 && le == 0;
      assert selected == "\n" && Utils.Substring(text, 0, ls) == "\n";
      assert Utils.Substring(text, le, |text|) == text;
      ListedLoneBreak(marker);
      r
    else r
  }

  /** The start of the line holding position `start`: just after the last
      line break before it, or 0. */
  function LineStart(text: string, start: nat): (b: nat)
    requires start <= |text|
    ensures b <= start
    ensures b > 0 ==> text[b - 1] == '\n'
    ensures forall i :: b <= i < start ==> text[i] != '\n'
  {
    if start == 0 then 0 else LastIndexOf(text, '\n', start - 1) + 1
  }

  /** applyListFormat with the line start looked for only before the
      cursor: every line the selection touches is rewritten, from the start
      of the first to the end of the last, and nothing else changes. */
  function ListFormat(text: string, start: nat, end: nat, marker: string): (r: string)
    requires start <= end <= |text|
    ensures var ls := LineStart(text, start);
            var le := LineEnd(text, end);
            && ls + (|text| - le) <= |r|
            && r[..ls] == text[..ls]
            && r[|r| - (|text| - le)..] == text[le..]
            && r[ls..|r| - (|text| - le)] == JoinOn(ListLines(SplitOn(text[ls..le], '\n'), marker), '\n')
  {
    var ls := LineStart(text, start);
    var le := LineEnd(text, end);
    var middle := JoinOn(ListLines(SplitOn(text[ls..le], '\n'), marker), '\n');
    ThreeParts(text[..ls], middle, text[le..]);
    text[..ls] + middle + text[le..]
  }

  /** A list format with a marker free of line breaks keeps the number of
      lines. */
  lemma ListFormatKeepsLines(text: string, start: nat, end: nat, marker: string)
    requires start <= end <= |text| && '\n' !in marker
    ensures Occurrences(ListFormat(text, start, end, marker), '\n') == Occurrences(text, '\n')
  {
    var ls := LineStart(text, start);
    var le := LineEnd(text, end);
    var sel := text[ls..le];
    var middle := JoinOn(ListLines(SplitOn(sel, '\n'), marker), '\n');
    ListedBreaks(sel, marker);
    var r := ListFormat(text, start, end, marker);
    assert r == text[..ls] + middle + text[le..];
    SpliceBreaks(text, ls, le, middle);
  }

  /** Listing lines keeps their number of line breaks. */
  lemma ListedBreaks(sel: string, marker: string)
    requires '\n' !in marker
    ensures Occurrences(JoinOn(ListLines(SplitOn(sel, '\n'), marker), '\n'), '\n') == Occurrences(sel, '\n')
  {
    var lines := SplitOn(sel, '\n');
    var out := ListLines(lines, marker);
    forall i | 0 <= i < |out| ensures '\n' !in out[i] {
      ListLineNoBreak(lines[i], i, marker);
    }
    JoinCount(out, '\n');
    SplitCount(sel, '\n');
  }

  /** Replacing a middle part by one with as many line breaks keeps the
      line breaks of the whole. */
  lemma SpliceBreaks(text: string, ls: nat, le: nat, m': string)
    requires ls <= le <= |text| && Occurrences(m', '\n') == Occurrences(text[ls..le], '\n')
    ensures Occurrences(text[..ls] + m' + text[le..], '\n') == Occurrences(text, '\n')
  {
    var a, m, b := text[..ls], text[ls..le], text[le..];
    assert text == a + m + b;
    OccurrencesConcat(a + m, b, '\n');
    OccurrencesConcat(a, m, '\n');
    OccurrencesConcat(a + m', b, '\n');
    OccurrencesConcat(a, m', '\n');
  }

  /** Where the cursor is not at the very start of a text that begins with
      a line break, the code as written and the corrected definition
      agree. */
  lemma ListFormatAgrees(text: string, start: nat, end: nat, marker: string)
    requires start <= end <= |text|
    requires !(start == 0 && |text| > 0 && text[0] == '\n')
    ensures ListFormatAsWritten(text, start, end, marker) == ListFormat(text, start, end, marker)
  {
    var ls := LastIndexOf(text, '\n', start - 1) + 1;
    assert ls == LineStart(text, start);
    var le := LineEnd(text, end);
    assert Utils.Substring(text, ls, le) == text[ls..le];
    assert Utils.Substring(text, 0, ls) == text[..ls];
    assert Utils.Substring(text, le, |text|) == text[le..];
  }

  /** A bulleted list at the start of "\nabc": the code as written adds two
      line breaks in front of the text, where the corrected command leaves
      it unchanged. */
  lemma ListFormatAsWrittenExample()
    ensures ListFormatAsWritten("\nabc", 0, 0, "* ") == "\n\n\nabc"
    ensures ListFormat("\nabc", 0, 0, "* ") == "\nabc"
  {
    AsWrittenAtStart("\nabc");
    CorrectedAtStart("\nabc");
  }

  lemma AsWrittenAtStart(text: string)
    requires text == "\nabc"
    ensures ListFormatAsWritten(text, 0, 0, "* ") == "\n\n\nabc"
  {
    assert |text| > 0 && text[0] == '\n';
  }

  lemma CorrectedAtStart(text: string)
    requires text == "\nabc"
    ensures ListFormat(text, 0, 0, "* ") == text
  {
    assert IndexOf(text, '\n', 0) == 0;
    assert LineEnd(text, 0) == 0;
    assert text[..0] == "" && text[0..0] == "" && text[0..] == text;
    ListedEmpty();
  }

  /** The lines of a lone line break, listed and joined again: both lines
      are blank, so the marker is never added. */
  lemma ListedLoneBreak(marker: string)
    ensures JoinOn(ListLines(SplitOn("\n", '\n'), marker), '\n') == "\n"
  {
    SplitLoneBreak("\n");
    var blank := ListLines(["", ""], marker);
    assert blank[0] == "" && blank[1] == "";
    assert blank == ["", ""];
    assert JoinOn(["", ""], '\n') == "\n";
  }

  /** A lone line break splits into two empty lines. */
  lemma SplitLoneBreak(s: string)
    requires s == "\n"
    ensures SplitOn(s, '\n') == ["", ""]
  {
    assert IndexOf(s, '\n', 0) == 0;
    assert s[1..] == "";
    assert IndexOf("", '\n', 0) == -1;
  }

  /** The lines of the empty text, listed and joined again. */
  lemma ListedEmpty()
    ensures JoinOn(ListLines(SplitOn("", '\n'), "* "), '\n') == ""
  {
    assert SplitOn("", '\n') == [""];
    assert ListLines([""], "* ") == [""];
  }

  /** A line that does not start with whitespace keeps its look when the
      same list format is applied twice. */
  lemma ListLineTwice(line: string, index: nat, marker: string)
    requires marker == "* " || marker == "1. "
    requires |line| == 0 || !IsSpace(line[0])
    ensures ListLine(ListLine(line, index, marker), index, marker) == ListLine(line, index, marker)
  {
    if Trim(line) != "" {
      var once := ListLine(line, index, marker);
      if marker == "1. " {
        var d := DecimalString(index + 1);
        var body := StripNumber(line);
        StrippedStart(line);
        assert once == d + ". " + body;
        StripNumberOf(d, body);
        NotBlank(once);
      } else {
        var body := StripBullet(line);
        BulletStart(line);
        assert once == "* " + body;
        StripBulletOf(body);
        NotBlank(once);
      }
    }
  }

  /** A text starting with a non-space character is not blank. */
  lemma NotBlank(s: string)
    requires |s| > 0 && !IsSpace(s[0])
    ensures Trim(s) != ""
  {
  }

  /** Numbering a numbered line again reads back its text. */
  lemma StripNumberOf(d: string, body: string)
    requires |d| > 0 && AllDigits(d)
    requires |body| == 0 || !IsSpace(body[0])
    ensures StripNumber(d + ". " + body) == body
    ensures !IsSpace((d + ". " + body)[0])
  {
    var s := d + ". " + body;
    assert s == d + (". " + body);
    DigitsPrefix(d, ". " + body);
    assert LeadingDigits(". " + body) == 0;
    var k := |d|;
    assert s[k] == '.';
    var rest := s[k + 1..];
    assert rest == " " + body;
    LeadingSpaceFront(body);
    assert s[0] == d[0];
  }

  /** Bulleting a bulleted line again reads back its text. */
  lemma StripBulletOf(body: string)
    requires |body| == 0 || !IsSpace(body[0])
    ensures StripBullet("* " + body) == body
    ensures !IsSpace(("* " + body)[0])
  {
    var s := "* " + body;
    assert s[0] == '*' && s[1..] == " " + body;
    BulletThenSpace(s, body);
  }

  /** A bullet, one space and text that does not start with whitespace:
      stripping the bullet leaves the text. */
  lemma BulletThenSpace(s: string, body: string)
    requires |s| > 0 && s[0] == '*' && s[1..] == " " + body
    requires |body| == 0 || !IsSpace(body[0])
    ensures StripBullet(s) == body
  {
    LeadingSpaceFront(body);
    assert (" " + body)[1..] == body;
  }

  /** One space followed by text that does not start with whitespace. */
  lemma LeadingSpaceFront(body: string)
    requires |body| == 0 || !IsSpace(body[0])
    ensures LeadingSpace(" " + body) == 1
    ensures (" " + body)[1..][LeadingSpace((" " + body)[1..])..] == body
  {
    assert (" " + body)[1..] == body;
    assert body[0..] == body;
  }

  lemma StrippedStart(line: string)
    requires |line| == 0 || !IsSpace(line[0])
    ensures var b := StripNumber(line); |b| == 0 || !IsSpace(b[0])
  {
  }

  lemma BulletStart(line: string)
    requires |line| == 0 || !IsSpace(line[0])
    ensures var b := StripBullet(line); |b| == 0 || !IsSpace(b[0])
  {
  }
}

=== FILE: timeago.dfy ===
/** The "how long ago" label of the project list
    (components/ProjectExplorer.tsx): the elapsed time is cut down to whole
    seconds and shown in the largest unit it exceeds. */
module TimeAgo {
  import opened Common
  import opened Numerals

  datatype Unit = Years | Months | Days | Hours | Minutes

  /** The length of one unit in seconds: a year is 365 days and a month 30. */
  function UnitSeconds(u: Unit): (r: nat)
    ensures r >= 60
  {
    match u
    case Years => 31536000
    case Months => 2592000
    case Days => 86400
    case Hours => 3600
    case Minutes => 60
  }

  /** Larger units rank higher. */
  function Rank(u: Unit): (r: nat)
    ensures r < 5
  {
    match u
    case Years => 4
    case Months => 3
    case Days => 2
    case Hours => 1
    case Minutes => 0
  }

  function Word(u: Unit): string {
    match u
    case Years => "años"
    case Months => "meses"
    case Days => "días"
    case Hours => "horas"
    case Minutes => "minutos"
  }

  /** A label's content: a count of some unit, or "a few seconds". */
  datatype Age = Ago(count: nat, unit: Unit) | Moments

  /** `Math.floor((now - then) / 1000)`: dividing by a positive number
      rounds towards minus infinity, so a date in the future gives a
      negative count. */
  function ElapsedSeconds(nowMs: int, thenMs: int): (r: int)
    ensures r * 1000 <= nowMs - thenMs < r * 1000 + 1000
  {
    (nowMs - thenMs) / 1000
  }

  /** The first unit, from years down to minutes, of which more than one
      has passed, with the whole number of them; otherwise a few seconds.
      The unit shown is the largest one exceeded and the count is the number
      of whole units elapsed, at least one; "a few seconds" is shown exactly
      up to one minute, and for dates in the future. */
  function AgeOf(seconds: int): (r: Age)
    ensures r.Moments? <==> seconds <= 60
    ensures r.Ago? ==>
              && r.count >= 1 && seconds > UnitSeconds(r.unit)
              && r.count * UnitSeconds(r.unit) <= seconds < (r.count + 1) * UnitSeconds(r.unit)
              && forall v: Unit :: Rank(v) > Rank(r.unit) ==> seconds <= UnitSeconds(v)
  {
    if seconds > 31536000 then Ago(seconds / 31536000, Years)
    else if seconds > 2592000 then Ago(seconds / 2592000, Months)
    else if seconds > 86400 then Ago(seconds / 86400, Days)
    else if seconds > 3600 then Ago(seconds / 3600, Hours)
    else if seconds > 60 then Ago(seconds / 60, Minutes)
    else Moments
  }

  /** An older date never shows a smaller unit, nor a smaller count of the
      same unit. */
  lemma AgeMonotone(s1: int, s2: int)
    requires s1 <= s2
    ensures AgeOf(s1).Ago? ==> AgeOf(s2).Ago? && Rank(AgeOf(s1).unit) <= Rank(AgeOf(s2).unit)
    ensures AgeOf(s1).Ago? && AgeOf(s2).Ago? && AgeOf(s1).unit == AgeOf(s2).unit ==>
              AgeOf(s1).count <= AgeOf(s2).count
  {
  }

  /** Exactly one unit is not "more than one": a year to the second shows
      as twelve months. */
  lemma ExactYear()
    ensures AgeOf(31536000) == Ago(12, Months)
  {
  }

  function Render(a: Age): (r: string)
    ensures |r| > 5 && r[..5] == "hace "
  {
    match a
    case Moments => "hace unos segundos"
    case Ago(n, u) => "hace " + DecimalString(n) + " " + Word(u)
  }

  /** timeAgo: the label for a date `thenMs` seen at `nowMs`, both in
      milliseconds. */
  function TimeAgoLabel(nowMs: int, thenMs: int): (r: string)
    ensures |r| > 5 && r[..5] == "hace "
  {
    Render(AgeOf(ElapsedSeconds(nowMs, thenMs)))
  }

  /** The number in a label reads back as the count it was made from, and
      the unit's word follows it. */
  lemma RenderReadsBack(n: nat, u: Unit)
    ensures var r := Render(Ago(n, u));
            ParseInt(r[5..]) == Some(n as int)
            && r[|r| - |Word(u)|..] == Word(u)
  {
    var r := Render(Ago(n, u));
    var rest := " " + Word(u);
    assert r[5..] == DecimalString(n) + rest;
    ParseDecimal(n, rest);
  }

  /** A label with a count never reads "a few seconds". */
  lemma CountedNotMoments(n: nat, u: Unit)
    ensures Render(Ago(n, u)) != Render(Moments)
  {
    var r := Render(Ago(n, u));
    var d := DecimalString(n);
    assert r[5] == d[0];
    assert IsDigit(d[0]);
    assert Render(Moments)[5] == 'u';
  }

  /** "hace unos segundos" is shown exactly when less than 61 seconds have
      passed, counting a date in the future as no time at all. */
  lemma SecondsLabel(nowMs: int, thenMs: int)
    ensures TimeAgoLabel(nowMs, thenMs) == "hace unos segundos" <==> nowMs - thenMs < 61000
  {
    var a := AgeOf(ElapsedSeconds(nowMs, thenMs));
    if a.Ago? {
      CountedNotMoments(a.count, a.unit);
    }
  }
}

=== FILE: toposort.dfy ===
/** topologicalSort (utils.ts): Kahn's algorithm over the node list, with
    the initial queue and every successor list ordered top to bottom, then
    left to right. */
module TopoSort {
  import opened Common
  import opened Sorting
  import opened Types
  import opened Kahn

  /** The result: the nodes in order, or the ids left out by a cycle. */
  datatype SortResult = Sorted(nodes: seq<Node>) | CycleError(errorNodeIds: seq<int>)

  /** The position of the node with id `id`, as the comparator `a.pos.y -
      b.pos.y || a.pos.x - b.pos.x` reads it. */
  function SpatialKey(nodes: seq<Node>): int -> Key {
    (id: int) => match FindNode(nodes, id)
          case Some(n) => Key(n.pos.y, n.pos.x)
          case None => Key(0, 0)
  }

  /** A successor is ranked by the position of its target node. */
  function TargetKey(nodes: seq<Node>): Connection -> Key {
    (c: Connection) => SpatialKey(nodes)(c.toNode)
  }

  lemma IdsDistinct(nodes: seq<Node>)
    requires DistinctIds(nodes)
    ensures Distinct(Ids(nodes))
  {
  }

  /** Looks up the nodes of an id list. */
  function NodesOf(nodes: seq<Node>, order: seq<int>): (r: seq<Node>)
    requires forall v :: v in order ==> HasNode(nodes, v)
    ensures |r| == |order|
    ensures forall i :: 0 <= i < |order| ==> r[i] in nodes && r[i].id == order[i]
  {
    seq(|order|, i requires 0 <= i < |order| => FindNode(nodes, order[i]).value)
  }

  /** The ids the algorithm did not emit, in node-list order:
      `nodes.map(n => n.id).filter(id => !sortedNodeIds.includes(id))`. */
  function Unemitted(ids: seq<int>, emitted: seq<int>): (r: seq<int>)
    ensures forall v :: v in r <==> v in ids && v !in emitted
    ensures Distinct(ids) ==> Distinct(r)
  {
    Filter(ids, (v: int) => v !in emitted)
  }

  /** Kahn's algorithm over a node list under the given tie-breaks: the
      initial queue is ordered by `rootKey` and each dequeued node's
      successors by `edgeKey`. `emitted` is the list of ids the queue
      produced (`sortedNodeIds`), in its FIFO order; the result lists
      their nodes when every node was emitted, and otherwise the ids left
      out, in node-list order. Nodes with duplicate ids are outside this
      method: its callers either never produce them or discard the
      result. */
  method KahnNodes(nodes: seq<Node>, conns: seq<Connection>, rootKey: int -> Key, edgeKey: Connection -> Key)
    returns (r: SortResult, emitted: seq<int>)
    requires DistinctIds(nodes)
    ensures Distinct(emitted) && forall v :: v in emitted ==> HasNode(nodes, v)
    ensures emitted == SortBy(Roots(Ids(nodes), Live(Ids(nodes), conns)), rootKey)
                       + Released(Live(Ids(nodes), conns), emitted, edgeKey)
    ensures r.Sorted? <==> |emitted| == |nodes|
    ensures r.Sorted? <==> !HasCycle(Ids(nodes), Live(Ids(nodes), conns))
    ensures r.Sorted? ==> Ids(r.nodes) == emitted && DistinctIds(r.nodes)
    ensures r.Sorted? ==> forall n :: n in nodes <==> n in r.nodes
    ensures r.Sorted? ==> RespectsEdges(Ids(r.nodes), Live(Ids(nodes), conns))
    ensures r.Sorted? ==> SortBy(Roots(Ids(nodes), Live(Ids(nodes), conns)), rootKey) <= Ids(r.nodes)
    ensures r.CycleError? ==> r.errorNodeIds == Unemitted(Ids(nodes), emitted)
    ensures r.CycleError? ==> |r.errorNodeIds| > 0 && Distinct(r.errorNodeIds)
    ensures r.CycleError? ==> forall v :: v in r.errorNodeIds ==> HasNode(nodes, v)
    ensures r.CycleError? ==> forall v :: v in r.errorNodeIds ==>
              exists c :: c in conns && c.toNode == v && c.fromNode in r.errorNodeIds
  {
    var ids := Ids(nodes);
    IdsDistinct(nodes);
    assert forall v :: v in ids <==> HasNode(nodes, v) by {
      forall v ensures v in ids <==> HasNode(nodes, v) {
        if HasNode(nodes, v) {
          var i :| 0 <= i < |nodes| && nodes[i].id == v;
          assert ids[i] == v;
        }
      }
    }
    var order := Linearize(ids, conns, rootKey, edgeKey);
    emitted := order;
    if |order| != |nodes| {
      var errs := Unemitted(ids, order);
      r := CycleError(errs);
      LeftOutWait(ids, conns, order);
    } else {
      var sorted := NodesOf(nodes, order);
      r := Sorted(sorted);
      DistinctFillsPool(order, ids);
      SortedNodes(nodes, order);
    }
  }

  /** When the order misses some node, the ids left out are not empty, and
      each waits on a connection from another id left out. */
  lemma LeftOutWait(ids: seq<int>, conns: seq<Connection>, order: seq<int>)
    requires Distinct(ids) && Distinct(order)
    requires forall v :: v in order ==> v in ids
    requires |order| != |ids|
    requires forall v :: Unlisted(ids, order, v) ==>
               exists c :: c in Live(ids, conns) && c.toNode == v && c.fromNode !in order
    ensures |Unemitted(ids, order)| > 0
    ensures forall v :: v in Unemitted(ids, order) ==>
              exists c :: c in conns && c.toNode == v && c.fromNode in Unemitted(ids, order)
  {
    var errs := Unemitted(ids, order);
    forall v | v in errs
      ensures exists c :: c in conns && c.toNode == v && c.fromNode in errs
    {
      assert Unlisted(ids, order, v);
      var c :| c in Live(ids, conns) && c.toNode == v && c.fromNode !in order;
      assert c.fromNode in ids;
    }
    if |errs| == 0 {
      forall v | v in ids ensures v in order {
        assert v !in errs;
      }
      DistinctWithinBound(ids, order);
      DistinctWithinBound(order, ids);
      assert false;
    }
  }

  /** Listing the nodes of a duplicate-free list by an order that holds
      each of their ids once gives the same nodes, in that order. */
  lemma SortedNodes(nodes: seq<Node>, order: seq<int>)
    requires DistinctIds(nodes) && Distinct(order)
    requires forall v :: v in order ==> HasNode(nodes, v)
    requires forall v :: v in Ids(nodes) ==> v in order
    ensures Ids(NodesOf(nodes, order)) == order
    ensures DistinctIds(NodesOf(nodes, order))
    ensures forall n :: n in nodes <==> n in NodesOf(nodes, order)
  {
    var sorted := NodesOf(nodes, order);
    assert Ids(sorted) == order;
    forall i, j | 0 <= i < j < |sorted| ensures sorted[i].id != sorted[j].id {
      assert order[i] != order[j];
    }
    forall n | n in nodes ensures n in sorted {
      var i :| 0 <= i < |nodes| && nodes[i] == n;
      assert Ids(nodes)[i] == n.id;
      assert n.id in order;
      var k :| 0 <= k < |order| && order[k] == n.id;
      SameIdSameNode(nodes, sorted[k], n);
    }
  }

  /** topologicalSort: the queue and every successor list ordered top to
      bottom, then left to right. Nodes with duplicate ids are outside this
      model: the id generators never produce them. */
  method TopologicalSort(nodes: seq<Node>, conns: seq<Connection>) returns (r: SortResult, emitted: seq<int>)
    requires DistinctIds(nodes)
    ensures emitted == SortBy(Roots(Ids(nodes), Live(Ids(nodes), conns)), SpatialKey(nodes))
                       + Released(Live(Ids(nodes), conns), emitted, TargetKey(nodes))
    ensures r.Sorted? <==> !HasCycle(Ids(nodes), Live(Ids(nodes), conns))
    ensures r.Sorted? ==> Ids(r.nodes) == emitted && |r.nodes| == |nodes| && DistinctIds(r.nodes)
    ensures r.Sorted? ==> forall n :: n in nodes <==> n in r.nodes
    ensures r.Sorted? ==> RespectsEdges(Ids(r.nodes), Live(Ids(nodes), conns))
    ensures r.CycleError? ==> r.errorNodeIds == Unemitted(Ids(nodes), emitted) && |r.errorNodeIds| > 0
    ensures r.CycleError? ==> forall v :: v in r.errorNodeIds ==> HasNode(nodes, v)
    ensures r.CycleError? ==> forall v :: v in r.errorNodeIds ==>
              exists c :: c in conns && c.toNode == v && c.fromNode in r.errorNodeIds
  {
    r, emitted := KahnNodes(nodes, conns, SpatialKey(nodes), TargetKey(nodes));
  }
}

=== FILE: types.dfy ===
/** The data model of the mind-map editor: task nodes with typed ports,
    directed connections between ports, mininodes (text attachments owned by
    a node), free-standing canvas drawings, the 13-field persisted core state
    and the editor state around it. Coordinates and sizes are integers;
    ids of nodes and mininodes are numbers, ids of ports and canvas objects
    are opaque strings. */
module Types {
  import opened Common

  datatype Point = Point(x: int, y: int)

  datatype Size = Size(width: int, height: int)

  /** An input or output slot on a node. */
  datatype Port = Port(id: string, name: string)

  /** A task. `inputLogic` is kept as text: "AND" or "OR" in well-formed
      data, but a loaded document may carry anything, and the readiness rule
      treats every value other than "AND" as OR. */
  datatype Node = Node(
    id: int,
    pos: Point,
    title: string,
    description: string,
    color: string,
    size: Size,
    inputs: seq<Port>,
    outputs: seq<Port>,
    isComplete: bool,
    inputLogic: string,
    difficulty: int,
    icon: Option<string>,
    iconColor: Option<string>,
    isPinned: bool,
    synthesis: Option<string>,
    orderIndex: int,
    time: int)

  /** A text attachment; `pos` is relative to the owning node. */
  datatype Mininode = Mininode(
    id: int,
    parentId: int,
    title: string,
    content: string,
    icon: string,
    pos: Point)

  /** A directed edge from an output port of one node to an input port of
      another (or the same) node. */
  datatype Connection = Connection(
    fromNode: int,
    fromPortId: string,
    toNode: int,
    toPortId: string,
    isWireless: bool)

  datatype ShapeKind = Rect | Ellipse

  /** Free-standing drawings on the canvas. Opacities are kept as given. */
  datatype CanvasObject =
    | TextBox(id: string, pos: Point, text: string, fontSize: int, color: string,
              width: int, height: int)
    | Shape(id: string, kind: ShapeKind, pos: Point, size: Size, fillColor: string,
            strokeColor: string, strokeWidth: int, fillOpacity: Option<int>,
            strokeOpacity: Option<int>, isSwarm: bool)
    | Line(id: string, start: Point, end: Point, strokeColor: string, strokeWidth: int,
           strokeOpacity: Option<int>, startArrow: bool, endArrow: bool)

  /** The persisted document: what undo/redo snapshots and files contain. */
  datatype CoreState = CoreState(
    nodes: seq<Node>,
    mininodes: seq<Mininode>,
    connections: seq<Connection>,
    canvasObjects: seq<CanvasObject>,
    nodeColor: string,
    backgroundColor: string,
    gridColor: string,
    canvasTitle: string,
    showMininodePreviews: bool,
    checkboxPosition: string,
    contextMenuEnabled: bool,
    defaultEditorMode: string,
    autosaveEnabled: bool)

  /** The modal dialogs; they form a stack whose top is the visible one. */
  datatype Modal =
    | EditNode(node: Node)
    | EditMininode(mininode: Mininode)
    | DeleteNode(nodeId: int)
    | DeleteSelection
    | Settings
    | ConfirmNew
    | ConfirmMarkAllIncomplete
    | DeleteProject(projectId: int)
    | DeleteMininode(mininodeId: int)
    | SelectEndNode(endNodes: seq<Node>)
    | ConfirmImport(fileContent: string)
    | Help
    | Info
    | ProjectIconPicker(projectId: int)
    | EditCanvasText(objectId: string)
    | DeleteCanvasObjects

  datatype MenuTarget =
    | OnCanvas
    | OnNode(nodeId: int)
    | OnConnection(connection: Connection)
    | OnMininode(mininodeId: int)
    | OnPort(portNodeId: int, portId: string, isInput: bool)
    | OnCanvasObject(objectId: string)

  datatype ContextMenu = ContextMenu(x: int, y: int, target: MenuTarget)

  /** The pending end of a connection being drawn. */
  datatype PortRef = PortRef(nodeId: int, portId: string)

  datatype DrawingTool = DrawRect | DrawEllipse | DrawLine | DrawText | EditObjects

  /** A node drag in progress: the positions the dragged nodes had when it
      began, keyed by node id in selection order. */
  datatype DragInfo = DragInfo(
    startPos: Point,
    initialNodePositions: seq<(int, Point)>,
    isDragging: bool)

  /** Node resize handles: bottom-right, right edge, bottom edge. */
  datatype NodeHandle = HandleBR | HandleR | HandleB

  datatype ResizeInfo = ResizeInfo(nodeId: int, startSize: Size, startPos: Point, handle: NodeHandle)

  /** Canvas-object resize handles, named by compass direction. */
  datatype ObjectHandle = N | S | E | W | NE | NW | SE | SW

  /** A canvas-object gesture in progress: the objects as they were when it
      began (one per id, in the order they were recorded) and, for a swarm
      drag, every node as it was. */
  datatype ObjectDragInfo = ObjectDragInfo(
    isDragging: bool,
    isResizing: bool,
    resizeHandle: Option<ObjectHandle>,
    startMousePos: Point,
    initialObjectStates: seq<CanvasObject>,
    initialNodeStates: Option<seq<Node>>)

  datatype Rectangle = Rectangle(x: int, y: int, width: int, height: int)

  datatype Clipboard = Clipboard(nodes: seq<Node>, connections: seq<Connection>)

  /** Where the open document lives: the browser database or a user file. */
  datatype EditingMode = Db | File

  datatype LogKind = LogInfo | LogSuccess | LogWarning | LogError

  datatype LogEntry = LogEntry(id: int, message: string, kind: LogKind)

  /** A panel's stored layout; a field never written is absent. */
  datatype PanelEntry = PanelEntry(collapsed: Option<bool>, pinned: Option<bool>)

  /** Readiness of one node: whether its input condition holds and which
      of its input ports are fed by a completed node. */
  datatype NodeStatus = NodeStatus(isConditionMet: bool, activeInputs: set<string>)

  /** Lookup tables recomputed from the core after every change. */
  datatype Derived = Derived(
    nodesById: map<int, Node>,
    mininodesById: map<int, Mininode>,
    mininodesByParentId: map<int, seq<Mininode>>,
    canvasObjectsById: map<string, CanvasObject>,
    nodeStatus: map<int, NodeStatus>)

  /** Everything in the editor state besides the document, its lookup tables
      and the history stacks. Selections are insertion-ordered id sets. */
  datatype Ui = Ui(
    editingMode: EditingMode,
    isFileDirty: bool,
    selectedNodeIds: seq<int>,
    selectedCanvasObjectIds: seq<string>,
    connectingInfo: Option<PortRef>,
    contextMenu: Option<ContextMenu>,
    activeModals: seq<Modal>,
    drawingMode: Option<DrawingTool>,
    drawingObject: Option<CanvasObject>,
    mousePosition: Point,
    dragInfo: DragInfo,
    resizeInfo: Option<ResizeInfo>,
    canvasObjectDragInfo: Option<ObjectDragInfo>,
    isPanning: bool,
    isSelecting: bool,
    selectionStart: Option<Point>,
    selectionRect: Option<Rectangle>,
    clipboard: Option<Clipboard>,
    focusModeEnabled: bool,
    logHistory: seq<LogEntry>,
    nextLogId: int,
    panelStates: map<string, PanelEntry>)

  /** The whole editor state. */
  datatype AppState = AppState(
    core: CoreState,
    derived: Derived,
    past: seq<CoreState>,
    future: seq<CoreState>,
    ui: Ui)

  /** The ids of `nodes`, in order. */
  function Ids(nodes: seq<Node>): (r: seq<int>)
    ensures |r| == |nodes|
    ensures forall i :: 0 <= i < |nodes| ==> r[i] == nodes[i].id
  {
    seq(|nodes|, i requires 0 <= i < |nodes| => nodes[i].id)
  }

  /** No two nodes share an id. */
  predicate DistinctIds(nodes: seq<Node>) {
    forall i, j :: 0 <= i < j < |nodes| ==> nodes[i].id != nodes[j].id
  }

  /** In a list with distinct ids a node is determined by its id. */
  lemma SameIdSameNode(nodes: seq<Node>, a: Node, b: Node)
    requires DistinctIds(nodes) && a in nodes && b in nodes && a.id == b.id
    ensures a == b
  {
    var i :| 0 <= i < |nodes| && nodes[i] == a;
    var j :| 0 <= j < |nodes| && nodes[j] == b;
    assert i == j;
  }

  /** No two canvas drawings share an id. */
  predicate DistinctObjectIds(objs: seq<CanvasObject>) {
    forall i, j :: 0 <= i < j < |objs| ==> objs[i].id != objs[j].id
  }

  predicate HasNode(nodes: seq<Node>, id: int) {
    exists i :: 0 <= i < |nodes| && nodes[i].id == id
  }

  /** Array.prototype.find on nodes by id: the first node with that id. */
  function FindNode(nodes: seq<Node>, id: int): (r: Option<Node>)
    ensures r.None? <==> !HasNode(nodes, id)
    ensures r.Some? ==> r.value in nodes && r.value.id == id
    ensures r.Some? ==> exists i :: 0 <= i < |nodes| && nodes[i] == r.value
                                    && forall j :: 0 <= j < i ==> nodes[j].id != id
  {
    if |nodes| == 0 then None
    else if nodes[0].id == id then Some(nodes[0])
    else
      var r := FindNode(nodes[1..], id);
      assert HasNode(nodes, id) <==> HasNode(nodes[1..], id) by {
        if HasNode(nodes, id) {
          var i :| 0 <= i < |nodes| && nodes[i].id == id;
          assert nodes[1..][i - 1].id == id;
        }
        if HasNode(nodes[1..], id) {
          var i :| 0 <= i < |nodes[1..]| && nodes[1..][i].id == id;
          assert nodes[i + 1].id == id;
        }
      }
      if r.Some? then
        var i :| 0 <= i < |nodes[1..]| && nodes[1..][i] == r.value
                 && forall j :: 0 <= j < i ==> nodes[1..][j].id != id;
        assert nodes[i + 1] == r.value;
        assert forall j :: 1 <= j < i + 1 ==> nodes[j].id == nodes[1..][j - 1].id;
        r
      else r
  }

  /** With distinct ids, the node found is the node at the id's position. */
  lemma FindNodeDistinct(nodes: seq<Node>, i: int)
    requires DistinctIds(nodes) && 0 <= i < |nodes|
    ensures FindNode(nodes, nodes[i].id) == Some(nodes[i])
  {
    var r := FindNode(nodes, nodes[i].id);
    var k :| 0 <= k < |nodes| && nodes[k] == r.value
             && forall j :: 0 <= j < k ==> nodes[j].id != nodes[i].id;
  }
}

=== FILE: ui.dfy ===
/** Editor-chrome actions (storeActionsUI.ts): the modal stack, the context
    menu, per-panel layout records and the capped activity log. */
module UiActions {
  import opened Common
  import opened Types

  /** The log keeps at most this many entries. */
  const MaxLogEntries := 200

  /** openModal: the new modal goes on top of the stack. */
  function OpenModal(ui: Ui, m: Modal): (r: Ui)
    ensures |r.activeModals| == |ui.activeModals| + 1
    ensures r.activeModals[|ui.activeModals|] == m
    ensures r.activeModals[..|ui.activeModals|] == ui.activeModals
    ensures r.(activeModals := ui.activeModals) == ui
  {
    ui.(activeModals := ui.activeModals + [m])
  }

  /** closeModal: `slice(0, -1)`, which removes the top modal and leaves an
      empty stack empty. */
  function CloseModal(ui: Ui): (r: Ui)
    ensures |ui.activeModals| == 0 ==> r == ui
    ensures |ui.activeModals| > 0 ==> |r.activeModals| == |ui.activeModals| - 1
    ensures r.activeModals <= ui.activeModals
    ensures r.(activeModals := ui.activeModals) == ui
  {
    if |ui.activeModals| == 0 then ui
    else ui.(activeModals := ui.activeModals[..|ui.activeModals| - 1])
  }

  /** replaceActiveModal: swaps the top modal for `m`; with no modal open
      nothing changes. */
  function ReplaceActiveModal(ui: Ui, m: Modal): (r: Ui)
    ensures |ui.activeModals| == 0 ==> r == ui
    ensures |r.activeModals| == |ui.activeModals|
    ensures |ui.activeModals| > 0 ==> r.activeModals[|r.activeModals| - 1] == m
    ensures forall i :: 0 <= i < |ui.activeModals| - 1 ==> r.activeModals[i] == ui.activeModals[i]
    ensures r.(activeModals := ui.activeModals) == ui
  {
    if |ui.activeModals| == 0 then ui
    else ui.(activeModals := ui.activeModals[|ui.activeModals| - 1 := m])
  }

  /** Closing the modal just opened gives back the editor state. */
  lemma CloseAfterOpen(ui: Ui, m: Modal)
    ensures CloseModal(OpenModal(ui, m)) == ui
  {
    assert (ui.activeModals + [m])[..|ui.activeModals|] == ui.activeModals;
  }

  /** Replacing the top modal is closing it and opening the replacement. */
  lemma ReplaceIsCloseThenOpen(ui: Ui, m: Modal)
    requires |ui.activeModals| > 0
    ensures ReplaceActiveModal(ui, m) == OpenModal(CloseModal(ui), m)
  {
    var n := |ui.activeModals|;
    assert ui.activeModals[n - 1 := m] == ui.activeModals[..n - 1] + [m];
  }

  /** closeContextMenu: drops both the menu and any pending connection. */
  function CloseContextMenu(ui: Ui): (r: Ui)
    ensures r.contextMenu.None? && r.connectingInfo.None?
    ensures r.(contextMenu := ui.contextMenu, connectingInfo := ui.connectingInfo) == ui
  {
    ui.(contextMenu := None, connectingInfo := None)
  }

  /** `{ ...old, ...patch }` on a panel record: the fields given replace
      the stored ones. */
  function MergePanel(prev: PanelEntry, patch: PanelEntry): PanelEntry {
    PanelEntry(if patch.collapsed.Some? then patch.collapsed else prev.collapsed,
               if patch.pinned.Some? then patch.pinned else prev.pinned)
  }

  /** setPanelState: merges the fields given into one panel's record; a
      panel never stored starts from the empty record. */
  function SetPanelState(ui: Ui, id: string, patch: PanelEntry): (r: Ui)
    ensures id in r.panelStates
    ensures patch.collapsed.Some? ==> r.panelStates[id].collapsed == patch.collapsed
    ensures patch.pinned.Some? ==> r.panelStates[id].pinned == patch.pinned
    ensures patch.collapsed.None? ==>
              r.panelStates[id].collapsed == (if id in ui.panelStates then ui.panelStates[id].collapsed else None)
    ensures patch.pinned.None? ==>
              r.panelStates[id].pinned == (if id in ui.panelStates then ui.panelStates[id].pinned else None)
    ensures forall k :: k != id ==> (k in r.panelStates <==> k in ui.panelStates)
    ensures forall k :: k != id && k in ui.panelStates ==> r.panelStates[k] == ui.panelStates[k]
    ensures r.(panelStates := ui.panelStates) == ui
  {
    var prev := if id in ui.panelStates then ui.panelStates[id] else PanelEntry(None, None);
    ui.(panelStates := ui.panelStates[id := MergePanel(prev, patch)])
  }

  /** Applying the same panel update twice is the same as once. */
  lemma SetPanelStateIdempotent(ui: Ui, id: string, patch: PanelEntry)
    ensures SetPanelState(SetPanelState(ui, id, patch), id, patch) == SetPanelState(ui, id, patch)
  {
  }

  /** _addLog: the new entry, numbered by the running counter, goes first;
      the list is then cut to its newest 200 entries. */
  function AddLog(ui: Ui, message: string, kind: LogKind): (r: Ui)
    ensures |r.logHistory| == Min(|ui.logHistory| + 1, MaxLogEntries)
    ensures r.logHistory[0] == LogEntry(ui.nextLogId, message, kind)
    ensures r.logHistory[1..] <= ui.logHistory
    ensures r.nextLogId == ui.nextLogId + 1
    ensures r.(logHistory := ui.logHistory, nextLogId := ui.nextLogId) == ui
  {
    var all := [LogEntry(ui.nextLogId, message, kind)] + ui.logHistory;
    ui.(logHistory := all[..Min(|all|, MaxLogEntries)], nextLogId := ui.nextLogId + 1)
  }

  function Min(a: int, b: int): int {
    if a <= b then a else b
  }

  /** The log is newest first: ids strictly decrease along the list and
      all lie below the counter. */
  predicate LogOrdered(ui: Ui) {
    && (forall i :: 0 <= i < |ui.logHistory| ==> ui.logHistory[i].id < ui.nextLogId)
    && (forall i, j :: 0 <= i < j < |ui.logHistory| ==> ui.logHistory[i].id > ui.logHistory[j].id)
    && |ui.logHistory| <= MaxLogEntries
  }

  /** Logging keeps the log newest first and within its cap. */
  lemma AddLogKeepsOrder(ui: Ui, message: string, kind: LogKind)
    requires LogOrdered(ui)
    ensures LogOrdered(AddLog(ui, message, kind))
  {
    var r := AddLog(ui, message, kind);
    forall i | 1 <= i < |r.logHistory| ensures r.logHistory[i] == ui.logHistory[i - 1] {
      assert r.logHistory[1..][i - 1] == r.logHistory[i];
    }
  }
}

=== FILE: utils.dfy ===
/** The pure helpers of utils.ts: fresh ids for nodes and mininodes and the
    two colour parsers. */
module Utils {
  import opened Common
  import opened Types

  /** The largest node id; 0 for no nodes. */
  function MaxNodeId(nodes: seq<Node>): int {
    if |nodes| == 0 then 0
    else if |nodes| == 1 then nodes[0].id
    else
      var m := MaxNodeId(nodes[1..]);
      if nodes[0].id > m then nodes[0].id else m
  }

  lemma {:induction false} MaxNodeIdBound(nodes: seq<Node>)
    requires |nodes| > 0
    ensures forall n :: n in nodes ==> n.id <= MaxNodeId(nodes)
    ensures exists n :: n in nodes && n.id == MaxNodeId(nodes)
  {
    if |nodes| > 1 {
      MaxNodeIdBound(nodes[1..]);
      assert forall n :: n in nodes ==> n == nodes[0] || n in nodes[1..];
      var w :| w in nodes[1..] && w.id == MaxNodeId(nodes[1..]);
      assert w in nodes;
    } else {
      assert forall n :: n in nodes ==> n == nodes[0];
      assert nodes[0] in nodes;
    }
  }

  /** getNewNodeId: 1 for an empty list, otherwise one more than the largest
      id, so it differs from every id in use. */
  function NewNodeId(nodes: seq<Node>): (r: int)
    ensures |nodes| == 0 ==> r == 1
    ensures forall n :: n in nodes ==> n.id < r
    ensures |nodes| > 0 ==> exists n :: n in nodes && n.id == r - 1
  {
    if |nodes| == 0 then 1
    else
      MaxNodeIdBound(nodes);
      MaxNodeId(nodes) + 1
  }

  function MaxMininodeId(ms: seq<Mininode>): int {
    if |ms| == 0 then 0
    else if |ms| == 1 then ms[0].id
    else
      var m := MaxMininodeId(ms[1..]);
      if ms[0].id > m then ms[0].id else m
  }

  lemma {:induction false} MaxMininodeIdBound(ms: seq<Mininode>)
    requires |ms| > 0
    ensures forall m :: m in ms ==> m.id <= MaxMininodeId(ms)
    ensures exists m :: m in ms && m.id == MaxMininodeId(ms)
  {
    if |ms| > 1 {
      MaxMininodeIdBound(ms[1..]);
      assert forall m :: m in ms ==> m == ms[0] || m in ms[1..];
      var w :| w in ms[1..] && w.id == MaxMininodeId(ms[1..]);
      assert w in ms;
    } else {
      assert forall m :: m in ms ==> m == ms[0];
      assert ms[0] in ms;
    }
  }

  /** getNewMininodeId: 1001 for an empty list, otherwise one more than the
      largest id. */
  function NewMininodeId(ms: seq<Mininode>): (r: int)
    ensures |ms| == 0 ==> r == 1001
    ensures forall m :: m in ms ==> m.id < r
    ensures |ms| > 0 ==> exists m :: m in ms && m.id == r - 1
  {
    if |ms| == 0 then 1001
    else
      MaxMininodeIdBound(ms);
      MaxMininodeId(ms) + 1
  }

  predicate IsHexDigit(c: char) {
    ('0' <= c <= '9') || ('a' <= c <= 'f') || ('A' <= c <= 'F')
  }

  function HexValue(c: char): (v: int)
    requires IsHexDigit(c)
    ensures 0 <= v < 16
  {
    if '0' <= c <= '9' then c as int - '0' as int
    else if 'a' <= c <= 'f' then c as int - 'a' as int + 10
    else c as int - 'A' as int + 10
  }

  /** The byte written by two hex digits. */
  function Byte(hi: char, lo: char): (v: int)
    requires IsHexDigit(hi) && IsHexDigit(lo)
    ensures 0 <= v < 256
  {
    HexValue(hi) * 16 + HexValue(lo)
  }

  predicate AllHex(s: string) {
    forall i :: 0 <= i < |s| ==> IsHexDigit(s[i])
  }

  /** The pattern `^#([A-Fa-f0-9]{3}){1,2}$`. */
  predicate ValidHex(s: string) {
    (|s| == 4 || |s| == 7) && s[0] == '#' && AllHex(s[1..])
  }

  /** The value of a run of hex digits, most significant first. */
  function HexNumber(s: string): (n: nat)
    requires AllHex(s)
  {
    if |s| == 0 then 0
    else HexNumber(s[..|s| - 1]) * 16 + HexValue(s[|s| - 1])
  }

  datatype Rgb = Rgb(r: int, g: int, b: int)

  /** Six hex digits: the three-digit form with every digit doubled. */
  function SixDigits(s: string): (d: string)
    requires ValidHex(s)
    ensures |d| == 6 && AllHex(d)
  {
    if |s| == 4 then [s[1], s[1], s[2], s[2], s[3], s[3]] else s[1..]
  }

  /** The value of six hex digits splits into the three bytes. */
  lemma SixDigitNumber(d: string)
    requires |d| == 6 && AllHex(d)
    ensures HexNumber(d) == Byte(d[0], d[1]) * 65536 + Byte(d[2], d[3]) * 256 + Byte(d[4], d[5])
  {
    assert HexNumber(d[..1]) == HexValue(d[0]) by {
      assert d[..1][..0] == [];
    }
    assert HexNumber(d[..2]) == HexNumber(d[..1]) * 16 + HexValue(d[1]) by {
      assert d[..2][..1] == d[..1];
    }
    assert HexNumber(d[..3]) == HexNumber(d[..2]) * 16 + HexValue(d[2]) by {
      assert d[..3][..2] == d[..2];
    }
    assert HexNumber(d[..4]) == HexNumber(d[..3]) * 16 + HexValue(d[3]) by {
      assert d[..4][..3] == d[..3];
    }
    assert HexNumber(d[..5]) == HexNumber(d[..4]) * 16 + HexValue(d[4]) by {
      assert d[..5][..4] == d[..4];
    }
    assert HexNumber(d) == HexNumber(d[..5]) * 16 + HexValue(d[5]);
  }

  /** Reading the three bytes back out of their 24-bit combination. */
  lemma SplitBytes(n: int, a: int, b: int, c: int)
    requires 0 <= a < 256 && 0 <= b < 256 && 0 <= c < 256
    requires n == a * 65536 + b * 256 + c
    ensures n / 65536 % 256 == a && n / 256 % 256 == b && n % 256 == c
  {
    assert n / 65536 == a;
    assert n / 256 == a * 256 + b;
    assert (a * 256 + b) % 256 == b;
  }

  /** hexToRgba's colour channels: black for text that is not `#` followed
      by three or six hex digits; otherwise the three bytes, each digit of
      the short form counted twice. The alpha argument is passed through to
      the text unchanged and is not part of this model. */
  function HexToRgb(hex: string): (c: Rgb)
    ensures !ValidHex(hex) ==> c == Rgb(0, 0, 0)
    ensures ValidHex(hex) && |hex| == 7 ==>
              c == Rgb(Byte(hex[1], hex[2]), Byte(hex[3], hex[4]), Byte(hex[5], hex[6]))
    ensures ValidHex(hex) && |hex| == 4 ==>
              c == Rgb(Byte(hex[1], hex[1]), Byte(hex[2], hex[2]), Byte(hex[3], hex[3]))
    ensures 0 <= c.r < 256 && 0 <= c.g < 256 && 0 <= c.b < 256
  {
    if !ValidHex(hex) then Rgb(0, 0, 0)
    else
      var d := SixDigits(hex);
      var n := HexNumber(d);
      SixDigitNumber(d);
      SplitBytes(n, Byte(d[0], d[1]), Byte(d[2], d[3]), Byte(d[4], d[5]));
      Rgb(n / 65536 % 256, n / 256 % 256, n % 256)
  }

  /** parseInt(s, 16): optional leading whitespace and sign, an optional
      `0x` prefix, then the longest run of hex digits; None (NaN) when that
      run is empty. */
  function ParseHexInt(s: string): (r: Option<int>)
    ensures |s| == 0 ==> r.None?
    ensures |s| > 0 && !IsSpace(s[0]) && !IsHexDigit(s[0]) && s[0] != '-' && s[0] != '+' ==> r.None?
    ensures |s| > 0 && IsHexDigit(s[0]) && !HexPrefixed(s) ==> r == Some(HexNumber(s[..HexRun(s)]))
  {
    ParseHexSignedText(s[LeadingSpace(s)..])
  }

  /** parseInt(s, 16) past the leading whitespace: a minus negates the
      magnitude after it, a plus is skipped. */
  function ParseHexSignedText(t: string): (r: Option<int>)
    ensures |t| > 0 && t[0] == '-' ==> r == Negated(ParseHexMagnitude(t[1..]))
    ensures |t| > 0 && t[0] == '+' ==> r == ParseHexMagnitude(t[1..])
    ensures !(|t| > 0 && (t[0] == '-' || t[0] == '+')) ==> r == ParseHexMagnitude(t)
  {
    if |t| > 0 && t[0] == '-' then Negated(ParseHexMagnitude(t[1..]))
    else if |t| > 0 && t[0] == '+' then ParseHexMagnitude(t[1..])
    else ParseHexMagnitude(t)
  }

  /** The negated number, NaN staying NaN. */
  function Negated(o: Option<int>): (r: Option<int>)
    ensures r.None? <==> o.None?
    ensures r.Some? ==> r.value + o.value == 0
  {
    match o
    case None => None
    case Some(n) => Some(-n)
  }

  /** The unsigned part: an optional `0x` prefix, then the longest run of
      hex digits, None when that run is empty. */
  function ParseHexMagnitude(u: string): (r: Option<int>)
    ensures var v := if HexPrefixed(u) then u[2..] else u;
            (r.None? <==> HexRun(v) == 0) && (r.Some? ==> r.value == HexNumber(v[..HexRun(v)]))
  {
    var v := if HexPrefixed(u) then u[2..] else u;
    var k := HexRun(v);
    if k == 0 then None else Some(HexNumber(v[..k]))
  }

  /** Text starting with the `0x` or `0X` prefix parseInt skips. */
  predicate HexPrefixed(s: string) {
    |s| >= 2 && s[0] == '0' && (s[1] == 'x' || s[1] == 'X')
  }

  /** A sign in front of a run of hex digits, with or without the `0x`
      prefix between them: the run's value, negated after a minus. */
  lemma {:induction false} ParseHexSigned(sign: char, prefix: string, x: string)
    requires sign == '-' || sign == '+'
    requires prefix == [] || (|prefix| == 2 && HexPrefixed(prefix + x))
    requires |x| > 0 && IsHexDigit(x[0]) && !HexPrefixed(x)
    ensures ParseHexInt([sign] + prefix + x) ==
              var n: int := HexNumber(x[..HexRun(x)]); Some(if sign == '-' then -n else n)
  {
    var u := prefix + x;
    var h: int := HexNumber(x[..HexRun(x)]);
    calc {
      ParseHexInt([sign] + prefix + x);
      { assert [sign] + prefix + x == [sign] + u; }
      ParseHexInt([sign] + u);
      { SignedOf(sign, u); }
      if sign == '-' then Negated(ParseHexMagnitude(u)) else ParseHexMagnitude(u);
      { MagnitudeOfRun(prefix, x); }
      if sign == '-' then Negated(Some(h)) else Some(h);
      Some(if sign == '-' then -h else h);
    }
  }

  /** A sign directly at the start: the magnitude after it, negated after
      a minus. */
  lemma {:induction false} SignedOf(sign: char, u: string)
    requires sign == '-' || sign == '+'
    ensures ParseHexInt([sign] + u) ==
              if sign == '-' then Negated(ParseHexMagnitude(u)) else ParseHexMagnitude(u)
  {
    var s := [sign] + u;
    assert s[0] == sign && !IsSpace(sign);
    assert LeadingSpace(s) == 0;
    assert s[0..] == s && s[1..] == u;
  }

  /** The magnitude read from a run of hex digits, behind the `0x` prefix
      or not, is the run's value. */
  lemma {:induction false} MagnitudeOfRun(prefix: string, x: string)
    requires prefix == [] || (|prefix| == 2 && HexPrefixed(prefix + x))
    requires |x| > 0 && IsHexDigit(x[0]) && !HexPrefixed(x)
    ensures ParseHexMagnitude(prefix + x) == Some(HexNumber(x[..HexRun(x)]))
  {
    if prefix == [] {
      assert prefix + x == x;
    } else {
      assert (prefix + x)[2..] == x;
    }
  }

  /** The `0x` prefix in front of a run of hex digits: the run's value. */
  lemma ParseHexPrefixed(prefix: string, x: string)
    requires |prefix| == 2 && HexPrefixed(prefix + x)
    requires |x| > 0 && IsHexDigit(x[0]) && !HexPrefixed(x)
    ensures ParseHexInt(prefix + x) == Some(HexNumber(x[..HexRun(x)]))
  {
    var s := prefix + x;
    assert s[0] == '0' && !IsSpace(s[0]);
    assert s[LeadingSpace(s)..] == s;
    assert s[2..] == x;
  }

  /** Length of the leading run of hex digits. */
  function HexRun(s: string): (k: nat)
    ensures k <= |s| && AllHex(s[..k])
    ensures k < |s| ==> !IsHexDigit(s[k])
  {
    if |s| == 0 || !IsHexDigit(s[0]) then 0
    else
      var k := HexRun(s[1..]);
      assert s[..k + 1] == [s[0]] + s[1..][..k];
      k + 1
  }

  /** String.prototype.substring(a, b) for 0 <= a: indices are clamped to
      the length, and swapped when a > b. */
  function Substring(s: string, a: int, b: int): (r: string)
    requires a >= 0 && b >= 0
    ensures |r| <= |s|
    ensures a <= b <= |s| ==> r == s[a..b]
    ensures b <= a <= |s| ==> r == s[b..a]
    ensures a <= |s| <= b ==> r == s[a..]
    ensures b <= |s| <= a ==> r == s[b..]
    ensures |s| <= a && |s| <= b ==> r == []
  {
    var x := if a < |s| then a else |s|;
    var y := if b < |s| then b else |s|;
    if x <= y then s[x..y] else s[y..x]
  }

  /** substring does not care which end comes first. */
  lemma SubstringSwap(s: string, a: int, b: int)
    requires a >= 0 && b >= 0
    ensures Substring(s, a, b) == Substring(s, b, a)
  {
  }

  /** The perceived-luminance test `0.299 r + 0.587 g + 0.114 b < 140`,
      evaluated exactly in thousandths. */
  predicate Dark(r: int, g: int, b: int) {
    299 * r + 587 * g + 114 * b < 140000
  }

  /** The channel digits isColorDark reads: the text without a leading
      `#`, expanded by doubling when three characters remain. */
  function ChannelDigits(hex: string): string {
    var h := if |hex| > 0 && hex[0] == '#' then hex[1..] else hex;
    if |h| == 3 then [h[0], h[0], h[1], h[1], h[2], h[2]] else h
  }

  /** isColorDark: false for empty text or text shorter than four
      characters; otherwise the three channels are parsed from consecutive
      character pairs of the channel digits, and the colour is dark when
      every channel parses and the luminance is below 140 (a channel that
      does not parse is NaN, and every comparison with NaN is false). */
  function IsColorDark(hex: string): (dark: bool)
    ensures |hex| < 4 ==> !dark
    ensures ValidHex(hex) ==>
              var c := HexToRgb(hex);
              (dark <==> Dark(c.r, c.g, c.b))
  {
    if |hex| < 4 then false
    else
      var d := ChannelDigits(hex);
      var r := ParseHexInt(Substring(d, 0, 2));
      var g := ParseHexInt(Substring(d, 2, 4));
      var b := ParseHexInt(Substring(d, 4, 6));
      ValidChannels(hex);
      r.Some? && g.Some? && b.Some? && Dark(r.value, g.value, b.value)
  }

  /** For a well-formed colour both parsers see the same six digits, and
      each pair parses to its byte. */
  lemma ValidChannels(hex: string)
    ensures ValidHex(hex) ==> ChannelDigits(hex) == SixDigits(hex)
    ensures ValidHex(hex) ==>
              var d := ChannelDigits(hex);
              && ParseHexInt(Substring(d, 0, 2)) == Some(Byte(d[0], d[1]))
              && ParseHexInt(Substring(d, 2, 4)) == Some(Byte(d[2], d[3]))
              && ParseHexInt(Substring(d, 4, 6)) == Some(Byte(d[4], d[5]))
  {
    if !ValidHex(hex) { return; }
    var d := ChannelDigits(hex);
    assert d == SixDigits(hex);
    assert Substring(d, 0, 2) == [d[0], d[1]];
    assert Substring(d, 2, 4) == [d[2], d[3]];
    assert Substring(d, 4, 6) == [d[4], d[5]];
    PairParses(d[0], d[1]);
    PairParses(d[2], d[3]);
    PairParses(d[4], d[5]);
  }

  lemma PairParses(a: char, b: char)
    requires IsHexDigit(a) && IsHexDigit(b)
    ensures ParseHexInt([a, b]) == Some(Byte(a, b))
  {
    var s := [a, b];
    assert LeadingSpace(s) == 0;
    assert s[0..] == s;
    assert HexRun(s) == 2 by {
      assert s[1..] == [b];
      assert [b][1..] == [];
    }
    assert s[..2] == s;
    assert HexNumber(s) == HexNumber([a]) * 16 + HexValue(b) by {
      assert s[..1] == [a];
    }
    assert HexNumber([a]) == HexValue(a) by {
      assert [a][..0] == [];
    }
  }
}
